=== FILE: README.md ===
# gh-issue-sync reconciliation core in Dafny

gh-issue-sync keeps a directory of Markdown issue files (YAML front matter
plus body, one file per issue, in an `open/` and a `closed/` container) in
step with the issues of a GitHub repository. Next to every pulled issue it
keeps a snapshot, the "original", of the issue as last synced. `pull`
writes remote issues into the files unless the local copy changed since the
snapshot. `push` creates issues that still carry a temporary id (`T…`),
rewrites references to them, sends the edits of changed issues in one
GraphQL mutation and records new snapshots. It skips issues whose remote copy
moved away from the snapshot. The commands around them (`status`, `list`,
`new`, `close`, `reopen`) and the text they print are driven by the same
comparison of issues.

This project models that core as pure Dafny functions over immutable
datatypes and proves what the code promises about it. The modules follow the
repository's packages:

| module | models |
|---|---|
| `Results`, `Text`, `Order`, `Quoting` | Go's `strings` and `strconv` helpers as the code uses them: trimming, lower-casing, `Itoa`/`Atoi`, `%q` quoting, sorted duplicate-free lists |
| `Issues` | `internal/issue`: normalisation, the two equalities, changed-field sets, three-way merge, slugs, file names, the front-matter split |
| `EditPlan` | `diffIssue`, `diffStringSet`, `hasEdits`: the edit a push sends |
| `Promotion` | `applyMapping`: rewriting `#T…` references to permanent numbers |
| `Relationships`, `Fetching`, `Client`, `Batch`, `GraphQLString` | `internal/ghcli`: the `gh` command lines, the batched GraphQL fetch and mutation, GraphQL string literals |
| `Search` | `internal/search`: query tokenising and parsing, matching, the stable sort |
| `Commands` | `status`, `list`, `new`, `close`, `reopen` and the argument filter |
| `Pull`, `Push` | the two synchronisation commands, as decisions over a store of files and snapshots |
| `WordDiff`, `Format`, `TermColor`, `Progress` | the printed diffs, change lines, relative times, ANSI handling, colours and the progress bar |

Everything outside the process is a parameter. That covers the `gh` runner's
answers, the clock, the order in which Go walks a map, the file system's path
operations, and the result of reading an edited file.

## Model

| member | source | states |
|---|---|---|
| Text.ToLower | internal/search/search.go:326-333 | lower-casing keeps the length and maps each character on its own (ASCII letters only) |
| Text.IndexOf | internal/issue/issue.go:110-119 | the index found is the first occurrence of the character, and there is none exactly when the character is absent |
| Text.TrimSpace | internal/issue/issue.go:318-337 | the trimmed text is a slice of the input, empty exactly when the input is all whitespace, and otherwise starts and ends with a non-space |
| Text.TrimSpaceFixed | internal/issue/issue.go:318-337 | a text without surrounding whitespace is its own trim |
| Text.TrimChar | internal/issue/issue.go:412-422 | the result is a slice of the input that neither starts nor ends with the trimmed character |
| Text.NatToString | internal/ghcli/client.go:523-545 | `strconv.Itoa` writes digits whose value is the number |
| Text.Atoi | internal/ghcli/client.go:406-410 | `strconv.Atoi` accepts exactly an optional sign and a run of decimal digits |
| Text.AtoiNatToString | internal/ghcli/client.go:523-545 | a number written by `Itoa` reads back as that number |
| Order.InsertUnique | internal/issue/issue.go:318-337 | inserting into an ascending duplicate-free list keeps it so and adds exactly the new element |
| Order.SortUnique | internal/issue/issue.go:318-337 | sorting and de-duplicating gives an ascending duplicate-free list of exactly the input's elements |
| Order.AscendingUnique | internal/issue/issue.go:318-337 | two ascending duplicate-free lists with the same elements are equal, so the sorted form is unique |
| Order.SortUniqueFixed | internal/issue/issue.go:318-337 | a list that is already ascending and duplicate-free is its own sorted form |
| Quoting.QuoteChar | internal/app/format.go:120-126 | `%q` escapes a character exactly when it is not printable |
| Quoting.GoQuote | internal/app/format.go:120-126 | `%q` output is wrapped in double quotes |
| Quoting.UnquoteQuoteBody | internal/app/format.go:139-148 | reading a quoted body back gives the text |
| Quoting.GoUnquoteQuote | internal/app/format.go:139-148 | `strconv.Quote` is inverted by unquoting, for every text |
| Issues.NormalizeBodyAsWritten | internal/issue/issue.go:306-316 | as written, a non-empty normalised body ends in a line feed |
| Issues.NormalizeBodyAsWrittenNotIdempotent | internal/issue/issue.go:306-316 | the written normalisation is not idempotent: "x\r" becomes "x\r\n" and then "x\n" |
| Issues.StripCR | internal/issue/issue.go:306-316 | replacing CRLF until none is left leaves no CRLF |
| Issues.NormalizeBody | internal/issue/issue.go:306-316 | corrected, a normalised body holds no CRLF and, when non-empty, does not start with a line feed and ends in one |
| Issues.NormalizeBodyIdempotent | internal/issue/issue.go:306-316 | normalising a normalised body changes nothing |
| Issues.NormalizeBodyAgreesWithoutCR | internal/issue/issue.go:306-316 | on bodies without carriage returns the correction and the written code agree |
| Issues.CleanedMembers | internal/issue/issue.go:318-337 | a name survives cleaning exactly when it is the non-blank trim of some entry |
| Issues.SortedStrings | internal/issue/issue.go:318-360 | `sortedStrings`/`sortedRefs` give the ascending duplicate-free list of the trimmed non-blank entries |
| Issues.SortedStringsIdempotent | internal/issue/issue.go:318-360 | sorting a sorted list again changes nothing |
| Issues.NormalizeShape | internal/issue/issue.go:223-231 | every list field becomes its sorted duplicate-free trimmed set and the body goes through `normalizeBody` as written; nothing else changes |
| Issues.NormalizeBodyAsWrittenWithoutCR | internal/issue/issue.go:306-316 | on a body without carriage returns the written normalisation adds none and is idempotent |
| Issues.NormalizeIdempotent | internal/issue/issue.go:223-231 | for a body without carriage returns, normalising a record twice is normalising it once |
| Issues.EqualIgnoringSyncedAtEquivalence | internal/issue/issue.go:233-290 | strict equality is reflexive, symmetric and transitive |
| Issues.EqualityIgnoresBookkeeping | internal/issue/issue.go:244-290 | sync time, author, timestamps and the path do not affect equality |
| Issues.EqualityNilIsEmpty | internal/issue/issue.go:292-304 | a missing state reason or parent equals an empty one |
| Issues.StrictImpliesConflictEquality | internal/issue/issue.go:233-242 | strict equality implies conflict equality, and is conflict equality plus an equal state reason |
| Issues.FieldNameRoundTrip | internal/issue/issue.go:449-485 | each field's printed name reads back as that field, so the names are distinct |
| Issues.Fields | internal/issue/issue.go:449-485 | `Fields` lists the name of every field in the set, each once, and nothing else |
| Issues.DiffSet | internal/issue/issue.go:244-290 | the differing fields are exactly the fields on which two records disagree |
| Issues.ComputeChanges | internal/issue/issue.go:512-529 | the changed fields are exactly those on which the normalised records disagree |
| Issues.ComputeChangesLaws | internal/issue/issue.go:512-529 | no record changes against itself, and change sets are symmetric |
| Issues.EqualIffNoChanges | internal/issue/issue.go:233-290 | strict equality holds exactly when the numbers and state reasons agree and no field changed |
| Issues.MergeChanges | internal/issue/issue.go:548-603 | a merge succeeds exactly when the two change sets are disjoint, and otherwise reports their intersection |
| Issues.ThreeWayMerge | internal/issue/issue.go:548-603 | `ThreeWayMerge` computes both change sets against the base, succeeds exactly when they are disjoint and reports exactly the shared fields as conflicting |
| Issues.PickAgrees | internal/issue/issue.go:563-600 | a picked record agrees with the side each field was taken from |
| Issues.MergeKeepsBothSides | internal/issue/issue.go:548-603 | when the remote body holds no carriage return, a successful merge differs from the local copy only in fields the remote changed, and from the remote only in fields the local side changed |
| Issues.MergeRewritesRemoteBody | internal/issue/issue.go:562-564 | as written, a merge nobody edited still changes a remote body "x\r", because the merge starts from the normalised remote |
| Issues.KeepsEdits | internal/issue/issue.go:563-600 | taking the local value exactly on the local changes keeps both sides' edits |
| Issues.CollapseRuns | internal/issue/issue.go:410-422 | replacing every run outside [a-z0-9] by one '-' leaves only slug characters and no double dash |
| Issues.Slugify | internal/issue/issue.go:412-422 | a slug holds only [a-z0-9-] and neither starts nor ends with '-' |
| Issues.SlugOrDefault | internal/issue/issue.go:211-217 | the slug in a file name is never empty and never holds '/' |
| Issues.NumberFromFilename | internal/issue/issue.go:110-119 | the number read from a file name holds no '-' |
| Issues.FileNameRoundTrip | internal/issue/issue.go:211-221 | the number is recovered from `FileName` and from `PathFor`, whatever the title |
| Issues.JoinSplitLines | internal/issue/issue.go:386-408 | splitting at line feeds and joining with line feeds gives the text back |
| Issues.FindDelimiter | internal/issue/issue.go:393-401 | the delimiter found is the first "---" line at or after the start, and there is none exactly when no such line exists |
| Issues.SplitFrontMatterErrors | internal/issue/issue.go:386-408 | splitting fails exactly when the data does not open with "---" or has no closing delimiter |
| Issues.SplitOfLines | internal/issue/issue.go:386-408 | a delimiter, front matter without a delimiter, a delimiter and a rest split into that front matter and that rest |
| Issues.SplitRenderedLayout | internal/issue/issue.go:166-201 | the layout `Render` writes splits back into its front matter and exactly its body, with or without a leading byte-order mark |
| EditPlan.Without | internal/app/app.go:1960-1991 | dropping a set keeps exactly the other elements |
| EditPlan.DiffStringSet | internal/app/app.go:1960-1991 | the additions are the sorted new-minus-old names, the removals the sorted old-minus-new names |
| EditPlan.DiffStringSetApplies | internal/app/app.go:1960-1991 | nothing is both added and removed, and applying the difference to the old set gives the new set |
| EditPlan.Transition | internal/app/app.go:1802-1834 | a state transition is requested exactly when the original has a state and it differs; closing when the new state is "closed" |
| EditPlan.DiffIssue | internal/app/app.go:1802-1834 | each edit field is present exactly when that field differs, and then carries the local value or the set difference |
| EditPlan.HasEditsIff | internal/app/app.go:1836-1838 | an edit call is needed exactly when title, body or milestone differ or the label or assignee sets differ |
| EditPlan.DiffIssueSelf | internal/app/app.go:1802-1834 | an issue compared with itself needs no change at all |
| Promotion.AlnumRun | internal/app/app.go:1987 | the run measured is the maximal run of ASCII letters and digits |
| Promotion.RewriteKeeps | internal/app/app.go:2006-2035 | rewriting keeps the first character, and a text that mentions no key is left as it is |
| Promotion.MapRefs | internal/app/app.go:2050-2064 | every reference that is a key becomes its permanent id, and every other stays, in order |
| Promotion.ApplyMapping | internal/app/app.go:2006-2048 | title, body, parent and relationship lists are rewritten through the mapping, and the change flag is set exactly when some reference was a key |
| Promotion.RewriteSettles | internal/app/app.go:2006-2035 | with numeric permanent ids, a rewritten text mentions no key, so a second rewrite changes nothing |
| Promotion.ApplyMappingSettles | internal/app/app.go:2006-2048 | promoting twice is promoting once, and the second pass reports no change |
| Promotion.NoKeysNoHits | internal/app/app.go:2006-2035 | an empty mapping rewrites nothing |
| Promotion.PrefixIsNotAReference | internal/app/app.go:1987 | the mapping T1 -> 123 rewrites "#T1" but not "#T10": references match whole |
| Promotion.KeptRef | internal/app/app.go:2010-2017 | a reference that is not a key is passed over whole |
| Relationships.Permanent | internal/ghcli/graphql.go:468-559 | the references kept are exactly those that are not temporary ids |
| Relationships.SyncPlan | internal/ghcli/graphql.go:468-559 | the parent is set exactly when it differs; blockers present locally and not remotely are added and the reverse removed, never both |
| Relationships.SyncConverges | internal/ghcli/graphql.go:468-559 | carrying out the plan makes the remote hold what was asked for, and a second sync has nothing to do |
| Relationships.SyncPlanEmptyIff | internal/ghcli/graphql.go:468-559 | the plan is empty exactly when both sides agree |
| Relationships.SyncSendsNoTemporaryIds | internal/ghcli/graphql.go:468-559 | a temporary id is never added as a blocker or a blocked issue |
| Relationships.FetchRelationships | internal/ghcli/graphql.go:86-221 | a missing token scope gives an empty result instead of an error |
| Fetching.SplitRepo | internal/ghcli/graphql.go:561-569 | the repository splits at its first '/', or into two empty parts when it has none |
| Fetching.SplitRepoJoin | internal/ghcli/graphql.go:561-569 | an owner without '/' joined to a name splits back into both |
| Fetching.Queries | internal/ghcli/client.go:405-424 | the batch asks for exactly the requested numbers that `Atoi` accepts, in request order, each aliased by its position |
| Fetching.Collect | internal/ghcli/client.go:506-546 | every decoded entry is filed under the decimal form of its number, a later one replacing an earlier |
| Fetching.BatchFetch | internal/ghcli/client.go:394-549 | no call is made without numbers, without a numeric one or with a malformed repository, the last being an error; otherwise the answer is read or its error reported |
| Client.ParseRender | internal/ghcli/client.go:551-615 | rendered options read back as the same options, whatever their values |
| Client.WithRepo | internal/ghcli/client.go:23-33 | `withRepo` as written leaves the arguments alone without a repository or when any argument reads "--repo" |
| Client.WithRepoOption | internal/ghcli/client.go:23-33 | the intended version adds the repository flag unless the command already carries it as a flag |
| Client.WithRepoAgrees | internal/ghcli/client.go:23-33 | without an argument reading "--repo" both versions give the same command line |
| Client.WithRepoDropsRepository | internal/ghcli/client.go:23-33 | a title reading "--repo" makes the written version drop the repository flag while the intended one keeps it |
| Client.EditRemovesMilestone | internal/ghcli/client.go:569-598 | the milestone-removing switch appears exactly when the change sets the milestone to "" |
| Client.EditRoundTrip | internal/ghcli/client.go:569-598 | reading the edit command line back gives exactly the change's title, body, milestone and label and assignee edits, in order |
| Client.CloseCommand | internal/ghcli/client.go:600-607 | the close command carries a reason exactly when one is given |
| Client.ReopenCommand | internal/ghcli/client.go:609-613 | the reopen command line is `issue reopen <number>` |
| Client.CreateRoundTrip | internal/ghcli/client.go:551-567 | reading the create command line back gives the issue's title, body, labels, assignees and milestone |
| Client.ToIssue | internal/ghcli/client.go:65-88 | the record carries the remote's fields, its number in decimal, its state lower-cased and its milestone or "" |
| Client.FromGraph | internal/ghcli/client.go:510-545 | a fetched issue is the plain record plus its parent and relationship numbers in decimal, in the remote's order |
| Client.FetchIssues | internal/ghcli/client.go:394-549 | the fetch succeeds exactly when the answer arrives without errors, and every record is filed under its own number |
| Client.ParseIssueNumber | internal/ghcli/client.go:615-624 | a number is found exactly when "/issues/" (any case) or '#' is followed by a digit; otherwise the error quotes the trimmed output |
| Client.ParseIssueNumberExample | internal/ghcli/client.go:615-624 | the leftmost reference wins and its digit run is taken whole |
| GraphQLString.EscapeIsPerChar | internal/ghcli/batch.go:337-344 | because backslashes are replaced first, the five passes escape each character once |
| GraphQLString.EscapeHasNoControls | internal/ghcli/batch.go:337-344 | the escaped text holds no raw newline, carriage return or tab |
| GraphQLString.LiteralRoundTrip | internal/ghcli/batch.go:337-344 | an escaped text between quotes reads back as that text under the StringValue grammar of the GraphQL specification |
| GraphQLString.GoQuoteReadsBack | internal/ghcli/batch.go:85-87 | a `%q`-quoted title or id reads back in GraphQL as itself when it has no other control characters |
| Batch.KnownIds | internal/ghcli/batch.go:105-130 | the ids found cover every name exactly when every name has a node id, and are then the quoted ids in order |
| Batch.Missing | internal/ghcli/batch.go:105-130 | a missing name is reported exactly when some name has no node id |
| Batch.MilestonePart | internal/ghcli/batch.go:93-102 | an unknown milestone is an error naming it; removal sends null; no milestone sends nothing |
| Batch.BuildAsWritten | internal/ghcli/batch.go:76-133 | as written, only an unknown issue or milestone stops the mutation; unknown labels or assignees do not |
| Batch.Build | internal/ghcli/batch.go:76-133 | corrected, a mutation is built exactly when there is no error, and an unknown issue reads "issue not found" |
| Batch.BuildSendsCompleteSets | internal/ghcli/batch.go:104-130 | a mutation is sent only when every named label, assignee and milestone has a node id |
| Batch.BuildAgrees | internal/ghcli/batch.go:76-133 | when all names are known and no body changes, the written and corrected builds agree |
| Batch.UnknownLabelClearsLabels | internal/ghcli/batch.go:104-116 | as written, an unknown label "nope" sends `labelIds: []`, removing every label; the correction sends nothing |
| Batch.BodyAsWrittenArrivesEscaped | internal/ghcli/batch.go:88-90 | with `%q` around the escaped body the server stores the escaped text, which differs from the body when it holds a newline |
| Batch.BodyNewlineExample | internal/ghcli/batch.go:88-90 | the body "a\nb" is stored as something else |
| Batch.BodyPartDelivers | internal/ghcli/batch.go:88-90 | the corrected body literal delivers any body unchanged |
| Batch.UpdateIndexOfAlias | internal/ghcli/batch.go:161-171 | an error whose path names an update's alias is attributed to that update |
| Batch.Attribute | internal/ghcli/batch.go:161-171 | every response error pointing at an update is recorded under that update's number, and build errors stay |
| Batch.SelectedNumbers | internal/ghcli/batch.go:173-181 | the numbers at the flagged positions are exactly the flagged updates' numbers |
| Batch.Finish | internal/ghcli/batch.go:156-181 | build errors stay recorded; updated issues carry no error; an update is updated exactly when its alias is in the response data and its number has no error, and the updated list follows input order |
| Batch.SendWith | internal/ghcli/batch.go:132-184 | for a given loop body, the mutation is sent exactly when some update builds one; every build error is recorded; a failed call or unreadable answer is an error with the code's wording; a response is read as `Finish` reads it |
| Batch.SendBatch | internal/ghcli/batch.go:74-184 | as written, the mutation is sent as soon as one update names a known issue and a usable milestone, even with unknown labels or assignees, which are still reported as errors, and a response is read as `Finish` reads it |
| Batch.SendBatchCorrected | internal/ghcli/batch.go:74-184 | corrected, an update goes out only when all its names are known, and every update with an unknown name is reported |
| Batch.UnknownLabelStillSent | internal/ghcli/batch.go:104-133 | an update whose only fault is an unknown label is sent as written and held back once corrected; both report it |
| Batch.BatchEditIssues | internal/ghcli/batch.go:34-184 | no updates give an empty result; a malformed repository or failed lookup is an error; otherwise the mutations are built and sent as the code writes them |
| Search.Tokenize | internal/search/search.go:142-197 | no token is empty, the tokens hold every character except unquoted spaces and tabs, and without quotes no token holds a separator |
| Search.TrimQuotes | internal/search/search.go:57 | the value loses its surrounding quote characters and is a slice of the input |
| Search.ClassifyQualifier | internal/search/search.go:52-59 | a known qualifier is recognised whatever its case, with its value unquoted |
| Search.ClassifyPlain | internal/search/search.go:107-110 | a token without ':' is text |
| Search.ParseSortValue | internal/search/search.go:118-140 | only the sort field and direction change |
| Search.SortValueRoundTrip | internal/search/search.go:118-140 | a field name with "-asc" or "-desc" sets both field and direction, in any case |
| Search.SortValueField | internal/search/search.go:118-140 | a bare field name sets the field and keeps the direction |
| Search.ApplyLists | internal/search/search.go:74-87 | only a qualifier of a list's own name appends to that list |
| Search.ParsedValues | internal/search/search.go:50-111 | each list qualifier collects the values of its tokens, in order |
| Search.ParsedFlags | internal/search/search.go:88-100 | a `no:` flag is set exactly when some token asks for it |
| Search.ParsedState | internal/search/search.go:60-73 | the parsed state is "", "open" or "closed" |
| Search.PlainQuery | internal/search/search.go:41-115 | a query without qualifiers is all text and leaves every filter at its default |
| Search.ContainsFold | internal/search/search.go:326-333 | a value is found exactly when some item equals it ignoring case |
| Search.Match | internal/search/search.go:199-282 | an issue matches exactly when every given condition holds |
| Search.DefaultMatchesAll | internal/search/search.go:199-282 | the empty query matches every issue |
| Search.QualifierNarrows | internal/search/search.go:199-282 | one more qualifier other than state or sort can only narrow the matches |
| Search.SortIssues | internal/search/search.go:284-324 | the sort is a permutation and leaves the issues sorted |
| Search.SortedOrder | internal/search/search.go:284-324 | after sorting, issues without a timestamp come last and timestamps follow the chosen direction |
| Search.SortStable | internal/search/search.go:284-324 | issues with equal timestamps keep their relative order |
| Commands.DirForState | internal/app/app.go:1751-1756 | an issue goes to the closed container exactly when its state is "closed" |
| Commands.Filter | internal/app/commands.go:180-305 | the kept items are exactly those of the input that pass, in order |
| Commands.StatusKind | internal/app/commands.go:56-70 | a temporary id is new; a permanent issue is modified exactly when it has no snapshot or differs from it |
| Commands.StatusOf | internal/app/commands.go:23-79 | every temporary id is listed as new and every permanent issue changed since its snapshot as modified, and each list holds only ids of its kind |
| Commands.UnchangedNotReported | internal/app/commands.go:61-69 | a permanent issue equal to its snapshot is not reported |
| Commands.TruncateTitle | internal/app/commands.go:388-393 | a title longer than 50 bytes shows its first 47 and "..."; a shorter one shows whole |
| Commands.TruncateTitleIdempotent | internal/app/commands.go:388-393 | a shown title shows as it is |
| Commands.Close | internal/app/commands.go:578-611 | an open issue gets state "closed", the trimmed reason and a closed path; a closed one is left alone |
| Commands.Reopen | internal/app/commands.go:613-641 | a closed issue gets state "open", no reason and an open path; an open one is left alone |
| Commands.CloseReopenIdempotent | internal/app/commands.go:578-641 | closing twice is closing once, and so is reopening |
| Commands.CloseThenReopen | internal/app/commands.go:578-641 | an open issue without a reason comes back unchanged from a close and a reopen |
| Commands.IssueFromEditor | internal/app/commands.go:511-548 | the edited record is accepted exactly when it parses and its title is not blank, and it gets the given number |
| Commands.FinalizeEdited | internal/app/commands.go:550-576 | an edited new issue is accepted exactly when it parses with a non-blank title, and keeps the expected number |
| Commands.NewIssue | internal/app/commands.go:445-509 | a blank title without the editor is an error; a new issue gets "T" and the generated id |
| Commands.NewIssueIsLocal | internal/app/commands.go:445-509 | a new issue always has a temporary id |
| Commands.FilterByArgs | internal/app/app.go:1758-1800 | no arguments select everything; otherwise exactly the named files, and an error when none is named |
| Commands.FilterById | internal/app/app.go:1758-1800 | a plain id selects the files with that number |
| Commands.RepoSlug | internal/app/app.go:2173-2180 | the slug is empty exactly when owner or repository is blank |
| Commands.RepoSlugSplits | internal/app/app.go:2173-2180 | the slug splits back into the trimmed owner and repository |
| Commands.ColorMap | internal/app/app.go:1688-1694 | the colour map is keyed by exactly the lower-cased label names |
| Commands.ColorMapLastWins | internal/app/app.go:1688-1694 | each name maps to the colour of its last entry |
| Commands.MilestoneKnown | internal/app/app.go:1733-1739 | looking a milestone up ignores case |
| Commands.DefaultListsOpen | internal/app/commands.go:182-192 | without `--all`, `--state` or a search state, exactly the open container is listed |
| Commands.ModifiedFilter | internal/app/commands.go:199-209 | `--modified` keeps temporary ids and permanent issues without or differing from their snapshot |
| Commands.LabelFlagAgrees | internal/app/commands.go:212-228 | one wanted label via `--label` matches as a `label:` qualifier does |
| Commands.MentionFlagAgrees | internal/app/commands.go:259-264 | `--mention` matches as a `mentions:` qualifier does |
| Commands.DefaultOrder | internal/app/commands.go:339-349 | the default order is a permutation in list order |
| Commands.DefaultOrderGroups | internal/app/commands.go:339-349 | permanent ids come first, and within each group the number strings ascend in string order ("10" before "9") |
| Commands.IndexOfNumber | internal/app/commands.go:330-333 | the map gives the last file with the number, or 0 when none has it |
| Commands.SearchOrder | internal/app/commands.go:308-338 | the files are put back in the order of the sorted search records, by number |
| Commands.SearchOrderSorted | internal/app/commands.go:308-338 | with distinct numbers the files land exactly in the sorted order |
| Commands.Limit | internal/app/commands.go:352-354 | a positive limit keeps at most that many files from the front |
| Commands.Selection | internal/app/commands.go:180-305 | exactly the files that pass every filter are selected |
| Commands.List | internal/app/commands.go:154-354 | only selected files are listed, in list order without a search, and at most `limit` of them |
| Pull.ListRequestOf | internal/app/pull.go:98-139 | incremental pulls list all states since the last full pull; otherwise the state follows `--all` |
| Pull.PermanentNumbers | internal/app/pull.go:106-115 | exactly the permanent ids of the local files are collected |
| Pull.Merge | internal/app/pull.go:172-184 | the listing is kept as a prefix, a failed batch adds nothing, and only batch issues missing from the listing are added |
| Pull.MergeHasNoRepeats | internal/app/pull.go:172-184 | merging adds no second issue with one number |
| Pull.PlainNumbers | internal/app/pull.go:60-73 | every non-blank plain argument that is not a path and not already seen is asked for, and nothing else |
| Pull.ArgNumbers | internal/app/pull.go:45-85 | named files give their permanent ids, temporary ids are never fetched, and other plain arguments are fetched as given |
| Pull.FetchAll | internal/app/pull.go:75-81 | fetching succeeds exactly when every issue fetches, and gives them in order |
| Pull.Received | internal/app/pull.go:202-203 | a received issue has its state lower-cased and the sync time set, and nothing else changed |
| Pull.Decide | internal/app/pull.go:201-243 | a locally changed issue is a conflict unless forced; a new one is added; an unchanged one already in place is left alone |
| Pull.Write | internal/app/pull.go:221-243 | the file and the snapshot both become the record, in the container of its state |
| Pull.PullOne | internal/app/pull.go:201-256 | one received issue is decided against the files read before the loop, and only a write changes the store |
| Pull.PullOneFrame | internal/app/pull.go:233-243 | pulling one issue leaves every other number's file and snapshot as they were |
| Pull.PullSettles | internal/app/pull.go:201-256 | right after a write, pulling the same record again finds it unchanged |
| Pull.ReceivedContainer | internal/app/pull.go:202-225 | a received state lands in the closed container exactly when it reads "closed" ignoring case |
| Pull.PullEach | internal/app/pull.go:201-256 | conflicts and unchanged issues are counted among those received, and conflicts have a local file |
| Pull.PullEachFrame | internal/app/pull.go:201-256 | numbers not received keep their files and snapshots |
| Pull.PullEachConflictsReceived | internal/app/pull.go:201-218 | only received numbers are reported as conflicts |
| Pull.PullEachConflicts | internal/app/pull.go:201-218 | with no number received twice, an issue is reported as a conflict exactly when it has a local file changed since its snapshot (taken before the run) and the pull is not forced |
| Pull.PullEachWrites | internal/app/pull.go:219-243 | with no number received twice, an added or updated issue ends with its received record as file, in the container of its state, and as snapshot; a conflicting or unchanged one keeps the file and snapshot it had |
| Pull.ByNumber | internal/app/pull.go:194-197 | every local file's number is a key, mapped to a file with that number |
| Pull.PullAll | internal/app/pull.go:20-410 | a failed listing fails the pull; an empty incremental listing is "nothing new"; otherwise the loop runs over the listing plus the batch-fetched issues it lacks, and the last-pull time is set |
| Pull.PullRemotes | internal/app/pull.go:170-182 | the listing comes first; the batch adds nothing when it failed or nothing was to be fetched, and otherwise every batch-fetched number is handled |
| Pull.PullAllOutcome | internal/app/pull.go:170-256 | with a listing without repeats and a batch keyed by number, every listed or batch-fetched issue is reported as a conflict exactly when its local file changed and the pull is not forced, and otherwise ends written or untouched as the decision says |
| Pull.PullNamed | internal/app/pull.go:45-256 | a pull with arguments succeeds exactly when every asked-for issue fetches |
| Pull.Orphans | internal/app/pull.go:436-449 | the orphans are exactly the snapshot entries whose number has no local file |
| Pull.OrphanIff | internal/app/pull.go:436-449 | an orphan is a permanent number with a snapshot file and no local file |
| Pull.Restore | internal/app/pull.go:456-483 | a failed fetch changes nothing; a fetched issue gets file and snapshot |
| Pull.RestoreReceived | internal/app/pull.go:456-483 | a restored issue is written as received |
| Pull.RestoreDeleted | internal/app/pull.go:413-486 | every orphan that fetches is written back under the number the fetched record carries, nothing else is restored, and every other number is left alone; when fetched records carry the asked number, the restored numbers are exactly the orphans that fetch |
| Push.NeededLabels | internal/app/push.go:133-143 | every label a selected issue carries is needed |
| Push.NeededMilestones | internal/app/push.go:133-143 | every non-empty milestone a selected issue names is needed, and "" never is |
| Push.CreateMissing | internal/app/push.go:145-185 | a dry run creates nothing; otherwise a needed name is created only when its lower-cased form is unknown, and each success becomes known |
| Push.Promote | internal/app/push.go:213-235 | a created issue takes its number and the sync time, keeps its container and content, and its file name yields the new number |
| Push.Stop | internal/app/push.go:204-216 | the position of the first record with a temporary id whose creation fails, every earlier such record succeeding |
| Push.StopIff | internal/app/push.go:204-216 | a creation fails exactly when some selected record with a temporary id fails to be created |
| Push.CreateLocal | internal/app/push.go:202-236 | a dry run changes nothing; the phase fails exactly at the first failed creation, with that creation's error, keeping what was created before it |
| Push.CreateOne | internal/app/push.go:213-234 | a failed creation keeps the store and carries its error; a successful one adopts the promoted record |
| Push.Adopt | internal/app/push.go:219-233 | the temporary id maps to the new number, the promoted record is file and snapshot under it, the temporary file is gone, and every other id is untouched |
| Push.CreateLocalMapping | internal/app/push.go:202-236 | the mapped temporary ids are exactly those of the records before the first failure, each mapped to the number its creation returned |
| Push.CreateLocalRecorded | internal/app/push.go:202-236 | every mapped number is recorded with a snapshot, and earlier snapshots stay |
| Push.CreateLocalPromotes | internal/app/push.go:202-236 | when the remote returns fresh permanent numbers, every record created before the first failure ends promoted under its new number, file and snapshot alike, with its temporary id mapped to it and its temporary file gone, even when a later creation failed |
| Push.RewriteArgs | internal/app/push.go:256-262 | arguments naming a created temporary id name the new id, and the rest are unchanged |
| Push.RewriteArgsSettles | internal/app/push.go:256-262 | rewriting the arguments twice changes nothing |
| Push.Remapped | internal/app/push.go:238-255 | every record keeps its path, container and number while its references are rewritten |
| Push.Candidates | internal/app/push.go:308-343 | a dry run sends nothing; otherwise exactly the permanent issues without a snapshot or differing from it are candidates |
| Push.Unchanged | internal/app/push.go:319-330 | the up-to-date count covers permanent issues equal to their snapshot that were not just created |
| Push.UpdateFor | internal/app/push.go:402-431 | an update is sent exactly when the diff has edits, carrying changed scalars and the full label or assignee set when that set changed |
| Push.Decide | internal/app/push.go:365-384 | an issue missing remotely is skipped, a remote copy that moved from the snapshot is a conflict, otherwise the diff against the snapshot (or the remote) is sent |
| Push.LabelsSentIff | internal/app/push.go:416-422 | the label set goes out exactly when the label sets differ as sets |
| Push.AssigneesSentIff | internal/app/push.go:423-429 | the assignee set goes out exactly when the assignee sets differ as sets |
| Push.Finalize | internal/app/push.go:493-503 | each pushed record gets the sync time and is written as file and snapshot; other numbers are left alone |
| Push.FinalizeSettles | internal/app/push.go:493-503 | a finalised record equals its new snapshot, so the next push sends nothing for it |
| Push.StateCallOf | internal/app/push.go:386-401 | a close or reopen call is made exactly when the diff requests a transition, for that issue and that transition |
| Push.PlanAll | internal/app/push.go:364-439 | every conflict is listed, exactly the sent candidates are finalised, every batch update belongs to one of them, and no list is longer than the candidates |
| Push.PlanCalls | internal/app/push.go:386-401 | the state calls are exactly the calls the sent candidates ask for |
| Push.FirstFailure | internal/app/push.go:386-401 | the error returned is that of the first state call that fails, and there is none exactly when no call fails |
| Push.PushCandidates | internal/app/push.go:345-505 | a failed fetch fails with "failed to fetch remote issues: …"; otherwise the first failing state call's error, then "batch update failed: …"; a successful push made no failing call and finalised only candidates |
| Push.ConflictLeftAlone | internal/app/push.go:373-376 | a conflicted issue is reported and its file and snapshot are not written |
| Push.Target | internal/app/push.go:553-570 | a comment on a temporary id goes to its created number or is held back; a comment on a conflict is held back |
| Push.PostsAsWritten | internal/app/push.go:519-571 | as written, with arguments a comment is kept only when its own number is among the pushed numbers, before routing |
| Push.Posts | internal/app/push.go:519-571 | corrected, the argument filter applies to the issue the comment goes to; conflicts are never posted to |
| Push.SortComments | internal/app/push.go:542-545 | the comments come out in non-descending order of their number strings |
| Push.SortCommentsPermutes | internal/app/push.go:542-545 | sorting only rearranges the comments |
| Push.PostsFollowOrder | internal/app/push.go:542-580 | comments in number order, none on a temporary id, are posted in number order |
| Push.Gate | internal/app/push.go:519-575 | `--no-comments` does nothing, a dry run only names each target in order, and otherwise the posts are made |
| Push.CommentPhase | internal/app/push.go:519-580 | as written, nothing is posted under `--no-comments` or in a dry run, and every post comes from a pending comment that passed the argument filter by its own number |
| Push.CommentPhaseCorrected | internal/app/push.go:519-580 | corrected, outside those gates every comment whose target is open and pushed is posted, never to a conflict |
| Push.CommentPhaseOrdered | internal/app/push.go:542-545 | with no comment on a temporary id, the phase posts in issue-number order |
| Push.PostsAgreeWithoutArgs | internal/app/push.go:519-571 | without arguments both versions post the same comments |
| Push.CommentOnCreatedIssueDropped | internal/app/push.go:519-560 | `push T5`, creating 42, drops the comment waiting on T5 as written, while the correction posts it to 42 |
| WordDiff.Words | internal/app/diff.go:107-135 | the words are non-empty runs without whitespace |
| WordDiff.WordsConcat | internal/app/diff.go:107-135 | the words run together are the text without its whitespace |
| WordDiff.TokensShape | internal/app/diff.go:71-105 | there is one line-break token per line feed, and without them the tokens are the words |
| WordDiff.WordOps | internal/app/diff.go:329-377 | kept and deleted tokens spell the old list, kept and inserted the new list, and a longest common subsequence is kept |
| WordDiff.LcsSelf | internal/app/diff.go:329-377 | a list shares all of itself with itself |
| WordDiff.MergeRunsAlternates | internal/app/diff.go:308-327 | merged runs never sit side by side with the same kind |
| WordDiff.MergeRunsSpells | internal/app/diff.go:308-327 | merging runs keeps both texts |
| WordDiff.CharDiff | internal/app/diff.go:254-306 | the character diff spells both words and its runs alternate |
| WordDiff.Levenshtein | internal/app/diff.go:219-252 | the two-row loop computes the edit distance; it is 0 for equal texts and at most the longer length |
| WordDiff.LevAtLeastGap | internal/app/diff.go:219-252 | the distance is at least the difference in length |
| WordDiff.LevZero | internal/app/diff.go:219-252 | only equal texts are at distance zero |
| WordDiff.CommonPrefix | internal/app/diff.go:176-217 | the prefix is shared and maximal |
| WordDiff.CommonSuffix | internal/app/diff.go:176-217 | the suffix is shared and maximal |
| WordDiff.WordsSimilar | internal/app/diff.go:176-217 | the loops compute the similarity test; equal words and two empty words are similar |
| WordDiff.RefineSpells | internal/app/diff.go:137-174 | refinement keeps what the operations spell on both sides |
| WordDiff.RefineWithoutDeletes | internal/app/diff.go:137-174 | a list without deletions passes unchanged |
| WordDiff.RefinedChanges | internal/app/diff.go:137-174 | every changed word joins two similar non-empty words that are not line breaks, and its character diff spells both |
| WordDiff.CollapseKeepsText | internal/app/diff.go:47-53 | collapsing whitespace keeps every other character in order |
| WordDiff.NormalizedAlike | internal/app/diff.go:47-53 | texts with equal normal forms differ in whitespace only |
| WordDiff.ExtraWhitespaceIff | internal/app/diff.go:55-69 | a whitespace change is reported exactly when the word lists agree and the texts do not |
| WordDiff.ExtraWhitespaceMeans | internal/app/diff.go:55-69 | over the texts' own words, a reported whitespace change means they differ in whitespace only |
| WordDiff.ShowBody | internal/app/diff.go:14-45 | whitespace-only exactly when the normal forms agree; otherwise the diff spells both token lists |
| WordDiff.InlineOps | internal/app/diff.go:469-510 | the inline diff spells both word lists |
| Format.ColorFor | internal/app/format.go:77-88 | a label's colour is looked up ignoring case, grey when missing or empty |
| Format.ColorForIgnoresCase | internal/app/format.go:77-88 | names differing only in case get the same colour |
| Format.LabelsToTheme | internal/app/format.go:77-88 | every label, in order, with its colour |
| Format.DiffLabelColors | internal/app/format.go:90-110 | added labels are exactly those whose name the old side lacks, removed ones those the new side lacks |
| Format.DiffEmptyIff | internal/app/format.go:90-110 | nothing is added or removed exactly when both sides name the same labels |
| Format.BodySummary | internal/app/format.go:112-118 | `<empty>` exactly for a blank body, otherwise the trimmed length in characters |
| Format.OptionalString | internal/app/format.go:120-126 | `<none>` exactly for a blank value, otherwise a quoted form that unquotes to the trimmed value |
| Format.OptionalStringPtr | internal/app/format.go:128-137 | `<none>` exactly for a missing value |
| Format.StringList | internal/app/format.go:139-148 | "[]" exactly for no items, otherwise the quoted items in brackets |
| Format.AgoOf | internal/app/format.go:151-197 | under a minute is "just now"; otherwise the unit whose range holds the distance, counted in whole units |
| Format.BucketUnique | internal/app/format.go:151-197 | every distance lies in exactly one unit's range |
| Format.ParseRender | internal/app/format.go:151-197 | every wording reads back as the unit and count it was made from |
| Format.RelativeTime | internal/app/format.go:151-197 | "just now" exactly within a minute either way, otherwise the wording of the distance |
| Format.RelativeTimeDistance | internal/app/format.go:151-197 | only the distance matters: swapping or shifting both instants changes nothing |
| Format.SgrLen | internal/app/format.go:203-206 | a sequence found starts with ESC and ends with 'm' |
| Format.StripPlain | internal/app/format.go:203-206 | text without escapes is left as it is |
| Format.StripSgr | internal/app/format.go:203-206 | a leading colour sequence is removed entirely |
| Format.StripAppend | internal/app/format.go:203-206 | text starting with a breaking character strips independently of what precedes it |
| Format.PadRight | internal/app/format.go:208-216 | text at least `width` visible characters wide is unchanged; shorter text is padded with spaces to exactly `width` visible characters |
| Format.TruncateAnsi | internal/app/format.go:218-254 | nothing for a non-positive width; the text when it fits; otherwise the longest prefix showing exactly `max` characters with escapes kept whole, and the reset |
| Format.KeptVisible | internal/app/format.go:218-254 | what the scan keeps shows exactly the allowed number of characters |
| Format.PresentShows | internal/app/format.go:17-75 | the lines present are about exactly the filled fields |
| Format.SlotIff | internal/app/format.go:17-75 | for normalised records a field's line appears exactly when the field differs |
| Format.LabelsSlotIff | internal/app/format.go:17-75 | the labels line appears exactly when the label sets differ |
| Format.ChangeLines | internal/app/format.go:17-75 | one line for each differing field and no other, in the fixed field order |
| Format.NoLinesIff | internal/app/format.go:17-75 | no line is printed exactly when the records agree on every shown field |
| TermColor.HexByte | internal/termcolor/termcolor.go:93-115 | a pair reads as a byte exactly when both characters are hexadecimal digits |
| TermColor.ParseHex | internal/termcolor/termcolor.go:93-115 | the parse succeeds exactly on an optional '#' and three or six hex digits; the error names the digits read |
| TermColor.Hex | internal/termcolor/termcolor.go:132-134 | a colour is written as '#' and six lower-case hex digits |
| TermColor.ParseHexOfHex | internal/termcolor/termcolor.go:93-134 | writing a colour and parsing it gives the colour |
| TermColor.HexOfParseHex | internal/termcolor/termcolor.go:93-134 | six lower-case digits parse to a colour that is written back as the same digits |
| TermColorPal.ClosestIndex | internal/termcolor/termcolor.go:137-169 | the index found is nearest to the value, and every earlier one is strictly farther |
| TermColorPal.ClosestCubeIndex | internal/termcolor/termcolor.go:137-152 | the cube level found is nearest, ties to the first |
| TermColorPal.ClosestGrayIndex | internal/termcolor/termcolor.go:154-169 | the grey step found is nearest, ties to the first |
| TermColorPal.CubeIndex | internal/termcolor/termcolor.go:179-226 | a cube entry's index lies in 16..231 |
| TermColorPal.CubeIndexDecode | internal/termcolor/termcolor.go:179-226 | a cube index gives back its three levels |
| TermColorPal.GrayIndex | internal/termcolor/termcolor.go:179-226 | a grey entry's index lies in 232..255 |
| TermColorSgr.ReadParamList | internal/termcolor/termcolor.go:238-252 | a written parameter list reads back as the same numbers |
| TermColorSgr.ColorEscape | internal/termcolor/termcolor.go:238-252 | the escape selects the colour: 38/48;2;r;g;b in truecolour, 38/48;5;index otherwise |
| TermColorSgr.ResetEscape | internal/termcolor/termcolor.go:254-262 | the reset selects the default foreground or background |
| TermColorSgr.Paint | internal/termcolor/termcolor.go:254-262 | painted text is the colour's escape (reading back as its parameters), then the text, then the reset escape; it strips back to the text |
| TermColorSgr.PaintHex | internal/termcolor/termcolor.go:269-285 | an invalid hex colour leaves the text alone; a valid one paints it; the stripped text is the same either way |
| Progress.Advance | internal/app/progress.go:348-362 | the pulse stays on the bar, moves one step in its direction inside it and at most one step at all |
| Progress.PulseSweeps | internal/app/progress.go:294-362 | from the start the pulse sweeps to the right end and back, once every period |
| Progress.StartPulse | internal/app/progress.go:256-271 | a running pulse keeps its place; a stopped one restarts at the left edge |
| Progress.Update | internal/app/progress.go:64-95 | the pulse runs exactly when the total is unknown |
| Progress.Tick | internal/app/progress.go:294-316 | only an active pulse moves |
| Progress.ReporterValid | internal/app/progress.go:64-95 | every reachable pulse stays on the bar |
| Progress.DeterminateBar | internal/app/progress.go:176-204 | the bar has 32 cells and the first `filled` of them, clamped, are full |
| Progress.DeterminateCount | internal/app/progress.go:176-204 | the bar shows as many full cells as the clamped fill |
| Progress.DeterminateMonotone | internal/app/progress.go:176-204 | more progress never shows fewer full cells |
| Progress.IndeterminateBar | internal/app/progress.go:206-235 | the pulse shows six full cells from its clamped position |
| Progress.IndeterminateCount | internal/app/progress.go:206-235 | the pulse always shows exactly six full cells |
| Progress.FormatDuration | internal/app/progress.go:477-491 | "<s>s" exactly under a minute, "MM:SS" exactly under an hour, otherwise "H:MM:SS" |
| Progress.ReadFormatDuration | internal/app/progress.go:477-491 | a formatted duration reads back as its seconds, negative ones as zero |
| Progress.PadLeftVisible | internal/app/progress.go:387-393 | text at least `width` visible characters wide is unchanged; shorter text gets spaces in front up to exactly `width` |

## Left out

- Reading and writing files, YAML/TOML/JSON encoding, directory walks, locks and the config file are left out. The store is a map from number to file and snapshot.
- Concurrency is left out: the pulse goroutine, signal handling and cursor hiding. Its ticks are a function of their count.
- Floating point is left out. `To256`, `colorDistance`, `blendColor`, the bar ratio, percentages, the ETA and gradient colours are not modelled. `To256` is a parameter of `TermColor.ColorEscape`.
- Styling and theme output are left out. So are `renderWordDiff`'s line wrapping and `formatProgressLineLocked`/`formatLeftTextLocked` layout.
- `DetectColorMode` is left out because it reads the environment. `FgBg`, `Bold` and the other fixed-code stylers are left out.
- `randomLabelColor` is left out: the colour of a new label is a parameter.
- The view, diff, edit and init commands and the editor process are left out. The edited file's parsed contents are a parameter of `Commands.IssueFromEditor`.
- Push's issue-type and project sync (phase 5 and the created-issue sync) is left out. It reads change fields that the edit type does not define, so any model of it would be invented.
- Strings are ASCII. Lower-casing, `EqualFold` and `TrimSpace` act on ASCII only, and a byte counts as one rune, so `utf8.RuneCountInString` is the length.
- Relative times work over whole seconds. `time.Time` is an integer.
- The order in which Go walks a map is a parameter: a sequence of the map's keys.
- The 64-bit range of `strconv.Atoi` is not modelled. Numbers are unbounded.
- `filepath.Clean`, `IsAbs`, `Join` and `Rel` are parameters of the argument filter.
- WordDiff.Levenshtein: symmetry of the distance is not stated.
- Progress.Advance: validity of the direction is stated only for pulses already valid, since the direction field itself is unconstrained.
- Commands.StatusOf: two files with one number are listed once, where `status` would print both.
- Client.FetchIssues: the scope fallback of `GetIssuesBatch`'s callers is modelled once, in `Fetching.BatchFetch`.
- Issues.NormalizeIdempotent: stated only for bodies without carriage returns. The code's `normalizeBody` is not idempotent otherwise (first Findings row).
- Issues.MergeKeepsBothSides: stated only when the remote body holds no carriage return. Otherwise the merge can differ from the remote in the body, as `Issues.MergeRewritesRemoteBody` shows.
- Batch.UpdateIndex: an error path naming a negative alias index is ignored. batch.go:167 would index out of range and panic there.
- The text of the batch mutation (internal/ghcli/batch.go:132-140) is not built. The model keeps, per update, its alias `update<i>` and the fields it contributes, which is what the reply is read against.
- Push.SortComments: comments with the same number keep their load order. `sort.Slice` is not stable and may order them either way.
- Push.CommentPhase: a post that fails is only warned about, and a posted comment's file is deleted. Both are outside the model, so a post here is an attempted post.
- Push.PushCandidates: a state call's error is a parameter, returned unchanged as the code returns the runner's error.
- Push.CreateLocalPromotes: stated when the remote returns fresh, permanent numbers and the selected temporary ids are distinct, as it does for issue creation; a failed rename or write after a successful creation is file I/O and is not modelled.

Where the code and its documentation differ, the members named after the
code's operations follow the code; the "## Findings" rows list the places
where a corrected member sits beside the as-written one. `Issues.Normalize`
and every comparison built on it use `normalizeBody` as written, and
`Batch.SendBatch` sends what batch.go's loop builds. `wordsSimilar` uses a
40% common-prefix-and-suffix threshold, although its comment speaks of 50%. `truncateVisible` (internal/app/progress.go:429-463)
is the same scan as `truncateAnsi` and is modelled by `Format.TruncateAnsi`.
The guard against a negative pulse range in `advancePulseLocked` never
fires, because `BarWidth` exceeds `PulseWidth`.

## Findings

| source | as written | input that shows it | evidently intended | confidence | as-written member | corrected member |
|---|---|---|---|---|---|---|
| internal/issue/issue.go:306-316 | CRLF is replaced once and then a line feed is appended, so a body ending in a carriage return normalises differently the second time | body "x\r": once "x\r\n", twice "x\n" | normalisation is idempotent, so equal issues stay equal after a round trip | high, not executed | Issues.NormalizeBodyAsWrittenNotIdempotent | Issues.NormalizeBodyIdempotent |
| internal/ghcli/batch.go:88-90 | the body is escaped for GraphQL and then quoted again with `%q`, so every escape arrives as literal backslashes | body "a\nb" is stored as "a\\nb" | the body literal is the escaped body between quotes | high, not executed | Batch.BodyAsWrittenArrivesEscaped | Batch.BodyPartDelivers |
| internal/ghcli/batch.go:104-130 | the `continue` for an unknown label or assignee only skips that name, so the mutation still goes out with a partial id list | labels ["nope"] unknown: `labelIds: []` removes every label | an unknown name skips the issue, as an unknown milestone does | high, not executed | Batch.UnknownLabelClearsLabels | Batch.BuildSendsCompleteSets |
| internal/ghcli/client.go:23-33 | `withRepo` looks for "--repo" among all arguments, values included | an edit whose title is "--repo" runs without `--repo owner/name` | only a "--repo" flag counts as an explicit repository | medium, not executed | Client.WithRepoDropsRepository | Client.WithRepoAgrees |
| internal/app/push.go:519-560 | with arguments, comments are filtered by their own number before temporary ids are routed to the created numbers | `push T5` creates 42; the comment on T5 is not posted in that run | the filter applies to the issue the comment goes to | medium, not executed | Push.CommentOnCreatedIssueDropped | Push.Posts |

=== FILE: batch.dfy ===
/** `BatchEditIssues` (internal/ghcli/batch.go): many issue edits in one
    GraphQL mutation, one aliased `updateIssue` per update. The lookup of node
    ids and the remote's answer are parameters; the query text and JSON
    decoding are not modelled beyond what decides the result. */
module Batch {
  import opened Results
  import opened Text
  import opened Quoting
  import opened GraphQLString
  import Fetching

  /** `BatchIssueUpdate`: `None` leaves a field unchanged; a milestone of ""
      removes it; a label or assignee list is the complete new set. */
  datatype Update = Update(
    number: string,
    title: Option<string>,
    body: Option<string>,
    milestone: Option<string>,
    labels: Option<seq<string>>,
    assignees: Option<seq<string>>,
    clearMilestone: bool,
    clearLabels: bool,
    clearAssignees: bool)

  /** `batchLookups`: node ids by issue number, milestone title, label name
      and user login. */
  datatype Lookups = Lookups(
    issueIds: map<string, string>,
    milestoneIds: map<string, string>,
    labelIds: map<string, string>,
    userIds: map<string, string>)

  // ------------------------------------------------------------ names to look up

  /** The milestone titles, label names and user logins the lookup query asks
      for: every non-empty milestone and every listed label and assignee. */
  datatype Names = Names(milestones: set<string>, labels: set<string>, users: set<string>)

  function Listed(l: Option<seq<string>>): seq<string> {
    l.GetOr([])
  }

  function NamesOf(updates: seq<Update>): (r: Names)
    ensures forall u, m :: u in updates && u.milestone == Some(m) && m != "" ==> m in r.milestones
    ensures forall u, l :: u in updates && l in Listed(u.labels) ==> l in r.labels
    ensures forall u, a :: u in updates && a in Listed(u.assignees) ==> a in r.users
    ensures forall m :: m in r.milestones ==> m != "" && exists u :: u in updates && u.milestone == Some(m)
  {
    Names(set u | u in updates && u.milestone.Some? && u.milestone.value != "" :: u.milestone.value,
          set u, l | u in updates && l in Listed(u.labels) :: l,
          set u, a | u in updates && a in Listed(u.assignees) :: a)
  }

  // ------------------------------------------------------------ input fields

  /** The quoted node ids of the names that have one, in order: all of them
      exactly when every name has a node id. */
  function KnownIds(names: seq<string>, ids: map<string, string>): (r: seq<string>)
    ensures |r| <= |names|
    ensures |r| == |names| <==> forall n :: n in names ==> n in ids
    ensures |r| == |names| ==> forall k :: 0 <= k < |r| ==> r[k] == GoQuote(ids[names[k]])
  {
    if |names| == 0 then []
    else
      var rest := KnownIds(names[1..], ids);
      assert forall n :: n in names ==> n == names[0] || n in names[1..];
      if names[0] in ids then [GoQuote(ids[names[0]])] + rest else rest
  }

  /** The last name without a node id, as the loop records it. */
  function Missing(names: seq<string>, ids: map<string, string>): (r: Option<string>)
    ensures r.None? <==> forall n :: n in names ==> n in ids
    ensures r.Some? ==> r.value in names && r.value !in ids
  {
    if |names| == 0 then None
    else
      var last := names[|names| - 1];
      if last !in ids then Some(last)
      else
        var r := Missing(names[..|names| - 1], ids);
        assert forall n :: n in names ==> n in names[..|names| - 1] || n == last;
        r
  }

  /** A list of ids as a GraphQL list value. */
  function IdListPart(key: string, ids: seq<string>): string {
    key + ": [" + Join(ids, ", ") + "]"
  }

  function TitlePart(u: Update): seq<string> {
    if u.title.Some? then ["title: " + GoQuote(u.title.value)] else []
  }

  /** The body as batch.go writes it: the escaped body, quoted again with `%q`. */
  function BodyPartAsWritten(u: Update): seq<string> {
    if u.body.Some? then ["body: " + GoQuote(Escape(u.body.value))] else []
  }

  /** The body as a GraphQL string literal of the body. */
  function BodyPart(u: Update): seq<string> {
    if u.body.Some? then ["body: " + Literal(u.body.value)] else []
  }

  /** The milestone field: nothing when unchanged, `null` to remove it, the
      milestone's node id, or an error for an unknown milestone. */
  function MilestonePart(u: Update, lk: Lookups): (r: Result<seq<string>>)
    ensures r.Err? <==> u.milestone.Some? && u.milestone.value != "" && !u.clearMilestone
                         && u.milestone.value !in lk.milestoneIds
    ensures r.Err? ==> r.msg == "milestone " + GoQuote(u.milestone.value) + " not found"
    ensures r.Ok? && u.milestone.None? ==> r.value == []
    ensures r.Ok? && u.milestone.Some? && (u.milestone.value == "" || u.clearMilestone) ==>
              r.value == ["milestoneId: null"]
  {
    match u.milestone
    case None => Ok([])
    case Some(m) =>
      if m == "" || u.clearMilestone then Ok(["milestoneId: null"])
      else if m in lk.milestoneIds then Ok(["milestoneId: " + GoQuote(lk.milestoneIds[m])])
      else Err("milestone " + GoQuote(m) + " not found")
  }

  predicate SetsLabels(u: Update) { u.labels.Some? || u.clearLabels }
  predicate SetsAssignees(u: Update) { u.assignees.Some? || u.clearAssignees }

  function LabelsPart(u: Update, lk: Lookups): seq<string> {
    if SetsLabels(u) then [IdListPart("labelIds", KnownIds(Listed(u.labels), lk.labelIds))] else []
  }

  function AssigneesPart(u: Update, lk: Lookups): seq<string> {
    if SetsAssignees(u) then [IdListPart("assigneeIds", KnownIds(Listed(u.assignees), lk.userIds))] else []
  }

  /** The error the label and assignee loops leave behind: the last unknown
      assignee, else the last unknown label. */
  function ListError(u: Update, lk: Lookups): (r: Option<string>)
    ensures r.None? <==>
              ((SetsLabels(u) ==> forall l :: l in Listed(u.labels) ==> l in lk.labelIds)
               && (SetsAssignees(u) ==> forall a :: a in Listed(u.assignees) ==> a in lk.userIds))
  {
    var le := if SetsLabels(u) then Missing(Listed(u.labels), lk.labelIds) else None;
    var ae := if SetsAssignees(u) then Missing(Listed(u.assignees), lk.userIds) else None;
    if ae.Some? then Some("user " + GoQuote(ae.value) + " not found")
    else if le.Some? then Some("label " + GoQuote(le.value) + " not found")
    else None
  }

  // ------------------------------------------------------------ one update

  /** What one update contributes: the fields of its mutation, if one is
      sent, and the error recorded against its number, if any. */
  datatype Step = Step(input: Option<seq<string>>, error: Option<string>)

  /** The loop body as batch.go writes it: an unknown label or assignee
      records an error, but its `continue` only skips to the next name, so
      the mutation is still sent with the ids that were found. */
  function BuildAsWritten(u: Update, lk: Lookups): (r: Step)
    ensures r.input.None? <==> u.number !in lk.issueIds || MilestonePart(u, lk).Err?
  {
    if u.number !in lk.issueIds then Step(None, Some("issue not found"))
    else
      match MilestonePart(u, lk)
      case Err(msg) => Step(None, Some(msg))
      case Ok(mp) =>
        var input := ["id: " + GoQuote(lk.issueIds[u.number])] + TitlePart(u) + BodyPartAsWritten(u)
                     + mp + LabelsPart(u, lk) + AssigneesPart(u, lk);
        Step(Some(input), ListError(u, lk))
  }

  /** The loop body with an unknown label or assignee skipping the issue,
      as an unknown milestone does, and the body sent as a GraphQL literal. */
  function Build(u: Update, lk: Lookups): (r: Step)
    ensures r.input.None? <==> r.error.Some?
    ensures u.number !in lk.issueIds ==> r.error == Some("issue not found")
  {
    if u.number !in lk.issueIds then Step(None, Some("issue not found"))
    else
      match MilestonePart(u, lk)
      case Err(msg) => Step(None, Some(msg))
      case Ok(mp) =>
        match ListError(u, lk)
        case Some(msg) => Step(None, Some(msg))
        case None =>
          var input := ["id: " + GoQuote(lk.issueIds[u.number])] + TitlePart(u) + BodyPart(u)
                       + mp + LabelsPart(u, lk) + AssigneesPart(u, lk);
          Step(Some(input), None)
  }

  /** A mutation is sent only when every name of the update has a node id,
      and then its label and assignee lists are complete. */
  lemma BuildSendsCompleteSets(u: Update, lk: Lookups)
    requires Build(u, lk).input.Some?
    ensures u.number in lk.issueIds
    ensures u.milestone.Some? && u.milestone.value != "" && !u.clearMilestone ==>
              u.milestone.value in lk.milestoneIds
    ensures SetsLabels(u) ==> forall l :: l in Listed(u.labels) ==> l in lk.labelIds
    ensures SetsAssignees(u) ==> forall a :: a in Listed(u.assignees) ==> a in lk.userIds
    ensures SetsLabels(u) ==> |KnownIds(Listed(u.labels), lk.labelIds)| == |Listed(u.labels)|
  {
  }

  /** Where batch.go and the corrected loop agree: an update whose names all
      have node ids and that changes no body. */
  lemma BuildAgrees(u: Update, lk: Lookups)
    requires u.body.None? && ListError(u, lk).None?
    ensures BuildAsWritten(u, lk) == Build(u, lk)
  {
  }

  /** An update asking for the label "nope", which the repository does not
      have: batch.go records the error and still sends `labelIds: []`, which
      removes every label of the issue; the corrected loop sends nothing. */
  lemma UnknownLabelClearsLabels()
    ensures var u := Update("7", None, None, None, Some(["nope"]), None, false, false, false);
            var lk := Lookups(map["7" := "I_7"], map[], map[], map[]);
            BuildAsWritten(u, lk).error == Some("label " + GoQuote("nope") + " not found")
            && BuildAsWritten(u, lk).input.Some?
            && "labelIds: []" in BuildAsWritten(u, lk).input.value
            && Build(u, lk).input.None?
  {
    var u := Update("7", None, None, None, Some(["nope"]), None, false, false, false);
    var lk := Lookups(map["7" := "I_7"], map[], map[], map[]);
    assert KnownIds(["nope"], map[]) == [];
    assert IdListPart("labelIds", []) == "labelIds: []";
  }

  // ------------------------------------------------------------ body literal

  /** Escaping keeps a text free of control characters other than backspace,
      form feed, newline, carriage return and tab in that state. */
  lemma {:induction false} EscapeEachAlike(s: string)
    requires forall i :: 0 <= i < |s| ==> QuotesAlike(s[i])
    ensures forall i :: 0 <= i < |EscapeEach(s)| ==> QuotesAlike(EscapeEach(s)[i])
  {
    if |s| > 0 {
      EscapeEachAlike(s[1..]);
      var e, rest := EscapeChar(s[0]), EscapeEach(s[1..]);
      assert forall i :: 0 <= i < |e| ==> QuotesAlike(e[i]);
      assert forall i :: 0 <= i < |e + rest| ==> (e + rest)[i] == if i < |e| then e[i] else rest[i - |e|];
    }
  }

  /** A newline in a text makes its escaped form longer than the text. */
  lemma {:induction false} EscapeEachLonger(s: string)
    ensures |EscapeEach(s)| >= |s|
    ensures '\n' in s ==> |EscapeEach(s)| > |s|
  {
    if |s| > 0 {
      EscapeEachLonger(s[1..]);
      assert '\n' in s ==> s[0] == '\n' || '\n' in s[1..];
    }
  }

  /** With `%q` around the escaped body, the server reads the escaped text
      itself: every backslash the escape added arrives as a character of the
      body, and a body holding a newline is stored changed. */
  lemma BodyAsWrittenArrivesEscaped(body: string)
    requires forall i :: 0 <= i < |body| ==> QuotesAlike(body[i])
    ensures StringValue(GoQuote(Escape(body))) == Some(Escape(body))
    ensures '\n' in body ==> StringValue(GoQuote(Escape(body))) != Some(body)
  {
    EscapeIsPerChar(body);
    EscapeEachAlike(body);
    GoQuoteReadsBack(Escape(body));
    EscapeEachLonger(body);
  }

  /** The body "a", newline, "b" is stored as something else. */
  lemma BodyNewlineExample()
    ensures StringValue(GoQuote(Escape("a\nb"))) != Some("a\nb")
  {
    var b := "a\nb";
    assert b[1] == '\n';
    assert forall i :: 0 <= i < |b| ==> QuotesAlike(b[i]);
    BodyAsWrittenArrivesEscaped(b);
  }

  /** The corrected literal delivers any body unchanged. */
  lemma BodyPartDelivers(u: Update)
    requires u.body.Some?
    ensures |BodyPart(u)| == 1
    ensures HasPrefix(BodyPart(u)[0], "body: ")
    ensures StringValue(BodyPart(u)[0][|"body: "|..]) == Some(u.body.value)
  {
    var p := BodyPart(u)[0];
    assert p[..|"body: "|] == "body: ";
    assert p[|"body: "|..] == Literal(u.body.value);
    LiteralRoundTrip(u.body.value);
  }

  // ------------------------------------------------------------ the mutation

  /** The alias of the update at position `i`. */
  function Alias(i: nat): (r: string)
    ensures HasPrefix(r, "update")
  {
    "update" + IntToString(i)
  }

  /** The positions, below `n`, whose flag is set, in order. */
  function Selected(flags: seq<bool>, n: nat): (r: seq<nat>)
    requires n <= |flags|
    ensures forall k :: 0 <= k < |r| ==> r[k] < n && flags[r[k]]
    ensures forall k, l :: 0 <= k < l < |r| ==> r[k] < r[l]
    ensures forall i :: 0 <= i < n && flags[i] ==> i in r
  {
    if n == 0 then []
    else
      var r0 := Selected(flags, n - 1);
      if flags[n - 1] then r0 + [n - 1] else r0
  }

  /** The loop body used for each update: `BuildAsWritten` or `Build`. */
  type Builder = (Update, Lookups) -> Step

  /** For each update, whether it sends a mutation. */
  function Sends(build: Builder, updates: seq<Update>, lk: Lookups): (r: seq<bool>)
    ensures |r| == |updates|
    ensures forall i :: 0 <= i < |r| ==> r[i] == build(updates[i], lk).input.Some?
  {
    seq(|updates|, i requires 0 <= i < |updates| => build(updates[i], lk).input.Some?)
  }

  /** The build errors of the first `n` updates by issue number; a later
      error for the same number replaces an earlier one. */
  function BuildErrors(build: Builder, updates: seq<Update>, lk: Lookups, n: nat): (r: map<string, string>)
    requires n <= |updates|
    ensures forall i :: 0 <= i < n && build(updates[i], lk).error.Some? ==> updates[i].number in r
    ensures forall key :: key in r ==>
              exists i :: 0 <= i < n && updates[i].number == key && build(updates[i], lk).error.Some?
  {
    if n == 0 then map[]
    else
      var r0 := BuildErrors(build, updates, lk, n - 1);
      var s := build(updates[n - 1], lk);
      if s.error.Some? then r0[updates[n - 1].number := s.error.value] else r0
  }

  // ------------------------------------------------------------ the answer

  /** One entry of the response's `errors`. */
  datatype GraphError = GraphError(message: string, path: seq<string>)

  /** How the remote answered the mutation: the call failed, its output was
      not a response, or the response with the aliases present in `data`. */
  datatype Reply =
    | CallFailed(message: string)
    | Unreadable(message: string)
    | Responded(data: set<string>, errors: seq<GraphError>)

  /** The update an error's path points at: an alias "update" followed by a
      number below the update count. A negative number would make batch.go
      index out of range; it is ignored here. */
  function UpdateIndex(e: GraphError, count: nat): (r: Option<nat>)
    ensures r.Some? ==> r.value < count && |e.path| > 0 && HasPrefix(e.path[0], "update")
  {
    if |e.path| > 0 && HasPrefix(e.path[0], "update") then
      match Atoi(e.path[0][6..])
      case Some(idx) => if 0 <= idx < count then Some(idx) else None
      case None => None
    else None
  }

  /** An error whose path names the alias of an update points at that update. */
  lemma UpdateIndexOfAlias(i: nat, count: nat, message: string, rest: seq<string>)
    requires i < count
    ensures UpdateIndex(GraphError(message, [Alias(i)] + rest), count) == Some(i)
  {
    var a := Alias(i);
    assert a[6..] == IntToString(i);
    AtoiIntToString(i);
  }

  /** The build errors with the first `n` response errors attributed to the
      updates they point at. */
  function Attribute(updates: seq<Update>, errs: map<string, string>, errors: seq<GraphError>, n: nat)
    : (r: map<string, string>)
    requires n <= |errors|
    ensures forall key :: key in errs ==> key in r
    ensures forall k :: 0 <= k < n && UpdateIndex(errors[k], |updates|).Some? ==>
              updates[UpdateIndex(errors[k], |updates|).value].number in r
    ensures forall key :: key in r ==>
              (key in errs || exists k :: 0 <= k < n && UpdateIndex(errors[k], |updates|).Some?
                                          && updates[UpdateIndex(errors[k], |updates|).value].number == key)
    ensures n > 0 && UpdateIndex(errors[n - 1], |updates|).Some? ==>
              r[updates[UpdateIndex(errors[n - 1], |updates|).value].number] == errors[n - 1].message
  {
    if n == 0 then errs
    else
      var r0 := Attribute(updates, errs, errors, n - 1);
      match UpdateIndex(errors[n - 1], |updates|)
      case Some(idx) => r0[updates[idx].number := errors[n - 1].message]
      case None => r0
  }

  /** For each update, whether it has no recorded error and its alias is in
      the response's data. */
  function Answered(updates: seq<Update>, errs: map<string, string>, data: set<string>): (r: seq<bool>)
    ensures |r| == |updates|
    ensures forall i :: 0 <= i < |r| ==> (r[i] <==> updates[i].number !in errs && Alias(i) in data)
  {
    seq(|updates|, i requires 0 <= i < |updates| => updates[i].number !in errs && Alias(i) in data)
  }

  /** The numbers of the updates at the given positions. */
  function NumbersAt(updates: seq<Update>, idx: seq<nat>): (r: seq<string>)
    requires forall k :: 0 <= k < |idx| ==> idx[k] < |updates|
    ensures |r| == |idx|
    ensures forall k :: 0 <= k < |r| ==> r[k] == updates[idx[k]].number
  {
    seq(|idx|, k requires 0 <= k < |idx| => updates[idx[k]].number)
  }

  /** The numbers at the flagged positions are exactly the flagged updates' numbers. */
  lemma SelectedNumbers(updates: seq<Update>, flags: seq<bool>)
    requires |flags| == |updates|
    ensures forall i :: 0 <= i < |updates| && flags[i] ==> updates[i].number in NumbersAt(updates, Selected(flags, |updates|))
    ensures forall x :: x in NumbersAt(updates, Selected(flags, |updates|)) ==>
              exists i :: 0 <= i < |updates| && flags[i] && updates[i].number == x
  {
    var ok := Selected(flags, |updates|);
    var r := NumbersAt(updates, ok);
    forall i | 0 <= i < |updates| && flags[i]
      ensures updates[i].number in r
    {
      var k :| 0 <= k < |ok| && ok[k] == i;
      assert r[k] == updates[i].number;
    }
    forall x | x in r
      ensures exists i :: 0 <= i < |updates| && flags[i] && updates[i].number == x
    {
      var k :| 0 <= k < |r| && r[k] == x;
      assert flags[ok[k]];
    }
  }

  /** `BatchUpdateResult`. */
  datatype Outcome = Outcome(updated: seq<string>, errors: map<string, string>)

  /** What `BatchEditIssues` did: whether it sent the mutation, its result and
      its error. */
  datatype BatchEdit = BatchEdit(sent: bool, result: Outcome, err: Option<string>)

  predicate ValidRepo(repo: string) {
    Fetching.SplitRepo(repo).0 != [] && Fetching.SplitRepo(repo).1 != []
  }

  /** The result once the mutation was sent: the response's errors are
      attributed, then the updates without an error whose alias answered are
      the updated ones, in order. */
  function Finish(updates: seq<Update>, errs: map<string, string>, data: set<string>, errors: seq<GraphError>)
    : (r: Outcome)
    ensures forall key :: key in errs ==> key in r.errors
    ensures forall x :: x in r.updated ==> x !in r.errors
    ensures forall i :: 0 <= i < |updates| && Alias(i) in data && updates[i].number !in r.errors ==>
              updates[i].number in r.updated
    ensures forall x :: x in r.updated ==>
              exists i :: 0 <= i < |updates| && Alias(i) in data && updates[i].number == x
    ensures r.updated == NumbersAt(updates, Selected(Answered(updates, r.errors, data), |updates|))
  {
    var all := Attribute(updates, errs, errors, |errors|);
    var answered := Answered(updates, all, data);
    SelectedNumbers(updates, answered);
    Outcome(NumbersAt(updates, Selected(answered, |updates|)), all)
  }

  /** The part of `BatchEditIssues` after the lookups, for a given loop
      body: build the mutations, send them if there are any, and read the
      answer. */
  function SendWith(build: Builder, updates: seq<Update>, lk: Lookups, reply: Reply): (r: BatchEdit)
    ensures r.sent <==> exists i :: 0 <= i < |updates| && build(updates[i], lk).input.Some?
    ensures r.sent && reply.CallFailed? ==> r.err == Some("batch update failed: " + reply.message)
    ensures r.sent && reply.Unreadable? ==> r.err == Some("failed to parse response: " + reply.message)
    ensures !(r.sent && reply.Responded?) ==> r.result.updated == []
    ensures forall i :: 0 <= i < |updates| && build(updates[i], lk).error.Some? ==>
              updates[i].number in r.result.errors
    ensures forall x :: x in r.result.updated ==> x !in r.result.errors
    ensures r.sent && reply.Responded? ==>
              r.result == Finish(updates, BuildErrors(build, updates, lk, |updates|), reply.data, reply.errors)
  {
    var sent := Selected(Sends(build, updates, lk), |updates|);
    var errs := BuildErrors(build, updates, lk, |updates|);
    if |sent| == 0 then
      assert forall i :: 0 <= i < |updates| ==> build(updates[i], lk).input.None?;
      BatchEdit(false, Outcome([], errs), None)
    else
      assert build(updates[sent[0]], lk).input.Some?;
      match reply
      case CallFailed(msg) => BatchEdit(true, Outcome([], errs), Some("batch update failed: " + msg))
      case Unreadable(msg) => BatchEdit(true, Outcome([], errs), Some("failed to parse response: " + msg))
      case Responded(data, errors) => BatchEdit(true, Finish(updates, errs, data, errors), None)
  }

  /** When each loop body builds a mutation and records an error. */
  predicate BuildsWhen(u: Update, lk: Lookups) {
    var known := u.number in lk.issueIds && MilestonePart(u, lk).Ok?;
    && (BuildAsWritten(u, lk).input.Some? <==> known)
    && (known && ListError(u, lk).Some? ==> BuildAsWritten(u, lk).error.Some?)
    && (Build(u, lk).input.Some? <==> known && ListError(u, lk).None?)
    && (ListError(u, lk).Some? ==> Build(u, lk).error.Some?)
  }

  lemma BuildShape(u: Update, lk: Lookups)
    ensures BuildsWhen(u, lk)
  {
  }

  /** The send as batch.go writes it: the mutation goes out as soon as one
      update names a known issue and a known (or cleared) milestone, even
      when some of its labels or assignees are unknown, and an update with
      an unknown name is still reported as an error. */
  function SendBatch(updates: seq<Update>, lk: Lookups, reply: Reply): (r: BatchEdit)
    ensures r.sent <==> exists i :: 0 <= i < |updates| && updates[i].number in lk.issueIds
                                    && MilestonePart(updates[i], lk).Ok?
    ensures r.sent && reply.CallFailed? ==> r.err == Some("batch update failed: " + reply.message)
    ensures r.sent && reply.Unreadable? ==> r.err == Some("failed to parse response: " + reply.message)
    ensures !(r.sent && reply.Responded?) ==> r.result.updated == []
    ensures forall i :: 0 <= i < |updates| && updates[i].number in lk.issueIds
                        && MilestonePart(updates[i], lk).Ok? && ListError(updates[i], lk).Some? ==>
              updates[i].number in r.result.errors
    ensures forall x :: x in r.result.updated ==> x !in r.result.errors
    ensures r.sent && reply.Responded? ==>
              r.result == Finish(updates, BuildErrors(BuildAsWritten, updates, lk, |updates|), reply.data, reply.errors)
  {
    forall i | 0 <= i < |updates| ensures BuildsWhen(updates[i], lk) { BuildShape(updates[i], lk); }
    SendWith(BuildAsWritten, updates, lk, reply)
  }

  /** The send with the corrected loop body: an update with an unknown name
      is never sent, so every update that goes out carries complete id lists. */
  function SendBatchCorrected(updates: seq<Update>, lk: Lookups, reply: Reply): (r: BatchEdit)
    ensures r.sent <==> exists i :: 0 <= i < |updates| && updates[i].number in lk.issueIds
                                    && MilestonePart(updates[i], lk).Ok? && ListError(updates[i], lk).None?
    ensures forall i :: 0 <= i < |updates| && ListError(updates[i], lk).Some? ==>
              updates[i].number in r.result.errors
    ensures forall x :: x in r.result.updated ==> x !in r.result.errors
    ensures r.sent && reply.Responded? ==>
              r.result == Finish(updates, BuildErrors(Build, updates, lk, |updates|), reply.data, reply.errors)
  {
    forall i | 0 <= i < |updates| ensures BuildsWhen(updates[i], lk) { BuildShape(updates[i], lk); }
    SendWith(Build, updates, lk, reply)
  }

  /** An update whose only unknown name is a label still sends a mutation
      as written, which clears the issue's labels, and sends nothing once
      corrected; both report the label as not found. */
  lemma UnknownLabelStillSent(reply: Reply)
    ensures var u := Update("7", None, None, None, Some(["nope"]), None, false, false, false);
            var lk := Lookups(map["7" := "I_7"], map[], map[], map[]);
            SendBatch([u], lk, reply).sent && !SendBatchCorrected([u], lk, reply).sent
            && "7" in SendBatch([u], lk, reply).result.errors
            && "7" in SendBatchCorrected([u], lk, reply).result.errors
  {
    UnknownLabelClearsLabels();
  }

  /** `BatchEditIssues`. */
  function BatchEditIssues(updates: seq<Update>, repo: string, lookups: Result<Lookups>, reply: Reply)
    : (r: BatchEdit)
    ensures |updates| == 0 ==> r == BatchEdit(false, Outcome([], map[]), None)
    ensures |updates| > 0 && !ValidRepo(repo) ==>
              r == BatchEdit(false, Outcome([], map[]), Some("invalid repository format"))
    ensures |updates| > 0 && ValidRepo(repo) && lookups.Err? ==>
              r == BatchEdit(false, Outcome([], map[]), Some("failed to fetch IDs: " + lookups.msg))
    ensures r.sent ==> |updates| > 0 && ValidRepo(repo) && lookups.Ok?
  {
    if |updates| == 0 then BatchEdit(false, Outcome([], map[]), None)
    else if !ValidRepo(repo) then BatchEdit(false, Outcome([], map[]), Some("invalid repository format"))
    else
      match lookups
      case Err(msg) => BatchEdit(false, Outcome([], map[]), Some("failed to fetch IDs: " + msg))
      case Ok(lk) => SendBatch(updates, lk, reply)
  }
}

=== FILE: client.dfy ===
/** The `gh` command lines the client builds, the conversion of fetched
    issues into records and the reading of the created issue's number
    (internal/ghcli/client.go). Running `gh` is not modelled: a command is
    the list of its arguments. */
module Client {
  import opened Results
  import opened Text
  import opened Order
  import Issues
  import opened EditPlan
  import opened Fetching
  import opened Quoting

  // ------------------------------------------------------------ options

  /** The flags the client writes. */
  datatype Flag =
    | Title | Body | Label | Assignee | Milestone
    | AddLabel | RemoveLabel | AddAssignee | RemoveAssignee | RemoveMilestone
    | Reason | Repo

  function FlagName(f: Flag): string {
    match f
    case Title => "--title"
    case Body => "--body"
    case Label => "--label"
    case Assignee => "--assignee"
    case Milestone => "--milestone"
    case AddLabel => "--add-label"
    case RemoveLabel => "--remove-label"
    case AddAssignee => "--add-assignee"
    case RemoveAssignee => "--remove-assignee"
    case RemoveMilestone => "--remove-milestone"
    case Reason => "--reason"
    case Repo => "--repo"
  }

  /** The flag an argument names, if any. */
  function FlagOf(s: string): Option<Flag> {
    if s == "--title" then Some(Title)
    else if s == "--body" then Some(Body)
    else if s == "--label" then Some(Label)
    else if s == "--assignee" then Some(Assignee)
    else if s == "--milestone" then Some(Milestone)
    else if s == "--add-label" then Some(AddLabel)
    else if s == "--remove-label" then Some(RemoveLabel)
    else if s == "--add-assignee" then Some(AddAssignee)
    else if s == "--remove-assignee" then Some(RemoveAssignee)
    else if s == "--remove-milestone" then Some(RemoveMilestone)
    else if s == "--reason" then Some(Reason)
    else if s == "--repo" then Some(Repo)
    else None
  }

  lemma FlagNameRoundTrip(f: Flag)
    ensures FlagOf(FlagName(f)) == Some(f)
  {
  }

  /** One option of a command line: a flag with its value, or a switch. */
  datatype Opt = Opt(flag: Flag, value: Option<string>)

  /** A command: its positional words, then its options. */
  datatype Command = Command(words: seq<string>, opts: seq<Opt>)

  /** The only flag the client writes without a value. */
  predicate IsSwitch(f: Flag) {
    f == RemoveMilestone
  }

  predicate WellFormed(o: Opt) {
    o.value.None? <==> IsSwitch(o.flag)
  }

  predicate AllWellFormed(opts: seq<Opt>) {
    forall i :: 0 <= i < |opts| ==> WellFormed(opts[i])
  }

  lemma WellFormedAppend(a: seq<Opt>, b: seq<Opt>)
    requires AllWellFormed(a) && AllWellFormed(b)
    ensures AllWellFormed(a + b)
  {
    assert forall i :: 0 <= i < |b| ==> (a + b)[|a| + i] == b[i];
  }

  function RenderOpt(o: Opt): seq<string> {
    match o.value
    case None => [FlagName(o.flag)]
    case Some(v) => [FlagName(o.flag), v]
  }

  function Render(opts: seq<Opt>): seq<string> {
    if |opts| == 0 then [] else RenderOpt(opts[0]) + Render(opts[1..])
  }

  /** The argument list handed to `gh`. */
  function Args(c: Command): seq<string> {
    c.words + Render(c.opts)
  }

  /** Reading arguments back as options, the way a flag parser that knows
      which flags are switches does; an unknown flag or a missing value is
      an error. */
  function ParseOpts(args: seq<string>): Option<seq<Opt>>
    decreases |args|
  {
    if |args| == 0 then Some([])
    else
      match FlagOf(args[0])
      case None => None
      case Some(f) =>
        if IsSwitch(f) then
          match ParseOpts(args[1..])
          case None => None
          case Some(rest) => Some([Opt(f, None)] + rest)
        else if |args| >= 2 then
          match ParseOpts(args[2..])
          case None => None
          case Some(rest) => Some([Opt(f, Some(args[1]))] + rest)
        else None
  }

  /** Rendered options are read back as the same options, whatever their values. */
  lemma {:induction false} ParseRender(opts: seq<Opt>)
    requires AllWellFormed(opts)
    ensures ParseOpts(Render(opts)) == Some(opts)
  {
    if |opts| > 0 {
      var o := opts[0];
      var t := Render(opts[1..]);
      assert WellFormed(o);
      ParseRender(opts[1..]);
      FlagNameRoundTrip(o.flag);
      var u := RenderOpt(o) + t;
      if o.value.None? {
        assert u[1..] == t;
      } else {
        assert u[2..] == t;
      }
      SeqCons(opts);
    }
  }

  /** The values given to flag `f`, in order. */
  function Values(opts: seq<Opt>, f: Flag): seq<string> {
    if |opts| == 0 then []
    else (if opts[0].flag == f && opts[0].value.Some? then [opts[0].value.value] else [])
         + Values(opts[1..], f)
  }

  /** Whether flag `f` occurs. */
  predicate Present(opts: seq<Opt>, f: Flag) {
    |opts| > 0 && (opts[0].flag == f || Present(opts[1..], f))
  }

  lemma {:induction false} ValuesAppend(a: seq<Opt>, b: seq<Opt>, f: Flag)
    ensures Values(a + b, f) == Values(a, f) + Values(b, f)
  {
    if |a| > 0 {
      ValuesAppend(a[1..], b, f);
      assert (a + b)[0] == a[0];
      assert (a + b)[1..] == a[1..] + b;
    } else {
      assert a + b == b;
    }
  }

  lemma {:induction false} PresentAppend(a: seq<Opt>, b: seq<Opt>, f: Flag)
    ensures Present(a + b, f) <==> Present(a, f) || Present(b, f)
  {
    if |a| > 0 {
      PresentAppend(a[1..], b, f);
      assert (a + b)[0] == a[0];
      assert (a + b)[1..] == a[1..] + b;
    } else {
      assert a + b == b;
    }
  }

  /** One valued flag per item, in order. */
  function Each(flag: Flag, items: seq<string>): (r: seq<Opt>)
    ensures |r| == |items|
    ensures !IsSwitch(flag) ==> AllWellFormed(r)
  {
    if |items| == 0 then []
    else
      var rest := Each(flag, items[1..]);
      assert forall i :: 1 <= i <= |rest| ==> ([Opt(flag, Some(items[0]))] + rest)[i] == rest[i - 1];
      [Opt(flag, Some(items[0]))] + rest
  }

  lemma {:induction false} ValuesEach(flag: Flag, items: seq<string>, f: Flag)
    ensures Values(Each(flag, items), f) == if flag == f then items else []
  {
    if |items| > 0 {
      ValuesEach(flag, items[1..], f);
      SeqCons(items);
      assert Each(flag, items)[1..] == Each(flag, items[1..]);
    }
  }

  lemma {:induction false} PresentEach(flag: Flag, items: seq<string>, f: Flag)
    ensures Present(Each(flag, items), f) <==> flag == f && |items| > 0
  {
    if |items| > 0 {
      PresentEach(flag, items[1..], f);
      assert Each(flag, items)[1..] == Each(flag, items[1..]);
    }
  }

  /** A single valued flag when the value is present. */
  function Maybe(flag: Flag, v: Option<string>): (r: seq<Opt>)
    ensures AllWellFormed(r) <== !IsSwitch(flag)
  {
    match v
    case None => []
    case Some(x) => [Opt(flag, Some(x))]
  }

  function Last(s: seq<string>): Option<string> {
    if |s| == 0 then None else Some(s[|s| - 1])
  }

  // ------------------------------------------------------------ repository flag

  /** `withRepo` as written: the arguments unchanged when no repository is
      configured or when any argument is "--repo" (a flag or a value alike);
      otherwise "--repo" and the repository appended. */
  function WithRepo(repo: string, args: seq<string>): (r: seq<string>)
    ensures r == args || (repo != "" && "--repo" !in args && r == args + ["--repo", repo])
    ensures repo != "" ==> "--repo" in r
  {
    if repo == "" || "--repo" in args then args
    else
      assert (args + ["--repo", repo])[|args|] == "--repo";
      args + ["--repo", repo]
  }

  lemma WithRepoIdempotent(repo: string, args: seq<string>)
    ensures WithRepo(repo, WithRepo(repo, args)) == WithRepo(repo, args)
  {
  }

  /** The repository flag as intended: added unless the command already
      carries the flag. Values that happen to read "--repo" do not count. */
  function WithRepoOption(repo: string, c: Command): (r: Command)
    ensures r.words == c.words && c.opts <= r.opts
    ensures repo != "" ==> Present(r.opts, Repo)
    ensures Present(c.opts, Repo) || repo == "" ==> r == c
    ensures Values(r.opts, Repo) == Values(c.opts, Repo) + (if r == c then [] else [repo])
  {
    if repo == "" || Present(c.opts, Repo) then c
    else
      var extra := [Opt(Repo, Some(repo))];
      PresentAppend(c.opts, extra, Repo);
      ValuesAppend(c.opts, extra, Repo);
      c.(opts := c.opts + extra)
  }

  /** An option list whose rendering lacks a flag's name does not hold the flag. */
  lemma {:induction false} AbsentName(opts: seq<Opt>, f: Flag)
    requires FlagName(f) !in Render(opts)
    ensures !Present(opts, f)
  {
    if |opts| > 0 {
      assert Render(opts)[0] == FlagName(opts[0].flag);
      assert Render(opts[1..]) == Render(opts)[|RenderOpt(opts[0])|..];
      AbsentName(opts[1..], f);
    }
  }

  /** Without any argument reading "--repo", both versions give the same
      argument list. */
  lemma WithRepoAgrees(repo: string, c: Command)
    requires "--repo" !in Args(c)
    ensures WithRepo(repo, Args(c)) == Args(WithRepoOption(repo, c))
  {
    if repo != "" {
      assert Render(c.opts) == Args(c)[|c.words|..];
      AbsentName(c.opts, Repo);
      RenderAppend(c.opts, [Opt(Repo, Some(repo))]);
    }
  }

  lemma {:induction false} RenderAppend(a: seq<Opt>, b: seq<Opt>)
    ensures Render(a + b) == Render(a) + Render(b)
  {
    if |a| > 0 {
      RenderAppend(a[1..], b);
      assert (a + b)[0] == a[0];
      assert (a + b)[1..] == a[1..] + b;
    } else {
      assert a + b == b;
    }
  }

  /** A title that reads "--repo" makes the written `withRepo` drop the
      repository: the command then runs against whatever repository `gh`
      infers from the working directory, where the intended version keeps it. */
  lemma WithRepoDropsRepository()
    ensures var c := EditCommand("5", NoChange.(title := Some("--repo")));
            && WithRepo("o/r", Args(c)) == Args(c)
            && ParseOpts(Args(c)[|c.words|..]) == Some(c.opts)
            && !Present(c.opts, Repo)
            && Present(WithRepoOption("o/r", c).opts, Repo)
  {
    var c := EditCommand("5", NoChange.(title := Some("--repo")));
    assert c.opts == [Opt(Title, Some("--repo"))];
    assert Args(c)[4] == "--repo";
    assert Args(c)[|c.words|..] == Render(c.opts);
    ParseRender(c.opts);
  }

  // ------------------------------------------------------------ commands

  function MilestoneOpts(m: Option<string>): (r: seq<Opt>)
    ensures AllWellFormed(r)
  {
    match m
    case None => []
    case Some(x) => if x == "" then [Opt(RemoveMilestone, None)] else [Opt(Milestone, Some(x))]
  }

  /** The options `EditIssue` passes, in the order it writes them: title,
      body, label edits, assignee edits, milestone. */
  function EditOpts(c: IssueChange): seq<Opt> {
    Scalars(c) + LabelEdits(c) + AssigneeEdits(c) + MilestoneOpts(c.milestone)
  }

  function Scalars(c: IssueChange): (r: seq<Opt>)
    ensures AllWellFormed(r)
  {
    WellFormedAppend(Maybe(Title, c.title), Maybe(Body, c.body));
    Maybe(Title, c.title) + Maybe(Body, c.body)
  }

  function LabelEdits(c: IssueChange): (r: seq<Opt>)
    ensures AllWellFormed(r)
  {
    WellFormedAppend(Each(AddLabel, c.addLabels), Each(RemoveLabel, c.removeLabels));
    Each(AddLabel, c.addLabels) + Each(RemoveLabel, c.removeLabels)
  }

  function AssigneeEdits(c: IssueChange): (r: seq<Opt>)
    ensures AllWellFormed(r)
  {
    WellFormedAppend(Each(AddAssignee, c.addAssignees), Each(RemoveAssignee, c.removeAssignees));
    Each(AddAssignee, c.addAssignees) + Each(RemoveAssignee, c.removeAssignees)
  }

  /** `EditIssue`'s command line before the repository flag. */
  function EditCommand(number: string, c: IssueChange): (r: Command)
    ensures r.words == ["issue", "edit", number]
    ensures AllWellFormed(r.opts)
  {
    EditWellFormed(c);
    Command(["issue", "edit", number], EditOpts(c))
  }

  lemma EditWellFormed(c: IssueChange)
    ensures AllWellFormed(EditOpts(c))
  {
    WellFormedAppend(Scalars(c), LabelEdits(c));
    WellFormedAppend(Scalars(c) + LabelEdits(c), AssigneeEdits(c));
    WellFormedAppend(Scalars(c) + LabelEdits(c) + AssigneeEdits(c), MilestoneOpts(c.milestone));
  }

  /** The edit a parsed command line asks for. */
  function EditOf(opts: seq<Opt>): IssueChange {
    NoChange.(
      title := Last(Values(opts, Title)),
      body := Last(Values(opts, Body)),
      milestone := if Present(opts, RemoveMilestone) then Some("") else Last(Values(opts, Milestone)),
      addLabels := Values(opts, AddLabel),
      removeLabels := Values(opts, RemoveLabel),
      addAssignees := Values(opts, AddAssignee),
      removeAssignees := Values(opts, RemoveAssignee))
  }

  /** The part of a change that `EditIssue` sends. */
  function EditFields(c: IssueChange): IssueChange {
    NoChange.(title := c.title, body := c.body, milestone := c.milestone,
              addLabels := c.addLabels, removeLabels := c.removeLabels,
              addAssignees := c.addAssignees, removeAssignees := c.removeAssignees)
  }

  lemma ValuesMaybe(flag: Flag, v: Option<string>, f: Flag)
    ensures Values(Maybe(flag, v), f) == if flag == f && v.Some? then [v.value] else []
  {
  }

  lemma ValuesMilestone(m: Option<string>, f: Flag)
    ensures Values(MilestoneOpts(m), f) == if f == Milestone && m.Some? && m.value != "" then [m.value] else []
    ensures Present(MilestoneOpts(m), RemoveMilestone) <==> m == Some("")
  {
  }

  lemma ScalarValues(c: IssueChange, f: Flag)
    ensures Values(Scalars(c), f) ==
              (if f == Title && c.title.Some? then [c.title.value] else [])
              + (if f == Body && c.body.Some? then [c.body.value] else [])
    ensures !Present(Scalars(c), RemoveMilestone)
  {
    ValuesAppend(Maybe(Title, c.title), Maybe(Body, c.body), f);
    PresentAppend(Maybe(Title, c.title), Maybe(Body, c.body), RemoveMilestone);
    ValuesMaybe(Title, c.title, f);
    ValuesMaybe(Body, c.body, f);
  }

  lemma LabelValues(c: IssueChange, f: Flag)
    ensures Values(LabelEdits(c), f) ==
              (if f == AddLabel then c.addLabels else []) + (if f == RemoveLabel then c.removeLabels else [])
    ensures !Present(LabelEdits(c), RemoveMilestone)
  {
    ValuesAppend(Each(AddLabel, c.addLabels), Each(RemoveLabel, c.removeLabels), f);
    PresentAppend(Each(AddLabel, c.addLabels), Each(RemoveLabel, c.removeLabels), RemoveMilestone);
    ValuesEach(AddLabel, c.addLabels, f);
    ValuesEach(RemoveLabel, c.removeLabels, f);
    PresentEach(AddLabel, c.addLabels, RemoveMilestone);
    PresentEach(RemoveLabel, c.removeLabels, RemoveMilestone);
  }

  lemma AssigneeValues(c: IssueChange, f: Flag)
    ensures Values(AssigneeEdits(c), f) ==
              (if f == AddAssignee then c.addAssignees else []) + (if f == RemoveAssignee then c.removeAssignees else [])
    ensures !Present(AssigneeEdits(c), RemoveMilestone)
  {
    ValuesAppend(Each(AddAssignee, c.addAssignees), Each(RemoveAssignee, c.removeAssignees), f);
    PresentAppend(Each(AddAssignee, c.addAssignees), Each(RemoveAssignee, c.removeAssignees), RemoveMilestone);
    ValuesEach(AddAssignee, c.addAssignees, f);
    ValuesEach(RemoveAssignee, c.removeAssignees, f);
    PresentEach(AddAssignee, c.addAssignees, RemoveMilestone);
    PresentEach(RemoveAssignee, c.removeAssignees, RemoveMilestone);
  }

  /** The values of a flag in the edit options, section by section. */
  lemma EditValues(c: IssueChange, f: Flag)
    ensures Values(EditOpts(c), f) ==
              Values(Scalars(c), f) + Values(LabelEdits(c), f) + Values(AssigneeEdits(c), f)
              + Values(MilestoneOpts(c.milestone), f)
  {
    ValuesAppend(Scalars(c), LabelEdits(c), f);
    ValuesAppend(Scalars(c) + LabelEdits(c), AssigneeEdits(c), f);
    ValuesAppend(Scalars(c) + LabelEdits(c) + AssigneeEdits(c), MilestoneOpts(c.milestone), f);
  }

  /** The switch that clears the milestone occurs exactly when the change
      sets the milestone to "". */
  lemma EditRemovesMilestone(c: IssueChange)
    ensures Present(EditOpts(c), RemoveMilestone) <==> c.milestone == Some("")
  {
    var g := RemoveMilestone;
    PresentAppend(Scalars(c), LabelEdits(c), g);
    PresentAppend(Scalars(c) + LabelEdits(c), AssigneeEdits(c), g);
    PresentAppend(Scalars(c) + LabelEdits(c) + AssigneeEdits(c), MilestoneOpts(c.milestone), g);
    ScalarValues(c, g);
    LabelValues(c, g);
    AssigneeValues(c, g);
    ValuesMilestone(c.milestone, g);
  }

  // Each flag of the edit options carries only its own section's values.

  lemma EditTitleValues(c: IssueChange)
    ensures Values(EditOpts(c), Title) == if c.title.Some? then [c.title.value] else []
  {
    EditValues(c, Title);
    ScalarValues(c, Title);
    LabelValues(c, Title);
    AssigneeValues(c, Title);
    ValuesMilestone(c.milestone, Title);
  }

  lemma EditBodyValues(c: IssueChange)
    ensures Values(EditOpts(c), Body) == if c.body.Some? then [c.body.value] else []
  {
    EditValues(c, Body);
    ScalarValues(c, Body);
    LabelValues(c, Body);
    AssigneeValues(c, Body);
    ValuesMilestone(c.milestone, Body);
  }

  lemma EditMilestoneValues(c: IssueChange)
    ensures Values(EditOpts(c), Milestone) == if c.milestone.Some? && c.milestone.value != "" then [c.milestone.value] else []
  {
    EditValues(c, Milestone);
    ScalarValues(c, Milestone);
    LabelValues(c, Milestone);
    AssigneeValues(c, Milestone);
    ValuesMilestone(c.milestone, Milestone);
  }

  lemma EditAddLabelValues(c: IssueChange)
    ensures Values(EditOpts(c), AddLabel) == c.addLabels
  {
    EditValues(c, AddLabel);
    ScalarValues(c, AddLabel);
    LabelValues(c, AddLabel);
    AssigneeValues(c, AddLabel);
    ValuesMilestone(c.milestone, AddLabel);
  }

  lemma EditRemoveLabelValues(c: IssueChange)
    ensures Values(EditOpts(c), RemoveLabel) == c.removeLabels
  {
    EditValues(c, RemoveLabel);
    ScalarValues(c, RemoveLabel);
    LabelValues(c, RemoveLabel);
    AssigneeValues(c, RemoveLabel);
    ValuesMilestone(c.milestone, RemoveLabel);
  }

  lemma EditAddAssigneeValues(c: IssueChange)
    ensures Values(EditOpts(c), AddAssignee) == c.addAssignees
  {
    EditValues(c, AddAssignee);
    ScalarValues(c, AddAssignee);
    LabelValues(c, AddAssignee);
    AssigneeValues(c, AddAssignee);
    ValuesMilestone(c.milestone, AddAssignee);
  }

  lemma EditRemoveAssigneeValues(c: IssueChange)
    ensures Values(EditOpts(c), RemoveAssignee) == c.removeAssignees
  {
    EditValues(c, RemoveAssignee);
    ScalarValues(c, RemoveAssignee);
    LabelValues(c, RemoveAssignee);
    AssigneeValues(c, RemoveAssignee);
    ValuesMilestone(c.milestone, RemoveAssignee);
  }

  /** Options with the change's values read back as the change's edits. */
  lemma EditOfValues(c: IssueChange, o: seq<Opt>)
    requires Values(o, Title) == if c.title.Some? then [c.title.value] else []
    requires Values(o, Body) == if c.body.Some? then [c.body.value] else []
    requires Values(o, Milestone) == if c.milestone.Some? && c.milestone.value != "" then [c.milestone.value] else []
    requires Present(o, RemoveMilestone) <==> c.milestone == Some("")
    requires Values(o, AddLabel) == c.addLabels && Values(o, RemoveLabel) == c.removeLabels
    requires Values(o, AddAssignee) == c.addAssignees && Values(o, RemoveAssignee) == c.removeAssignees
    ensures EditOf(o) == EditFields(c)
  {
  }

  /** Reading the edit command line back gives exactly the title, body,
      milestone and label and assignee edits of the change, in order. */
  lemma EditRoundTrip(number: string, c: IssueChange)
    ensures ParseOpts(Render(EditCommand(number, c).opts)) == Some(EditOpts(c))
    ensures EditOf(EditOpts(c)) == EditFields(c)
  {
    ParseRender(EditCommand(number, c).opts);
    EditReadBack(c);
  }

  lemma EditReadBack(c: IssueChange)
    ensures EditOf(EditOpts(c)) == EditFields(c)
  {
    EditTitleValues(c);
    EditBodyValues(c);
    EditMilestoneValues(c);
    EditAddLabelValues(c);
    EditRemoveLabelValues(c);
    EditAddAssigneeValues(c);
    EditRemoveAssigneeValues(c);
    EditRemovesMilestone(c);
    EditOfValues(c, EditOpts(c));
  }

  /** `CloseIssue`'s command line: a reason only when one is given. */
  function CloseCommand(number: string, reason: string): (r: Command)
    ensures r.words == ["issue", "close", number] && AllWellFormed(r.opts)
    ensures Values(r.opts, Reason) == if reason == "" then [] else [reason]
    ensures forall i :: 0 <= i < |r.opts| ==> r.opts[i].flag == Reason
  {
    Command(["issue", "close", number], Maybe(Reason, if reason != "" then Some(reason) else None))
  }

  /** `ReopenIssue`'s command line. */
  function ReopenCommand(number: string): (r: Command)
    ensures Args(r) == ["issue", "reopen", number]
  {
    Command(["issue", "reopen", number], [])
  }

  /** The fields `CreateIssue` sends. */
  datatype Draft = Draft(title: string, body: string, labels: seq<string>,
                         assignees: seq<string>, milestone: string)

  function CreateOpts(it: Issues.Issue): seq<Opt> {
    [Opt(Title, Some(it.title))] + [Opt(Body, Some(it.body))]
    + Each(Label, it.labels) + Each(Assignee, it.assignees)
    + Maybe(Milestone, if it.milestone != "" then Some(it.milestone) else None)
  }

  /** `CreateIssue`'s command line: title and body always, one flag per
      label and assignee, and the milestone only when it is set. */
  function CreateCommand(it: Issues.Issue): (r: Command)
    ensures r.words == ["issue", "create"] && AllWellFormed(r.opts)
  {
    var tb := [Opt(Title, Some(it.title))] + [Opt(Body, Some(it.body))];
    WellFormedAppend(tb, Each(Label, it.labels));
    WellFormedAppend(tb + Each(Label, it.labels), Each(Assignee, it.assignees));
    WellFormedAppend(tb + Each(Label, it.labels) + Each(Assignee, it.assignees),
                     Maybe(Milestone, if it.milestone != "" then Some(it.milestone) else None));
    Command(["issue", "create"], CreateOpts(it))
  }

  /** The issue a parsed create command line describes. */
  function DraftOf(opts: seq<Opt>): Draft {
    Draft(Last(Values(opts, Title)).GetOr(""), Last(Values(opts, Body)).GetOr(""),
          Values(opts, Label), Values(opts, Assignee),
          Last(Values(opts, Milestone)).GetOr(""))
  }

  /** The values of a flag in the create options, section by section. */
  lemma CreateSections(it: Issues.Issue, f: Flag)
    ensures Values(CreateOpts(it), f) ==
              Values([Opt(Title, Some(it.title))], f) + Values([Opt(Body, Some(it.body))], f)
              + Values(Each(Label, it.labels), f) + Values(Each(Assignee, it.assignees), f)
              + Values(Maybe(Milestone, if it.milestone != "" then Some(it.milestone) else None), f)
  {
    var t := [Opt(Title, Some(it.title))];
    var b := [Opt(Body, Some(it.body))];
    var l := Each(Label, it.labels);
    var a := Each(Assignee, it.assignees);
    var m := Maybe(Milestone, if it.milestone != "" then Some(it.milestone) else None);
    assert t + b == [Opt(Title, Some(it.title)), Opt(Body, Some(it.body))];
    ValuesAppend(t, b, f);
    ValuesAppend(t + b, l, f);
    ValuesAppend(t + b + l, a, f);
    ValuesAppend(t + b + l + a, m, f);
  }

  // Each flag of the create options carries only its own section's values.

  lemma CreateTitleValues(it: Issues.Issue)
    ensures Values(CreateOpts(it), Title) == [it.title]
  {
    CreateSections(it, Title);
    ValuesMaybe(Title, Some(it.title), Title);
    ValuesMaybe(Body, Some(it.body), Title);
    ValuesEach(Label, it.labels, Title);
    ValuesEach(Assignee, it.assignees, Title);
    ValuesMaybe(Milestone, if it.milestone != "" then Some(it.milestone) else None, Title);
  }

  lemma CreateBodyValues(it: Issues.Issue)
    ensures Values(CreateOpts(it), Body) == [it.body]
  {
    CreateSections(it, Body);
    ValuesMaybe(Title, Some(it.title), Body);
    ValuesMaybe(Body, Some(it.body), Body);
    ValuesEach(Label, it.labels, Body);
    ValuesEach(Assignee, it.assignees, Body);
    ValuesMaybe(Milestone, if it.milestone != "" then Some(it.milestone) else None, Body);
  }

  lemma CreateLabelValues(it: Issues.Issue)
    ensures Values(CreateOpts(it), Label) == it.labels
  {
    CreateSections(it, Label);
    ValuesMaybe(Title, Some(it.title), Label);
    ValuesMaybe(Body, Some(it.body), Label);
    ValuesEach(Label, it.labels, Label);
    ValuesEach(Assignee, it.assignees, Label);
    ValuesMaybe(Milestone, if it.milestone != "" then Some(it.milestone) else None, Label);
  }

  lemma CreateAssigneeValues(it: Issues.Issue)
    ensures Values(CreateOpts(it), Assignee) == it.assignees
  {
    CreateSections(it, Assignee);
    ValuesMaybe(Title, Some(it.title), Assignee);
    ValuesMaybe(Body, Some(it.body), Assignee);
    ValuesEach(Label, it.labels, Assignee);
    ValuesEach(Assignee, it.assignees, Assignee);
    ValuesMaybe(Milestone, if it.milestone != "" then Some(it.milestone) else None, Assignee);
  }

  lemma CreateMilestoneValues(it: Issues.Issue)
    ensures Values(CreateOpts(it), Milestone) == if it.milestone != "" then [it.milestone] else []
  {
    CreateSections(it, Milestone);
    ValuesMaybe(Title, Some(it.title), Milestone);
    ValuesMaybe(Body, Some(it.body), Milestone);
    ValuesEach(Label, it.labels, Milestone);
    ValuesEach(Assignee, it.assignees, Milestone);
    ValuesMaybe(Milestone, if it.milestone != "" then Some(it.milestone) else None, Milestone);
  }

  /** Reading the create command line back gives the issue's title, body,
      labels and assignees in order, and its milestone. */
  lemma CreateRoundTrip(it: Issues.Issue)
    ensures ParseOpts(Render(CreateCommand(it).opts)) == Some(CreateOpts(it))
    ensures DraftOf(CreateOpts(it)) == Draft(it.title, it.body, it.labels, it.assignees, it.milestone)
  {
    ParseRender(CreateCommand(it).opts);
    CreateReadBack(it);
  }

  lemma CreateReadBack(it: Issues.Issue)
    ensures DraftOf(CreateOpts(it)) == Draft(it.title, it.body, it.labels, it.assignees, it.milestone)
  {
    CreateTitleValues(it);
    CreateBodyValues(it);
    CreateLabelValues(it);
    CreateAssigneeValues(it);
    CreateMilestoneValues(it);
  }

  // ------------------------------------------------------------ fetched issues

  /** An issue as `gh issue view --json` returns it. */
  datatype ApiIssue = ApiIssue(
    number: int,
    title: string,
    body: string,
    labels: seq<string>,
    assignees: seq<string>,
    milestone: Option<string>,
    state: string,
    stateReason: Option<string>)

  /** `apiIssue.ToIssue`. */
  function ToIssue(a: ApiIssue): (r: Issues.Issue)
    ensures Atoi(r.number) == Some(a.number)
    ensures r.labels == a.labels && r.assignees == a.assignees
    ensures r.milestone == a.milestone.GetOr("")
    ensures r.state == ToLower(a.state) && ToLower(r.state) == r.state
    ensures r.title == a.title && r.body == a.body && r.stateReason == a.stateReason
    ensures r.parent.None? && r.blockedBy == [] && r.blocks == [] && r.syncedAt.None?
  {
    AtoiIntToString(a.number);
    ToLowerIdempotent(a.state);
    Issues.Issue(IntToString(a.number), a.title, a.labels, a.assignees, a.milestone.GetOr(""), "", [],
          ToLower(a.state), a.stateReason, None, [], [], None, a.body, "", None, None)
  }

  /** An issue as the batch query returns it, with its relationships. */
  datatype GraphIssue = GraphIssue(api: ApiIssue, parent: Option<int>, blockedBy: seq<int>, blocking: seq<int>)

  function Numbers(ns: seq<int>): (r: seq<string>)
    ensures |r| == |ns|
    ensures forall i :: 0 <= i < |r| ==> Atoi(r[i]) == Some(ns[i])
  {
    if |ns| == 0 then []
    else
      AtoiIntToString(ns[0]);
      [IntToString(ns[0])] + Numbers(ns[1..])
  }

  /** The record `GetIssuesBatch` builds for one fetched issue: relationship
      numbers in decimal, in the order the remote lists them. */
  function FromGraph(g: GraphIssue): (r: Issues.Issue)
    ensures r.(parent := None, blockedBy := [], blocks := []) == ToIssue(g.api)
    ensures r.parent.Some? <==> g.parent.Some?
    ensures r.parent.Some? ==> Atoi(r.parent.value) == Some(g.parent.value)
    ensures |r.blockedBy| == |g.blockedBy| && |r.blocks| == |g.blocking|
    ensures forall i :: 0 <= i < |r.blockedBy| ==> Atoi(r.blockedBy[i]) == Some(g.blockedBy[i])
    ensures forall i :: 0 <= i < |r.blocks| ==> Atoi(r.blocks[i]) == Some(g.blocking[i])
  {
    match g.parent
    case None => ToIssue(g.api).(blockedBy := Numbers(g.blockedBy), blocks := Numbers(g.blocking))
    case Some(p) =>
      AtoiIntToString(p);
      ToIssue(g.api).(parent := Some(IntToString(p)), blockedBy := Numbers(g.blockedBy), blocks := Numbers(g.blocking))
  }

  function DecodeEntry(e: Entry<GraphIssue>): Entry<Issues.Issue> {
    Entry(e.alias, match e.issue case None => None case Some(p) => Some((p.0, FromGraph(p.1))))
  }

  function Decoded(entries: seq<Entry<GraphIssue>>): (r: seq<Entry<Issues.Issue>>)
    ensures |r| == |entries|
    ensures forall k :: 0 <= k < |r| ==> r[k] == DecodeEntry(entries[k])
  {
    if |entries| == 0 then [] else [DecodeEntry(entries[0])] + Decoded(entries[1..])
  }

  /** Whether every decoded issue's number is the one it is filed under. */
  predicate NumbersAgree(entries: seq<Entry<GraphIssue>>) {
    forall k :: 0 <= k < |entries| && entries[k].issue.Some? ==>
      entries[k].issue.value.0 == entries[k].issue.value.1.api.number
  }

  function DecodeReply(reply: Reply<GraphIssue>): Reply<Issues.Issue> {
    match reply
    case CallFailed(m) => CallFailed(m)
    case Answered(errors, entries) => Answered(errors, Decoded(entries))
  }

  /** `GetIssuesBatch`: the batch fetch without a scope fallback. Every
      fetched record is filed under its own number. */
  function FetchIssues(numbers: seq<string>, repo: string, reply: Reply<GraphIssue>): (f: Fetch<Issues.Issue>)
    requires reply.Answered? ==> NumbersAgree(reply.entries)
    ensures f.called ==> (f.result.Ok? <==> reply.Answered? && |reply.errors| == 0)
    ensures f.result.Ok? ==> forall key :: key in f.result.value ==> f.result.value[key].number == key
  {
    var f := BatchFetch(numbers, repo, DecodeReply(reply), false);
    if reply.Answered? && f.called && f.result.Ok? then
      CollectFiled(Decoded(reply.entries));
      f
    else f
  }

  /** Records whose number matches their key stay filed under it. */
  lemma {:induction false} CollectFiled(entries: seq<Entry<Issues.Issue>>)
    requires forall k :: 0 <= k < |entries| && entries[k].issue.Some? ==>
               entries[k].issue.value.1.number == IntToString(entries[k].issue.value.0)
    ensures forall key :: key in Collect(entries) ==> Collect(entries)[key].number == key
  {
    if |entries| > 0 {
      var init := entries[..|entries| - 1];
      assert forall k :: 0 <= k < |init| ==> init[k] == entries[k];
      CollectFiled(init);
    }
  }

  // ------------------------------------------------------------ created issue

  /** The length of the run of decimal digits at `from`. */
  function DigitRun(s: string, from: nat): (n: nat)
    requires from <= |s|
    ensures from + n <= |s|
    ensures forall k :: from <= k < from + n ==> IsDigit(s[k])
    ensures from + n < |s| ==> !IsDigit(s[from + n])
    decreases |s| - from
  {
    if from < |s| && IsDigit(s[from]) then 1 + DigitRun(s, from + 1) else 0
  }

  /** The length of the marker at `i`: "/issues/" in any letter case, or '#'. */
  function MarkerAt(s: string, i: nat): (n: nat)
    requires i <= |s|
    ensures i + n <= |s|
  {
    if i + 8 <= |s| && EqualFold(s[i..i + 8], "/issues/") then 8
    else if i < |s| && s[i] == '#' then 1
    else 0
  }

  /** The pattern `(?i)(?:/issues/|#)(\d+)` matches at `i`. */
  predicate MatchAt(s: string, i: nat)
    requires i <= |s|
  {
    MarkerAt(s, i) > 0 && DigitRun(s, i + MarkerAt(s, i)) > 0
  }

  /** The leftmost match at or after `from`. */
  function FirstMatch(s: string, from: nat): (r: Option<nat>)
    requires from <= |s|
    ensures r.Some? ==> from <= r.value <= |s| && MatchAt(s, r.value)
                        && forall j :: from <= j < r.value ==> !MatchAt(s, j)
    ensures r.None? ==> forall j :: from <= j <= |s| ==> !MatchAt(s, j)
    decreases |s| - from
  {
    if MatchAt(s, from) then Some(from)
    else if from == |s| then None
    else FirstMatch(s, from + 1)
  }

  /** The digits the pattern captures at a match. */
  function Captured(s: string, i: nat): (d: string)
    requires i <= |s| && MatchAt(s, i)
    ensures IsDigits(d)
  {
    var start := i + MarkerAt(s, i);
    s[start..start + DigitRun(s, start)]
  }

  /** `parseIssueNumber`: the digits after the leftmost "/issues/" or '#'
      followed by a digit; an error quoting the trimmed output otherwise. */
  function ParseIssueNumber(output: string): (r: Result<string>)
    ensures r.Ok? <==> exists i :: 0 <= i <= |output| && MatchAt(output, i)
    ensures r.Ok? ==> exists i :: 0 <= i <= |output| && MatchAt(output, i)
                        && (forall j :: 0 <= j < i ==> !MatchAt(output, j))
                        && r.value == Captured(output, i)
    ensures r.Err? ==> r.msg == "unable to parse issue number from output: " + GoQuote(TrimSpace(output))
  {
    match FirstMatch(output, 0)
    case None => Err("unable to parse issue number from output: " + GoQuote(TrimSpace(output)))
    case Some(i) => Ok(Captured(output, i))
  }

  /** The first reference wins, and the digit run is taken whole. */
  lemma ParseIssueNumberExample()
    ensures ParseIssueNumber("#12 #3") == Ok("12")
  {
    var s := "#12 #3";
    assert s[0] == '#' && s[1] == '1' && s[2] == '2' && s[3] == ' ';
    assert DigitRun(s, 3) == 0;
    assert DigitRun(s, 1) == 2;
    assert MarkerAt(s, 0) == 1;
    assert MatchAt(s, 0);
    assert FirstMatch(s, 0) == Some(0);
    assert s[1..3] == "12";
  }
}

=== FILE: commands.dfy ===
/** The local commands over the store of issue files (internal/app/commands.go)
    and the helpers of internal/app/app.go they share with pull and push:
    `status`, the `list` filters and order, `close`/`reopen`, `new` and the
    check after editing, title truncation, argument selection, the repository
    slug and the label and milestone caches. Files, directories and the
    editor are not modelled: the store is a sequence of files, snapshots are
    a map from issue number to the last synced record, and what an editor
    leaves behind is a parameter. */
module Commands {
  import opened Results
  import opened Text
  import opened Order
  import opened Issues
  import Search
  import Fetching

  // ------------------------------------------------------------ store

  /** The two directories an issue file can live in. */
  datatype Container = Open | Closed

  function ContainerName(c: Container): string {
    match c
    case Open => "open"
    case Closed => "closed"
  }

  /** `dirForState`: a "closed" state goes to the closed container and any
      other state, the empty one included, to the open container. */
  function DirForState(state: string): (c: Container)
    ensures c == Closed <==> state == "closed"
  {
    if state == "closed" then Closed else Open
  }

  /** A container's own name leads back to it. */
  lemma DirForStateName(c: Container)
    ensures DirForState(ContainerName(c)) == c
  {
  }

  /** The directories of the two containers. */
  datatype Dirs = Dirs(open: string, closed: string)

  function DirOf(dirs: Dirs, c: Container): string {
    match c
    case Open => dirs.open
    case Closed => dirs.closed
  }

  /** `IssueFile`: a record, the path it was read from, and its container. */
  datatype IssueFile = IssueFile(issue: Issue, path: string, container: Container)

  /** The last synced copy of each issue, by number. */
  type Snapshots = map<string, Issue>

  function Number(f: IssueFile): string {
    f.issue.number
  }

  /** The items of `s` that `keep` accepts, in order. */
  function Filter<T(==,!new)>(s: seq<T>, keep: T -> bool): (r: seq<T>)
    ensures |r| <= |s|
    ensures forall x :: x in r <==> x in s && keep(x)
  {
    if |s| == 0 then []
    else (if keep(s[0]) then [s[0]] else []) + Filter(s[1..], keep)
  }

  /** Filtering keeps everything when everything is accepted. */
  lemma {:induction false} FilterAll<T(!new)>(s: seq<T>, keep: T -> bool)
    requires forall k :: 0 <= k < |s| ==> keep(s[k])
    ensures Filter(s, keep) == s
  {
    if |s| > 0 {
      FilterAll(s[1..], keep);
      SeqCons(s);
    }
  }

  /** Filtering distributes over concatenation, so kept items stay in order. */
  lemma {:induction false} FilterAppend<T(!new)>(a: seq<T>, b: seq<T>, keep: T -> bool)
    ensures Filter(a + b, keep) == Filter(a, keep) + Filter(b, keep)
  {
    if |a| > 0 {
      FilterAppend(a[1..], b, keep);
      var head := if keep(a[0]) then [a[0]] else [];
      assert (a + b)[0] == a[0] && (a + b)[1..] == a[1..] + b;
      assert Filter(a + b, keep) == head + Filter(a[1..] + b, keep);
      assert Filter(a, keep) == head + Filter(a[1..], keep);
    } else {
      assert a + b == b;
    }
  }

  /** The numbers of some files, in order. */
  function Numbers(files: seq<IssueFile>): (r: seq<string>)
    ensures |r| == |files|
    ensures forall k :: 0 <= k < |files| ==> r[k] == files[k].issue.number
  {
    seq(|files|, k requires 0 <= k < |files| => files[k].issue.number)
  }

  // ------------------------------------------------------------ status

  datatype Kind = NewLocal | Modified

  /** A permanent issue is modified when it has no snapshot to compare with
      or differs from it (the sync timestamp aside). */
  predicate ChangedSinceSync(it: Issue, snapshots: Snapshots) {
    it.number !in snapshots || !EqualIgnoringSyncedAt(it, snapshots[it.number])
  }

  /** How `status` reports one issue: a temporary id is new, a changed
      permanent issue is modified, and anything else is not reported. */
  function StatusKind(it: Issue, snapshots: Snapshots): (r: Option<Kind>)
    ensures r == Some(NewLocal) <==> IsLocal(it.number)
    ensures r == Some(Modified) <==> !IsLocal(it.number) && ChangedSinceSync(it, snapshots)
  {
    if IsLocal(it.number) then Some(NewLocal)
    else if ChangedSinceSync(it, snapshots) then Some(Modified)
    else None
  }

  /** The numbers `status` lists under each heading, each in ascending order. */
  datatype Status = Status(modified: seq<string>, newLocal: seq<string>)

  function Reported(files: seq<IssueFile>, snapshots: Snapshots, kind: Kind): (r: seq<string>)
    ensures StrictlyAscending(r)
    ensures forall f :: f in files && StatusKind(f.issue, snapshots) == Some(kind) ==> f.issue.number in r
    ensures forall n :: n in r ==>
              exists f :: f in files && StatusKind(f.issue, snapshots) == Some(kind) && f.issue.number == n
  {
    var picked := Filter(files, (f: IssueFile) => StatusKind(f.issue, snapshots) == Some(kind));
    var numbers := Numbers(picked);
    var r := SortUnique(numbers);
    forall n
      ensures n in r <==> n in numbers
    {
      assert n in Elems(r) <==> n in Elems(numbers);
    }
    forall n | n in numbers
      ensures exists f :: f in files && StatusKind(f.issue, snapshots) == Some(kind) && f.issue.number == n
    {
      var k :| 0 <= k < |numbers| && numbers[k] == n;
      assert picked[k] in picked;
    }
    forall f | f in files && StatusKind(f.issue, snapshots) == Some(kind)
      ensures f.issue.number in numbers
    {
      var k :| 0 <= k < |picked| && picked[k] == f;
      assert numbers[k] == f.issue.number;
    }
    r
  }

  /** `Status`: new local issues and modified permanent issues, by number.
      Two files with one number are listed once. */
  function StatusOf(files: seq<IssueFile>, snapshots: Snapshots): (r: Status)
    ensures forall f :: f in files && IsLocal(f.issue.number) ==> f.issue.number in r.newLocal
    ensures forall f :: f in files && !IsLocal(f.issue.number) && ChangedSinceSync(f.issue, snapshots) ==>
              f.issue.number in r.modified
    ensures forall n :: n in r.modified ==> !IsLocal(n)
    ensures forall n :: n in r.newLocal ==> IsLocal(n)
  {
    Status(Reported(files, snapshots, Modified), Reported(files, snapshots, NewLocal))
  }

  /** A permanent issue equal to its snapshot is not reported. */
  lemma UnchangedNotReported(files: seq<IssueFile>, snapshots: Snapshots, n: string)
    requires !IsLocal(n) && n in snapshots
    requires forall f :: f in files && f.issue.number == n ==> EqualIgnoringSyncedAt(f.issue, snapshots[n])
    ensures n !in StatusOf(files, snapshots).modified && n !in StatusOf(files, snapshots).newLocal
  {
  }

  // ------------------------------------------------------------ titles

  /** The title as `list` shows it: longer than 50 bytes, it is cut to 47
      and "..." is added. */
  function TruncateTitle(title: string): (r: string)
    ensures |r| <= 50
    ensures |title| <= 50 ==> r == title
    ensures |title| > 50 ==> |r| == 50 && r[..47] == title[..47] && r[47..] == "..."
  {
    if |title| > 50 then title[..47] + "..." else title
  }

  /** A shown title is shown as it is. */
  lemma TruncateTitleIdempotent(title: string)
    ensures TruncateTitle(TruncateTitle(title)) == TruncateTitle(title)
  {
  }

  // ------------------------------------------------------------ close / reopen

  /** `Close`: an issue in the open container gets state "closed", the
      trimmed reason (none when blank) and a path in the closed container;
      one already in the closed container is left alone. */
  function Close(f: IssueFile, reason: string, dirs: Dirs): (r: IssueFile)
    ensures r.container == Closed
    ensures r.issue == f.issue.(state := r.issue.state, stateReason := r.issue.stateReason)
    ensures f.container == Open ==>
              r.issue.state == "closed"
              && (AllSpace(reason) <==> r.issue.stateReason.None?)
              && (r.issue.stateReason.Some? ==> r.issue.stateReason.value == TrimSpace(reason))
              && r.path == PathFor(dirs.closed, f.issue.number, f.issue.title)
    ensures f.container == Closed ==> r == f
  {
    if f.container == Closed then f
    else
      var t := TrimSpace(reason);
      var it := f.issue.(state := "closed", stateReason := if t == "" then None else Some(t));
      IssueFile(it, PathFor(dirs.closed, it.number, it.title), Closed)
  }

  /** `Reopen`: the mirror image, clearing the reason. */
  function Reopen(f: IssueFile, dirs: Dirs): (r: IssueFile)
    ensures r.container == Open
    ensures r.issue == f.issue.(state := r.issue.state, stateReason := r.issue.stateReason)
    ensures f.container == Closed ==>
              r.issue.state == "open" && r.issue.stateReason.None?
              && r.path == PathFor(dirs.open, f.issue.number, f.issue.title)
    ensures f.container == Open ==> r == f
  {
    if f.container == Open then f
    else
      var it := f.issue.(state := "open", stateReason := None);
      IssueFile(it, PathFor(dirs.open, it.number, it.title), Open)
  }

  /** Closing twice is closing once, and so is reopening. */
  lemma CloseReopenIdempotent(f: IssueFile, reason: string, other: string, dirs: Dirs)
    ensures Close(Close(f, reason, dirs), other, dirs) == Close(f, reason, dirs)
    ensures Reopen(Reopen(f, dirs), dirs) == Reopen(f, dirs)
  {
  }

  /** An open issue in its place, without a reason, comes back unchanged from
      a close and a reopen, whatever the reason given. */
  lemma CloseThenReopen(f: IssueFile, reason: string, dirs: Dirs)
    requires f.container == Open && f.issue.state == "open" && f.issue.stateReason.None?
    requires f.path == PathFor(dirs.open, f.issue.number, f.issue.title)
    ensures Reopen(Close(f, reason, dirs), dirs) == f
  {
  }

  // ------------------------------------------------------------ new issues

  /** A record with every field empty. */
  const Blank := Issue([], [], [], [], [], [], [], [], None, None, [], [], None, [], [], None, None)

  /** `NewOptions`: whether to open the editor, and the initial labels. */
  datatype NewOptions = NewOptions(edit: bool, labels: seq<string>)

  /** A created issue file: the record written and where. */
  datatype Created = Created(issue: Issue, path: string)

  /** `issueFromEditor`: the record read back from the editor's template,
      with its title trimmed and required, the given number, and the open
      state when none is set. */
  function IssueFromEditor(parsed: Result<Issue>, number: string): (r: Result<Issue>)
    ensures r.Ok? <==> parsed.Ok? && !AllSpace(parsed.value.title)
    ensures r.Ok? ==> r.value.number == number && r.value.title == TrimSpace(parsed.value.title)
                      && r.value.state != []
  {
    match parsed
    case Err(e) => Err(e)
    case Ok(edited) =>
      var t := TrimSpace(edited.title);
      if t == "" then Err("title is required (set it in the editor)")
      else Ok(edited.(title := t, number := number, state := if edited.state == "" then "open" else edited.state))
  }

  /** `finalizeEditedIssue`: after editing a new issue, its title must not be
      blank and its number must be empty or the expected one. An empty number
      is filled in (and the record rewritten with the trimmed title); the path
      follows the trimmed title. */
  function FinalizeEdited(parsed: Result<Issue>, number: string, dir: string): (r: Result<Created>)
    ensures r.Ok? <==> parsed.Ok? && !AllSpace(parsed.value.title)
                       && (parsed.value.number == [] || parsed.value.number == number)
    ensures r.Ok? ==> r.value.issue.number == number && !AllSpace(r.value.issue.title)
                      && r.value.path == PathFor(dir, number, TrimSpace(parsed.value.title))
  {
    match parsed
    case Err(e) => Err(e)
    case Ok(edited) =>
      var t := TrimSpace(edited.title);
      if t == "" then Err("title is required")
      else if edited.number != "" && edited.number != number then Err("issue number changed; expected " + number)
      else
        var stored := if edited.number != number then edited.(title := t, number := number) else edited;
        Ok(Created(stored, PathFor(dir, number, t)))
  }

  /** The record `new` writes for a given title. */
  function NewRecord(number: string, title: string, labels: seq<string>): Issue {
    Blank.(number := number, title := title, labels := labels, state := "open")
  }

  /** `NewIssue`: a new issue gets the temporary id "T" followed by the
      generated id and lands in the open container. A blank title is an
      error unless the editor is used; `edited` is what the editor leaves
      behind (the template's record when the title is blank, the created
      file's record otherwise). */
  function NewIssue(title: string, opts: NewOptions, id: string, edited: Result<Issue>, dirs: Dirs): (r: Result<Created>)
    ensures AllSpace(title) && !opts.edit ==> r.Err?
    ensures r.Ok? ==> r.value.issue.number == "T" + id && !AllSpace(r.value.issue.title)
  {
    var number := "T" + id;
    var t := TrimSpace(title);
    if t == "" && !opts.edit then Err("title is required (provide a title or use --edit)")
    else
      var start := if t == "" then IssueFromEditor(edited, number) else Ok(NewRecord(number, t, opts.labels));
      match start
      case Err(e) => Err(e)
      case Ok(it0) =>
        var it := it0.(number := number);
        if TrimSpace(it.title) == "" then Err("title is required")
        else if opts.edit && t != "" then FinalizeEdited(edited, number, dirs.open)
        else
          var it1 := if it.state == "" then it.(state := "open") else it;
          Ok(Created(it1, PathFor(dirs.open, number, it1.title)))
  }

  /** Without the editor, a non-blank title gives an open issue with that
      title, trimmed, and the given labels. */
  lemma NewIssuePlain(title: string, opts: NewOptions, id: string, edited: Result<Issue>, dirs: Dirs)
    requires !AllSpace(title) && !opts.edit
    ensures NewIssue(title, opts, id, edited, dirs) ==
              Ok(Created(NewRecord("T" + id, TrimSpace(title), opts.labels),
                         PathFor(dirs.open, "T" + id, TrimSpace(title))))
  {
    TrimSpaceIdempotent(title);
  }

  /** A new issue always has a temporary id. */
  lemma NewIssueIsLocal(title: string, opts: NewOptions, id: string, edited: Result<Issue>, dirs: Dirs)
    ensures NewIssue(title, opts, id, edited, dirs).Ok? ==> IsLocal(NewIssue(title, opts, id, edited, dirs).value.issue.number)
  {
    var n := "T" + id;
    assert n[..1] == "T";
  }

  // ------------------------------------------------------------ arguments

  /** The path functions of the platform (`filepath.Clean`, `IsAbs`, `Join`
      and the root-relative path), which are not modelled. */
  datatype PathOps = PathOps(
    clean: string -> string,
    isAbs: string -> bool,
    join: (string, string) -> string,
    relative: (string, string) -> string)

  /** An argument names a file when it ends in ".md" or holds a separator. */
  predicate IsPathArg(arg: string) {
    HasSuffix(arg, ".md") || '/' in arg
  }

  /** The ids the arguments ask for. */
  function IdsWanted(args: seq<string>): set<string> {
    set a | a in args && !AllSpace(a) && !IsPathArg(TrimSpace(a)) :: TrimSpace(a)
  }

  /** The cleaned paths the arguments ask for, relative ones also under the root. */
  function PathsWanted(root: string, args: seq<string>, ops: PathOps): set<string> {
    (set a | a in args && !AllSpace(a) && IsPathArg(TrimSpace(a)) :: ops.clean(TrimSpace(a)))
    + (set a | a in args && !AllSpace(a) && IsPathArg(TrimSpace(a)) && !ops.isAbs(ops.clean(TrimSpace(a)))
           :: ops.join(root, ops.clean(TrimSpace(a))))
  }

  /** Whether a file is named by the arguments: by its number, its cleaned
      path or its cleaned path relative to the root. */
  predicate Named(root: string, args: seq<string>, ops: PathOps, f: IssueFile) {
    f.issue.number in IdsWanted(args)
    || ops.clean(f.path) in PathsWanted(root, args, ops)
    || ops.clean(ops.relative(root, f.path)) in PathsWanted(root, args, ops)
  }

  /** `filterIssuesByArgs`: no arguments select everything; otherwise the
      named files in order, and an error when none is named. */
  function FilterByArgs(root: string, files: seq<IssueFile>, args: seq<string>, ops: PathOps): (r: Result<seq<IssueFile>>)
    ensures |args| == 0 ==> r == Ok(files)
    ensures |args| > 0 && r.Ok? ==> forall f :: f in r.value <==> f in files && Named(root, args, ops, f)
    ensures |args| > 0 ==> (r.Err? <==> forall f :: f in files ==> !Named(root, args, ops, f))
  {
    if |args| == 0 then Ok(files)
    else
      var picked := Filter(files, (f: IssueFile) => Named(root, args, ops, f));
      if |picked| == 0 then Err("no matching issues for arguments: " + Join(args, ", "))
      else
        assert picked[0] in picked;
        Ok(picked)
  }

  /** A plain id argument selects exactly the files with that number. */
  lemma FilterById(root: string, files: seq<IssueFile>, id: string, ops: PathOps, f: IssueFile)
    requires !AllSpace(id) && TrimSpace(id) == id && !IsPathArg(id)
    requires f in files && f.issue.number == id
    ensures FilterByArgs(root, files, [id], ops).Ok?
    ensures f in FilterByArgs(root, files, [id], ops).value
  {
    assert id in IdsWanted([id]);
    assert Named(root, [id], ops, f);
  }

  // ------------------------------------------------------------ configuration

  /** `repoSlug`: "owner/repo" from the trimmed parts, or "" when either is blank. */
  function RepoSlug(owner: string, repo: string): (r: string)
    ensures r == [] <==> AllSpace(owner) || AllSpace(repo)
  {
    var o := TrimSpace(owner);
    var n := TrimSpace(repo);
    if o == "" || n == "" then "" else o + "/" + n
  }

  /** The slug splits back into the trimmed owner and repository. */
  lemma RepoSlugSplits(owner: string, repo: string)
    requires !AllSpace(owner) && !AllSpace(repo) && '/' !in TrimSpace(owner)
    ensures Fetching.SplitRepo(RepoSlug(owner, repo)) == (TrimSpace(owner), TrimSpace(repo))
  {
    Fetching.SplitRepoJoin(TrimSpace(owner), TrimSpace(repo));
  }

  /** A cached label: name and colour. */
  datatype LabelEntry = LabelEntry(name: string, color: string)

  /** `labelCacheToColorMap`: colours by lowercased name; a later entry with
      the same name wins. */
  function ColorMap(labels: seq<LabelEntry>): (r: map<string, string>)
    ensures forall k :: 0 <= k < |labels| ==> ToLower(labels[k].name) in r
    ensures forall n :: n in r ==> exists k :: 0 <= k < |labels| && ToLower(labels[k].name) == n
  {
    if |labels| == 0 then map[]
    else
      var init := ColorMap(labels[..|labels| - 1]);
      var last := labels[|labels| - 1];
      assert forall k :: 0 <= k < |labels| - 1 ==> labels[..|labels| - 1][k] == labels[k];
      init[ToLower(last.name) := last.color]
  }

  /** Each name maps to the colour of its last entry. */
  lemma {:induction false} ColorMapLastWins(labels: seq<LabelEntry>, k: nat)
    requires k < |labels|
    requires forall j :: k < j < |labels| ==> ToLower(labels[j].name) != ToLower(labels[k].name)
    ensures ColorMap(labels)[ToLower(labels[k].name)] == labels[k].color
  {
    if k < |labels| - 1 {
      var init := labels[..|labels| - 1];
      assert forall j :: k < j < |init| ==> init[j] == labels[j];
      ColorMapLastWins(init, k);
    }
  }

  /** A cached milestone: only the title matters here. */
  datatype MilestoneEntry = MilestoneEntry(title: string, state: string)

  /** `milestoneNames`: the lowercased titles. */
  function MilestoneNames(milestones: seq<MilestoneEntry>): set<string> {
    set m | m in milestones :: ToLower(m.title)
  }

  /** Looking a milestone up by its lowercased name ignores case. */
  lemma MilestoneKnown(milestones: seq<MilestoneEntry>, name: string)
    ensures ToLower(name) in MilestoneNames(milestones) <==>
              exists k :: 0 <= k < |milestones| && EqualFold(milestones[k].title, name)
  {
    if ToLower(name) in MilestoneNames(milestones) {
      var m :| m in milestones && ToLower(m.title) == ToLower(name);
      var k :| 0 <= k < |milestones| && milestones[k] == m;
      assert EqualFold(milestones[k].title, name);
    }
    if exists k :: 0 <= k < |milestones| && EqualFold(milestones[k].title, name) {
      var k :| 0 <= k < |milestones| && EqualFold(milestones[k].title, name);
      assert milestones[k] in milestones;
    }
  }

  // ------------------------------------------------------------ list

  /** `ListOptions`: the flags of `list`. A limit of zero or less means none. */
  datatype ListOptions = ListOptions(
    all: bool,
    state: string,
    labels: seq<string>,
    assignee: string,
    author: string,
    milestone: string,
    mention: string,
    localOnly: bool,
    modified: bool,
    search: string,
    limit: int)

  /** What the search matcher sees of a file: the container stands for the state. */
  function DataOf(f: IssueFile): Search.IssueData {
    Search.IssueData(
      f.issue.number, f.issue.title, f.issue.body, ContainerName(f.container),
      f.issue.labels, f.issue.assignees, f.issue.author, f.issue.milestone,
      f.issue.issueType, f.issue.projects, f.issue.syncedAt, f.issue.createdAt, f.issue.updatedAt)
  }

  /** The parsed search, when one is given. */
  function QueryOf(opts: ListOptions): Option<Search.Query> {
    if opts.search != "" then Some(Search.Parse(opts.search)) else None
  }

  /** Some wanted label equals some label of the issue, without case. */
  predicate AnyLabel(wants: seq<string>, haves: seq<string>) {
    exists i, j :: 0 <= i < |wants| && 0 <= j < |haves| && EqualFold(wants[i], haves[j])
  }

  /** The state filters: the `--state` flag compares the container exactly,
      a state in the search compares it without case, and with neither (and
      no `--all`) only the open container is listed. */
  predicate StatePasses(opts: ListOptions, query: Option<Search.Query>, f: IssueFile) {
    (opts.state == "" || ContainerName(f.container) == opts.state)
    && (query.None? || query.value.state == "" || EqualFold(ContainerName(f.container), query.value.state))
    && (opts.all || opts.state != "" || (query.Some? && query.value.state != "") || f.container == Open)
  }

  /** The flag filters of `list`. */
  predicate OptionsPass(opts: ListOptions, snapshots: Snapshots, f: IssueFile) {
    (!opts.localOnly || IsLocal(f.issue.number))
    && (!opts.modified || IsLocal(f.issue.number) || ChangedSinceSync(f.issue, snapshots))
    && (|opts.labels| == 0 || AnyLabel(opts.labels, f.issue.labels))
    && (opts.assignee == "" || Search.ContainsFold(f.issue.assignees, opts.assignee))
    && (opts.author == "" || EqualFold(opts.author, f.issue.author))
    && (opts.milestone == "" || EqualFold(opts.milestone, f.issue.milestone))
    && (opts.mention == "" || Contains(ToLower(f.issue.body), ToLower("@" + opts.mention)))
  }

  /** Whether `list` shows a file: the state filters, the flag filters, and
      the search's other conditions. */
  predicate Listed(opts: ListOptions, query: Option<Search.Query>, snapshots: Snapshots, f: IssueFile) {
    StatePasses(opts, query, f) && OptionsPass(opts, snapshots, f)
    && (query.None? || Search.Match(query.value.(state := ""), DataOf(f)))
  }

  /** Without `--all`, `--state` or a state in the search, exactly the open
      container passes the state filters. */
  lemma DefaultListsOpen(opts: ListOptions, query: Option<Search.Query>, f: IssueFile)
    requires !opts.all && opts.state == "" && (query.None? || query.value.state == "")
    ensures StatePasses(opts, query, f) <==> f.container == Open
  {
  }

  /** `--modified` keeps temporary ids and permanent issues that differ from
      their snapshot or have none, and changes nothing else. */
  lemma ModifiedFilter(opts: ListOptions, query: Option<Search.Query>, snapshots: Snapshots, f: IssueFile)
    ensures Listed(opts.(modified := true), query, snapshots, f) <==>
              Listed(opts.(modified := false), query, snapshots, f)
              && (IsLocal(f.issue.number) || ChangedSinceSync(f.issue, snapshots))
  {
  }

  /** For one wanted label, the `--label` flag agrees with a `label:`
      qualifier; with several, the flag wants any and the qualifier all. */
  lemma LabelFlagAgrees(want: string, haves: seq<string>)
    ensures AnyLabel([want], haves) <==> Search.AllFound([want], haves)
  {
    if AnyLabel([want], haves) {
      var i, j :| 0 <= i < 1 && 0 <= j < |haves| && EqualFold([want][i], haves[j]);
      assert EqualFold(haves[j], want);
    }
    if Search.ContainsFold(haves, want) {
      var j :| 0 <= j < |haves| && EqualFold(haves[j], want);
      assert EqualFold([want][0], haves[j]);
    }
  }

  /** The `--mention` flag agrees with a `mentions:` qualifier. */
  lemma MentionFlagAgrees(who: string, body: string)
    ensures Contains(ToLower(body), ToLower("@" + who)) <==> Search.AllMentioned([who], body)
  {
    assert [who][0] == who;
  }

  /** The default order: permanent ids before temporary ones, each group by
      number. */
  predicate ListBefore(a: IssueFile, b: IssueFile) {
    if IsLocal(a.issue.number) != IsLocal(b.issue.number) then !IsLocal(a.issue.number)
    else Lt(a.issue.number, b.issue.number)
  }

  lemma ListBeforeTransitive(a: IssueFile, b: IssueFile, c: IssueFile)
    requires ListBefore(a, b) && ListBefore(b, c)
    ensures ListBefore(a, c)
  {
    if IsLocal(a.issue.number) == IsLocal(b.issue.number) == IsLocal(c.issue.number) {
      LtTransitive(a.issue.number, b.issue.number, c.issue.number);
    }
  }

  lemma ListBeforeIrreflexive(a: IssueFile)
    ensures !ListBefore(a, a)
  {
    LtIrreflexive(a.issue.number);
  }

  predicate InListOrder(s: seq<IssueFile>) {
    forall i, j :: 0 <= i < j < |s| ==> !ListBefore(s[j], s[i])
  }

  /** No file of `s` goes before `y`. */
  predicate NoneBefore(s: seq<IssueFile>, y: IssueFile) {
    forall k :: 0 <= k < |s| ==> !ListBefore(s[k], y)
  }

  /** Insert `x` before the first file it goes before. */
  function InsertFile(x: IssueFile, s: seq<IssueFile>): (r: seq<IssueFile>)
    ensures |r| == |s| + 1
  {
    if |s| == 0 then [x]
    else if ListBefore(x, s[0]) then [x] + s
    else [s[0]] + InsertFile(x, s[1..])
  }

  lemma {:induction false} InsertFilePermutes(x: IssueFile, s: seq<IssueFile>)
    ensures multiset(InsertFile(x, s)) == multiset(s) + multiset{x}
  {
    if |s| > 0 && !ListBefore(x, s[0]) {
      InsertFilePermutes(x, s[1..]);
      SeqCons(s);
    }
  }

  lemma OrderCons(y: IssueFile, s: seq<IssueFile>)
    requires InListOrder(s) && NoneBefore(s, y)
    ensures InListOrder([y] + s)
  {
    assert forall k :: 0 <= k < |s| ==> ([y] + s)[k + 1] == s[k];
  }

  lemma {:induction false} InsertFileBound(x: IssueFile, s: seq<IssueFile>, y: IssueFile)
    requires !ListBefore(x, y) && NoneBefore(s, y)
    ensures NoneBefore(InsertFile(x, s), y)
  {
    if |s| > 0 && !ListBefore(x, s[0]) {
      InsertFileBound(x, s[1..], y);
      assert forall k :: 0 <= k < |s| - 1 ==> InsertFile(x, s)[k + 1] == InsertFile(x, s[1..])[k];
    }
  }

  /** A file that goes before the first of an ordered list goes before none of it. */
  lemma FrontBound(x: IssueFile, s: seq<IssueFile>)
    requires InListOrder(s) && |s| > 0 && ListBefore(x, s[0])
    ensures NoneBefore(s, x)
  {
    forall k | 0 <= k < |s|
      ensures !ListBefore(s[k], x)
    {
      ListBeforeIrreflexive(s[0]);
      assert !ListBefore(s[k], s[0]);
      if ListBefore(s[k], x) {
        ListBeforeTransitive(s[k], x, s[0]);
      }
    }
  }

  lemma {:induction false} InsertFileOrdered(x: IssueFile, s: seq<IssueFile>)
    requires InListOrder(s)
    ensures InListOrder(InsertFile(x, s))
  {
    if |s| > 0 {
      if ListBefore(x, s[0]) {
        FrontBound(x, s);
        OrderCons(x, s);
      } else {
        assert InListOrder(s[1..]) by {
          assert forall k :: 0 <= k < |s| - 1 ==> s[1..][k] == s[k + 1];
        }
        InsertFileOrdered(x, s[1..]);
        assert NoneBefore(s[1..], s[0]) by {
          assert forall k :: 0 <= k < |s| - 1 ==> s[1..][k] == s[k + 1];
        }
        InsertFileBound(x, s[1..], s[0]);
        OrderCons(s[0], InsertFile(x, s[1..]));
      }
    }
  }

  /** The default order of `list` (`sort.Slice` with the order above). */
  function DefaultOrder(s: seq<IssueFile>): (r: seq<IssueFile>)
    ensures |r| == |s|
    ensures InListOrder(r)
  {
    if |s| == 0 then []
    else
      var r0 := DefaultOrder(s[..|s| - 1]);
      InsertFileOrdered(s[|s| - 1], r0);
      InsertFile(s[|s| - 1], r0)
  }

  /** The default order is a rearrangement. */
  lemma {:induction false} DefaultOrderPermutes(s: seq<IssueFile>)
    ensures multiset(DefaultOrder(s)) == multiset(s)
  {
    if |s| > 0 {
      var init := s[..|s| - 1];
      DefaultOrderPermutes(init);
      InsertFilePermutes(s[|s| - 1], DefaultOrder(init));
      assert s == init + [s[|s| - 1]];
    }
  }

  /** The default order holds the same files. */
  lemma DefaultOrderElems(s: seq<IssueFile>)
    ensures forall f :: f in DefaultOrder(s) <==> f in s
  {
    DefaultOrderPermutes(s);
    forall f
      ensures f in DefaultOrder(s) <==> f in s
    {
      assert f in DefaultOrder(s) <==> f in multiset(DefaultOrder(s));
      assert f in s <==> f in multiset(s);
    }
  }

  /** In the default order permanent ids come first, and numbers ascend
      within each group. */
  lemma DefaultOrderGroups(s: seq<IssueFile>, i: int, j: int)
    requires InListOrder(s) && 0 <= i < j < |s|
    ensures IsLocal(s[i].issue.number) ==> IsLocal(s[j].issue.number)
    ensures IsLocal(s[i].issue.number) == IsLocal(s[j].issue.number) ==> !Lt(s[j].issue.number, s[i].issue.number)
  {
    assert !ListBefore(s[j], s[i]);
  }

  /** The search records of some files. */
  function Datas(s: seq<IssueFile>): (r: seq<Search.IssueData>)
    ensures |r| == |s| && forall k :: 0 <= k < |s| ==> r[k] == DataOf(s[k])
  {
    seq(|s|, k requires 0 <= k < |s| => DataOf(s[k]))
  }

  /** The index the number-to-index map gives: the last file with that
      number, or 0 (the map's zero value) when there is none. */
  function IndexOfNumber(s: seq<IssueFile>, n: string): (r: nat)
    ensures |s| > 0 ==> r < |s|
    ensures (exists k :: 0 <= k < |s| && s[k].issue.number == n) ==> r < |s| && s[r].issue.number == n
    ensures forall k :: r < k < |s| ==> s[k].issue.number != n
  {
    if |s| == 0 then 0
    else if s[|s| - 1].issue.number == n then |s| - 1
    else
      var r := IndexOfNumber(s[..|s| - 1], n);
      assert forall k :: 0 <= k < |s| - 1 ==> s[..|s| - 1][k] == s[k];
      r
  }

  /** With a search, `list` sorts the search records and puts the files back
      in that order by number. */
  function SearchOrder(q: Search.Query, s: seq<IssueFile>): (r: seq<IssueFile>)
    ensures |r| == |s|
    ensures forall k :: 0 <= k < |r| ==> r[k] in s
    ensures forall k :: 0 <= k < |r| ==> r[k].issue.number == Search.SortIssues(q, Datas(s))[k].number
  {
    var sorted := Search.SortIssues(q, Datas(s));
    assert |sorted| == |s| by {
      assert |multiset(sorted)| == |multiset(Datas(s))|;
    }
    forall k | 0 <= k < |sorted|
      ensures exists j :: 0 <= j < |s| && s[j].issue.number == sorted[k].number
    {
      assert sorted[k] in multiset(Datas(s));
      var j :| 0 <= j < |s| && Datas(s)[j] == sorted[k];
      assert s[j].issue.number == sorted[k].number;
    }
    seq(|sorted|, k requires 0 <= k < |sorted| => s[IndexOfNumber(s, sorted[k].number)])
  }

  /** With distinct numbers, putting the files back by number lands them in
      exactly the sorted order. */
  lemma SearchOrderSorted(q: Search.Query, s: seq<IssueFile>)
    requires forall i, j :: 0 <= i < j < |s| ==> s[i].issue.number != s[j].issue.number
    ensures Datas(SearchOrder(q, s)) == Search.SortIssues(q, Datas(s))
    ensures Search.Sorted(q, Datas(SearchOrder(q, s)))
  {
    var sorted := Search.SortIssues(q, Datas(s));
    var r := SearchOrder(q, s);
    forall k | 0 <= k < |r|
      ensures DataOf(r[k]) == sorted[k]
    {
      assert sorted[k] in multiset(Datas(s));
      var j :| 0 <= j < |s| && Datas(s)[j] == sorted[k];
      var i := IndexOfNumber(s, sorted[k].number);
      assert s[i].issue.number == s[j].issue.number;
      assert i == j;
    }
  }

  /** The order of `list`: the search's when there is a search, the default one otherwise. */
  function Ordered(query: Option<Search.Query>, s: seq<IssueFile>): (r: seq<IssueFile>)
    ensures |r| == |s|
    ensures forall f :: f in r ==> f in s
    ensures query.None? ==> InListOrder(r) && forall f :: f in s ==> f in r
  {
    match query
    case None => DefaultOrderElems(s); DefaultOrder(s)
    case Some(q) => SearchOrder(q, s)
  }

  /** `--limit`: the first `limit` files when it is positive. */
  function Limit(s: seq<IssueFile>, limit: int): (r: seq<IssueFile>)
    ensures limit > 0 ==> |r| <= limit
    ensures limit <= 0 ==> r == s
    ensures |r| <= |s| && r == s[..|r|]
  {
    if limit > 0 && |s| > limit then s[..limit] else s
  }

  /** The files `list` shows, in store order. */
  function Selection(files: seq<IssueFile>, opts: ListOptions, snapshots: Snapshots): (r: seq<IssueFile>)
    ensures forall f :: f in r <==> f in files && Listed(opts, QueryOf(opts), snapshots, f)
  {
    Filter(files, (f: IssueFile) => Listed(opts, QueryOf(opts), snapshots, f))
  }

  /** `List`: the listed files, in the search's order when there is a search
      and the default order otherwise, cut to the limit. */
  function List(files: seq<IssueFile>, opts: ListOptions, snapshots: Snapshots): (r: seq<IssueFile>)
    ensures forall f :: f in r ==> f in files && Listed(opts, QueryOf(opts), snapshots, f)
    ensures opts.limit > 0 ==> |r| <= opts.limit
    ensures opts.limit <= 0 && opts.search == "" ==>
              forall f :: f in files && Listed(opts, QueryOf(opts), snapshots, f) ==> f in r
    ensures opts.search == "" ==> InListOrder(r)
  {
    var filtered := Selection(files, opts, snapshots);
    var ordered := Ordered(QueryOf(opts), filtered);
    var r := Limit(ordered, opts.limit);
    assert forall f :: f in r ==> f in ordered by {
      forall f | f in r
        ensures f in ordered
      {
        var k :| 0 <= k < |r| && r[k] == f;
        assert ordered[k] == f;
      }
    }
    r
  }
}

=== FILE: editplan.dfy ===
/** The edit plan push sends for one issue: the difference between the
    baseline copy and the local copy (internal/app/app.go, `diffStringSet`,
    `diffIssue` and `hasEdits`; the change record of internal/ghcli/client.go). */
module EditPlan {
  import opened Results
  import opened Text
  import opened Order
  import opened Issues

  /** `IssueChange`: the edits to apply. `None` is a field left alone. */
  datatype IssueChange = IssueChange(
    title: Option<string>,
    body: Option<string>,
    milestone: Option<string>,
    addLabels: seq<string>,
    removeLabels: seq<string>,
    addAssignees: seq<string>,
    removeAssignees: seq<string>,
    state: Option<string>,
    stateReason: Option<string>,
    stateTransition: Option<string>,
    stateWasOpen: bool,
    stateWasClosed: bool,
    stateIsOpen: bool,
    stateIsClosed: bool)

  /** The items of `s` that are not in `drop`, in order. */
  function Without(s: seq<string>, drop: set<string>): (r: seq<string>)
    ensures Elems(r) == Elems(s) - drop
  {
    if |s| == 0 then []
    else
      var rest := Without(s[1..], drop);
      ElemsCons(s);
      if s[0] in drop then rest
      else
        ElemsCons([s[0]] + rest);
        assert ([s[0]] + rest)[1..] == rest;
        [s[0]] + rest
  }

  /** `diffStringSet`: the items to add and to remove, each sorted and
      without duplicates. Items are compared exactly, without trimming. */
  function DiffStringSet(prev: seq<string>, next: seq<string>): (r: (seq<string>, seq<string>))
    ensures StrictlyAscending(r.0) && Elems(r.0) == Elems(next) - Elems(prev)
    ensures StrictlyAscending(r.1) && Elems(r.1) == Elems(prev) - Elems(next)
  {
    (SortUnique(Without(next, Elems(prev))), SortUnique(Without(prev, Elems(next))))
  }

  /** Nothing is both added and removed, and applying the difference to the
      old set gives the new set. */
  lemma DiffStringSetApplies(prev: seq<string>, next: seq<string>)
    ensures var (add, remove) := DiffStringSet(prev, next);
            && Elems(add) * Elems(remove) == {}
            && (Elems(prev) - Elems(remove)) + Elems(add) == Elems(next)
            && (|add| == 0 && |remove| == 0 <==> Elems(prev) == Elems(next))
  {
    var (add, remove) := DiffStringSet(prev, next);
    if |add| == 0 && |remove| == 0 {
      assert Elems(add) == {} && Elems(remove) == {};
    }
    if Elems(prev) == Elems(next) {
      assert Elems(add) == {} && Elems(remove) == {};
      NoElems(add);
      NoElems(remove);
    }
  }


  /** The state transition `diffIssue` requests. */
  function Transition(originalState: string, localState: string): (r: Option<string>)
    ensures r.Some? <==> originalState != "" && originalState != localState
                         && (localState == "closed" || localState == "open")
    ensures r.Some? ==> r.value == (if localState == "closed" then "close" else "reopen")
  {
    if originalState != "" && originalState != localState then
      if localState == "closed" then Some("close")
      else if localState == "open" then Some("reopen")
      else None
    else None
  }

  const NoChange := IssueChange(None, None, None, [], [], [], [], None, None, None,
                                false, false, false, false)

  /** `diffIssue`: the edits that turn `original` into `local`. */
  function DiffIssue(original: Issue, local: Issue): (c: IssueChange)
    ensures c.title.Some? <==> original.title != local.title
    ensures c.title.Some? ==> c.title.value == local.title
    ensures c.body.Some? <==> original.body != local.body
    ensures c.body.Some? ==> c.body.value == local.body
    ensures c.milestone.Some? <==> original.milestone != local.milestone
    ensures c.milestone.Some? ==> c.milestone.value == local.milestone
    ensures StrictlyAscending(c.addLabels) && Elems(c.addLabels) == Elems(local.labels) - Elems(original.labels)
    ensures StrictlyAscending(c.removeLabels) && Elems(c.removeLabels) == Elems(original.labels) - Elems(local.labels)
    ensures StrictlyAscending(c.addAssignees)
            && Elems(c.addAssignees) == Elems(local.assignees) - Elems(original.assignees)
    ensures StrictlyAscending(c.removeAssignees)
            && Elems(c.removeAssignees) == Elems(original.assignees) - Elems(local.assignees)
    ensures c.stateReason.Some? <==> NormOpt(original.stateReason) != NormOpt(local.stateReason)
    ensures c.stateReason.Some? ==> c.stateReason.value == NormOpt(local.stateReason)
    ensures c.stateTransition == Transition(original.state, local.state)
    ensures c.state.None? && !c.stateWasOpen && !c.stateWasClosed && !c.stateIsOpen && !c.stateIsClosed
  {
    var (addL, removeL) := DiffStringSet(original.labels, local.labels);
    var (addA, removeA) := DiffStringSet(original.assignees, local.assignees);
    var reason :=
      if (original.stateReason.Some? || local.stateReason.Some?)
         && NormOpt(original.stateReason) != NormOpt(local.stateReason)
      then Some(NormOpt(local.stateReason)) else None;
    NoChange.(
      title := if original.title != local.title then Some(local.title) else None,
      body := if original.body != local.body then Some(local.body) else None,
      milestone := if original.milestone != local.milestone then Some(local.milestone) else None,
      addLabels := addL, removeLabels := removeL,
      addAssignees := addA, removeAssignees := removeA,
      stateTransition := Transition(original.state, local.state),
      stateReason := reason)
  }

  /** `hasEdits`: whether the change needs an edit call. State is not an edit. */
  predicate HasEdits(c: IssueChange) {
    c.title.Some? || c.body.Some? || c.milestone.Some?
    || |c.addLabels| > 0 || |c.removeLabels| > 0
    || |c.addAssignees| > 0 || |c.removeAssignees| > 0
  }

  /** A diff needs an edit call exactly when title, body or milestone differ
      or the label or assignee sets differ; state and state reason alone
      never need one. */
  lemma HasEditsIff(original: Issue, local: Issue)
    ensures HasEdits(DiffIssue(original, local)) <==>
              original.title != local.title || original.body != local.body
              || original.milestone != local.milestone
              || Elems(original.labels) != Elems(local.labels)
              || Elems(original.assignees) != Elems(local.assignees)
  {
    DiffStringSetApplies(original.labels, local.labels);
    DiffStringSetApplies(original.assignees, local.assignees);
  }

  /** An issue compared with itself yields no change at all. */
  lemma DiffIssueSelf(it: Issue)
    ensures DiffIssue(it, it) == NoChange
  {
    var c := DiffIssue(it, it);
    NoElems(c.addLabels);
    NoElems(c.removeLabels);
    NoElems(c.addAssignees);
    NoElems(c.removeAssignees);
  }
}

=== FILE: fetching.dfy ===
/** Batched GraphQL reads: one query for many issue numbers, aliased by
    position (internal/ghcli/client.go `GetIssuesBatch`,
    internal/ghcli/graphql.go `GetIssueRelationshipsBatch` and `splitRepo`).
    The query text, the call and the JSON decoding are not modelled: the
    remote's answer is a parameter. */
module Fetching {
  import opened Results
  import opened Text

  // ------------------------------------------------------------ repository

  /** `splitRepo`: the owner and name around the first '/', or two empty
      strings when there is no '/'. */
  function SplitRepo(repo: string): (r: (string, string))
    ensures '/' in repo ==> repo == r.0 + "/" + r.1 && '/' !in r.0
    ensures '/' !in repo ==> r == ([], [])
  {
    match IndexOf(repo, '/')
    case None => ([], [])
    case Some(i) =>
      assert repo == repo[..i] + "/" + repo[i + 1..];
      (repo[..i], repo[i + 1..])
  }

  /** Splitting a joined owner and name gives them back when the owner has no '/'. */
  lemma SplitRepoJoin(owner: string, name: string)
    requires '/' !in owner
    ensures SplitRepo(owner + "/" + name) == (owner, name)
  {
    var s := owner + "/" + name;
    assert s[..|owner|] == owner;
    assert s[|owner|] == '/';
    var i := IndexOf(s, '/').value;
    assert i == |owner| by {
      assert forall k :: 0 <= k < |owner| ==> s[k] == owner[k];
      assert forall k :: 0 <= k < i ==> s[..i][k] == s[k];
    }
    assert s[i + 1..] == name;
  }

  // ------------------------------------------------------------ query

  /** One queried issue: the alias suffix is its position in the request. */
  datatype Query = Query(position: nat, number: int)

  function Positions(qs: seq<Query>): set<nat> {
    if |qs| == 0 then {} else {qs[0].position} + Positions(qs[1..])
  }

  /** The issues the batch query asks for: every requested number from
      position `from` on that `strconv.Atoi` accepts, in request order; the
      rest are skipped. */
  function Queries(numbers: seq<string>, from: nat): (r: seq<Query>)
    requires from <= |numbers|
    ensures forall k :: 0 <= k < |r| ==> from <= r[k].position < |numbers|
                                          && Atoi(numbers[r[k].position]) == Some(r[k].number)
    ensures forall i :: from <= i < |numbers| ==> (Atoi(numbers[i]).Some? <==> i in Positions(r))
    ensures forall p :: p in Positions(r) ==> from <= p
    ensures forall k, l :: 0 <= k < l < |r| ==> r[k].position < r[l].position
    decreases |numbers| - from
  {
    if from == |numbers| then []
    else
      var rest := Queries(numbers, from + 1);
      match Atoi(numbers[from])
      case None => rest
      case Some(n) =>
        var r := [Query(from, n)] + rest;
        assert r[1..] == rest;
        r
  }

  // ------------------------------------------------------------ reply

  /** One aliased entry of the response: the issue number and the decoded
      record, or `None` for a null or malformed issue. */
  datatype Entry<T> = Entry(alias: string, issue: Option<(int, T)>)

  /** How the remote answered the query. */
  datatype Reply<T> =
    | CallFailed(message: string)
    | Answered(errors: seq<string>, entries: seq<Entry<T>>)

  /** What a batch fetch did: whether it called the remote, and its result
      keyed by issue number. */
  datatype Fetch<T> = Fetch(called: bool, result: Result<map<string, T>>)

  predicate Kept<T>(e: Entry<T>) {
    HasPrefix(e.alias, "issue") && e.issue.Some?
  }

  /** The kept entries keyed by the decimal form of their issue number; a
      later entry for the same number replaces an earlier one. */
  function Collect<T>(entries: seq<Entry<T>>): (r: map<string, T>)
    ensures forall key :: key in r ==>
              (exists k :: 0 <= k < |entries| && Kept(entries[k])
                           && IntToString(entries[k].issue.value.0) == key)
    ensures forall k :: 0 <= k < |entries| && Kept(entries[k]) ==>
              IntToString(entries[k].issue.value.0) in r
  {
    if |entries| == 0 then map[]
    else
      var init := entries[..|entries| - 1];
      var last := entries[|entries| - 1];
      var r0 := Collect(init);
      assert forall k :: 0 <= k < |init| ==> init[k] == entries[k];
      if Kept(last) then r0[IntToString(last.issue.value.0) := last.issue.value.1] else r0
  }

  /** Whether the message reports a token without the required scopes. */
  predicate IsScopeMessage(message: string) {
    Contains(message, "required scopes")
  }

  predicate ScopeError<T>(reply: Reply<T>) {
    match reply
    case CallFailed(message) => IsScopeMessage(message)
    case Answered(errors, _) => |errors| > 0 && IsScopeMessage(errors[0])
  }

  /** The batch fetch. Without numbers, or without any numeric one, no call
      is made and the result is empty; a malformed repository is an error.
      With `scopeFallback`, a scope error reads as an empty result. */
  function BatchFetch<T>(numbers: seq<string>, repo: string, reply: Reply<T>, scopeFallback: bool)
    : (f: Fetch<T>)
    ensures f.called <==> |numbers| > 0 && SplitRepo(repo).0 != [] && SplitRepo(repo).1 != []
                          && exists i :: 0 <= i < |numbers| && Atoi(numbers[i]).Some?
    ensures |numbers| == 0 ==> f == Fetch(false, Ok(map[]))
    ensures |numbers| > 0 && (SplitRepo(repo).0 == [] || SplitRepo(repo).1 == []) ==>
              f == Fetch(false, Err("invalid repository format"))
    ensures !f.called && f.result.Ok? ==> f.result.value == map[]
    ensures f.called && scopeFallback && ScopeError(reply) ==> f.result == Ok(map[])
    ensures f.called && !(scopeFallback && ScopeError(reply)) ==>
              (f.result.Ok? <==> reply.Answered? && |reply.errors| == 0)
    ensures f.called && f.result.Ok? && reply.Answered? && |reply.errors| == 0 ==>
              f.result.value == Collect(reply.entries)
  {
    if |numbers| == 0 then Fetch(false, Ok(map[]))
    else
      var (owner, name) := SplitRepo(repo);
      if owner == [] || name == [] then Fetch(false, Err("invalid repository format"))
      else
        var qs := Queries(numbers, 0);
        if |qs| == 0 then
          assert Positions(qs) == {};
          Fetch(false, Ok(map[]))
        else
          assert Atoi(numbers[qs[0].position]).Some?;
          if scopeFallback && ScopeError(reply) then Fetch(true, Ok(map[]))
          else
            match reply
            case CallFailed(message) => Fetch(true, Err(message))
            case Answered(errors, entries) =>
              if |errors| > 0 then Fetch(true, Err("GraphQL error: " + errors[0]))
              else Fetch(true, Ok(Collect(entries)))
  }
}

=== FILE: format.dfy ===
/** The summaries `diff`, `pull` and `push` print about changed issues
    (internal/app/format.go): label colours and label differences, the short
    forms of bodies, optional values and lists, relative times, the
    ANSI-aware padding and truncation of table cells, and which change lines
    are printed, in which order. Terminal styling itself is not modelled: a
    change line is the data it shows. */
module Format {
  import opened Results
  import opened Text
  import opened Order
  import Quoting
  import Issues
  import Commands
  import WordDiff

  // ------------------------------------------------------------ label colours

  /** A label name with the hexadecimal colour it is drawn in. */
  datatype LabelColor = LabelColor(name: string, color: string)

  /** The grey used for a label whose colour is not known. */
  const DefaultLabelColor := "6b7280"

  /** The colour of a label: looked up by the lower-cased name, and the
      default grey when the map has no entry or an empty one. */
  function ColorFor(colors: map<string, string>, name: string): (r: string)
    ensures r != []
    ensures ToLower(name) in colors && colors[ToLower(name)] != [] ==> r == colors[ToLower(name)]
    ensures ToLower(name) !in colors ==> r == DefaultLabelColor
  {
    var key := ToLower(name);
    if key in colors && colors[key] != [] then colors[key] else DefaultLabelColor
  }

  /** Names differing only in letter case get the same colour. */
  lemma ColorForIgnoresCase(colors: map<string, string>, a: string, b: string)
    requires EqualFold(a, b)
    ensures ColorFor(colors, a) == ColorFor(colors, b)
  {
  }

  /** `labelsToTheme`: every label, in order, with its colour. */
  function LabelsToTheme(labels: seq<string>, colors: map<string, string>): (r: seq<LabelColor>)
    ensures |r| == |labels|
    ensures forall i :: 0 <= i < |r| ==> r[i].name == labels[i] && r[i].color == ColorFor(colors, labels[i])
  {
    seq(|labels|, i requires 0 <= i < |labels| => LabelColor(labels[i], ColorFor(colors, labels[i])))
  }

  function Names(ls: seq<LabelColor>): set<string> {
    set i | 0 <= i < |ls| :: ls[i].name
  }

  /** The themed labels carry exactly the given names. */
  lemma ThemeNames(labels: seq<string>, colors: map<string, string>)
    ensures Names(LabelsToTheme(labels, colors)) == Elems(labels)
  {
    var r := LabelsToTheme(labels, colors);
    forall x | x in Elems(labels)
      ensures x in Names(r)
    {
      var i :| 0 <= i < |labels| && labels[i] == x;
      assert r[i].name == x;
    }
  }

  /** The labels of `ls` whose name is not among `others`, in order. */
  function Missing(ls: seq<LabelColor>, others: set<string>): (r: seq<LabelColor>)
    ensures |r| <= |ls|
    ensures forall l :: l in r <==> l in ls && l.name !in others
  {
    Commands.Filter(ls, (l: LabelColor) => l.name !in others)
  }

  datatype LabelDiff = LabelDiff(added: seq<LabelColor>, removed: seq<LabelColor>)

  /** `diffLabelColors`: the labels of `after` whose name `before` lacks, and
      the labels of `before` whose name `after` lacks, each in input order. */
  function DiffLabelColors(before: seq<LabelColor>, after: seq<LabelColor>): (r: LabelDiff)
    ensures forall l :: l in r.added <==> l in after && l.name !in Names(before)
    ensures forall l :: l in r.removed <==> l in before && l.name !in Names(after)
  {
    LabelDiff(Missing(after, Names(before)), Missing(before, Names(after)))
  }

  /** `Missing` keeps the relative order of what it keeps. */
  lemma MissingAppend(a: seq<LabelColor>, b: seq<LabelColor>, others: set<string>)
    ensures Missing(a + b, others) == Missing(a, others) + Missing(b, others)
  {
    Commands.FilterAppend(a, b, (l: LabelColor) => l.name !in others);
  }

  /** Nothing is added or removed exactly when both sides name the same labels. */
  lemma DiffEmptyIff(before: seq<LabelColor>, after: seq<LabelColor>)
    ensures var d := DiffLabelColors(before, after);
      d.added == [] && d.removed == [] <==> Names(before) == Names(after)
  {
    var d := DiffLabelColors(before, after);
    if Names(before) == Names(after) {
      NoneMissing(after, Names(before));
      NoneMissing(before, Names(after));
    }
    if d.added == [] && d.removed == [] {
      forall x | x in Names(after)
        ensures x in Names(before)
      {
        var i :| 0 <= i < |after| && after[i].name == x;
        assert after[i] in after;
      }
      forall x | x in Names(before)
        ensures x in Names(after)
      {
        var i :| 0 <= i < |before| && before[i].name == x;
        assert before[i] in before;
      }
    }
  }

  lemma NoneMissing(ls: seq<LabelColor>, others: set<string>)
    requires Names(ls) <= others
    ensures Missing(ls, others) == []
  {
    var r := Missing(ls, others);
    if r != [] {
      HeadIn(r);
      assert false;
    }
  }

  lemma HeadIn(s: seq<LabelColor>)
    requires |s| > 0
    ensures s[0] in s
  {
  }

  // ------------------------------------------------------------ short forms

  /** `formatBodySummary`: the length of the trimmed body, or `<empty>`. */
  function BodySummary(body: string): (r: string)
    ensures r == "<empty>" <==> AllSpace(body)
    ensures !AllSpace(body) ==> r == NatToString(|TrimSpace(body)|) + " chars"
  {
    var t := TrimSpace(body);
    if t == [] then "<empty>"
    else
      var n := NatToString(|t|);
      assert (n + " chars")[0] == n[0];
      n + " chars"
  }

  /** `formatOptionalString`: the quoted trimmed value, or `<none>` when it is blank. */
  function OptionalString(value: string): (r: string)
    ensures r == "<none>" <==> AllSpace(value)
    ensures !AllSpace(value) ==> Quoting.GoUnquote(r) == Some(TrimSpace(value))
  {
    var t := TrimSpace(value);
    if t == [] then "<none>"
    else
      Quoting.GoUnquoteQuote(t);
      Quoting.GoQuote(t)
  }

  /** `formatOptionalStringPtr`: as `OptionalString`, with nil shown as `<none>`. */
  function OptionalStringPtr(value: Option<string>): (r: string)
    ensures r == "<none>" <==> value.None? || AllSpace(value.value)
    ensures value.Some? ==> r == OptionalString(value.value)
  {
    if value.None? then "<none>" else OptionalString(value.value)
  }

  /** `formatStringList`: `[]`, or the quoted items joined by ", " in brackets. */
  function StringList(items: seq<string>): (r: string)
    ensures r == "[]" <==> |items| == 0
    ensures |r| >= 2 && r[0] == '[' && r[|r| - 1] == ']'
    ensures |items| == 1 ==> r == ['['] + Quoting.GoQuote(items[0]) + [']']
  {
    if |items| == 0 then "[]"
    else
      var quoted := seq(|items|, i requires 0 <= i < |items| => Quoting.GoQuote(items[i]));
      var inner := Join(quoted, ", ");
      QuotedJoinNotEmpty(quoted);
      ['['] + inner + [']']
  }

  /** Joining at least one quoted item gives a non-empty text. */
  lemma QuotedJoinNotEmpty(quoted: seq<string>)
    requires |quoted| > 0
    requires forall i :: 0 <= i < |quoted| ==> |quoted[i]| >= 2
    ensures |Join(quoted, ", ")| >= 2
  {
    if |quoted| > 1 {
      assert Join(quoted, ", ") == quoted[0] + ", " + Join(quoted[1..], ", ");
    }
  }

  // ------------------------------------------------------------ relative time

  /** The units `formatRelativeTime` counts in; a month is 30 days and a year 365. */
  datatype Unit = Minute | Hour | Day | Week | Month | Year

  /** How long ago something happened, as `formatRelativeTime` words it. */
  datatype Ago = JustNow | Ago(count: nat, unit: Unit)

  /** The length of a unit in seconds. */
  function Seconds(u: Unit): nat {
    match u
    case Minute => 60
    case Hour => 60 * 60
    case Day => 24 * 60 * 60
    case Week => 7 * 24 * 60 * 60
    case Month => 30 * 24 * 60 * 60
    case Year => 365 * 24 * 60 * 60
  }

  /** The next larger unit; years have none. */
  function Next(u: Unit): (r: Option<Unit>)
    ensures r.Some? ==> Seconds(u) < Seconds(r.value)
  {
    match u
    case Minute => Some(Hour)
    case Hour => Some(Day)
    case Day => Some(Week)
    case Week => Some(Month)
    case Month => Some(Year)
    case Year => None
  }

  /** A distance lies in the bucket of `u` when it is at least one `u` and
      less than one of the next unit. */
  predicate InBucket(d: nat, u: Unit) {
    Seconds(u) <= d && (Next(u).None? || d < Seconds(Next(u).value))
  }

  /** The number of whole units in a distance. */
  function Count(d: nat, u: Unit): (c: nat)
    ensures c * Seconds(u) <= d < (c + 1) * Seconds(u)
  {
    d / Seconds(u)
  }

  /** The bucket and count for a distance of `d` seconds: under a minute is
      "just now"; otherwise the unit whose bucket holds `d`, counted in whole
      units. */
  function AgoOf(d: nat): (r: Ago)
    ensures r.JustNow? <==> d < 60
    ensures r.Ago? ==> InBucket(d, r.unit) && r.count == Count(d, r.unit)
    ensures r.Ago? ==> r.count >= 1
    ensures r.Ago? && r.unit.Week? ==> r.count <= 4
    ensures r.Ago? && r.unit.Month? ==> r.count <= 12
  {
    if d < Seconds(Minute) then JustNow
    else if d < Seconds(Hour) then Ago(Count(d, Minute), Minute)
    else if d < Seconds(Day) then Ago(Count(d, Hour), Hour)
    else if d < Seconds(Week) then Ago(Count(d, Day), Day)
    else if d < Seconds(Month) then Ago(Count(d, Week), Week)
    else if d < Seconds(Year) then Ago(Count(d, Month), Month)
    else Ago(Count(d, Year), Year)
  }

  /** Every distance falls in exactly one bucket. */
  lemma BucketUnique(d: nat, u: Unit, v: Unit)
    requires InBucket(d, u) && InBucket(d, v)
    ensures u == v
  {
  }

  function UnitName(u: Unit): (r: string)
    ensures |r| > 0 && r[|r| - 1] != 's' && ' ' !in r
  {
    match u
    case Minute => "minute"
    case Hour => "hour"
    case Day => "day"
    case Week => "week"
    case Month => "month"
    case Year => "year"
  }

  /** The wording: "just now", "1 <unit> ago", or "<n> <unit>s ago". */
  function Render(a: Ago): (r: string)
    ensures a.JustNow? <==> r == "just now"
  {
    if a.JustNow? then "just now"
    else
      var n := NatToString(a.count);
      assert (n + " " + UnitName(a.unit) + (if a.count == 1 then "" else "s") + " ago")[0] == n[0];
      n + " " + UnitName(a.unit) + (if a.count == 1 then "" else "s") + " ago"
  }

  /** Reads a wording back: the inverse of `Render`. */
  function ParseAgo(s: string): Option<Ago> {
    if s == "just now" then Some(JustNow)
    else match IndexOf(s, ' ')
      case None => None
      case Some(k) =>
        var digits := s[..k];
        var rest := s[k + 1..];
        if !IsDigits(digits) || !HasSuffix(rest, " ago") then None
        else
          var count := DigitsValue(digits);
          var word := rest[..|rest| - 4];
          match UnitOfWord(word, count != 1)
          case None => None
          case Some(u) => Some(Ago(count, u))
  }

  /** The unit a word names, with the plural "s" when `plural`. */
  function UnitOfWord(word: string, plural: bool): (r: Option<Unit>)
    ensures r.Some? ==> word == UnitName(r.value) + (if plural then "s" else "")
  {
    if !plural then UnitNamed(word)
    else if |word| == 0 || word[|word| - 1] != 's' then None
    else
      assert word == word[..|word| - 1] + "s";
      UnitNamed(word[..|word| - 1])
  }

  /** The unit with the given singular name. */
  function UnitNamed(name: string): (r: Option<Unit>)
    ensures r.Some? ==> UnitName(r.value) == name
  {
    if name == "minute" then Some(Minute)
    else if name == "hour" then Some(Hour)
    else if name == "day" then Some(Day)
    else if name == "week" then Some(Week)
    else if name == "month" then Some(Month)
    else if name == "year" then Some(Year)
    else None
  }

  lemma UnitNamedName(u: Unit)
    ensures UnitNamed(UnitName(u)) == Some(u)
  {
    match u
    case Minute =>
    case Hour => assert "hour"[0] != "minute"[0];
    case Day => assert "day"[0] != "minute"[0] && "day"[0] != "hour"[0];
    case Week => assert "week"[0] !in {"minute"[0], "hour"[0], "day"[0]};
    case Month => assert "month"[1] != "minute"[1];
    case Year => assert "year"[0] !in {"minute"[0], "hour"[0], "day"[0], "week"[0], "month"[0]};
  }

  lemma UnitOfName(u: Unit, plural: bool)
    ensures UnitOfWord(UnitName(u) + (if plural then "s" else ""), plural) == Some(u)
  {
    var w := UnitName(u) + (if plural then "s" else "");
    if plural {
      assert w[|w| - 1] == 's';
      assert w[..|w| - 1] == UnitName(u);
    } else {
      assert w == UnitName(u);
    }
    UnitNamedName(u);
  }

  /** Every wording reads back as the bucket and count it was made from. */
  lemma ParseRender(a: Ago)
    ensures ParseAgo(Render(a)) == Some(a)
  {
    if a.Ago? {
      var n := NatToString(a.count);
      var w := UnitName(a.unit) + (if a.count == 1 then "" else "s");
      var rest := w + " ago";
      var s := n + " " + rest;
      assert Render(a) == s;
      assert s[0] == n[0];
      assert ' ' !in n;
      IndexOfAfter(n, ' ', rest);
      assert n + [' '] + rest == s;
      assert s[..|n|] == n;
      assert s[|n| + 1..] == rest;
      assert rest[..|rest| - 4] == w;
      UnitOfName(a.unit, a.count != 1);
    }
  }

  /** `formatRelativeTime` for two instants given in seconds: only their
      distance matters, in either direction. */
  function RelativeTime(now: int, t: int): (r: string)
    ensures r == "just now" <==> -60 < now - t < 60
    ensures ParseAgo(r) == Some(AgoOf(if now < t then t - now else now - t))
  {
    var a := AgoOf(if now < t then t - now else now - t);
    ParseRender(a);
    Render(a)
  }

  /** Swapping the instants or shifting both by the same amount does not
      change the wording. */
  lemma RelativeTimeDistance(now: int, t: int, k: int)
    ensures RelativeTime(now, t) == RelativeTime(t, now)
    ensures RelativeTime(now + k, t + k) == RelativeTime(now, t)
  {
  }

  // ------------------------------------------------------------ ANSI escapes

  const Esc := '\U{1B}'

  /** A character of an SGR parameter list. */
  predicate IsParam(c: char) { IsDigit(c) || c == ';' }

  /** The length of the run of parameter characters that starts `t`. */
  function ParamRun(t: string): (n: nat)
    ensures n <= |t|
    ensures forall i :: 0 <= i < n ==> IsParam(t[i])
    ensures n < |t| ==> !IsParam(t[n])
  {
    if |t| > 0 && IsParam(t[0]) then 1 + ParamRun(t[1..]) else 0
  }

  /** The length of the sequence ESC '[' params 'm' that starts `s`, if one
      does: what the pattern stripAnsi removes matches at this position. */
  function SgrLen(s: string): (r: Option<nat>)
    ensures r.Some? ==> 3 <= r.value <= |s| && s[0] == Esc && s[r.value - 1] == 'm'
  {
    if |s| >= 2 && s[0] == Esc && s[1] == '[' then
      var k := ParamRun(s[2..]);
      if 2 + k < |s| && s[2 + k] == 'm' then Some(3 + k) else None
    else None
  }

  /** `stripAnsi`: every SGR sequence removed, scanning left to right. */
  function StripAnsi(s: string): (r: string)
    ensures |r| <= |s|
    decreases |s|
  {
    if |s| == 0 then []
    else match SgrLen(s)
      case Some(n) => StripAnsi(s[n..])
      case None => [s[0]] + StripAnsi(s[1..])
  }

  /** Text without escape characters is left as it is. */
  lemma {:induction false} StripPlain(s: string)
    requires Esc !in s
    ensures StripAnsi(s) == s
  {
    if |s| > 0 {
      assert s[0] != Esc;
      assert Esc !in s[1..];
      StripPlain(s[1..]);
    }
  }

  /** The SGR sequence with the given parameters. */
  function Sgr(params: string): (r: string)
    requires forall i :: 0 <= i < |params| ==> IsParam(params[i])
  {
    [Esc, '['] + params + ['m']
  }

  /** A leading SGR sequence is removed entirely. */
  lemma StripSgr(params: string, s: string)
    requires forall i :: 0 <= i < |params| ==> IsParam(params[i])
    ensures StripAnsi(Sgr(params) + s) == StripAnsi(s)
  {
    var t := Sgr(params) + s;
    assert t[2..] == params + ['m'] + s;
    ParamRunStops(params, ['m'] + s);
    assert t[0] == Esc && t[1] == '[' && t[2 + |params|] == 'm';
    assert SgrLen(t) == Some(3 + |params|);
    assert t[3 + |params|..] == s;
  }

  lemma {:induction false} ParamRunStops(p: string, rest: string)
    requires forall i :: 0 <= i < |p| ==> IsParam(p[i])
    requires |rest| == 0 || !IsParam(rest[0])
    ensures ParamRun(p + rest) == |p|
  {
    if |p| > 0 {
      assert (p + rest)[1..] == p[1..] + rest;
      ParamRunStops(p[1..], rest);
    } else {
      assert p + rest == rest;
    }
  }

  /** A character that cannot continue an SGR sequence that precedes it. */
  predicate Breaks(c: char) {
    !IsParam(c) && c != 'm' && c != '['
  }

  /** Text that starts with a breaking character (an escape or a space, say)
      is stripped independently of what precedes it. */
  lemma {:induction false} StripAppend(a: string, b: string)
    requires |b| == 0 || Breaks(b[0])
    ensures StripAnsi(a + b) == StripAnsi(a) + StripAnsi(b)
    decreases |a|
  {
    if |a| == 0 {
      assert a + b == b;
    } else {
      StripAppend(a[Skip(a)..], b);
      StripAppendStep(a, b);
    }
  }

  lemma StripAppendStep(a: string, b: string)
    requires |a| > 0
    requires |b| == 0 || Breaks(b[0])
    requires StripAnsi(a[Skip(a)..] + b) == StripAnsi(a[Skip(a)..]) + StripAnsi(b)
    ensures StripAnsi(a + b) == StripAnsi(a) + StripAnsi(b)
  {
    var k := Skip(a);
    SgrAppend(a, b);
    StripStep(a);
    StripStep(a + b);
    DropAppend(a, b, k);
    var h := Kept(a);
    var x := StripAnsi(a[k..]);
    var y := StripAnsi(b);
    assert StripAnsi(a + b) == h + StripAnsi(a[k..] + b);
    assert StripAnsi(a + b) == h + (x + y);
    ConcatAssoc(h, x, y);
  }

  lemma ConcatAssoc(h: string, x: string, y: string)
    ensures h + (x + y) == (h + x) + y
  {
  }

  /** Text without escapes in front of any text stays in front of it. */
  lemma {:induction false} StripPrepend(b: string, a: string)
    requires Esc !in b
    ensures StripAnsi(b + a) == b + StripAnsi(a)
  {
    if |b| > 0 {
      var t := b + a;
      DropAppend(b, a, 1);
      StripStep(t);
      assert Esc !in b[1..];
      StripPrepend(b[1..], a);
    } else {
      assert b + a == a;
    }
  }

  lemma DropAppend(a: string, b: string, k: nat)
    requires 0 < k <= |a|
    ensures (a + b)[0] == a[0] && (a + b)[k..] == a[k..] + b
  {
  }

  /** What one step of stripping keeps, and how far it moves. */
  function Kept(s: string): string
    requires |s| > 0
  {
    if SgrLen(s).Some? then [] else [s[0]]
  }

  function Skip(s: string): (k: nat)
    requires |s| > 0
    ensures 0 < k <= |s|
  {
    if SgrLen(s).Some? then SgrLen(s).value else 1
  }

  lemma StripStep(s: string)
    requires |s| > 0
    ensures StripAnsi(s) == Kept(s) + StripAnsi(s[Skip(s)..])
  {
  }

  /** A breaking character neither completes nor extends a sequence. */
  lemma SgrAppend(a: string, b: string)
    requires |a| > 0
    requires |b| == 0 || Breaks(b[0])
    ensures SgrLen(a + b) == SgrLen(a)
    ensures Kept(a + b) == Kept(a) && Skip(a + b) == Skip(a)
  {
    var s := a + b;
    if |a| >= 2 && a[0] == Esc && a[1] == '[' {
      assert s[2..] == a[2..] + b;
      ParamRunAppend(a[2..], b);
    }
  }

  lemma {:induction false} ParamRunAppend(t: string, b: string)
    requires |b| == 0 || !IsParam(b[0])
    ensures ParamRun(t + b) == ParamRun(t)
  {
    if |t| > 0 {
      assert (t + b)[1..] == t[1..] + b;
      ParamRunAppend(t[1..], b);
    } else {
      assert t + b == b;
    }
  }

  /** The spaces of padding show as themselves. */
  lemma SpacesPlain(n: nat)
    ensures StripAnsi(Repeat(' ', n)) == Repeat(' ', n)
  {
    StripPlain(Repeat(' ', n));
  }

  /** `padRight`: text whose visible length reaches `width` is unchanged;
      shorter text gets spaces until its visible length is `width`. */
  function PadRight(s: string, width: int): (r: string)
    ensures |StripAnsi(s)| >= width ==> r == s
    ensures |StripAnsi(s)| < width ==>
      |StripAnsi(r)| == width && HasPrefix(r, s) && AllSpace(r[|s|..])
  {
    var visible := |StripAnsi(s)|;
    if visible >= width then s
    else
      StripAppend(s, Repeat(' ', width - visible));
      SpacesPlain(width - visible);
      assert (s + Repeat(' ', width - visible))[..|s|] == s;
      s + Repeat(' ', width - visible)
  }

  // ------------------------------------------------------------ truncation

  /** Whether an escape sequence starts here, as truncateAnsi sees one. */
  predicate EscStart(s: string) {
    |s| >= 2 && s[0] == Esc && s[1] == '['
  }

  /** Characters up to and including the first 'm', or all of them. */
  function ThroughM(t: string): (n: nat)
    ensures n <= |t|
    ensures |t| > 0 ==> n > 0
  {
    if |t| == 0 then 0 else if t[0] == 'm' then 1 else 1 + ThroughM(t[1..])
  }

  /** The length truncateAnsi copies for an escape: ESC '[' and everything
      through the first 'm', or the rest of the text when there is none. */
  function EscapeLen(s: string): (n: nat)
    requires EscStart(s)
    ensures 2 <= n <= |s|
  {
    2 + ThroughM(s[2..])
  }

  /** The number of visible characters, counted as truncateAnsi counts them. */
  function Visible(s: string): nat
    decreases |s|
  {
    if |s| == 0 then 0
    else if EscStart(s) then Visible(s[EscapeLen(s)..])
    else 1 + Visible(s[1..])
  }

  /** The scan of truncateAnsi with `left` visible characters still allowed:
      escapes are copied whole, and the first visible character beyond the
      allowance ends the text with `reset`. */
  function TruncFrom(s: string, left: nat, reset: string): string
    decreases |s|
  {
    if |s| == 0 then []
    else if EscStart(s) then s[..EscapeLen(s)] + TruncFrom(s[EscapeLen(s)..], left, reset)
    else if left == 0 then reset
    else [s[0]] + TruncFrom(s[1..], left - 1, reset)
  }

  /** How much of `s` the scan keeps before it stops. */
  function KeptLen(s: string, left: nat): (n: nat)
    ensures n <= |s|
    decreases |s|
  {
    if |s| == 0 then 0
    else if EscStart(s) then EscapeLen(s) + KeptLen(s[EscapeLen(s)..], left)
    else if left == 0 then 0
    else 1 + KeptLen(s[1..], left - 1)
  }

  lemma {:induction false} TruncFits(s: string, left: nat, reset: string)
    requires Visible(s) <= left
    ensures TruncFrom(s, left, reset) == s
    decreases |s|
  {
    if |s| > 0 {
      if EscStart(s) {
        TruncFits(s[EscapeLen(s)..], left, reset);
        assert s[..EscapeLen(s)] + s[EscapeLen(s)..] == s;
      } else {
        TruncFits(s[1..], left - 1, reset);
        assert [s[0]] + s[1..] == s;
      }
    }
  }

  lemma {:induction false} TruncCuts(s: string, left: nat, reset: string)
    requires Visible(s) > left
    ensures KeptLen(s, left) < |s|
    ensures TruncFrom(s, left, reset) == s[..KeptLen(s, left)] + reset
    decreases |s|
  {
    ScanStep(s, left, reset);
    if EscStart(s) {
      var e := EscapeLen(s);
      TruncCuts(s[e..], left, reset);
      CutJoin(s, e, KeptLen(s[e..], left), reset);
    } else if left > 0 {
      TruncCuts(s[1..], left - 1, reset);
      CutJoin(s, 1, KeptLen(s[1..], left - 1), reset);
    }
  }

  /** One step of the truncating scan, for each of its three cases. */
  lemma ScanStep(s: string, left: nat, reset: string)
    requires |s| > 0
    ensures EscStart(s) ==>
      && Visible(s) == Visible(s[EscapeLen(s)..])
      && TruncFrom(s, left, reset) == s[..EscapeLen(s)] + TruncFrom(s[EscapeLen(s)..], left, reset)
      && KeptLen(s, left) == EscapeLen(s) + KeptLen(s[EscapeLen(s)..], left)
    ensures !EscStart(s) && left == 0 ==>
      Visible(s) > 0 && TruncFrom(s, left, reset) == reset && KeptLen(s, left) == 0
    ensures !EscStart(s) && left > 0 ==>
      && Visible(s) == 1 + Visible(s[1..])
      && TruncFrom(s, left, reset) == s[..1] + TruncFrom(s[1..], left - 1, reset)
      && KeptLen(s, left) == 1 + KeptLen(s[1..], left - 1)
  {
  }

  lemma CutJoin(s: string, e: nat, k: nat, reset: string)
    requires e + k <= |s|
    ensures s[..e] + (s[e..][..k] + reset) == s[..e + k] + reset
  {
    PrefixJoin(s, e, k);
  }

  lemma PrefixJoin(s: string, e: nat, k: nat)
    requires e + k <= |s|
    ensures s[..e] + s[e..][..k] == s[..e + k]
  {
  }

  lemma {:induction false} ThroughMPrefix(t: string, k: nat)
    requires ThroughM(t) <= k <= |t|
    ensures ThroughM(t[..k]) == ThroughM(t)
  {
    if |t| > 0 && t[0] != 'm' {
      assert t[..k][1..] == t[1..][..k - 1];
      ThroughMPrefix(t[1..], k - 1);
    }
  }

  /** A prefix that holds a whole escape starts with the same escape. */
  lemma EscapePrefix(s: string, k: nat)
    requires EscStart(s) && EscapeLen(s) <= k <= |s|
    ensures EscStart(s[..k]) && EscapeLen(s[..k]) == EscapeLen(s)
    ensures s[..k][EscapeLen(s)..] == s[EscapeLen(s)..][..k - EscapeLen(s)]
  {
    assert s[..k][2..] == s[2..][..k - 2];
    ThroughMPrefix(s[2..], k - 2);
  }

  /** What the scan keeps shows exactly the allowed number of characters. */
  lemma {:induction false} KeptVisible(s: string, left: nat)
    requires Visible(s) > left
    ensures Visible(s[..KeptLen(s, left)]) == left
    decreases |s|
  {
    var p := s[..KeptLen(s, left)];
    if EscStart(s) {
      var e := EscapeLen(s);
      KeptVisible(s[e..], left);
      EscapePrefix(s, KeptLen(s, left));
    } else if left > 0 {
      KeptVisible(s[1..], left - 1);
      assert p[1..] == s[1..][..KeptLen(s[1..], left - 1)];
      assert !EscStart(p);
    }
  }

  /** `truncateAnsi`: nothing for a non-positive width; the text itself when
      it fits; otherwise the longest prefix showing exactly `max` characters,
      escapes included, followed by `reset`. */
  function TruncateAnsi(s: string, max: int, reset: string): (r: string)
    ensures max <= 0 ==> r == []
    ensures max > 0 && Visible(s) <= max ==> r == s
    ensures max > 0 && Visible(s) > max ==>
      && KeptLen(s, max) < |s|
      && r == s[..KeptLen(s, max)] + reset
      && Visible(s[..KeptLen(s, max)]) == max
  {
    if max <= 0 then []
    else if Visible(s) <= max then
      TruncFits(s, max, reset);
      TruncFrom(s, max, reset)
    else
      TruncCuts(s, max, reset);
      KeptVisible(s, max);
      TruncFrom(s, max, reset)
  }

  // ------------------------------------------------------------ change lines

  /** The fields a change line can be about, in the order they are printed. */
  datatype Field =
    | TitleField | BodyField | LabelsField | AssigneesField | MilestoneField
    | TypeField | ProjectsField | StateField | StateReasonField

  const FieldOrder: seq<Field> := [TitleField, BodyField, LabelsField, AssigneesField,
    MilestoneField, TypeField, ProjectsField, StateField, StateReasonField]

  /** The position of a field in the printed order. */
  function Rank(f: Field): (k: nat)
    ensures k < |FieldOrder| && FieldOrder[k] == f
  {
    match f
    case TitleField => 0
    case BodyField => 1
    case LabelsField => 2
    case AssigneesField => 3
    case MilestoneField => 4
    case TypeField => 5
    case ProjectsField => 6
    case StateField => 7
    case StateReasonField => 8
  }

  /** What a change line shows; the terminal styling around it is left out. */
  datatype Shown =
    | InlineDiff(ops: seq<WordDiff.Op>)
    | BodyChange(before: string, after: string)
    | LabelChange(added: seq<LabelColor>, removed: seq<LabelColor>)
    | ValueChange(before: string, after: string)

  datatype Line = Line(field: Field, shown: Shown)

  /** Whether a field differs between two records, stated on the records as
      stored: lists as sets of trimmed non-blank entries, the body after
      normalisation and the state reason with nil read as "". */
  predicate Differs(f: Field, before: Issues.Issue, after: Issues.Issue) {
    match f
    case TitleField => before.title != after.title
    case BodyField => Issues.NormalizeBodyAsWritten(before.body) != Issues.NormalizeBodyAsWritten(after.body)
    case LabelsField => Issues.Cleaned(before.labels) != Issues.Cleaned(after.labels)
    case AssigneesField => Issues.Cleaned(before.assignees) != Issues.Cleaned(after.assignees)
    case MilestoneField => before.milestone != after.milestone
    case TypeField => before.issueType != after.issueType
    case ProjectsField => Issues.Cleaned(before.projects) != Issues.Cleaned(after.projects)
    case StateField => before.state != after.state
    case StateReasonField => Issues.NormOpt(before.stateReason) != Issues.NormOpt(after.stateReason)
  }

  /** A milestone or type change: the new value when there was none, the old
      one when it was cleared, and an inline word diff otherwise. */
  function ValueShown(before: string, after: string): Shown {
    if before == [] then ValueChange("<none>", Quoting.GoQuote(after))
    else if after == [] then ValueChange(Quoting.GoQuote(before), "<none>")
    else InlineDiff(WordDiff.InlineOps(before, after))
  }

  /** The labels line, when the sorted label lists differ and the label
      names added or removed are not both empty. */
  function LabelsSlot(before: seq<string>, after: seq<string>, colors: map<string, string>): Option<Line> {
    if before == after then None
    else
      var d := DiffLabelColors(LabelsToTheme(before, colors), LabelsToTheme(after, colors));
      if |d.added| > 0 || |d.removed| > 0 then Some(Line(LabelsField, LabelChange(d.added, d.removed)))
      else None
  }

  /** The line printed for one field of two normalised records, if any. */
  function Slot(f: Field, a: Issues.Issue, b: Issues.Issue, colors: map<string, string>): Option<Line> {
    match f
    case TitleField =>
      if a.title == b.title then None
      else Some(Line(f, InlineDiff(WordDiff.InlineOps(a.title, b.title))))
    case BodyField =>
      if a.body == b.body then None
      else Some(Line(f, BodyChange(BodySummary(a.body), BodySummary(b.body))))
    case LabelsField => LabelsSlot(a.labels, b.labels, colors)
    case AssigneesField =>
      if a.assignees == b.assignees then None
      else Some(Line(f, ValueChange(StringList(a.assignees), StringList(b.assignees))))
    case MilestoneField =>
      if a.milestone == b.milestone then None
      else Some(Line(f, ValueShown(a.milestone, b.milestone)))
    case TypeField =>
      if a.issueType == b.issueType then None
      else Some(Line(f, ValueShown(a.issueType, b.issueType)))
    case ProjectsField =>
      if a.projects == b.projects then None
      else Some(Line(f, ValueChange(StringList(a.projects), StringList(b.projects))))
    case StateField =>
      if a.state == b.state then None
      else Some(Line(f, ValueChange(OptionalString(a.state), OptionalString(b.state))))
    case StateReasonField =>
      if Issues.NormOpt(a.stateReason) == Issues.NormOpt(b.stateReason) then None
      else Some(Line(f, ValueChange(OptionalStringPtr(a.stateReason), OptionalStringPtr(b.stateReason))))
  }

  lemma SlotField(f: Field, a: Issues.Issue, b: Issues.Issue, colors: map<string, string>)
    ensures Slot(f, a, b, colors).Some? ==> Slot(f, a, b, colors).value.field == f
  {
  }

  /** The lines that are present, in slot order. */
  function Present(slots: seq<Option<Line>>): (r: seq<Line>)
    ensures |r| <= |slots|
  {
    if |slots| == 0 then []
    else (if slots[0].Some? then [slots[0].value] else []) + Present(slots[1..])
  }

  /** Whether some line of `r` is about field `f`. */
  predicate Shows(r: seq<Line>, f: Field) {
    exists i :: 0 <= i < |r| && r[i].field == f
  }

  /** Whether some slot holds a line about field `f`. */
  predicate Filled(slots: seq<Option<Line>>, f: Field) {
    exists k :: 0 <= k < |slots| && slots[k].Some? && slots[k].value.field == f
  }

  /** The lines of the present slots are about exactly the filled fields. */
  lemma {:induction false} PresentShows(slots: seq<Option<Line>>, f: Field)
    ensures Shows(Present(slots), f) <==> Filled(slots, f)
  {
    if |slots| > 0 {
      var head: seq<Line> := if slots[0].Some? then [slots[0].value] else [];
      PresentShows(slots[1..], f);
      ShowsAppend(head, Present(slots[1..]), f);
      FilledCons(slots, f);
      assert Shows(head, f) <==> slots[0].Some? && slots[0].value.field == f by {
        if slots[0].Some? && slots[0].value.field == f {
          assert head[0].field == f;
        }
      }
    }
  }

  lemma ShowsAppend(x: seq<Line>, y: seq<Line>, f: Field)
    ensures Shows(x + y, f) <==> Shows(x, f) || Shows(y, f)
  {
    if Shows(x + y, f) {
      var i :| 0 <= i < |x + y| && (x + y)[i].field == f;
      if i >= |x| {
        assert y[i - |x|] == (x + y)[i];
      }
    }
    if Shows(y, f) {
      var i :| 0 <= i < |y| && y[i].field == f;
      assert (x + y)[|x| + i] == y[i];
    }
    if Shows(x, f) {
      var i :| 0 <= i < |x| && x[i].field == f;
      assert (x + y)[i] == x[i];
    }
  }

  lemma FilledCons(slots: seq<Option<Line>>, f: Field)
    requires |slots| > 0
    ensures Filled(slots, f) <==> (slots[0].Some? && slots[0].value.field == f) || Filled(slots[1..], f)
  {
    if Filled(slots, f) {
      var k :| 0 <= k < |slots| && slots[k].Some? && slots[k].value.field == f;
      if k > 0 {
        assert slots[1..][k - 1] == slots[k];
      }
    }
    if Filled(slots[1..], f) {
      var k :| 0 <= k < |slots[1..]| && slots[1..][k].Some? && slots[1..][k].value.field == f;
      assert slots[k + 1] == slots[1..][k];
    }
  }

  /** Slots whose lines carry ascending ranks give lines in ascending rank. */
  lemma {:induction false} PresentOrdered(slots: seq<Option<Line>>, base: nat)
    requires forall k :: 0 <= k < |slots| && slots[k].Some? ==> Rank(slots[k].value.field) == base + k
    ensures forall i :: 0 <= i < |Present(slots)| ==> Rank(Present(slots)[i].field) >= base
    ensures forall i, j :: 0 <= i < j < |Present(slots)| ==>
      Rank(Present(slots)[i].field) < Rank(Present(slots)[j].field)
  {
    if |slots| > 0 {
      forall k | 0 <= k < |slots[1..]| && slots[1..][k].Some?
        ensures Rank(slots[1..][k].value.field) == base + 1 + k
      {
        assert slots[1..][k] == slots[k + 1];
      }
      PresentOrdered(slots[1..], base + 1);
      var head: seq<Line> := if slots[0].Some? then [slots[0].value] else [];
      assert Present(slots) == head + Present(slots[1..]);
    }
  }

  /** The slots of two normalised records, one per field in printed order. */
  function Slots(a: Issues.Issue, b: Issues.Issue, colors: map<string, string>): (r: seq<Option<Line>>)
    ensures |r| == |FieldOrder|
    ensures forall k :: 0 <= k < |r| ==> r[k] == Slot(FieldOrder[k], a, b, colors)
  {
    seq(|FieldOrder|, k requires 0 <= k < |FieldOrder| => Slot(FieldOrder[k], a, b, colors))
  }

  /** Two sorted duplicate-free lists are equal exactly when they hold the same items. */
  lemma AscendingEqualIff(x: seq<string>, y: seq<string>)
    requires StrictlyAscending(x) && StrictlyAscending(y)
    ensures x == y <==> Elems(x) == Elems(y)
  {
    if Elems(x) == Elems(y) {
      AscendingUnique(x, y);
    }
  }

  /** The labels line appears exactly when the label sets differ. */
  lemma LabelsSlotIff(x: seq<string>, y: seq<string>, colors: map<string, string>)
    requires StrictlyAscending(x) && StrictlyAscending(y)
    ensures LabelsSlot(x, y, colors).Some? <==> Elems(x) != Elems(y)
  {
    AscendingEqualIff(x, y);
    var tx := LabelsToTheme(x, colors);
    var ty := LabelsToTheme(y, colors);
    ThemeNames(x, colors);
    ThemeNames(y, colors);
    DiffEmptyIff(tx, ty);
  }

  /** For normalised records a slot is filled exactly when its field differs. */
  lemma SlotIff(f: Field, o: Issues.Issue, n: Issues.Issue, colors: map<string, string>)
    ensures Slot(f, Issues.Normalize(o), Issues.Normalize(n), colors).Some? <==> Differs(f, o, n)
  {
    var a := Issues.Normalize(o);
    var b := Issues.Normalize(n);
    Issues.NormalizeShape(o);
    Issues.NormalizeShape(n);
    match f
    case LabelsField => LabelsSlotIff(a.labels, b.labels, colors);
    case AssigneesField => AscendingEqualIff(a.assignees, b.assignees);
    case ProjectsField => AscendingEqualIff(a.projects, b.projects);
    case _ =>
  }

  /** Lines taken from one slot per field, in printed order, name each
      field that `shown` selects, and only those, in ascending rank. */
  lemma PresentSelects(slots: seq<Option<Line>>, shown: Field -> bool)
    requires |slots| == |FieldOrder|
    requires forall k :: 0 <= k < |slots| && slots[k].Some? ==> slots[k].value.field == FieldOrder[k]
    requires forall k :: 0 <= k < |slots| ==> (slots[k].Some? <==> shown(FieldOrder[k]))
    ensures forall f :: Shows(Present(slots), f) <==> shown(f)
    ensures forall i, j :: 0 <= i < j < |Present(slots)| ==>
      Rank(Present(slots)[i].field) < Rank(Present(slots)[j].field)
  {
    forall k | 0 <= k < |slots| && slots[k].Some?
      ensures Rank(slots[k].value.field) == 0 + k
    {
    }
    PresentOrdered(slots, 0);
    forall f
      ensures Shows(Present(slots), f) <==> shown(f)
    {
      PresentShows(slots, f);
      if shown(f) {
        assert slots[Rank(f)].Some?;
      }
    }
  }

  /** Each slot of two normalised records holds a line about its own field,
      and holds one exactly when that field differs. */
  lemma SlotsFacts(before: Issues.Issue, after: Issues.Issue, colors: map<string, string>)
    ensures var slots := Slots(Issues.Normalize(before), Issues.Normalize(after), colors);
      forall k :: 0 <= k < |slots| ==>
        && (slots[k].Some? ==> slots[k].value.field == FieldOrder[k])
        && (slots[k].Some? <==> Differs(FieldOrder[k], before, after))
  {
    forall f {
      SlotFacts(f, before, after, colors);
    }
  }

  lemma SlotFacts(f: Field, before: Issues.Issue, after: Issues.Issue, colors: map<string, string>)
    ensures var slot := Slot(f, Issues.Normalize(before), Issues.Normalize(after), colors);
      && (slot.Some? ==> slot.value.field == f)
      && (slot.Some? <==> Differs(f, before, after))
  {
    SlotField(f, Issues.Normalize(before), Issues.Normalize(after), colors);
    SlotIff(f, before, after, colors);
  }

  /** `formatChangeLines`: after normalising both records, one line for
      each field that differs, and for no other, in the fixed field order
      title, body, labels, assignees, milestone, type, projects, state,
      state reason. */
  function ChangeLines(before: Issues.Issue, after: Issues.Issue, colors: map<string, string>): (r: seq<Line>)
    ensures forall f :: Shows(r, f) <==> Differs(f, before, after)
    ensures forall i, j :: 0 <= i < j < |r| ==> Rank(r[i].field) < Rank(r[j].field)
  {
    var slots := Slots(Issues.Normalize(before), Issues.Normalize(after), colors);
    SlotsFacts(before, after, colors);
    PresentSelects(slots, f => Differs(f, before, after));
    Present(slots)
  }

  /** No line is printed exactly when the records agree on every shown field. */
  lemma NoLinesIff(before: Issues.Issue, after: Issues.Issue, colors: map<string, string>)
    ensures ChangeLines(before, after, colors) == [] <==> forall f :: !Differs(f, before, after)
  {
    var r := ChangeLines(before, after, colors);
    if r != [] {
      assert Shows(r, r[0].field);
    }
  }
}

=== FILE: graphqlstring.dfy ===
/** GraphQL string literals: `escapeGraphQLString` (internal/ghcli/batch.go)
    and the reading of a quoted StringValue as section 2.9.4 of the GraphQL
    specification, October 2021 edition, defines it. */
module GraphQLString {
  import opened Results
  import opened Order
  import opened Quoting

  // ------------------------------------------------------------ escaping

  /** `strings.ReplaceAll` with a one-character pattern. */
  function ReplaceChar(s: string, c: char, rep: string): string {
    if |s| == 0 then [] else (if s[0] == c then rep else [s[0]]) + ReplaceChar(s[1..], c, rep)
  }

  lemma {:induction false} ReplaceCharAppend(a: string, b: string, c: char, rep: string)
    ensures ReplaceChar(a + b, c, rep) == ReplaceChar(a, c, rep) + ReplaceChar(b, c, rep)
  {
    if |a| > 0 {
      ReplaceCharAppend(a[1..], b, c, rep);
      assert (a + b)[0] == a[0];
      assert (a + b)[1..] == a[1..] + b;
    } else {
      assert a + b == b;
    }
  }

  lemma ReplaceCharOne(x: char, c: char, rep: string)
    ensures ReplaceChar([x], c, rep) == if x == c then rep else [x]
  {
    assert [x][1..] == [];
  }

  /** `escapeGraphQLString`: backslashes first, then quotes, newlines,
      carriage returns and tabs, each as its two-character escape. */
  function Escape(s: string): string {
    var s1 := ReplaceChar(s, '\\', ['\\', '\\']);
    var s2 := ReplaceChar(s1, '"', ['\\', '"']);
    var s3 := ReplaceChar(s2, '\n', ['\\', 'n']);
    var s4 := ReplaceChar(s3, '\r', ['\\', 'r']);
    ReplaceChar(s4, '\t', ['\\', 't'])
  }

  /** What the escape makes of one character. */
  function EscapeChar(c: char): (r: string)
    ensures |r| > 0
    ensures '\n' !in r && '\r' !in r && '\t' !in r && '"' !in r[..|r| - 1]
  {
    if c == '\\' then ['\\', '\\']
    else if c == '"' then ['\\', '"']
    else if c == '\n' then ['\\', 'n']
    else if c == '\r' then ['\\', 'r']
    else if c == '\t' then ['\\', 't']
    else [c]
  }

  function EscapeEach(s: string): string {
    if |s| == 0 then [] else EscapeChar(s[0]) + EscapeEach(s[1..])
  }

  /** Escaping distributes over concatenation. */
  lemma EscapeAppend(a: string, b: string)
    ensures Escape(a + b) == Escape(a) + Escape(b)
  {
    var a1, b1 := ReplaceChar(a, '\\', ['\\', '\\']), ReplaceChar(b, '\\', ['\\', '\\']);
    ReplaceCharAppend(a, b, '\\', ['\\', '\\']);
    var a2, b2 := ReplaceChar(a1, '"', ['\\', '"']), ReplaceChar(b1, '"', ['\\', '"']);
    ReplaceCharAppend(a1, b1, '"', ['\\', '"']);
    var a3, b3 := ReplaceChar(a2, '\n', ['\\', 'n']), ReplaceChar(b2, '\n', ['\\', 'n']);
    ReplaceCharAppend(a2, b2, '\n', ['\\', 'n']);
    var a4, b4 := ReplaceChar(a3, '\r', ['\\', 'r']), ReplaceChar(b3, '\r', ['\\', 'r']);
    ReplaceCharAppend(a3, b3, '\r', ['\\', 'r']);
    ReplaceCharAppend(a4, b4, '\t', ['\\', 't']);
  }

  /** The replacement of a two-character escape leaves it alone in the
      later passes, which only look for newlines, carriage returns and tabs. */
  lemma ReplaceTwo(x: char, y: char, c: char, rep: string)
    requires x != c && y != c
    ensures ReplaceChar([x, y], c, rep) == [x, y]
  {
    assert [x, y] == [x] + [y];
    ReplaceCharAppend([x], [y], c, rep);
    ReplaceCharOne(x, c, rep);
    ReplaceCharOne(y, c, rep);
  }

  lemma EscapeOne(x: char)
    ensures Escape([x]) == EscapeChar(x)
  {
    ReplaceCharOne(x, '\\', ['\\', '\\']);
    var s1 := ReplaceChar([x], '\\', ['\\', '\\']);
    if x == '\\' {
      ReplaceTwo('\\', '\\', '"', ['\\', '"']);
      ReplaceTwo('\\', '\\', '\n', ['\\', 'n']);
      ReplaceTwo('\\', '\\', '\r', ['\\', 'r']);
      ReplaceTwo('\\', '\\', '\t', ['\\', 't']);
    } else {
      ReplaceCharOne(x, '"', ['\\', '"']);
      if x == '"' {
        ReplaceTwo('\\', '"', '\n', ['\\', 'n']);
        ReplaceTwo('\\', '"', '\r', ['\\', 'r']);
        ReplaceTwo('\\', '"', '\t', ['\\', 't']);
      } else {
        ReplaceCharOne(x, '\n', ['\\', 'n']);
        if x == '\n' {
          ReplaceTwo('\\', 'n', '\r', ['\\', 'r']);
          ReplaceTwo('\\', 'n', '\t', ['\\', 't']);
        } else {
          ReplaceCharOne(x, '\r', ['\\', 'r']);
          if x == '\r' {
            ReplaceTwo('\\', 'r', '\t', ['\\', 't']);
          } else {
            ReplaceCharOne(x, '\t', ['\\', 't']);
          }
        }
      }
    }
  }

  /** Because backslashes are replaced first, no escape is escaped again:
      the five passes amount to escaping each character on its own. */
  lemma {:induction false} EscapeIsPerChar(s: string)
    ensures Escape(s) == EscapeEach(s)
  {
    if |s| == 0 {
      assert Escape(s) == [];
    } else {
      SeqCons(s);
      EscapeAppend([s[0]], s[1..]);
      EscapeOne(s[0]);
      EscapeIsPerChar(s[1..]);
    }
  }

  /** The escaped text holds no raw newline, carriage return or tab. */
  lemma {:induction false} EscapeHasNoControls(s: string)
    ensures '\n' !in Escape(s) && '\r' !in Escape(s) && '\t' !in Escape(s)
  {
    EscapeIsPerChar(s);
    EachHasNoControls(s);
  }

  lemma {:induction false} EachHasNoControls(s: string)
    ensures '\n' !in EscapeEach(s) && '\r' !in EscapeEach(s) && '\t' !in EscapeEach(s)
  {
    if |s| > 0 {
      EachHasNoControls(s[1..]);
    }
  }

  // ------------------------------------------------------------ reading

  /** The character an escape `\x` stands for (EscapedCharacter). */
  function EscapedCharacter(e: char): Option<char> {
    match e
    case '"' => Some('"')
    case '\\' => Some('\\')
    case '/' => Some('/')
    case 'b' => Some('\U{8}')
    case 'f' => Some('\U{C}')
    case 'n' => Some('\n')
    case 'r' => Some('\r')
    case 't' => Some('\t')
    case _ => None
  }

  /** The character four hexadecimal digits name, when it is a Unicode
      scalar value. */
  function Unicode4(a: char, b: char, c: char, d: char): Option<char> {
    match Hex4(a, b, c, d)
    case Some(v) => if v < 0xD800 || 0xE000 <= v then Some(v as char) else None
    case None => None
  }

  /** The value of four hexadecimal digits. */
  function Hex4(a: char, b: char, c: char, d: char): (r: Option<nat>)
    ensures r.Some? ==> r.value < 0x1_0000
  {
    match (HexValue(a), HexValue(b), HexValue(c), HexValue(d))
    case (Some(w), Some(x), Some(y), Some(z)) =>
      Some(((w * 16 + x) * 16 + y) * 16 + z)
    case _ => None
  }

  /** The characters of a quoted StringValue, without the quotes: any
      character but `"`, `\` and a line terminator stands for itself; an
      escape stands for the character it names. */
  function StringCharacters(t: string): Option<string>
    decreases |t|
  {
    if |t| == 0 then Some([])
    else if t[0] == '"' || t[0] == '\n' || t[0] == '\r' then None
    else if t[0] != '\\' then
      match StringCharacters(t[1..])
      case None => None
      case Some(rest) => Some([t[0]] + rest)
    else if |t| >= 2 && EscapedCharacter(t[1]).Some? then
      match StringCharacters(t[2..])
      case None => None
      case Some(rest) => Some([EscapedCharacter(t[1]).value] + rest)
    else if |t| >= 6 && t[1] == 'u' && Unicode4(t[2], t[3], t[4], t[5]).Some? then
      match StringCharacters(t[6..])
      case None => None
      case Some(rest) => Some([Unicode4(t[2], t[3], t[4], t[5]).value] + rest)
    else None
  }

  /** The value of a quoted StringValue. */
  function StringValue(lit: string): Option<string> {
    if |lit| >= 2 && lit[0] == '"' && lit[|lit| - 1] == '"' then StringCharacters(lit[1..|lit| - 1])
    else None
  }

  /** The literal for a text: the escaped text between quotes. */
  function Literal(s: string): (r: string)
    ensures |r| >= 2 && r[0] == '"' && r[|r| - 1] == '"'
    ensures r[1..|r| - 1] == Escape(s)
  {
    ['"'] + Escape(s) + ['"']
  }

  lemma ReadEscapedChar(c: char, t: string)
    ensures StringCharacters(EscapeChar(c) + t) ==
              match StringCharacters(t)
              case None => None
              case Some(rest) => Some([c] + rest)
  {
    var u := EscapeChar(c) + t;
    if |EscapeChar(c)| == 1 {
      assert u[1..] == t;
    } else {
      assert u[2..] == t;
    }
  }

  lemma {:induction false} ReadEscapeEach(s: string)
    ensures StringCharacters(EscapeEach(s)) == Some(s)
  {
    if |s| > 0 {
      ReadEscapeEach(s[1..]);
      ReadEscapedChar(s[0], EscapeEach(s[1..]));
      SeqCons(s);
    }
  }

  /** An escaped text between quotes reads back as the text, whatever it holds. */
  lemma LiteralRoundTrip(s: string)
    ensures StringValue(Literal(s)) == Some(s)
  {
    EscapeIsPerChar(s);
    ReadEscapeEach(s);
  }

  // ------------------------------------------------------------ Go quoting

  /** Characters whose Go quoted form is also a GraphQL string character or
      escape: the printable ones and backspace, form feed, newline,
      carriage return and tab. */
  predicate QuotesAlike(c: char) {
    Printable(c) || c == '\U{8}' || c == '\U{C}' || c == '\n' || c == '\r' || c == '\t'
  }

  lemma ReadQuotedChar(c: char, t: string)
    requires QuotesAlike(c)
    ensures StringCharacters(QuoteChar(c) + t) ==
              match StringCharacters(t)
              case None => None
              case Some(rest) => Some([c] + rest)
  {
    var u := QuoteChar(c) + t;
    if |QuoteChar(c)| == 1 {
      assert u[1..] == t;
    } else {
      assert u[2..] == t;
    }
  }

  lemma {:induction false} ReadQuoteBody(s: string)
    requires forall i :: 0 <= i < |s| ==> QuotesAlike(s[i])
    ensures StringCharacters(QuoteBody(s)) == Some(s)
  {
    if |s| > 0 {
      ReadQuoteBody(s[1..]);
      ReadQuotedChar(s[0], QuoteBody(s[1..]));
      SeqCons(s);
    }
  }

  /** A Go-quoted text (`%q`) reads back as the text in GraphQL when it has
      no control characters besides backspace, form feed, newline, carriage
      return and tab: titles and node ids are sent this way. */
  lemma GoQuoteReadsBack(s: string)
    requires forall i :: 0 <= i < |s| ==> QuotesAlike(s[i])
    ensures StringValue(GoQuote(s)) == Some(s)
  {
    var q := GoQuote(s);
    assert q[1..|q| - 1] == QuoteBody(s);
    ReadQuoteBody(s);
  }
}

=== FILE: issue.dfy ===
/** The issue record, its normalisation and the equality relations used by
    pull and push (internal/issue/issue.go). */
module Issues {
  import opened Results
  import opened Text
  import opened Order

  /** One issue as stored in a Markdown file with front matter. Timestamps are
      opaque instants (seconds); `None` is a missing value. */
  datatype Issue = Issue(
    number: string,
    title: string,
    labels: seq<string>,
    assignees: seq<string>,
    milestone: string,
    issueType: string,
    projects: seq<string>,
    state: string,
    stateReason: Option<string>,
    parent: Option<string>,
    blockedBy: seq<string>,
    blocks: seq<string>,
    syncedAt: Option<int>,
    body: string,
    author: string,
    createdAt: Option<int>,
    updatedAt: Option<int>)

  /** Temporary ids, assigned before an issue exists on the remote, start with "T". */
  predicate IsLocal(number: string) {
    HasPrefix(number, "T")
  }

  // ------------------------------------------------------------ body

  /** `strings.ReplaceAll(s, "\r\n", "\n")`: one left-to-right pass. */
  function ReplaceCRLF(s: string): (r: string)
    ensures |r| <= |s|
  {
    if |s| >= 2 && s[0] == '\r' && s[1] == '\n' then "\n" + ReplaceCRLF(s[2..])
    else if |s| == 0 then []
    else [s[0]] + ReplaceCRLF(s[1..])
  }

  /** The body normalisation exactly as issue.go writes it. */
  function NormalizeBodyAsWritten(body: string): (r: string)
    ensures r == [] || r[|r| - 1] == '\n'
  {
    EndWithNewline(TrimLeftChar(ReplaceCRLF(body), '\n'))
  }

  /** A non-empty text gains a final line feed unless it already has one. */
  function EndWithNewline(b: string): (r: string)
    ensures r == [] || r[|r| - 1] == '\n'
    ensures r == [] <==> b == []
  {
    if b == [] then [] else if b[|b| - 1] == '\n' then b else b + ['\n']
  }

  /** Normalising twice is not the same as normalising once: a body that ends
      in a carriage return gains a line feed, and the pair is then folded. */
  lemma NormalizeBodyAsWrittenNotIdempotent()
    ensures NormalizeBodyAsWritten("x\r") == "x\r\n"
    ensures NormalizeBodyAsWritten(NormalizeBodyAsWritten("x\r")) != NormalizeBodyAsWritten("x\r")
  {
    assert ReplaceCRLF("x\r") == "x\r";
    assert ReplaceCRLF("x\r\n") == "x\n" by {
      assert ReplaceCRLF("\r\n") == "\n" + ReplaceCRLF([]);
    }
  }

  predicate NoCRLF(s: string) {
    forall i :: 0 <= i < |s| - 1 ==> !(s[i] == '\r' && s[i + 1] == '\n')
  }

  /** CRLF-to-LF replacement repeated until no CRLF is left: every carriage
      return that a run of carriage returns separates from a line feed goes. */
  function StripCR(s: string): (r: string)
    ensures NoCRLF(r)
    ensures |r| > 0 ==> |s| > 0 && (r[0] == s[0] || r[0] == '\n')
    ensures |r| > 0 && r[0] == '\n' ==> |s| > 0 && (s[0] == '\n' || s[0] == '\r')
    ensures NoCRLF(s) ==> r == s
  {
    if |s| == 0 then []
    else
      var rest := StripCR(s[1..]);
      if s[0] == '\r' && |rest| > 0 && rest[0] == '\n' then rest
      else
        assert NoCRLF(s) ==> (|s| > 1 ==> !(s[0] == '\r' && s[1] == '\n'));
        [s[0]] + rest
  }

  /** The corrected body normalisation: CRLF becomes LF (to a fixpoint),
      leading blank lines go, and a non-empty body ends in exactly one line
      feed that no carriage return precedes. */
  function NormalizeBody(body: string): (r: string)
    ensures r == [] || (r[0] != '\n' && r[|r| - 1] == '\n')
    ensures NoCRLF(r)
  {
    var s := StripCR(body);
    var b := TrimLeftChar(s, '\n');
    NoCRLFSlice(s, |s| - |b|, |s|);
    EndBody(b)
  }

  /** The last step of `NormalizeBody`: a body not ending in a line feed
      gets one, after any carriage returns at its end are dropped. */
  function EndBody(b: string): (r: string)
    requires NoCRLF(b) && (b == [] || b[0] != '\n')
    ensures r == [] || (r[0] != '\n' && r[|r| - 1] == '\n')
    ensures NoCRLF(r)
  {
    if b == [] then []
    else if b[|b| - 1] == '\n' then b
    else
      var t := TrimRightChar(b, '\r');
      if t == [] then []
      else
        NoCRLFSlice(b, 0, |t|);
        assert b[..|t|] == t;
        NoCRLFNewline(t);
        assert (t + "\n")[0] == b[0];
        t + "\n"
  }

  lemma NoCRLFSlice(s: string, lo: nat, hi: nat)
    requires lo <= hi <= |s| && NoCRLF(s)
    ensures NoCRLF(s[lo..hi])
  {
    var t := s[lo..hi];
    forall i | 0 <= i < |t| - 1 ensures !(t[i] == '\r' && t[i + 1] == '\n') {
      assert t[i] == s[lo + i] && t[i + 1] == s[lo + i + 1];
    }
  }

  lemma NoCRLFNewline(t: string)
    requires NoCRLF(t) && |t| > 0 && t[|t| - 1] != '\r'
    ensures NoCRLF(t + "\n")
  {
    var u := t + "\n";
    forall i | 0 <= i < |u| - 1 ensures !(u[i] == '\r' && u[i + 1] == '\n') {
      if i < |t| - 1 {
        assert u[i] == t[i] && u[i + 1] == t[i + 1];
      }
    }
  }

  lemma StripCRFixed(s: string)
    requires NoCRLF(s)
    ensures StripCR(s) == s
  {
  }

  /** Normalising a normalised body changes nothing. */
  lemma NormalizeBodyIdempotent(body: string)
    ensures NormalizeBody(NormalizeBody(body)) == NormalizeBody(body)
  {
    var r := NormalizeBody(body);
    StripCRFixed(r);
    if r != [] {
      assert TrimLeftChar(r, '\n') == r;
    }
  }

  /** For bodies without carriage returns the correction agrees with the code. */
  lemma NormalizeBodyAgreesWithoutCR(body: string)
    requires '\r' !in body
    ensures NormalizeBody(body) == NormalizeBodyAsWritten(body)
  {
    ReplaceCRLFNoCR(body);
    assert NoCRLF(body);
    StripCRFixed(body);
    var b := TrimLeftChar(body, '\n');
    if b != [] && b[|b| - 1] != '\n' {
      assert b[|b| - 1] == body[|body| - 1];
      assert TrimRightChar(b, '\r') == b;
    }
  }

  /** On bodies without carriage returns the written normalisation keeps
      them out and is idempotent. */
  lemma NormalizeBodyAsWrittenWithoutCR(body: string)
    requires '\r' !in body
    ensures '\r' !in NormalizeBodyAsWritten(body)
    ensures NormalizeBodyAsWritten(NormalizeBodyAsWritten(body)) == NormalizeBodyAsWritten(body)
  {
    ReplaceCRLFNoCR(body);
    var b := TrimLeftChar(body, '\n');
    assert '\r' !in b by {
      assert b == body[|body| - |b|..];
    }
    var r := EndWithNewline(b);
    assert r == NormalizeBodyAsWritten(body);
    assert '\r' !in r by {
      assert r == b || r == b + ['\n'];
    }
    NormalizeBodyAgreesWithoutCR(body);
    NormalizeBodyAgreesWithoutCR(r);
    NormalizeBodyIdempotent(body);
  }

  lemma {:induction false} ReplaceCRLFNoCR(s: string)
    requires '\r' !in s
    ensures ReplaceCRLF(s) == s
  {
    if |s| > 0 {
      ReplaceCRLFNoCR(s[1..]);
    }
  }

  // ------------------------------------------------------------ sets

  /** The trimmed, non-blank members of `items`. */
  function Cleaned(items: seq<string>): set<string> {
    if |items| == 0 then {}
    else (if TrimSpace(items[0]) != [] then {TrimSpace(items[0])} else {}) + Cleaned(items[1..])
  }

  /** The cleaned set holds exactly the non-blank trimmed items. */
  lemma CleanedMembers(items: seq<string>, x: string)
    ensures x in Cleaned(items) <==>
              x != [] && exists i :: 0 <= i < |items| && TrimSpace(items[i]) == x
  {
    if x in Cleaned(items) {
      CleanedSound(items, x);
    }
    if x != [] && exists i :: 0 <= i < |items| && TrimSpace(items[i]) == x {
      var i :| 0 <= i < |items| && TrimSpace(items[i]) == x;
      CleanedComplete(items, i);
    }
  }

  lemma {:induction false} CleanedSound(items: seq<string>, x: string)
    requires x in Cleaned(items)
    ensures x != [] && exists i :: 0 <= i < |items| && TrimSpace(items[i]) == x
  {
    var h := TrimSpace(items[0]);
    if !(x == h && h != []) {
      var tail := items[1..];
      assert x in Cleaned(tail);
      CleanedSound(tail, x);
      var j :| 0 <= j < |tail| && TrimSpace(tail[j]) == x;
      assert items[j + 1] == tail[j];
    }
  }

  lemma {:induction false} CleanedComplete(items: seq<string>, i: int)
    requires 0 <= i < |items| && TrimSpace(items[i]) != []
    ensures TrimSpace(items[i]) in Cleaned(items)
  {
    var x := TrimSpace(items[i]);
    var tail := items[1..];
    var h := if TrimSpace(items[0]) != [] then {TrimSpace(items[0])} else {};
    assert Cleaned(items) == h + Cleaned(tail);
    if i > 0 {
      assert tail[i - 1] == items[i];
      CleanedComplete(tail, i - 1);
      assert x in Cleaned(tail);
    } else {
      assert x in h;
    }
  }

  /** A non-blank name without surrounding whitespace. */
  predicate IsCleanName(x: string) {
    x != [] && TrimSpace(x) == x
  }

  lemma {:induction false} CleanListFixed(s: seq<string>)
    requires forall i :: 0 <= i < |s| ==> IsCleanName(s[i])
    ensures CleanList(s) == s
  {
    if |s| > 0 {
      assert IsCleanName(s[0]);
      CleanListFixed(s[1..]);
      SeqCons(s);
    }
  }

  function CleanList(items: seq<string>): (r: seq<string>)
    ensures Elems(r) == Cleaned(items)
  {
    if |items| == 0 then []
    else
      var rest := CleanList(items[1..]);
      if TrimSpace(items[0]) != [] then
        assert Elems([TrimSpace(items[0])] + rest) == {TrimSpace(items[0])} + Elems(rest);
        [TrimSpace(items[0])] + rest
      else rest
  }

  /** `sortedStrings` / `sortedRefs`: trim, drop blanks and duplicates, sort. */
  function SortedStrings(items: seq<string>): (r: seq<string>)
    ensures StrictlyAscending(r)
    ensures Elems(r) == Cleaned(items)
    ensures |items| == 0 ==> r == []
  {
    SortUnique(CleanList(items))
  }

  /** Sorting an already sorted list of trimmed names changes nothing. */
  lemma SortedStringsIdempotent(items: seq<string>)
    ensures SortedStrings(SortedStrings(items)) == SortedStrings(items)
  {
    var r := SortedStrings(items);
    forall i | 0 <= i < |r| ensures IsCleanName(r[i]) {
      assert r[i] in Elems(r);
      CleanedMembers(items, r[i]);
      var k :| 0 <= k < |items| && TrimSpace(items[k]) == r[i];
      TrimSpaceIdempotent(items[k]);
    }
    CleanListFixed(r);
    SortUniqueFixed(r);
  }

  // ------------------------------------------------------------ records

  /** The canonical form used before every comparison. */
  function Normalize(i: Issue): (n: Issue)
    ensures n.(labels := i.labels, assignees := i.assignees, projects := i.projects,
               blockedBy := i.blockedBy, blocks := i.blocks, body := i.body) == i
  {
    i.(labels := SortedStrings(i.labels),
       assignees := SortedStrings(i.assignees),
       projects := SortedStrings(i.projects),
       blockedBy := SortedStrings(i.blockedBy),
       blocks := SortedStrings(i.blocks),
       body := NormalizeBodyAsWritten(i.body))
  }

  /** Each list field becomes the sorted, duplicate-free set of its trimmed
      non-blank entries, and the body is normalised. */
  lemma NormalizeShape(i: Issue)
    ensures var n := Normalize(i);
      && StrictlyAscending(n.labels) && Elems(n.labels) == Cleaned(i.labels)
      && StrictlyAscending(n.assignees) && Elems(n.assignees) == Cleaned(i.assignees)
      && StrictlyAscending(n.projects) && Elems(n.projects) == Cleaned(i.projects)
      && StrictlyAscending(n.blockedBy) && Elems(n.blockedBy) == Cleaned(i.blockedBy)
      && StrictlyAscending(n.blocks) && Elems(n.blocks) == Cleaned(i.blocks)
      && n.body == NormalizeBodyAsWritten(i.body)
  {
  }

  lemma NormalizeIdempotent(i: Issue)
    requires '\r' !in i.body
    ensures Normalize(Normalize(i)) == Normalize(i)
  {
    SortedStringsIdempotent(i.labels);
    SortedStringsIdempotent(i.assignees);
    SortedStringsIdempotent(i.projects);
    SortedStringsIdempotent(i.blockedBy);
    SortedStringsIdempotent(i.blocks);
    NormalizeBodyAsWrittenWithoutCR(i.body);
  }

  /** `normalizeOptional` / `normalizeOptionalRef`: nil reads as "". */
  function NormOpt(o: Option<string>): string {
    o.GetOr([])
  }

  /** `equalIssues`: field-wise equality of the normalised records, ignoring
      the sync timestamp, author and creation/update times, and ignoring the
      state reason when asked to. */
  predicate EqualIssues(a: Issue, b: Issue, ignoreStateReason: bool) {
    var na := Normalize(a);
    var nb := Normalize(b);
    && na.number == nb.number
    && na.title == nb.title
    && na.labels == nb.labels
    && na.assignees == nb.assignees
    && na.milestone == nb.milestone
    && na.issueType == nb.issueType
    && na.projects == nb.projects
    && na.state == nb.state
    && (ignoreStateReason || NormOpt(na.stateReason) == NormOpt(nb.stateReason))
    && NormOpt(na.parent) == NormOpt(nb.parent)
    && na.blockedBy == nb.blockedBy
    && na.blocks == nb.blocks
    && na.body == nb.body
  }

  predicate EqualIgnoringSyncedAt(a: Issue, b: Issue) {
    EqualIssues(a, b, false)
  }

  predicate EqualForConflictCheck(a: Issue, b: Issue) {
    EqualIssues(a, b, true)
  }

  /** Strict equality is an equivalence relation. */
  lemma EqualIgnoringSyncedAtEquivalence(a: Issue, b: Issue, c: Issue)
    ensures EqualIgnoringSyncedAt(a, a)
    ensures EqualIgnoringSyncedAt(a, b) ==> EqualIgnoringSyncedAt(b, a)
    ensures EqualIgnoringSyncedAt(a, b) && EqualIgnoringSyncedAt(b, c) ==> EqualIgnoringSyncedAt(a, c)
  {
  }

  /** Bookkeeping fields never affect equality. */
  lemma EqualityIgnoresBookkeeping(a: Issue, synced: Option<int>, author: string,
                                   created: Option<int>, updated: Option<int>)
    ensures EqualIgnoringSyncedAt(a, a.(syncedAt := synced, author := author,
                                        createdAt := created, updatedAt := updated))
  {
    var b := a.(syncedAt := synced, author := author, createdAt := created, updatedAt := updated);
    assert Normalize(b) == Normalize(a).(syncedAt := synced, author := author,
                                         createdAt := created, updatedAt := updated);
  }

  /** A nil state reason or parent equals an empty one. */
  lemma EqualityNilIsEmpty(a: Issue)
    ensures a.stateReason == None ==> EqualIgnoringSyncedAt(a, a.(stateReason := Some([])))
    ensures a.parent == None ==> EqualIgnoringSyncedAt(a, a.(parent := Some([])))
  {
    assert Normalize(a.(stateReason := Some([]))) == Normalize(a).(stateReason := Some([]));
    assert Normalize(a.(parent := Some([]))) == Normalize(a).(parent := Some([]));
  }

  /** The two equalities differ exactly in whether the state reason counts. */
  lemma StrictImpliesConflictEquality(a: Issue, b: Issue)
    ensures EqualIgnoringSyncedAt(a, b) ==> EqualForConflictCheck(a, b)
    ensures EqualIgnoringSyncedAt(a, b) <==>
              EqualForConflictCheck(a, b) && NormOpt(a.stateReason) == NormOpt(b.stateReason)
  {
  }

  // ------------------------------------------------------------ field sets

  /** The eleven fields a change set can name. */
  datatype Field =
    | Title | Labels | Assignees | Milestone | IssueType | Projects
    | State | Parent | BlockedBy | Blocks | Body

  /** `FieldSet`: one flag per field, here the set of fields whose flag is on. */
  type FieldSet = set<Field>

  /** The order in which `Fields` lists the fields. */
  const FieldOrder: seq<Field> :=
    [Title, Labels, Assignees, Milestone, IssueType, Projects, State, Parent, BlockedBy, Blocks, Body]

  function FieldName(f: Field): string {
    match f
    case Title => "title"
    case Labels => "labels"
    case Assignees => "assignees"
    case Milestone => "milestone"
    case IssueType => "issue_type"
    case Projects => "projects"
    case State => "state"
    case Parent => "parent"
    case BlockedBy => "blocked_by"
    case Blocks => "blocks"
    case Body => "body"
  }

  /** Position of a field in `FieldOrder`. */
  function Rank(f: Field): (k: nat)
    ensures k < |FieldOrder| && FieldOrder[k] == f
  {
    match f
    case Title => 0
    case Labels => 1
    case Assignees => 2
    case Milestone => 3
    case IssueType => 4
    case Projects => 5
    case State => 6
    case Parent => 7
    case BlockedBy => 8
    case Blocks => 9
    case Body => 10
  }

  /** The field a name denotes, if any. */
  function FieldOfName(name: string): Option<Field> {
    if name == "title" then Some(Title)
    else if name == "labels" then Some(Labels)
    else if name == "assignees" then Some(Assignees)
    else if name == "milestone" then Some(Milestone)
    else if name == "issue_type" then Some(IssueType)
    else if name == "projects" then Some(Projects)
    else if name == "state" then Some(State)
    else if name == "parent" then Some(Parent)
    else if name == "blocked_by" then Some(BlockedBy)
    else if name == "blocks" then Some(Blocks)
    else if name == "body" then Some(Body)
    else None
  }

  /** Every field's name reads back as that field, so names are distinct. */
  lemma FieldNameRoundTrip(f: Field)
    ensures FieldOfName(FieldName(f)) == Some(f)
  {
    match f
    case Title =>
    case Labels =>
    case Assignees =>
    case Milestone =>
    case IssueType =>
    case Projects =>
    case State =>
    case Parent =>
    case BlockedBy =>
    case Blocks =>
    case Body =>
  }

  lemma RankOfOrder(k: nat)
    requires k < |FieldOrder|
    ensures Rank(FieldOrder[k]) == k
  {
  }

  /** The fields of `fs` at positions `k` and later, in order. */
  function FieldsFrom(fs: FieldSet, k: nat): (r: seq<Field>)
    requires k <= |FieldOrder|
    ensures forall i :: 0 <= i < |r| ==> r[i] in fs && k <= Rank(r[i])
    ensures forall f :: f in fs && k <= Rank(f) ==> f in r
    ensures forall i, j :: 0 <= i < j < |r| ==> Rank(r[i]) < Rank(r[j])
    decreases |FieldOrder| - k
  {
    if k == |FieldOrder| then []
    else
      var rest := FieldsFrom(fs, k + 1);
      RankOfOrder(k);
      if FieldOrder[k] in fs then [FieldOrder[k]] + rest else rest
  }

  /** `Fields`: the names of the fields in the set, each once, in the fixed
      field order. */
  function Fields(fs: FieldSet): (r: seq<string>)
    ensures forall f :: FieldName(f) in r <==> f in fs
    ensures forall i, j :: 0 <= i < j < |r| ==> r[i] != r[j]
  {
    var l := FieldsFrom(fs, 0);
    var r := seq(|l|, i requires 0 <= i < |l| => FieldName(l[i]));
    FieldsNames(fs, l, r);
    r
  }

  lemma FieldsNames(fs: FieldSet, l: seq<Field>, r: seq<string>)
    requires l == FieldsFrom(fs, 0)
    requires |r| == |l| && forall i :: 0 <= i < |l| ==> r[i] == FieldName(l[i])
    ensures forall f :: FieldName(f) in r <==> f in fs
    ensures forall i, j :: 0 <= i < j < |r| ==> r[i] != r[j]
  {
    forall f ensures FieldName(f) in r <==> f in fs {
      if FieldName(f) in r {
        var i :| 0 <= i < |r| && r[i] == FieldName(f);
        FieldNameRoundTrip(f);
        FieldNameRoundTrip(l[i]);
      }
      if f in fs {
        assert f in l;
        var i :| 0 <= i < |l| && l[i] == f;
        assert r[i] == FieldName(f);
      }
    }
    forall i, j | 0 <= i < j < |r| ensures r[i] != r[j] {
      FieldNameRoundTrip(l[i]);
      FieldNameRoundTrip(l[j]);
    }
  }

  /** Whether two normalised records differ in field `f`; a nil parent
      reads as an empty one. */
  predicate Differs(f: Field, a: Issue, b: Issue) {
    match f
    case Title => a.title != b.title
    case Labels => a.labels != b.labels
    case Assignees => a.assignees != b.assignees
    case Milestone => a.milestone != b.milestone
    case IssueType => a.issueType != b.issueType
    case Projects => a.projects != b.projects
    case State => a.state != b.state
    case Parent => NormOpt(a.parent) != NormOpt(b.parent)
    case BlockedBy => a.blockedBy != b.blockedBy
    case Blocks => a.blocks != b.blocks
    case Body => a.body != b.body
  }

  lemma InOrder(f: Field)
    ensures f in FieldOrder
  {
    assert FieldOrder[Rank(f)] == f;
  }

  /** The fields in which two records differ. */
  function DiffSet(a: Issue, b: Issue): (r: FieldSet)
    ensures forall f :: f in r <==> Differs(f, a, b)
  {
    var r := set f | f in FieldOrder && Differs(f, a, b);
    DiffSetMembers(a, b, r);
    r
  }

  lemma DiffSetMembers(a: Issue, b: Issue, r: FieldSet)
    requires r == set f | f in FieldOrder && Differs(f, a, b)
    ensures forall f :: f in r <==> Differs(f, a, b)
  {
    forall f ensures f in r <==> Differs(f, a, b) {
      InOrder(f);
    }
  }

  /** `ComputeChanges`: the fields in which the normalised records differ. */
  function ComputeChanges(base: Issue, other: Issue): (r: FieldSet)
    ensures forall f :: f in r <==> Differs(f, Normalize(base), Normalize(other))
  {
    DiffSet(Normalize(base), Normalize(other))
  }

  lemma DiffSetLaws(a: Issue, b: Issue)
    ensures DiffSet(a, a) == {}
    ensures DiffSet(a, b) == DiffSet(b, a)
  {
    forall f ensures f !in DiffSet(a, a) && (f in DiffSet(a, b) <==> f in DiffSet(b, a)) {
      assert !Differs(f, a, a);
      assert Differs(f, a, b) == Differs(f, b, a);
    }
  }

  /** No record differs from itself, and difference is symmetric. */
  lemma ComputeChangesLaws(a: Issue, b: Issue)
    ensures ComputeChanges(a, a) == {}
    ensures ComputeChanges(a, b) == ComputeChanges(b, a)
  {
    DiffSetLaws(Normalize(a), Normalize(b));
    DiffSetLaws(Normalize(a), Normalize(a));
  }

  /** Strict equality is "same number, same state reason, no changed field". */
  lemma EqualIffNoChanges(a: Issue, b: Issue)
    ensures EqualIgnoringSyncedAt(a, b) <==>
      a.number == b.number && NormOpt(a.stateReason) == NormOpt(b.stateReason)
      && ComputeChanges(a, b) == {}
  {
    var c := ComputeChanges(a, b);
    if c == {} {
      assert Title !in c && Labels !in c && Assignees !in c && Milestone !in c;
      assert IssueType !in c && Projects !in c && State !in c && Parent !in c;
      assert BlockedBy !in c && Blocks !in c && Body !in c;
    }
  }

  /** The result of a three-way merge; `merged` is present only when `ok`. */
  datatype MergeResult = MergeResult(
    merged: Option<Issue>, ok: bool, conflicting: FieldSet,
    localChanges: FieldSet, remoteChanges: FieldSet)

  /** The local value when the local side changed the field, else the remote one. */
  function Pick<T>(changed: bool, local: T, remote: T): T {
    if changed then local else remote
  }

  /** `merged` is normalised `remote` with every locally changed field taken
      from `local` as it stands. */
  predicate MergedFrom(merged: Issue, lc: FieldSet, local: Issue, remote: Issue) {
    var nr := Normalize(remote);
    && merged.number == nr.number && merged.stateReason == nr.stateReason
    && merged.syncedAt == nr.syncedAt && merged.author == nr.author
    && merged.createdAt == nr.createdAt && merged.updatedAt == nr.updatedAt
    && merged.title == Pick(Title in lc, local.title, nr.title)
    && merged.labels == Pick(Labels in lc, local.labels, nr.labels)
    && merged.assignees == Pick(Assignees in lc, local.assignees, nr.assignees)
    && merged.milestone == Pick(Milestone in lc, local.milestone, nr.milestone)
    && merged.issueType == Pick(IssueType in lc, local.issueType, nr.issueType)
    && merged.projects == Pick(Projects in lc, local.projects, nr.projects)
    && merged.state == Pick(State in lc, local.state, nr.state)
    && merged.parent == Pick(Parent in lc, local.parent, nr.parent)
    && merged.blockedBy == Pick(BlockedBy in lc, local.blockedBy, nr.blockedBy)
    && merged.blocks == Pick(Blocks in lc, local.blocks, nr.blocks)
    && merged.body == Pick(Body in lc, local.body, nr.body)
  }

  /** `y` with every field in `fs` taken from `x`. */
  function PickFields(fs: FieldSet, x: Issue, y: Issue): Issue {
    y.(title := Pick(Title in fs, x.title, y.title),
       labels := Pick(Labels in fs, x.labels, y.labels),
       assignees := Pick(Assignees in fs, x.assignees, y.assignees),
       milestone := Pick(Milestone in fs, x.milestone, y.milestone),
       issueType := Pick(IssueType in fs, x.issueType, y.issueType),
       projects := Pick(Projects in fs, x.projects, y.projects),
       state := Pick(State in fs, x.state, y.state),
       parent := Pick(Parent in fs, x.parent, y.parent),
       blockedBy := Pick(BlockedBy in fs, x.blockedBy, y.blockedBy),
       blocks := Pick(Blocks in fs, x.blocks, y.blocks),
       body := Pick(Body in fs, x.body, y.body))
  }

  /** The merge step once both change sets are known. */
  function MergeChanges(lc: FieldSet, rc: FieldSet, local: Issue, remote: Issue): (m: MergeResult)
    ensures m.localChanges == lc && m.remoteChanges == rc
    ensures m.ok <==> lc * rc == {}
    ensures !m.ok ==> m.merged.None? && m.conflicting == lc * rc
    ensures m.ok ==> m.conflicting == {} && m.merged.Some?
                     && MergedFrom(m.merged.value, lc, local, remote)
  {
    var conflicts := lc * rc;
    if conflicts != {} then
      MergeResult(None, false, conflicts, lc, rc)
    else
      MergeResult(Some(PickFields(lc, local, Normalize(remote))), true, {}, lc, rc)
  }

  /** `ThreeWayMerge`: succeed iff the two sides changed disjoint fields;
      otherwise report exactly the fields both changed. */
  function ThreeWayMerge(base: Issue, local: Issue, remote: Issue): (m: MergeResult)
    ensures m.localChanges == ComputeChanges(base, local)
    ensures m.remoteChanges == ComputeChanges(base, remote)
    ensures m.ok <==> m.localChanges * m.remoteChanges == {}
    ensures !m.ok ==> m.merged.None? && m.conflicting == m.localChanges * m.remoteChanges
    ensures m.ok ==> m.conflicting == {} && m.merged.Some?
                     && MergedFrom(m.merged.value, m.localChanges, local, remote)
  {
    MergeChanges(ComputeChanges(base, local), ComputeChanges(base, remote), local, remote)
  }

  /** Field by field, "agrees" is an equivalence. */
  lemma DiffersLaws(f: Field, x: Issue, y: Issue, z: Issue)
    ensures !Differs(f, x, x)
    ensures Differs(f, x, y) == Differs(f, y, x)
    ensures !Differs(f, x, y) && !Differs(f, y, z) ==> !Differs(f, x, z)
  {
    match f
    case Title =>
    case Labels =>
    case Assignees =>
    case Milestone =>
    case IssueType =>
    case Projects =>
    case State =>
    case Parent =>
    case BlockedBy =>
    case Blocks =>
    case Body =>
  }

  /** A picked record agrees with the side each field was taken from. */
  lemma PickAgrees(fs: FieldSet, x: Issue, y: Issue, f: Field)
    ensures f in fs ==> !Differs(f, PickFields(fs, x, y), x)
    ensures f !in fs ==> !Differs(f, PickFields(fs, x, y), y)
  {
    var p := PickFields(fs, x, y);
    match f
    case Title =>
    case Labels =>
    case Assignees =>
    case Milestone =>
    case IssueType =>
    case Projects =>
    case State =>
    case Parent =>
    case BlockedBy =>
    case Blocks =>
    case Body =>
  }

  /** Normalising a merge of a raw local record into a normalised remote one
      is the same merge of the two normalised records. */
  lemma NormalizePick(fs: FieldSet, local: Issue, remote: Issue)
    requires '\r' !in remote.body
    ensures Normalize(PickFields(fs, local, Normalize(remote)))
            == PickFields(fs, Normalize(local), Normalize(remote))
  {
    SortedStringsIdempotent(remote.labels);
    SortedStringsIdempotent(remote.assignees);
    SortedStringsIdempotent(remote.projects);
    SortedStringsIdempotent(remote.blockedBy);
    SortedStringsIdempotent(remote.blocks);
    NormalizeBodyAsWrittenWithoutCR(remote.body);
  }

  lemma MergedFromPick(merged: Issue, lc: FieldSet, local: Issue, remote: Issue)
    requires MergedFrom(merged, lc, local, remote)
    ensures merged == PickFields(lc, local, Normalize(remote))
  {
  }

  /** The per-field core of `MergeKeepsBothSides`, for records already
      normalised: when `m` takes each field from `l` if the local side
      changed it and from `r` otherwise, and the two sides changed disjoint
      fields, then `m` differs from `l` only where the remote side changed
      and from `r` only where the local side changed. */
  lemma PickKeepsEdits(f: Field, b: Issue, l: Issue, r: Issue, m: Issue)
    requires !(Differs(f, b, l) && Differs(f, b, r))
    requires Differs(f, b, l) ==> !Differs(f, m, l)
    requires !Differs(f, b, l) ==> !Differs(f, m, r)
    ensures Differs(f, l, m) ==> Differs(f, b, r)
    ensures Differs(f, r, m) ==> Differs(f, b, l)
  {
    DiffersLaws(f, l, m, r);
    DiffersLaws(f, b, l, m);
    DiffersLaws(f, l, b, r);
    DiffersLaws(f, b, r, m);
    DiffersLaws(f, m, r, l);
    DiffersLaws(f, r, m, l);
  }

  /** A successful merge keeps both sides' edits: compared with the local copy
      it differs only in fields the remote changed, and compared with the
      remote copy only in fields the local side changed. */
  lemma MergeKeepsBothSides(base: Issue, local: Issue, remote: Issue)
    requires ThreeWayMerge(base, local, remote).ok
    requires '\r' !in remote.body
    ensures var m := ThreeWayMerge(base, local, remote);
            ComputeChanges(local, m.merged.value) <= m.remoteChanges
            && ComputeChanges(remote, m.merged.value) <= m.localChanges
  {
    var m := ThreeWayMerge(base, local, remote);
    var nb, nl, nr := Normalize(base), Normalize(local), Normalize(remote);
    var lc := DiffSet(nb, nl);
    assert lc == m.localChanges;
    MergedFromPick(m.merged.value, lc, local, remote);
    NormalizePick(lc, local, remote);
    PickedKeepsEdits(nb, nl, nr);
  }

  /** Without the carriage-return condition `MergeKeepsBothSides` fails as
      the code is written: when nobody edited an issue whose body is "x\r",
      the merge still holds a body that differs from the remote one. */
  lemma MergeRewritesRemoteBody(i: Issue)
    requires i.body == "x\r"
    ensures var m := ThreeWayMerge(i, i, i);
            m.ok && m.localChanges == {} && Body in ComputeChanges(i, m.merged.value)
  {
    var m := ThreeWayMerge(i, i, i);
    DiffSetLaws(Normalize(i), Normalize(i));
    NormalizeBodyAsWrittenNotIdempotent();
    assert m.merged.value.body == NormalizeBodyAsWritten(i.body);
    assert Normalize(m.merged.value).body != Normalize(i).body;
  }

  /** `MergeKeepsBothSides` for records already normalised. */
  lemma PickedKeepsEdits(nb: Issue, nl: Issue, nr: Issue)
    requires DiffSet(nb, nl) * DiffSet(nb, nr) == {}
    ensures var nm := PickFields(DiffSet(nb, nl), nl, nr);
            DiffSet(nl, nm) <= DiffSet(nb, nr) && DiffSet(nr, nm) <= DiffSet(nb, nl)
  {
    var lc := DiffSet(nb, nl);
    var nm := PickFields(lc, nl, nr);
    forall f ensures f in lc ==> !Differs(f, nm, nl)
                 ensures f !in lc ==> !Differs(f, nm, nr)
    {
      PickAgrees(lc, nl, nr, f);
    }
    KeepsEdits(nb, nl, nr, nm, lc, DiffSet(nb, nr));
  }

  /** The set-level form of `PickKeepsEdits`: `m` takes the local value
      exactly on the fields in `lc`, the local changes. */
  lemma KeepsEdits(b: Issue, l: Issue, r: Issue, m: Issue, lc: FieldSet, rc: FieldSet)
    requires forall f :: f in lc <==> Differs(f, b, l)
    requires forall f :: f in rc <==> Differs(f, b, r)
    requires lc * rc == {}
    requires forall f :: f in lc ==> !Differs(f, m, l)
    requires forall f :: f !in lc ==> !Differs(f, m, r)
    ensures DiffSet(l, m) <= rc && DiffSet(r, m) <= lc
  {
    forall f | f in DiffSet(l, m) ensures f in rc {
      assert f !in lc * rc;
      PickKeepsEdits(f, b, l, r, m);
    }
    forall f | f in DiffSet(r, m) ensures f in lc {
      assert f !in lc * rc;
      PickKeepsEdits(f, b, l, r, m);
    }
  }

  // ------------------------------------------------------------ file names

  predicate IsSlugAlnum(c: char) {
    IsLowerLetter(c) || IsDigit(c)
  }

  predicate IsSlugChar(c: char) {
    IsSlugAlnum(c) || c == '-'
  }

  predicate NoDoubleDash(s: string) {
    forall i :: 0 <= i < |s| - 1 ==> !(s[i] == '-' && s[i + 1] == '-')
  }

  /** Skip a run of characters outside [a-z0-9]. */
  function DropRun(s: string): (r: string)
    ensures |r| <= |s|
    ensures |r| > 0 ==> IsSlugAlnum(r[0])
  {
    if |s| > 0 && !IsSlugAlnum(s[0]) then DropRun(s[1..]) else s
  }

  /** `slugRegex.ReplaceAllString(s, "-")`: every maximal run of characters
      outside [a-z0-9] becomes one '-'. */
  function CollapseRuns(s: string): (r: string)
    ensures forall i :: 0 <= i < |r| ==> IsSlugChar(r[i])
    ensures NoDoubleDash(r)
    ensures |r| > 0 <==> |s| > 0
    ensures |r| > 0 ==> r[0] == (if IsSlugAlnum(s[0]) then s[0] else '-')
    decreases |s|
  {
    if |s| == 0 then []
    else if IsSlugAlnum(s[0]) then [s[0]] + CollapseRuns(s[1..])
    else "-" + CollapseRuns(DropRun(s[1..]))
  }

  /** `strings.ReplaceAll(s, "--", "-")`. */
  function ReplaceDoubleDash(s: string): (r: string)
    ensures NoDoubleDash(s) ==> r == s
  {
    if |s| >= 2 && s[0] == '-' && s[1] == '-' then "-" + ReplaceDoubleDash(s[2..])
    else if |s| == 0 then []
    else [s[0]] + ReplaceDoubleDash(s[1..])
  }

  /** Only slug characters, and never two dashes in a row. */
  predicate IsSlugText(s: string) {
    (forall i :: 0 <= i < |s| ==> IsSlugChar(s[i])) && NoDoubleDash(s)
  }

  lemma SliceKeepsSlug(s: string, lo: nat, hi: nat)
    requires lo <= hi <= |s| && IsSlugText(s)
    ensures IsSlugText(s[lo..hi])
  {
    var t := s[lo..hi];
    assert forall i :: 0 <= i < |t| ==> t[i] == s[lo + i];
  }

  lemma TrimCharKeepsSlug(s: string, c: char)
    requires IsSlugText(s)
    ensures IsSlugText(TrimChar(s, c))
  {
    var off := |s| - |TrimLeftChar(s, c)|;
    SliceKeepsSlug(s, off, off + |TrimChar(s, c)|);
  }

  /** The steps of `Slugify` after the runs are collapsed. */
  lemma SlugFinish(collapsed: string)
    requires IsSlugText(collapsed)
    ensures var r := ReplaceDoubleDash(TrimChar(TrimChar(collapsed, '-'), '.'));
            IsSlugText(r) && (|r| > 0 ==> r[0] != '-' && r[|r| - 1] != '-')
  {
    var dashTrimmed := TrimChar(collapsed, '-');
    TrimCharKeepsSlug(collapsed, '-');
    SlugLacks(dashTrimmed, '.');
    TrimLeftCharFixed(dashTrimmed, '.');
    TrimRightCharFixed(dashTrimmed, '.');
    var dotTrimmed := TrimChar(dashTrimmed, '.');
    assert dotTrimmed == dashTrimmed;
    var r := ReplaceDoubleDash(dotTrimmed);
    assert r == dashTrimmed;
  }

  lemma SlugLacks(s: string, c: char)
    requires IsSlugText(s) && !IsSlugChar(c)
    ensures c !in s
  {
  }

  /** `Slugify`: lower-case, collapse everything outside [a-z0-9] to single
      dashes, and trim dashes (and dots) from both ends. */
  function Slugify(title: string): (r: string)
    ensures IsSlugText(r)
    ensures |r| > 0 ==> r[0] != '-' && r[|r| - 1] != '-'
  {
    var lower := ToLower(TrimSpace(title));
    if lower == [] then []
    else
      var collapsed := CollapseRuns(lower);
      SlugFinish(collapsed);
      ReplaceDoubleDash(TrimChar(TrimChar(collapsed, '-'), '.'))
  }

  lemma TrimLeftCharFixed(s: string, c: char)
    requires c !in s
    ensures TrimLeftChar(s, c) == s
  {
  }

  lemma TrimRightCharFixed(s: string, c: char)
    requires c !in s
    ensures TrimRightChar(s, c) == s
  {
  }

  /** The slug of a title, or "issue" when the slug is empty. */
  function SlugOrDefault(title: string): (r: string)
    ensures |r| > 0 && IsSlugText(r) && '/' !in r
  {
    var slug := Slugify(title);
    if slug == [] then DefaultSlug()
    else
      SlugHasNoSlash(slug);
      slug
  }

  lemma SlugHasNoSlash(s: string)
    requires IsSlugText(s)
    ensures '/' !in s
  {
    SlugLacks(s, '/');
  }

  function DefaultSlug(): (r: string)
    ensures |r| > 0 && IsSlugText(r) && '/' !in r
  {
    var r := "issue";
    assert IsSlugAlnum('i') && IsSlugAlnum('s') && IsSlugAlnum('u') && IsSlugAlnum('e');
    SlugLacks(r, '/');
    r
  }

  /** `FileName`: "<number>-<slug>.md", with slug "issue" for an empty slug. */
  function FileName(number: string, title: string): string
  {
    number + "-" + SlugOrDefault(title) + ".md"
  }

  /** `PathFor`: the file name inside a container directory. */
  function PathFor(dir: string, number: string, title: string): string {
    dir + "/" + FileName(number, title)
  }

  /** The part after the last '/'. */
  function AfterLastSlash(p: string): (r: string)
    ensures '/' !in r
    ensures '/' !in p ==> r == p
  {
    if |p| == 0 then []
    else if p[|p| - 1] == '/' then []
    else
      assert p == p[..|p| - 1] + [p[|p| - 1]];
      AfterLastSlash(p[..|p| - 1]) + [p[|p| - 1]]
  }

  /** `filepath.Base` for slash-separated paths. */
  function Base(path: string): (r: string)
    ensures '/' !in path && path != [] ==> r == path
  {
    if path == [] then "."
    else
      var q := TrimRightChar(path, '/');
      if q == [] then "/" else AfterLastSlash(q)
  }

  /** `numberFromFilename`: the part of the base name (without ".md") before
      the first '-', or all of it when there is no '-'. */
  function NumberFromFilename(path: string): (r: string)
    ensures '-' !in r
  {
    var name := TrimSuffix(Base(path), ".md");
    match IndexOf(name, '-')
    case None => name
    case Some(k) => name[..k]
  }

  lemma {:induction false} AfterLastSlashAppend(d: string, f: string)
    requires '/' !in f && |f| > 0
    ensures AfterLastSlash(d + "/" + f) == f
  {
    var p := d + "/" + f;
    assert p[..|p| - 1] == d + "/" + f[..|f| - 1];
    if |f| == 1 {
      assert p[..|p| - 1] == d + "/";
    } else {
      AfterLastSlashAppend(d, f[..|f| - 1]);
      assert f == f[..|f| - 1] + [f[|f| - 1]];
    }
  }

  lemma BaseOfName(dir: string, f: string)
    requires '/' !in f && |f| > 0
    ensures Base(f) == f
    ensures Base(dir + "/" + f) == f
  {
    var p := dir + "/" + f;
    assert p[|p| - 1] == f[|f| - 1];
    assert TrimRightChar(p, '/') == p;
    AfterLastSlashAppend(dir, f);
  }

  lemma NameHasNoSlash(number: string, slug: string)
    requires '/' !in number && '/' !in slug
    ensures '/' !in number + "-" + slug + ".md"
  {
    var f := number + "-" + slug + ".md";
    var name := number + "-" + slug;
    forall i | 0 <= i < |f| ensures f[i] != '/' {
      if i < |number| { assert f[i] == number[i]; }
      else if i == |number| { }
      else if i < |name| { assert f[i] == slug[i - |number| - 1]; }
      else { assert f[i] == ".md"[i - |name|]; }
    }
  }

  lemma NameBeforeDash(number: string, slug: string)
    requires '-' !in number
    ensures IndexOf(number + "-" + slug, '-') == Some(|number|)
  {
    var name := number + "-" + slug;
    assert name[|number|] == '-';
    assert name[..|number|] == number;
  }

  lemma NumberOfName(number: string, slug: string)
    requires '-' !in number && '/' !in number && '/' !in slug
    ensures NumberFromFilename(number + "-" + slug + ".md") == number
  {
    var name := number + "-" + slug;
    var f := name + ".md";
    assert number + "-" + slug + ".md" == f;
    NameHasNoSlash(number, slug);
    assert Base(f) == f;
    assert HasSuffix(f, ".md");
    assert TrimSuffix(f, ".md") == name;
    NameBeforeDash(number, slug);
    assert name[..|number|] == number;
  }

  /** The number is recovered from the file name, with or without a directory. */
  lemma FileNameRoundTrip(dir: string, number: string, title: string)
    requires '-' !in number && '/' !in number
    ensures NumberFromFilename(FileName(number, title)) == number
    ensures NumberFromFilename(PathFor(dir, number, title)) == number
  {
    var slug := SlugOrDefault(title);
    var f := FileName(number, title);
    assert f == number + "-" + slug + ".md";
    PathRoundTrip(dir, number, slug);
    assert NumberFromFilename(f) == number;
    assert PathFor(dir, number, title) == dir + "/" + f;
  }

  lemma PathRoundTrip(dir: string, number: string, slug: string)
    requires '-' !in number && '/' !in number && '/' !in slug
    ensures NumberFromFilename(number + "-" + slug + ".md") == number
    ensures NumberFromFilename(dir + "/" + (number + "-" + slug + ".md")) == number
  {
    var f := number + "-" + slug + ".md";
    NameHasNoSlash(number, slug);
    BaseOfName(dir, f);
    NumberOfName(number, slug);
  }

  // ------------------------------------------------------------ front matter

  /** The UTF-8 byte order mark, one character per byte. */
  const BOM: string := "\U{EF}\U{BB}\U{BF}"

  /** `bytes.Split(s, "\n")`: k line feeds give k + 1 lines. */
  function SplitLines(s: string): (r: seq<string>)
    ensures |r| >= 1
  {
    if |s| == 0 then [[]]
    else
      var rest := SplitLines(s[1..]);
      if s[0] == '\n' then [[]] + rest else [[s[0]] + rest[0]] + rest[1..]
  }

  lemma {:induction false} SplitLinesAppend(a: string, b: string)
    ensures SplitLines(a + "\n" + b) == SplitLines(a) + SplitLines(b)
  {
    if |a| == 0 {
      assert a + "\n" + b == "\n" + b;
      assert ("\n" + b)[1..] == b;
    } else {
      assert (a + "\n" + b)[1..] == a[1..] + "\n" + b;
      SplitLinesAppend(a[1..], b);
    }
  }

  /** A string without a line feed is a single line. */
  lemma {:induction false} SplitLinesSingle(s: string)
    requires '\n' !in s
    ensures SplitLines(s) == [s]
  {
    if |s| > 0 {
      SplitLinesSingle(s[1..]);
      assert s == [s[0]] + s[1..];
    }
  }

  /** Splitting at line feeds and joining with line feeds is the identity. */
  lemma {:induction false} JoinSplitLines(s: string)
    ensures Join(SplitLines(s), "\n") == s
  {
    if |s| > 0 {
      JoinSplitLines(s[1..]);
      var rest := SplitLines(s[1..]);
      if s[0] == '\n' {
        assert SplitLines(s) == [[]] + rest;
        assert SplitLines(s)[1..] == rest;
      } else if |rest| == 1 {
        assert SplitLines(s) == [[s[0]] + rest[0]];
      } else {
        assert SplitLines(s)[1..] == rest[1..];
        assert Join(rest, "\n") == rest[0] + "\n" + Join(rest[1..], "\n");
      }
    }
  }

  /** The index of the first "---" line at or after `from`. */
  function FindDelimiter(lines: seq<string>, from: nat): (r: Option<nat>)
    requires from <= |lines|
    ensures r.None? <==> forall k :: from <= k < |lines| ==> lines[k] != "---"
    ensures r.Some? ==> from <= r.value < |lines| && lines[r.value] == "---"
                        && forall k :: from <= k < r.value ==> lines[k] != "---"
    decreases |lines| - from
  {
    if from == |lines| then None
    else if lines[from] == "---" then Some(from)
    else FindDelimiter(lines, from + 1)
  }

  datatype Split = Split(front: string, body: string)

  /** `splitFrontMatter`: after an optional byte order mark the data must
      open with a "---" line; the front matter runs to the next "---" line,
      and the body is everything after it, less one leading line feed. */
  function SplitFrontMatter(data: string): (r: Result<Split>)
  {
    var d := TrimPrefix(data, BOM);
    if !HasPrefix(d, "---\n") then Err("missing front matter")
    else
      var lines := SplitLines(d);
      match FindDelimiter(lines, 1)
      case None => Err("unterminated front matter")
      case Some(end) =>
        Ok(Split(Join(lines[1..end], "\n"), TrimPrefix(Join(lines[end + 1..], "\n"), "\n")))
  }

  /** The two ways splitting fails, and nothing else. */
  lemma SplitFrontMatterErrors(data: string)
    ensures var d := TrimPrefix(data, BOM);
            && (SplitFrontMatter(data) == Err("missing front matter") <==> !HasPrefix(d, "---\n"))
            && (SplitFrontMatter(data) == Err("unterminated front matter") <==>
                  HasPrefix(d, "---\n") && forall k :: 1 <= k < |SplitLines(d)| ==> SplitLines(d)[k] != "---")
            && (SplitFrontMatter(data).Err? ==>
                  SplitFrontMatter(data) in {Err("missing front matter"), Err("unterminated front matter")})
  {
    var d := TrimPrefix(data, BOM);
    if HasPrefix(d, "---\n") {
      var lines := SplitLines(d);
      var e := FindDelimiter(lines, 1);
      if e.Some? {
        assert 1 <= e.value < |lines| && lines[e.value] == "---";
        assert !(forall k :: 1 <= k < |lines| ==> lines[k] != "---");
        assert SplitFrontMatter(data).Ok?;
      }
    }
  }

  /** The front matter a `Render` layout may carry: empty, or ending in a line
      feed with no line of its own equal to the delimiter. */
  predicate WellFormedFront(f: string) {
    f == [] || (f[|f| - 1] == '\n' && "---" !in SplitLines(f[..|f| - 1]))
  }

  /** The layout `Render` writes: the opening delimiter, the front matter,
      the closing delimiter, an empty line, then the body. */
  function Layout(front: string, body: string): string {
    "---\n" + front + "---\n\n" + body
  }

  lemma LayoutAssocEmpty(b: string)
    ensures Layout([], b) == "---" + "\n" + ("---" + "\n" + ([] + "\n" + b))
  {
  }

  lemma LayoutAssoc(g: string, b: string)
    ensures Layout(g + "\n", b)
            == "---" + "\n" + (g + "\n" + ("---" + "\n" + ([] + "\n" + b)))
  {
  }

  /** The closing delimiter, the empty line and the body's lines. */
  lemma ClosingLines(b: string)
    ensures SplitLines("---" + "\n" + ([] + "\n" + b)) == ["---"] + [[]] + SplitLines(b)
  {
    SplitLinesSingle("---");
    assert SplitLines([]) == [[]];
    SplitLinesAppend([], b);
    SplitLinesAppend("---", [] + "\n" + b);
  }

  /** With no front matter, the layout is the closing part after one line. */
  lemma RenderedLinesEmpty(b: string)
    ensures SplitLines(Layout([], b)) == ["---"] + ["---"] + [[]] + SplitLines(b)
  {
    var tail := "---" + "\n" + ([] + "\n" + b);
    ClosingLines(b);
    SplitLinesSingle("---");
    SplitLinesAppend("---", tail);
    LayoutAssocEmpty(b);
  }

  /** The front matter's own lines sit between the two delimiters. */
  lemma RenderedLinesFront(g: string, b: string)
    ensures SplitLines(Layout(g + "\n", b))
            == ["---"] + SplitLines(g) + ["---"] + ([[]] + SplitLines(b))
  {
    var tail := "---" + "\n" + ([] + "\n" + b);
    ClosingLines(b);
    SplitLinesSingle("---");
    SplitLinesAppend(g, tail);
    SplitLinesAppend("---", g + "\n" + tail);
    LayoutAssoc(g, b);
  }

  /** `splitFrontMatter` on data whose lines are a delimiter, front matter
      lines without a delimiter, a delimiter, and the rest. */
  lemma SplitOfLines(data: string, fl: seq<string>, rest: seq<string>)
    requires HasPrefix(data, "---\n") && !HasPrefix(data, BOM)
    requires SplitLines(data) == ["---"] + fl + ["---"] + rest
    requires "---" !in fl
    ensures SplitFrontMatter(data) == Ok(Split(Join(fl, "\n"), TrimPrefix(Join(rest, "\n"), "\n")))
  {
    var lines := SplitLines(data);
    var end := 1 + |fl|;
    assert lines[end] == "---";
    assert forall k :: 1 <= k < end ==> lines[k] == fl[k - 1];
    assert FindDelimiter(lines, 1) == Some(end);
    assert lines[1..end] == fl;
    assert lines[end + 1..] == rest;
  }

  lemma LayoutStart(f: string, b: string)
    ensures HasPrefix(Layout(f, b), "---\n")
    ensures !HasPrefix(Layout(f, b), BOM)
    ensures TrimPrefix(BOM + Layout(f, b), BOM) == Layout(f, b)
  {
    var data := Layout(f, b);
    assert data[..4] == "---\n";
    assert data[0] != BOM[0];
    assert (BOM + data)[..|BOM|] == BOM;
    assert (BOM + data)[|BOM|..] == data;
  }

  lemma SplitLayoutEmpty(b: string)
    ensures SplitFrontMatter(Layout([], b)) == Ok(Split([], b))
  {
    LayoutStart([], b);
    RenderedLinesEmpty(b);
    SplitOfLines(Layout([], b), [], [[]] + SplitLines(b));
    RestIsBody(b);
  }

  lemma SplitLayoutFront(g: string, b: string)
    requires "---" !in SplitLines(g)
    ensures SplitFrontMatter(Layout(g + "\n", b)) == Ok(Split(g, b))
  {
    LayoutStart(g + "\n", b);
    RenderedLinesFront(g, b);
    SplitOfFrontLines(Layout(g + "\n", b), g, b);
  }

  lemma SplitOfFrontLines(data: string, g: string, b: string)
    requires HasPrefix(data, "---\n") && !HasPrefix(data, BOM)
    requires SplitLines(data) == ["---"] + SplitLines(g) + ["---"] + ([[]] + SplitLines(b))
    requires "---" !in SplitLines(g)
    ensures SplitFrontMatter(data) == Ok(Split(g, b))
  {
    var fl := SplitLines(g);
    var rest: seq<string> := [[]] + SplitLines(b);
    SplitOfLines(data, fl, rest);
    RestIsBody(b);
    JoinSplitLines(g);
  }

  /** The layout `Render` writes splits back into its front matter (without
      the line feed that ends it) and exactly its body, with or without a
      byte order mark in front. */
  lemma SplitRenderedLayout(f: string, b: string)
    requires WellFormedFront(f)
    ensures SplitFrontMatter(Layout(f, b)) == Ok(Split(if f == [] then [] else f[..|f| - 1], b))
    ensures SplitFrontMatter(BOM + Layout(f, b)) == SplitFrontMatter(Layout(f, b))
  {
    LayoutStart(f, b);
    if f == [] {
      SplitLayoutEmpty(b);
    } else {
      var g := f[..|f| - 1];
      assert f == g + "\n";
      SplitLayoutFront(g, b);
    }
  }

  /** An empty line followed by the body's lines joins back to the body. */
  lemma RestIsBody(b: string)
    ensures TrimPrefix(Join([[]] + SplitLines(b), "\n"), "\n") == b
  {
    var rest: seq<string> := [[]] + SplitLines(b);
    assert rest[1..] == SplitLines(b);
    assert Join(rest, "\n") == "\n" + Join(SplitLines(b), "\n");
    JoinSplitLines(b);
  }
}

=== FILE: order.dfy ===
/** Go's ordering of strings (`a < b`, byte-wise, which for the ASCII alphabet
    is character-wise) and the sorted, duplicate-free sequences produced by
    `sort.Strings` after de-duplication. */
module Order {

  /** Lexicographic strict order on strings. */
  predicate Lt(a: string, b: string)
    decreases |a|
  {
    if |a| == 0 then |b| > 0
    else if |b| == 0 then false
    else if a[0] != b[0] then a[0] < b[0]
    else Lt(a[1..], b[1..])
  }

  lemma {:induction false} LtIrreflexive(a: string)
    ensures !Lt(a, a)
  {
    if |a| > 0 {
      LtIrreflexive(a[1..]);
    }
  }

  lemma {:induction false} LtAsymmetric(a: string, b: string)
    requires Lt(a, b)
    ensures !Lt(b, a)
  {
    if |a| > 0 && |b| > 0 && a[0] == b[0] {
      LtAsymmetric(a[1..], b[1..]);
    }
  }

  lemma {:induction false} LtTransitive(a: string, b: string, c: string)
    requires Lt(a, b) && Lt(b, c)
    ensures Lt(a, c)
  {
    if |a| > 0 && |b| > 0 && |c| > 0 && a[0] == b[0] && b[0] == c[0] {
      LtTransitive(a[1..], b[1..], c[1..]);
    }
  }

  lemma {:induction false} LtTotal(a: string, b: string)
    ensures a == b || Lt(a, b) || Lt(b, a)
  {
    if |a| > 0 && |b| > 0 && a[0] == b[0] {
      LtTotal(a[1..], b[1..]);
      if a[1..] == b[1..] {
        assert a == [a[0]] + a[1..] && b == [b[0]] + b[1..];
      }
    }
  }

  predicate StrictlyAscending(s: seq<string>) {
    forall i, j :: 0 <= i < j < |s| ==> Lt(s[i], s[j])
  }

  function Elems(s: seq<string>): set<string> {
    set x | x in s
  }

  /** A non-empty sequence is its head followed by its tail. */
  lemma SeqCons<T>(s: seq<T>)
    requires |s| > 0
    ensures s == [s[0]] + s[1..]
  {
  }

  lemma ConsAppend<T>(v: seq<T>, z: seq<T>)
    requires |v| > 0
    ensures v + z == [v[0]] + (v[1..] + z)
  {
  }

  lemma ConsSplit<T>(s: seq<T>, n: int)
    requires 1 <= n <= |s|
    ensures s == [s[0]] + s[1..n] + s[n..]
  {
  }

  lemma ElemsCons(s: seq<string>)
    requires |s| > 0
    ensures Elems(s) == {s[0]} + Elems(s[1..])
  {
    assert s == [s[0]] + s[1..];
  }

  /** Insert `x` into an ascending duplicate-free sequence, unless present. */
  function InsertUnique(x: string, s: seq<string>): (r: seq<string>)
    requires StrictlyAscending(s)
    ensures StrictlyAscending(r)
    ensures Elems(r) == Elems(s) + {x}
  {
    if |s| == 0 then [x]
    else if x == s[0] then s
    else if Lt(x, s[0]) then
      InsertBeforeHead(x, s);
      [x] + s
    else
      var rest := InsertUnique(x, s[1..]);
      InsertAfterHead(x, s, rest);
      [s[0]] + rest
  }

  lemma InsertBeforeHead(x: string, s: seq<string>)
    requires StrictlyAscending(s) && |s| > 0 && Lt(x, s[0])
    ensures StrictlyAscending([x] + s)
  {
    forall j | 1 <= j <= |s| ensures Lt(([x] + s)[0], ([x] + s)[j]) {
      if j > 1 {
        LtTransitive(x, s[0], s[j - 1]);
      }
    }
  }

  lemma InsertAfterHead(x: string, s: seq<string>, rest: seq<string>)
    requires StrictlyAscending(s) && |s| > 0 && x != s[0] && !Lt(x, s[0])
    requires StrictlyAscending(rest) && Elems(rest) == Elems(s[1..]) + {x}
    ensures StrictlyAscending([s[0]] + rest)
    ensures Elems([s[0]] + rest) == Elems(s) + {x}
  {
    LtTotal(x, s[0]);
    forall j | 0 <= j < |rest| ensures Lt(s[0], rest[j]) {
      assert rest[j] in Elems(rest);
      if rest[j] != x {
        var k :| 0 <= k < |s[1..]| && s[1..][k] == rest[j];
        assert s[k + 1] == rest[j];
      }
    }
    assert s == [s[0]] + s[1..];
    assert Elems(s) == {s[0]} + Elems(s[1..]);
    assert Elems([s[0]] + rest) == {s[0]} + Elems(rest);
  }

  /** De-duplicate and sort: the unique ascending arrangement of `s`'s elements. */
  function SortUnique(s: seq<string>): (r: seq<string>)
    ensures StrictlyAscending(r)
    ensures Elems(r) == Elems(s)
  {
    if |s| == 0 then []
    else
      assert s == s[..|s| - 1] + [s[|s| - 1]];
      InsertUnique(s[|s| - 1], SortUnique(s[..|s| - 1]))
  }

  /** An ascending duplicate-free sequence is determined by its elements. */
  lemma {:induction false} AscendingUnique(a: seq<string>, b: seq<string>)
    requires StrictlyAscending(a) && StrictlyAscending(b)
    requires Elems(a) == Elems(b)
    ensures a == b
  {
    if |a| > 0 {
      AscendingSameHead(a, b);
      AscendingTail(a);
      AscendingTail(b);
      AscendingUnique(a[1..], b[1..]);
      SeqCons(a);
      SeqCons(b);
    } else {
      NoElems(b);
    }
  }

  lemma NoElems(s: seq<string>)
    ensures Elems(s) == {} <==> |s| == 0
  {
    if |s| > 0 {
      assert s[0] in Elems(s);
    }
  }

  /** Two ascending sequences with the same elements start alike. */
  lemma AscendingSameHead(a: seq<string>, b: seq<string>)
    requires StrictlyAscending(a) && StrictlyAscending(b)
    requires Elems(a) == Elems(b) && |a| > 0
    ensures |b| > 0 && a[0] == b[0]
  {
    assert a[0] in Elems(b);
    assert b[0] in Elems(a);
    var k :| 0 <= k < |b| && b[k] == a[0];
    var m :| 0 <= m < |a| && a[m] == b[0];
    if k > 0 {
      if m == 0 {
        LtIrreflexive(a[0]);
      } else {
        LtAsymmetric(a[0], a[m]);
      }
    }
  }

  /** The tail of an ascending sequence is ascending and holds all but the head. */
  lemma AscendingTail(a: seq<string>)
    requires StrictlyAscending(a) && |a| > 0
    ensures StrictlyAscending(a[1..])
    ensures Elems(a[1..]) == Elems(a) - {a[0]}
  {
    HeadNotInTail(a);
    SeqCons(a);
  }

  lemma HeadNotInTail(a: seq<string>)
    requires StrictlyAscending(a) && |a| > 0
    ensures a[0] !in a[1..]
  {
    if a[0] in a[1..] {
      var k :| 0 <= k < |a[1..]| && a[1..][k] == a[0];
      assert Lt(a[0], a[k + 1]);
      LtIrreflexive(a[0]);
    }
  }

  /** Sorting a sequence that is already ascending and duplicate-free returns it. */
  lemma SortUniqueFixed(s: seq<string>)
    requires StrictlyAscending(s)
    ensures SortUnique(s) == s
  {
    AscendingUnique(SortUnique(s), s);
  }
}

=== FILE: progress.dfy ===
/** The pure parts of the terminal progress line (internal/app/progress.go):
    the bouncing pulse of the indeterminate bar, the cells of both bars,
    the clock-style durations of the ETA, and left-padding by visible width.
    The ticker goroutine, cursor handling, colours and the floating-point
    ratio and ETA arithmetic are not modelled. */
module Progress {
  import opened Results
  import opened Text
  import Format

  /** `progressBarWidth` and `pulseWidth`. */
  const BarWidth: nat := 32
  const PulseWidth: nat := 6

  /** The last position the pulse may start at. `advancePulseLocked` clamps
      a negative value to 0, which never happens with these widths. */
  const MaxStart: nat := BarWidth - PulseWidth

  /** Ticks for the pulse to go there and back. */
  const Period: nat := 2 * MaxStart

  // ------------------------------------------------------------ pulse

  /** The pulse's position and direction of travel (+1 or -1). */
  datatype Pulse = Pulse(pos: int, dir: int)

  /** A new reporter, and `startPulseLocked` on an inactive pulse. */
  const Start := Pulse(0, 1)

  predicate Valid(p: Pulse) {
    0 <= p.pos <= MaxStart && (p.dir == 1 || p.dir == -1)
  }

  /** `advancePulseLocked`: one step in the current direction, turning round
      at either end. */
  function Advance(p: Pulse): (q: Pulse)
    ensures 0 <= q.pos <= MaxStart
    ensures Valid(p) ==> Valid(q)
    ensures 0 < q.pos < MaxStart ==> q.dir == p.dir && q.pos == p.pos + p.dir
    ensures Valid(p) ==> -1 <= q.pos - p.pos <= 1
  {
    var next := p.pos + p.dir;
    if next <= 0 then Pulse(0, 1)
    else if next >= MaxStart then Pulse(MaxStart, -1)
    else Pulse(next, p.dir)
  }

  /** `k` ticks of the pulse goroutine. */
  function Iterate(p: Pulse, k: nat): (q: Pulse)
    ensures k > 0 ==> 0 <= q.pos <= MaxStart
    ensures Valid(p) ==> Valid(q)
  {
    if k == 0 then p else Advance(Iterate(p, k - 1))
  }

  /** The triangle wave the pulse follows: up to MaxStart and back. */
  function Tri(j: nat): nat
    requires j < Period
  {
    if j <= MaxStart then j else Period - j
  }

  function Wave(j: nat): Pulse
    requires j < Period
  {
    Pulse(Tri(j), if j < MaxStart then 1 else -1)
  }

  lemma AdvanceWave(j: nat)
    requires j < Period
    ensures Advance(Wave(j)) == Wave((j + 1) % Period)
  {
  }

  lemma ModStep(k: nat)
    requires k > 0
    ensures ((k - 1) % Period + 1) % Period == k % Period
  {
    var q := (k - 1) / Period;
    var j := (k - 1) % Period;
    assert k == q * Period + (j + 1);
    if j + 1 == Period {
      assert k == (q + 1) * Period;
    }
  }

  /** From the start the pulse sweeps from 0 to MaxStart and back, once
      every Period ticks. */
  lemma {:induction false} PulseSweeps(k: nat)
    ensures Iterate(Start, k) == Wave(k % Period)
  {
    if k > 0 {
      PulseSweeps(k - 1);
      AdvanceWave((k - 1) % Period);
      ModStep(k);
    }
  }

  /** Whether the pulse animates, and where it is. */
  datatype Reporter = Reporter(active: bool, pulse: Pulse)

  const NewReporter := Reporter(false, Start)

  /** `startPulseLocked`: a running pulse keeps its place; a stopped one
      restarts at the left edge moving right. */
  function StartPulse(r: Reporter): (s: Reporter)
    ensures s.active
    ensures r.active ==> s == r
    ensures !r.active ==> s.pulse == Start
  {
    if r.active then r else Reporter(true, Start)
  }

  /** `Update` on a terminal: a known total stops the pulse; an unknown one
      starts it. */
  function Update(r: Reporter, total: int): (s: Reporter)
    ensures s.active <==> total <= 0
    ensures s.pulse == r.pulse || s.pulse == Start
  {
    if total > 0 then r.(active := false) else StartPulse(r)
  }

  /** A tick of the pulse goroutine moves only an active pulse. */
  function Tick(r: Reporter): (s: Reporter)
    ensures s.active == r.active
    ensures !r.active ==> s == r
    ensures r.active ==> s.pulse == Advance(r.pulse)
  {
    if r.active then r.(pulse := Advance(r.pulse)) else r
  }

  /** Every reachable pulse stays on the bar. */
  lemma ReporterValid(r: Reporter, total: int)
    requires Valid(r.pulse)
    ensures Valid(Update(r, total).pulse) && Valid(Tick(r).pulse)
  {
  }

  lemma NewReporterValid()
    ensures Valid(NewReporter.pulse)
  {
  }

  // ------------------------------------------------------------ bars

  /** A bar cell: '█' or '░'. */
  datatype Cell = Full | Empty

  function Glyph(c: Cell): char {
    if c.Full? then '█' else '░'
  }

  function CountFull(cells: seq<Cell>): (n: nat)
    ensures n <= |cells|
  {
    if |cells| == 0 then 0 else (if cells[0].Full? then 1 else 0) + CountFull(cells[1..])
  }

  lemma {:induction false} CountFullAppend(a: seq<Cell>, b: seq<Cell>)
    ensures CountFull(a + b) == CountFull(a) + CountFull(b)
  {
    if |a| > 0 {
      assert (a + b)[1..] == a[1..] + b;
      CountFullAppend(a[1..], b);
    } else {
      assert a + b == b;
    }
  }

  lemma {:induction false} CountFullRun(c: Cell, n: nat)
    ensures CountFull(seq(n, i => c)) == if c.Full? then n else 0
  {
    if n > 0 {
      assert seq(n, i => c)[1..] == seq(n - 1, i => c);
      CountFullRun(c, n - 1);
    }
  }

  function Clamp(x: int, hi: nat): (r: nat)
    ensures r <= hi
    ensures 0 <= x <= hi ==> r == x
  {
    if x < 0 then 0 else if x > hi then hi else x
  }

  /** `renderDeterminateBarLocked`: the first `filled` cells full, clamped
      to the bar, the rest empty. */
  function DeterminateBar(filled: int): (cells: seq<Cell>)
    ensures |cells| == BarWidth
    ensures forall i :: 0 <= i < BarWidth ==> (cells[i].Full? <==> i < Clamp(filled, BarWidth))
  {
    var f := Clamp(filled, BarWidth);
    seq(f, i => Full) + seq(BarWidth - f, i => Empty)
  }

  /** The bar shows as many full cells as the clamped fill. */
  lemma DeterminateCount(filled: int)
    ensures CountFull(DeterminateBar(filled)) == Clamp(filled, BarWidth)
  {
    var f := Clamp(filled, BarWidth);
    CountFullAppend(seq(f, i => Full), seq(BarWidth - f, i => Empty));
    CountFullRun(Full, f);
    CountFullRun(Empty, BarWidth - f);
  }

  /** More progress never shows fewer full cells. */
  lemma DeterminateMonotone(a: int, b: int)
    requires a <= b
    ensures CountFull(DeterminateBar(a)) <= CountFull(DeterminateBar(b))
  {
    DeterminateCount(a);
    DeterminateCount(b);
  }

  /** `renderIndeterminateBarLocked`: `PulseWidth` full cells from the
      pulse's position, clamped to the bar. */
  function IndeterminateBar(pos: int): (cells: seq<Cell>)
    ensures |cells| == BarWidth
    ensures forall i :: 0 <= i < BarWidth ==>
      (cells[i].Full? <==> Clamp(pos, MaxStart) <= i < Clamp(pos, MaxStart) + PulseWidth)
  {
    var s := Clamp(pos, MaxStart);
    seq(s, i => Empty) + seq(PulseWidth, i => Full) + seq(BarWidth - s - PulseWidth, i => Empty)
  }

  /** The pulse always shows exactly `PulseWidth` full cells. */
  lemma IndeterminateCount(pos: int)
    ensures CountFull(IndeterminateBar(pos)) == PulseWidth
  {
    var s := Clamp(pos, MaxStart);
    var a := seq(s, i => Empty);
    var b := seq(PulseWidth, i => Full);
    var c := seq(BarWidth - s - PulseWidth, i => Empty);
    CountFullAppend(a + b, c);
    CountFullAppend(a, b);
    CountFullRun(Empty, s);
    CountFullRun(Full, PulseWidth);
    CountFullRun(Empty, BarWidth - s - PulseWidth);
  }

  // ------------------------------------------------------------ durations

  /** `%02d` for a number below 100. */
  function Two(n: nat): (r: string)
    requires n < 100
    ensures |r| == 2 && IsDigits(r)
  {
    [DigitChar(n / 10), DigitChar(n % 10)]
  }

  lemma TwoValue(n: nat)
    requires n < 100
    ensures DigitsValue(Two(n)) == n
  {
    var t := Two(n);
    assert t[..1] == [t[0]];
    assert [t[0]][..0] == [];
    assert DigitsValue(t[..1]) == n / 10;
    assert DigitValue(t[1]) == n % 10;
  }

  lemma ShortNumber(n: nat)
    requires n < 100
    ensures 1 <= |NatToString(n)| <= 2
  {
    if n >= 10 {
      assert NatToString(n) == NatToString(n / 10) + [DigitChar(n % 10)];
    }
  }

  /** `formatDuration`: negative durations count as zero; under a minute
      "<s>s", under an hour "MM:SS", otherwise "H:MM:SS". */
  function FormatDuration(seconds: int): (r: string)
    ensures |r| >= 2
    ensures r[|r| - 1] == 's' <==> seconds < 60
    ensures |r| == 5 <==> 60 <= seconds < 3600
  {
    var n := if seconds < 0 then 0 else seconds;
    ShortNumber(if n < 60 then n else 0);
    if n < 60 then NatToString(n) + ['s']
    else
      var h := n / 3600;
      var m := (n % 3600) / 60;
      var s := n % 60;
      if h > 0 then NatToString(h) + [':'] + Two(m) + [':'] + Two(s)
      else Two(m) + [':'] + Two(s)
  }

  /** Reads "MM:SS" with both fields below 60. */
  function ReadMinSec(t: string): Option<nat> {
    if |t| == 5 && t[2] == ':' && IsDigits(t[..2]) && IsDigits(t[3..])
       && DigitsValue(t[..2]) < 60 && DigitsValue(t[3..]) < 60
    then Some(DigitsValue(t[..2]) * 60 + DigitsValue(t[3..]))
    else None
  }

  /** Reads a duration in any of the three forms back into seconds. */
  function ReadDuration(d: string): Option<nat> {
    if |d| >= 2 && d[|d| - 1] == 's' then
      if IsDigits(d[..|d| - 1]) then Some(DigitsValue(d[..|d| - 1])) else None
    else if |d| == 5 then ReadMinSec(d)
    else if |d| > 6 && d[|d| - 6] == ':' && IsDigits(d[..|d| - 6]) then
      match ReadMinSec(d[|d| - 5..])
      case None => None
      case Some(v) => Some(DigitsValue(d[..|d| - 6]) * 3600 + v)
    else None
  }

  lemma ReadMinSecTwo(m: nat, s: nat)
    requires m < 60 && s < 60
    ensures ReadMinSec(Two(m) + [':'] + Two(s)) == Some(m * 60 + s)
  {
    var t := Two(m) + [':'] + Two(s);
    assert t[..2] == Two(m);
    assert t[3..] == Two(s);
    TwoValue(m);
    TwoValue(s);
  }

  lemma ClockSplit(n: nat)
    ensures n == (n / 3600) * 3600 + ((n % 3600) / 60) * 60 + n % 60
    ensures (n % 3600) / 60 < 60 && n % 60 == (n % 3600) % 60
  {
    var r := n % 3600;
    assert n == (n / 3600) * 3600 + r;
    assert r == (r / 60) * 60 + r % 60;
    assert n % 60 == r % 60 by {
      assert n == ((n / 3600) * 60) * 60 + r;
    }
  }

  lemma ReadSeconds(n: nat)
    ensures ReadDuration(NatToString(n) + ['s']) == Some(n)
  {
    var d := NatToString(n) + ['s'];
    assert d[..|d| - 1] == NatToString(n);
  }

  lemma ReadMinutes(m: nat, s: nat)
    requires m < 60 && s < 60
    ensures ReadDuration(Two(m) + [':'] + Two(s)) == Some(m * 60 + s)
  {
    ReadMinSecTwo(m, s);
  }

  lemma ReadHours(h: nat, m: nat, s: nat)
    requires h > 0 && m < 60 && s < 60
    ensures ReadDuration(NatToString(h) + [':'] + Two(m) + [':'] + Two(s)) == Some(h * 3600 + m * 60 + s)
  {
    var head := NatToString(h);
    var tail := Two(m) + [':'] + Two(s);
    var d := head + [':'] + Two(m) + [':'] + Two(s);
    assert d == head + [':'] + tail;
    assert d[..|d| - 6] == head;
    assert d[|d| - 5..] == tail;
    ReadMinSecTwo(m, s);
  }

  /** A formatted duration reads back as the seconds it was given, negative
      durations as zero. */
  lemma ReadFormatDuration(seconds: int)
    ensures ReadDuration(FormatDuration(seconds)) == Some(if seconds < 0 then 0 else seconds)
  {
    var n := if seconds < 0 then 0 else seconds;
    if n < 60 {
      ReadSeconds(n);
    } else {
      ClockSplit(n);
      if n / 3600 > 0 {
        ReadHours(n / 3600, (n % 3600) / 60, n % 60);
      } else {
        ReadMinutes((n % 3600) / 60, n % 60);
      }
    }
  }

  // ------------------------------------------------------------ padding

  /** `padLeftVisible`: text whose visible length reaches `width` is
      unchanged; shorter text gets spaces in front up to `width`. */
  function PadLeftVisible(s: string, width: int): (r: string)
    ensures |Format.StripAnsi(s)| >= width ==> r == s
    ensures |Format.StripAnsi(s)| < width ==>
      |Format.StripAnsi(r)| == width && HasSuffix(r, s) && AllSpace(r[..|r| - |s|])
  {
    var visible := |Format.StripAnsi(s)|;
    if visible >= width then s
    else
      var pad := Repeat(' ', width - visible);
      Format.StripPrepend(pad, s);
      assert (pad + s)[..|pad + s| - |s|] == pad;
      assert (pad + s)[|pad + s| - |s|..] == s;
      pad + s
  }
}

=== FILE: promotion.dfy ===
/** Promotion of temporary ids: once push has created an issue for a local
    record "T…", references to that record are rewritten to the permanent id
    (internal/app/app.go, `applyMapping` and `applyMappingToRefs`). */
module Promotion {
  import opened Results
  import opened Text
  import opened Issues
  import opened Order

  /** Temporary id to permanent id. */
  type Mapping = map<string, string>

  // ------------------------------------------------------------ scanner

  /** The length of the run of ASCII letters and digits that opens `s`. */
  function AlnumRun(s: string): (n: nat)
    ensures n <= |s|
    ensures forall i :: 0 <= i < n ==> IsAlnum(s[i])
    ensures n < |s| ==> !IsAlnum(s[n])
  {
    if |s| > 0 && IsAlnum(s[0]) then 1 + AlnumRun(s[1..]) else 0
  }

  /** The length of the local reference `#T<letters and digits>` that opens
      `s`, or 0 when `s` does not open with one. The run is maximal, as the
      greedy `+` of the pattern `#(T[a-zA-Z0-9]+)` makes it. */
  function RefAt(s: string): (n: nat)
    ensures n == 0 || (3 <= n <= |s| && s[0] == '#' && s[1] == 'T')
    ensures n > 0 ==> forall i :: 1 <= i < n ==> IsAlnum(s[i])
    ensures 0 < n < |s| ==> !IsAlnum(s[n])
  {
    if |s| >= 3 && s[0] == '#' && s[1] == 'T' && IsAlnum(s[2]) then 2 + AlnumRun(s[2..]) else 0
  }

  /** What a matched reference with id `id` becomes. */
  function Replacement(id: string, m: Mapping): string {
    if id in m then "#" + m[id] else "#" + id
  }

  /** `ReplaceAllStringFunc` with the local reference pattern: references are
      found left to right without overlap, and each one whose id is a key of
      the mapping is replaced by "#" and the permanent id. */
  function Rewrite(s: string, m: Mapping): string
    decreases |s|
  {
    if |s| == 0 then []
    else
      var n := RefAt(s);
      if n == 0 then [s[0]] + Rewrite(s[1..], m)
      else Replacement(s[1..n], m) + Rewrite(s[n..], m)
  }

  /** Whether some reference that `Rewrite` finds in `s` names a key of `m`. */
  predicate Hits(s: string, m: Mapping)
    decreases |s|
  {
    if |s| == 0 then false
    else
      var n := RefAt(s);
      if n == 0 then Hits(s[1..], m) else s[1..n] in m || Hits(s[n..], m)
  }

  /** Rewriting keeps the first character, and a text without a reference to
      a key is left exactly as it is. */
  lemma {:induction false} RewriteKeeps(s: string, m: Mapping)
    ensures |s| > 0 ==> |Rewrite(s, m)| > 0 && Rewrite(s, m)[0] == s[0]
    ensures !Hits(s, m) ==> Rewrite(s, m) == s
    decreases |s|
  {
    if |s| > 0 {
      var n := RefAt(s);
      if n == 0 {
        RewriteKeeps(s[1..], m);
        SeqCons(s);
      } else {
        RewriteKeeps(s[n..], m);
        ConsSplit(s, n);
        if !Hits(s, m) {
          assert Rewrite(s, m) == ['#'] + s[1..n] + Rewrite(s[n..], m);
        }
      }
    }
  }

  // ------------------------------------------------------------ references

  /** `applyMappingToRefs`: every entry that is a key becomes its permanent id. */
  function MapRefs(refs: seq<string>, m: Mapping): (r: seq<string>)
    ensures |r| == |refs|
    ensures forall i :: 0 <= i < |r| ==> refs[i] in m ==> r[i] == m[refs[i]]
    ensures forall i :: 0 <= i < |r| ==> refs[i] !in m ==> r[i] == refs[i]
  {
    if |refs| == 0 then []
    else [if refs[0] in m then m[refs[0]] else refs[0]] + MapRefs(refs[1..], m)
  }

  predicate AnyKey(refs: seq<string>, m: Mapping) {
    exists i :: 0 <= i < |refs| && refs[i] in m
  }

  lemma MapRefsNoKey(refs: seq<string>, m: Mapping)
    ensures !AnyKey(refs, m) ==> MapRefs(refs, m) == refs
  {
  }

  function MapParent(parent: Option<string>, m: Mapping): (r: Option<string>)
    ensures parent.None? ==> r.None?
    ensures parent.Some? && parent.value in m ==> r == Some(m[parent.value])
    ensures parent.Some? && parent.value !in m ==> r == parent
  {
    if parent.Some? && parent.value in m then Some(m[parent.value]) else parent
  }

  /** The rewritten issue and whether `applyMapping` reports a change. */
  datatype Promoted = Promoted(issue: Issue, changed: bool)

  /** `applyMapping`: the title and body references, the parent, and the
      blocked-by and blocks lists are rewritten through the mapping. */
  function ApplyMapping(it: Issue, m: Mapping): (r: Promoted)
    ensures r.changed <==> Hits(it.title, m) || Hits(it.body, m)
                           || (it.parent.Some? && it.parent.value in m)
                           || AnyKey(it.blockedBy, m) || AnyKey(it.blocks, m)
    ensures r.issue.(title := it.title, body := it.body, parent := it.parent,
                     blockedBy := it.blockedBy, blocks := it.blocks) == it
    ensures !r.changed ==> r.issue == it
  {
    var blockedBy := MapRefs(it.blockedBy, m);
    var blocks := MapRefs(it.blocks, m);
    MapRefsNoKey(it.blockedBy, m);
    MapRefsNoKey(it.blocks, m);
    RewriteKeeps(it.title, m);
    RewriteKeeps(it.body, m);
    var changed := Hits(it.title, m) || Hits(it.body, m)
                   || (it.parent.Some? && it.parent.value in m)
                   || AnyKey(it.blockedBy, m) || AnyKey(it.blocks, m);
    Promoted(it.(title := Rewrite(it.title, m), body := Rewrite(it.body, m),
                 parent := MapParent(it.parent, m), blockedBy := blockedBy, blocks := blocks),
             changed)
  }

  // ------------------------------------------------------------ laws

  /** Permanent ids are decimal numbers. */
  predicate NumericValues(m: Mapping) {
    forall k :: k in m ==> IsDigits(m[k])
  }

  /** With numeric permanent ids, a rewritten text holds no reference to a key
      any more, so promoting it a second time changes nothing. */
  lemma {:induction false} RewriteSettles(s: string, m: Mapping)
    requires NumericValues(m)
    ensures !Hits(Rewrite(s, m), m)
    ensures Rewrite(Rewrite(s, m), m) == Rewrite(s, m)
    decreases |s|
  {
    if |s| > 0 {
      var n := RefAt(s);
      if n == 0 {
        RewriteSettles(s[1..], m);
        if s[0] == '#' {
          SettleHash(s, m);
        } else {
          SettleLiteral(s, m);
        }
      } else {
        RewriteSettles(s[n..], m);
        if s[1..n] in m {
          SettleNumber(s, m);
        } else {
          SettleKept(s, m);
        }
      }
    }
    RewriteKeeps(Rewrite(s, m), m);
  }

  lemma SettleLiteral(s: string, m: Mapping)
    requires |s| > 0 && RefAt(s) == 0 && s[0] != '#'
    requires !Hits(Rewrite(s[1..], m), m)
    ensures !Hits(Rewrite(s, m), m)
  {
    LiteralChar(s[0], Rewrite(s[1..], m), m);
  }

  lemma SettleHash(s: string, m: Mapping)
    requires |s| > 0 && RefAt(s) == 0 && s[0] == '#'
    requires !Hits(Rewrite(s[1..], m), m)
    ensures !Hits(Rewrite(s, m), m)
  {
    var t := s[1..];
    var x := Rewrite(t, m);
    assert Rewrite(s, m) == ['#'] + x;
    RewriteKeeps(t, m);
    if |t| > 1 && t[0] == 'T' {
      assert RefAt(t) == 0;
      assert x == ['T'] + Rewrite(t[1..], m);
      RewriteKeeps(t[1..], m);
    }
    HashThen(x, m);
  }

  lemma SettleNumber(s: string, m: Mapping)
    requires NumericValues(m)
    requires RefAt(s) > 0 && s[1..RefAt(s)] in m
    requires !Hits(Rewrite(s[RefAt(s)..], m), m)
    ensures !Hits(Rewrite(s, m), m)
  {
    var n := RefAt(s);
    var v := m[s[1..n]];
    assert IsDigits(v);
    assert Rewrite(s, m) == ['#'] + v + Rewrite(s[n..], m);
    NumberRef(v, Rewrite(s[n..], m), m);
  }

  lemma SettleKept(s: string, m: Mapping)
    requires RefAt(s) > 0 && s[1..RefAt(s)] !in m
    requires !Hits(Rewrite(s[RefAt(s)..], m), m)
    ensures !Hits(Rewrite(s, m), m)
  {
    var n := RefAt(s);
    var y := Rewrite(s[n..], m);
    assert Rewrite(s, m) == ['#'] + s[1..n] + y;
    RewriteKeeps(s[n..], m);
    KeptRef(s[1..n], y, m);
  }

  /** A character other than '#' is copied and scanning moves on. */
  lemma LiteralChar(c: char, y: string, m: Mapping)
    requires c != '#'
    ensures Rewrite([c] + y, m) == [c] + Rewrite(y, m)
    ensures Hits([c] + y, m) == Hits(y, m)
  {
    assert ([c] + y)[1..] == y;
  }

  /** A '#' that does not open a reference is passed over. */
  lemma HashThen(x: string, m: Mapping)
    requires !(|x| >= 2 && x[0] == 'T' && IsAlnum(x[1]))
    ensures Hits(['#'] + x, m) == Hits(x, m)
  {
    var d := ['#'] + x;
    assert d[1..] == x;
    assert RefAt(d) == 0;
  }

  /** "#" and a permanent number opens no reference. */
  lemma NumberRef(v: string, y: string, m: Mapping)
    requires IsDigits(v)
    ensures Hits(['#'] + v + y, m) == Hits(y, m)
  {
    var d := ['#'] + v + y;
    assert d[1..] == v + y;
    assert RefAt(d) == 0;
    DigitsCopied(v, y, m);
  }

  lemma {:induction false} DigitsCopied(v: string, y: string, m: Mapping)
    requires forall i :: 0 <= i < |v| ==> IsDigit(v[i])
    ensures Hits(v + y, m) == Hits(y, m)
  {
    if |v| > 0 {
      ConsAppend(v, y);
      DigitsCopied(v[1..], y, m);
      LiteralChar(v[0], v[1..] + y, m);
    } else {
      assert v + y == y;
    }
  }

  /** A reference whose id is not a key is passed over whole: what follows
      it does not continue its run of letters and digits. */
  lemma KeptRef(id: string, y: string, m: Mapping)
    requires |id| >= 2 && id[0] == 'T' && forall i :: 0 <= i < |id| ==> IsAlnum(id[i])
    requires |y| > 0 ==> !IsAlnum(y[0])
    requires id !in m
    ensures Hits(['#'] + id + y, m) == Hits(y, m)
  {
    var d := ['#'] + id + y;
    var w := id[1..];
    AlnumRunAppend(w, y);
    assert d[2..] == w + y;
    assert RefAt(d) == 1 + |id|;
    assert d[1..1 + |id|] == id;
    assert d[1 + |id|..] == y;
  }

  lemma {:induction false} AlnumRunAppend(w: string, y: string)
    requires forall i :: 0 <= i < |w| ==> IsAlnum(w[i])
    requires |y| > 0 ==> !IsAlnum(y[0])
    ensures AlnumRun(w + y) == |w|
  {
    if |w| > 0 {
      assert (w + y)[1..] == w[1..] + y;
      AlnumRunAppend(w[1..], y);
    }
  }

  /** Promotion with numeric permanent ids is idempotent and a second pass
      reports no change. */
  lemma ApplyMappingSettles(it: Issue, m: Mapping)
    requires NumericValues(m)
    requires forall k :: k in m ==> m[k] !in m
    ensures var once := ApplyMapping(it, m).issue;
            !ApplyMapping(once, m).changed && ApplyMapping(once, m).issue == once
  {
    var once := ApplyMapping(it, m).issue;
    RewriteSettles(it.title, m);
    RewriteSettles(it.body, m);
    assert !AnyKey(once.blockedBy, m);
    assert !AnyKey(once.blocks, m);
  }

  /** An empty mapping finds nothing. */
  lemma {:induction false} NoKeysNoHits(s: string)
    ensures !Hits(s, map[])
    decreases |s|
  {
    if |s| > 0 {
      var n := RefAt(s);
      if n == 0 {
        NoKeysNoHits(s[1..]);
      } else {
        NoKeysNoHits(s[n..]);
      }
    }
  }

  /** The mapping `T1 -> 123` rewrites "#T1" but leaves "#T10" alone: the
      reference is matched as a whole, never by a prefix. */
  lemma PrefixIsNotAReference()
    ensures Rewrite("#T1 #T10", map["T1" := "123"]) == "#123 #T10"
  {
    var m := map["T1" := "123"];
    var s := "#T1 #T10";
    ShortRef(s);
    var rest := Rewrite(" #T10", m);
    assert rest == " #T10" by {
      LongerRefKept(m);
      LiteralChar(' ', "#T10", m);
      assert " #T10" == [' '] + "#T10";
    }
    assert Rewrite(s, m) == Replacement("T1", m) + rest;
  }

  lemma ShortRef(s: string)
    requires s == "#T1 #T10"
    ensures RefAt(s) == 3 && s[1..3] == "T1" && s[3..] == " #T10"
  {
    assert AlnumRun(s[2..]) == 1;
  }

  lemma LongerRefKept(m: Mapping)
    requires m == map["T1" := "123"]
    ensures Rewrite("#T10", m) == "#T10"
  {
    var u := "#T10";
    assert RefAt(u) == 4 by {
      assert AlnumRun(u[2..]) == 2;
    }
    assert u[1..4] == "T10" && u[4..] == [];
  }
}

=== FILE: pull.dfy ===
/** `pull` (internal/app/pull.go) as decisions over the store: which issues
    are asked for, how a batch fetch is merged into the listing, what happens
    to each received issue, and which snapshots have lost their file. The
    remote's answers, the clock and the directory listing are parameters. */
module Pull {
  import opened Results
  import opened Text
  import opened Issues
  import opened Commands

  // ------------------------------------------------------------ what to fetch

  /** `PullOptions`. */
  datatype PullOptions = PullOptions(all: bool, full: bool, force: bool, labels: seq<string>)

  /** Only issues updated since the last full pull are listed when there was
      one and neither `--all`, `--full` nor a label is given. */
  predicate Incremental(opts: PullOptions, lastFullPull: Option<int>) {
    lastFullPull.Some? && !opts.all && !opts.full && |opts.labels| == 0
  }

  /** The listing request: its state filter, labels and lower time bound. */
  datatype ListRequest = ListRequest(state: string, labels: seq<string>, since: Option<int>)

  function ListRequestOf(opts: PullOptions, lastFullPull: Option<int>): (r: ListRequest)
    ensures r.labels == opts.labels
    ensures Incremental(opts, lastFullPull) ==> r.state == "all" && r.since == lastFullPull
    ensures !Incremental(opts, lastFullPull) ==> r.since.None? && (r.state == "all" <==> opts.all)
    ensures r.state in {"all", "open"}
  {
    var state := if opts.all then "all" else "open";
    if Incremental(opts, lastFullPull) then ListRequest("all", opts.labels, lastFullPull)
    else ListRequest(state, opts.labels, None)
  }

  /** The permanent ids among some local files, in file order. */
  function PermanentNumbers(files: seq<IssueFile>): (r: seq<string>)
    ensures forall n :: n in r ==> !IsLocal(n)
    ensures forall f :: f in files && !IsLocal(f.issue.number) ==> f.issue.number in r
  {
    if |files| == 0 then []
    else
      var rest := PermanentNumbers(files[1..]);
      assert forall f :: f in files ==> f == files[0] || f in files[1..];
      (if IsLocal(files[0].issue.number) then [] else [files[0].issue.number]) + rest
  }

  /** The permanent ids fetched alongside a full listing of open issues, to
      catch the ones closed since: none with `--all` or in incremental mode. */
  function ToFetch(opts: PullOptions, lastFullPull: Option<int>, files: seq<IssueFile>): (r: seq<string>)
    ensures opts.all || Incremental(opts, lastFullPull) ==> r == []
    ensures forall n :: n in r ==> !IsLocal(n)
    ensures !opts.all && !Incremental(opts, lastFullPull) ==>
              forall f :: f in files && !IsLocal(f.issue.number) ==> f.issue.number in r
  {
    if opts.all || Incremental(opts, lastFullPull) then [] else PermanentNumbers(files)
  }

  /** The numbers of some issues. */
  function IssueNumbers(s: seq<Issue>): (r: set<string>)
    ensures forall k :: 0 <= k < |s| ==> s[k].number in r
    ensures forall n :: n in r ==> exists k :: 0 <= k < |s| && s[k].number == n
  {
    set k | 0 <= k < |s| :: s[k].number
  }

  /** The batch-fetched issues in map order, `keys` being that order. */
  ghost predicate Enumerates(keys: seq<string>, batch: map<string, Issue>) {
    (forall k :: k in batch <==> k in keys)
    && forall i, j :: 0 <= i < j < |keys| ==> keys[i] != keys[j]
  }

  /** No element occurs twice. */
  ghost predicate Distinct<T>(s: seq<T>) {
    forall i, j :: 0 <= i < j < |s| ==> s[i] != s[j]
  }

  /** Filtering keeps a sequence without repeats without repeats. */
  lemma {:induction false} FilterDistinct<T(!new)>(s: seq<T>, keep: T -> bool)
    requires Distinct(s)
    ensures Distinct(Filter(s, keep))
  {
    if |s| > 0 {
      assert forall i :: 0 <= i < |s| - 1 ==> s[1..][i] == s[i + 1];
      FilterDistinct(s[1..], keep);
      assert s[0] !in s[1..];
      var rest := Filter(s[1..], keep);
      var head := if keep(s[0]) then [s[0]] else [];
      assert forall i :: 0 <= i < |rest| ==> (head + rest)[|head| + i] == rest[i];
    }
  }

  /** The issues of the batch, keyed by the given keys. */
  function Pick(keys: seq<string>, batch: map<string, Issue>): (r: seq<Issue>)
    requires forall k :: k in keys ==> k in batch
    ensures |r| == |keys| && forall i :: 0 <= i < |keys| ==> r[i] == batch[keys[i]]
  {
    seq(|keys|, i requires 0 <= i < |keys| => batch[keys[i]])
  }

  /** The listing with the batch-fetched issues it lacks appended; a failed
      or empty batch adds nothing. */
  function Merge(listed: seq<Issue>, batch: Result<map<string, Issue>>, keys: seq<string>): (r: seq<Issue>)
    requires batch.Ok? ==> Enumerates(keys, batch.value)
    ensures |listed| <= |r| && r[..|listed|] == listed
    ensures batch.Err? ==> r == listed
    ensures batch.Ok? && (forall k :: k in batch.value ==> batch.value[k].number == k) ==>
              forall n :: n in batch.value ==> n in IssueNumbers(r)
  {
    match batch
    case Err(_) => listed
    case Ok(b) =>
      if |b| == 0 then listed
      else
        var extra := Pick(Filter(keys, (k: string) => k !in IssueNumbers(listed)), b);
        MergeCovers(listed, b, keys);
        listed + extra
  }

  lemma MergeCovers(listed: seq<Issue>, b: map<string, Issue>, keys: seq<string>)
    requires Enumerates(keys, b)
    ensures forall k :: k in b && b[k].number == k ==>
              k in IssueNumbers(listed + Pick(Filter(keys, (k: string) => k !in IssueNumbers(listed)), b))
  {
    var missing := Filter(keys, (k: string) => k !in IssueNumbers(listed));
    var r := listed + Pick(missing, b);
    forall n | n in b && b[n].number == n
      ensures n in IssueNumbers(r)
    {
      if n in IssueNumbers(listed) {
        var k :| 0 <= k < |listed| && listed[k].number == n;
        assert r[k] == listed[k];
      } else {
        var i :| 0 <= i < |missing| && missing[i] == n;
        assert r[|listed| + i] == b[n];
      }
    }
  }

  /** No two issues share a number. */
  ghost predicate NumbersDistinct(s: seq<Issue>) {
    forall i, j :: 0 <= i < j < |s| ==> s[i].number != s[j].number
  }

  lemma PickNumbers(listed: set<string>, missing: seq<string>, b: map<string, Issue>)
    requires forall k :: k in missing ==> k in b && b[k].number == k && k !in listed
    requires Distinct(missing)
    ensures NumbersDistinct(Pick(missing, b))
    ensures forall i :: 0 <= i < |missing| ==> Pick(missing, b)[i].number !in listed
  {
    assert forall i :: 0 <= i < |missing| ==> missing[i] in missing;
  }

  lemma AppendNumbersDistinct(s: seq<Issue>, t: seq<Issue>)
    requires NumbersDistinct(s) && NumbersDistinct(t)
    requires forall i :: 0 <= i < |t| ==> t[i].number !in IssueNumbers(s)
    ensures NumbersDistinct(s + t)
  {
    forall i, j | 0 <= i < j < |s + t|
      ensures (s + t)[i].number != (s + t)[j].number
    {
      if j >= |s| {
        assert (s + t)[j] == t[j - |s|];
        if i < |s| {
          assert s[i].number in IssueNumbers(s);
        } else {
          assert (s + t)[i] == t[i - |s|];
        }
      }
    }
  }

  /** Merging adds no second issue with one number: a listing without
      repeats stays without repeats when the batch is keyed by number. */
  lemma MergeHasNoRepeats(listed: seq<Issue>, batch: Result<map<string, Issue>>, keys: seq<string>)
    requires batch.Ok? ==> Enumerates(keys, batch.value)
    requires batch.Ok? ==> forall k :: k in batch.value ==> batch.value[k].number == k
    requires NumbersDistinct(listed)
    ensures NumbersDistinct(Merge(listed, batch, keys))
  {
    if batch.Ok? && |batch.value| > 0 {
      var b := batch.value;
      var missing := Filter(keys, (k: string) => k !in IssueNumbers(listed));
      FilterDistinct(keys, (k: string) => k !in IssueNumbers(listed));
      PickNumbers(IssueNumbers(listed), missing, b);
      AppendNumbersDistinct(listed, Pick(missing, b));
    }
  }

  // ------------------------------------------------------------ arguments

  /** The trimmed arguments that are neither blank nor a path and are not
      among `seen`, in argument order. */
  function PlainNumbers(args: seq<string>, seen: set<string>): (r: seq<string>)
    ensures forall n :: n in r ==> n !in seen && !IsPathArg(n)
    ensures forall a :: a in args && !AllSpace(a) && !IsPathArg(TrimSpace(a)) && TrimSpace(a) !in seen ==>
              TrimSpace(a) in r
  {
    if |args| == 0 then []
    else
      var rest := PlainNumbers(args[1..], seen);
      var a := TrimSpace(args[0]);
      assert forall x :: x in args ==> x == args[0] || x in args[1..];
      (if AllSpace(args[0]) || IsPathArg(a) || a in seen then [] else [a]) + rest
  }

  /** The numbers asked for by arguments: the permanent ids of the local
      files they name, then each plain argument that names no local file. */
  function ArgNumbers(root: string, files: seq<IssueFile>, args: seq<string>, ops: PathOps): (r: seq<string>)
    requires |args| > 0
    ensures forall f :: f in files && Named(root, args, ops, f) && !IsLocal(f.issue.number) ==> f.issue.number in r
    ensures forall f :: f in files && Named(root, args, ops, f) && IsLocal(f.issue.number) ==> f.issue.number !in r
    ensures forall a :: a in args && !AllSpace(a) && !IsPathArg(TrimSpace(a)) && !IsLocal(TrimSpace(a)) ==>
              TrimSpace(a) in r
  {
    var matched := match FilterByArgs(root, files, args, ops) case Ok(m) => m case Err(_) => [];
    var seen := set f | f in matched :: f.issue.number;
    ArgNumbersCover(matched, seen, args);
    PermanentNumbers(matched) + PlainNumbers(args, seen)
  }

  lemma ArgNumbersCover(matched: seq<IssueFile>, seen: set<string>, args: seq<string>)
    requires seen == set f | f in matched :: f.issue.number
    ensures forall a :: a in args && !AllSpace(a) && !IsPathArg(TrimSpace(a)) && !IsLocal(TrimSpace(a)) ==>
              TrimSpace(a) in PermanentNumbers(matched) + PlainNumbers(args, seen)
    ensures forall f :: f in matched && IsLocal(f.issue.number) ==>
              f.issue.number !in PermanentNumbers(matched) + PlainNumbers(args, seen)
  {
    forall a | a in args && !AllSpace(a) && !IsPathArg(TrimSpace(a)) && !IsLocal(TrimSpace(a))
      ensures TrimSpace(a) in PermanentNumbers(matched) + PlainNumbers(args, seen)
    {
      if TrimSpace(a) in seen {
        var f :| f in matched && f.issue.number == TrimSpace(a);
      }
    }
  }

  /** Fetching each asked-for issue in turn; one failure fails the pull. */
  function FetchAll(numbers: seq<string>, get: string -> Result<Issue>): (r: Result<seq<Issue>>)
    ensures r.Ok? <==> forall k :: 0 <= k < |numbers| ==> get(numbers[k]).Ok?
    ensures r.Ok? ==> |r.value| == |numbers| && forall k :: 0 <= k < |numbers| ==> r.value[k] == get(numbers[k]).value
  {
    if |numbers| == 0 then Ok([])
    else
      match get(numbers[0])
      case Err(e) => Err(e)
      case Ok(first) =>
        var rest := FetchAll(numbers[1..], get);
        assert forall k :: 0 < k < |numbers| ==> numbers[k] == numbers[1..][k - 1];
        match rest
        case Err(e) => Err(e)
        case Ok(issues) => Ok([first] + issues)
  }

  // ------------------------------------------------------------ one issue

  /** An issue as received: the state lowercased and the sync time set. */
  function Received(remote: Issue, now: int): (r: Issue)
    ensures r == remote.(state := ToLower(remote.state), syncedAt := Some(now))
  {
    remote.(state := ToLower(remote.state), syncedAt := Some(now))
  }

  /** The local copy has changed when there is one and it has no snapshot or
      differs from it. */
  predicate LocalChanged(local: Option<IssueFile>, snapshot: Option<Issue>) {
    local.Some? && (snapshot.None? || !EqualIgnoringSyncedAt(local.value.issue, snapshot.value))
  }

  /** Where a received issue is written: the closed container exactly when
      its state is "closed". */
  function TargetPath(it: Issue, dirs: Dirs): string {
    PathFor(DirOf(dirs, DirForState(it.state)), it.number, it.title)
  }

  datatype Outcome = Conflict | Unchanged | Added | Updated

  /** What `pull` does with one received issue, given its local copy and
      snapshot: a locally changed issue is a conflict unless forced; an issue
      with a snapshot, equal to its local copy and already in place is
      unchanged; otherwise it is written, as added when there was no local copy. */
  function Decide(remote: Issue, local: Option<IssueFile>, snapshot: Option<Issue>, force: bool, dirs: Dirs): (r: Outcome)
    ensures r == Conflict <==> LocalChanged(local, snapshot) && !force
    ensures r == Added <==> local.None?
    ensures r == Unchanged <==>
              !(LocalChanged(local, snapshot) && !force) && snapshot.Some? && local.Some?
              && EqualIgnoringSyncedAt(local.value.issue, remote) && local.value.path == TargetPath(remote, dirs)
  {
    if LocalChanged(local, snapshot) && !force then Conflict
    else
      var newPath := TargetPath(remote, dirs);
      var contentChanged := local.None? || !EqualIgnoringSyncedAt(local.value.issue, remote);
      var pathChanged := local.Some? && local.value.path != newPath;
      if snapshot.Some? && !contentChanged && !pathChanged then Unchanged
      else if local.None? then Added
      else Updated
  }

  /** The store: local files and snapshots by number. */
  datatype Store = Store(files: map<string, IssueFile>, snapshots: Snapshots)

  /** Writing an issue: its file (in the container of its state) and its
      snapshot both become the record. */
  function Write(store: Store, it: Issue, dirs: Dirs): (r: Store)
    ensures it.number in r.files && it.number in r.snapshots
    ensures r.files[it.number].issue == it && r.snapshots[it.number] == it
    ensures r.files[it.number].path == TargetPath(it, dirs)
    ensures r.files[it.number].container == Closed <==> it.state == "closed"
    ensures forall n :: n != it.number ==> Lookup(r.files, n) == Lookup(store.files, n)
    ensures forall n :: n != it.number ==> Lookup(r.snapshots, n) == Lookup(store.snapshots, n)
  {
    var c := DirForState(it.state);
    Store(store.files[it.number := IssueFile(it, TargetPath(it, dirs), c)],
          store.snapshots[it.number := it])
  }

  function Lookup<V>(m: map<string, V>, k: string): Option<V> {
    if k in m then Some(m[k]) else None
  }

  /** One received issue against the store; `locals` are the local files as
      read before the loop. A conflict or an unchanged issue writes nothing. */
  function PullOne(locals: map<string, IssueFile>, store: Store, remote: Issue, now: int, force: bool, dirs: Dirs): (r: (Store, Outcome))
    ensures r.1 == Decide(Received(remote, now), Lookup(locals, remote.number), Lookup(store.snapshots, remote.number), force, dirs)
    ensures r.1 == Conflict || r.1 == Unchanged ==> r.0 == store
    ensures r.1 == Added || r.1 == Updated ==> r.0 == Write(store, Received(remote, now), dirs)
  {
    var it := Received(remote, now);
    var outcome := Decide(it, Lookup(locals, it.number), Lookup(store.snapshots, it.number), force, dirs);
    if outcome == Conflict || outcome == Unchanged then (store, outcome)
    else (Write(store, it, dirs), outcome)
  }

  /** Pulling one issue leaves every other number's file and snapshot alone. */
  lemma PullOneFrame(locals: map<string, IssueFile>, store: Store, remote: Issue, now: int, force: bool, dirs: Dirs, n: string)
    requires n != remote.number
    ensures Lookup(PullOne(locals, store, remote, now, force, dirs).0.files, n) == Lookup(store.files, n)
    ensures Lookup(PullOne(locals, store, remote, now, force, dirs).0.snapshots, n) == Lookup(store.snapshots, n)
  {
  }

  /** Right after an issue is written, pulling the same record again finds
      it unchanged: pull settles. */
  lemma PullSettles(store: Store, it: Issue, force: bool, dirs: Dirs)
    ensures Decide(it, Some(Write(store, it, dirs).files[it.number]), Some(it), force, dirs) == Unchanged
  {
    EqualIgnoringSyncedAtEquivalence(it, it, it);
  }

  /** A received state in any case lands in the closed container exactly
      when it reads "closed" without case. */
  lemma ReceivedContainer(store: Store, remote: Issue, now: int, dirs: Dirs)
    ensures Write(store, Received(remote, now), dirs).files[remote.number].container == Closed
            <==> EqualFold(remote.state, "closed")
  {
    var it := Received(remote, now);
    assert it.state == ToLower(remote.state);
    LowerClosed();
  }

  lemma LowerClosed()
    ensures ToLower("closed") == "closed"
  {
  }

  /** What a run over the received issues reports. */
  datatype Report = Report(store: Store, conflicts: seq<string>, same: nat)

  /** The loop over the received issues. */
  function PullEach(locals: map<string, IssueFile>, store: Store, remotes: seq<Issue>, now: int, force: bool, dirs: Dirs): (r: Report)
    ensures |r.conflicts| + r.same <= |remotes|
    ensures forall n :: n in r.conflicts ==> n in locals
    decreases |remotes|
  {
    if |remotes| == 0 then Report(store, [], 0)
    else
      var step := PullOne(locals, store, remotes[0], now, force, dirs);
      var rest := PullEach(locals, step.0, remotes[1..], now, force, dirs);
      assert forall k :: 0 <= k < |remotes| - 1 ==> remotes[1..][k] == remotes[k + 1];
      Report(rest.store,
             (if step.1 == Conflict then [remotes[0].number] else []) + rest.conflicts,
             (if step.1 == Unchanged then 1 else 0) + rest.same)
  }

  /** The run touches only the numbers it received. */
  lemma {:induction false} PullEachFrame(locals: map<string, IssueFile>, store: Store, remotes: seq<Issue>, now: int, force: bool, dirs: Dirs, n: string)
    requires n !in IssueNumbers(remotes)
    ensures Lookup(PullEach(locals, store, remotes, now, force, dirs).store.files, n) == Lookup(store.files, n)
    ensures Lookup(PullEach(locals, store, remotes, now, force, dirs).store.snapshots, n) == Lookup(store.snapshots, n)
    decreases |remotes|
  {
    if |remotes| > 0 {
      var step := PullOne(locals, store, remotes[0], now, force, dirs);
      TailNumbers(remotes);
      PullEachStep(locals, store, remotes, now, force, dirs);
      PullOneFrame(locals, store, remotes[0], now, force, dirs, n);
      PullEachFrame(locals, step.0, remotes[1..], now, force, dirs, n);
    }
  }

  /** One step of the run: the first issue is pulled, then the rest. */
  lemma PullEachStep(locals: map<string, IssueFile>, store: Store, remotes: seq<Issue>, now: int, force: bool, dirs: Dirs)
    requires |remotes| > 0
    ensures var step := PullOne(locals, store, remotes[0], now, force, dirs);
            var rest := PullEach(locals, step.0, remotes[1..], now, force, dirs);
            var rep := PullEach(locals, store, remotes, now, force, dirs);
            rep.store == rest.store
            && (step.1 == Conflict ==> rep.conflicts == [remotes[0].number] + rest.conflicts)
            && (step.1 != Conflict ==> rep.conflicts == rest.conflicts)
  {
  }

  lemma TailNumbers(s: seq<Issue>)
    requires |s| > 0
    ensures IssueNumbers(s) == {s[0].number} + IssueNumbers(s[1..])
  {
    assert forall k :: 0 <= k < |s| - 1 ==> s[1..][k] == s[k + 1];
    forall n | n in IssueNumbers(s) && n != s[0].number
      ensures n in IssueNumbers(s[1..])
    {
      var k :| 0 <= k < |s| && s[k].number == n;
      assert s[1..][k - 1] == s[k];
    }
  }

  lemma TailDistinct(s: seq<Issue>)
    requires |s| > 0 && NumbersDistinct(s)
    ensures NumbersDistinct(s[1..]) && s[0].number !in IssueNumbers(s[1..])
  {
    assert forall k :: 0 <= k < |s| - 1 ==> s[1..][k] == s[k + 1];
  }

  /** Only received numbers are reported as conflicts. */
  lemma {:induction false} PullEachConflictsReceived(locals: map<string, IssueFile>, store: Store, remotes: seq<Issue>, now: int, force: bool, dirs: Dirs)
    ensures forall n :: n in PullEach(locals, store, remotes, now, force, dirs).conflicts ==> n in IssueNumbers(remotes)
    decreases |remotes|
  {
    if |remotes| > 0 {
      var step := PullOne(locals, store, remotes[0], now, force, dirs);
      PullEachStep(locals, store, remotes, now, force, dirs);
      PullEachConflictsReceived(locals, step.0, remotes[1..], now, force, dirs);
      TailNumbers(remotes);
    }
  }

  /** A received issue, when no two share a number, is reported as a
      conflict exactly when `Decide` says so against its local file and the
      snapshot from before the run. */
  lemma {:induction false} PullEachConflicts(locals: map<string, IssueFile>, store: Store, remotes: seq<Issue>, now: int, force: bool, dirs: Dirs, r: Issue)
    requires NumbersDistinct(remotes) && r in remotes
    ensures r.number in PullEach(locals, store, remotes, now, force, dirs).conflicts
            <==> Decide(Received(r, now), Lookup(locals, r.number), Lookup(store.snapshots, r.number), force, dirs) == Conflict
    decreases |remotes|
  {
    var step := PullOne(locals, store, remotes[0], now, force, dirs);
    var tail := remotes[1..];
    TailDistinct(remotes);
    PullEachStep(locals, store, remotes, now, force, dirs);
    if remotes[0] == r {
      PullEachConflictsReceived(locals, step.0, tail, now, force, dirs);
    } else {
      var i :| 0 <= i < |remotes| && remotes[i] == r;
      assert tail[i - 1] == r;
      PullOneFrame(locals, store, remotes[0], now, force, dirs, r.number);
      PullEachConflicts(locals, step.0, tail, now, force, dirs, r);
    }
  }

  /** A received issue, when no two share a number, ends as `Decide` says:
      added or updated, its received record is its file (in the container of
      its state) and its snapshot; a conflict or unchanged, it keeps the file
      and snapshot it had. */
  lemma {:induction false} PullEachWrites(locals: map<string, IssueFile>, store: Store, remotes: seq<Issue>, now: int, force: bool, dirs: Dirs, r: Issue)
    requires NumbersDistinct(remotes) && r in remotes
    ensures var rep := PullEach(locals, store, remotes, now, force, dirs);
            var it := Received(r, now);
            var d := Decide(it, Lookup(locals, r.number), Lookup(store.snapshots, r.number), force, dirs);
            (d == Added || d == Updated ==>
               Lookup(rep.store.files, r.number) == Some(IssueFile(it, TargetPath(it, dirs), DirForState(it.state)))
               && Lookup(rep.store.snapshots, r.number) == Some(it))
            && (d == Conflict || d == Unchanged ==>
                  Lookup(rep.store.files, r.number) == Lookup(store.files, r.number)
                  && Lookup(rep.store.snapshots, r.number) == Lookup(store.snapshots, r.number))
    decreases |remotes|
  {
    var step := PullOne(locals, store, remotes[0], now, force, dirs);
    var tail := remotes[1..];
    TailDistinct(remotes);
    PullEachStep(locals, store, remotes, now, force, dirs);
    if remotes[0] == r {
      PullEachFrame(locals, step.0, tail, now, force, dirs, r.number);
    } else {
      var i :| 0 <= i < |remotes| && remotes[i] == r;
      assert tail[i - 1] == r;
      PullOneFrame(locals, store, remotes[0], now, force, dirs, r.number);
      PullEachWrites(locals, step.0, tail, now, force, dirs, r);
    }
  }

  /** The local files by number; a later file with the same number wins. */
  function ByNumber(files: seq<IssueFile>): (r: map<string, IssueFile>)
    ensures forall f :: f in files ==> f.issue.number in r
    ensures forall n :: n in r ==> r[n] in files && r[n].issue.number == n
  {
    if |files| == 0 then map[]
    else
      var last := files[|files| - 1];
      var init := ByNumber(files[..|files| - 1]);
      assert forall f :: f in files ==> f in files[..|files| - 1] || f == last;
      init[last.issue.number := last]
  }

  // ------------------------------------------------------------ a pull without arguments

  /** How a pull without arguments ends: nothing new in incremental mode
      (only the timestamp moves), or a report and the new timestamp. */
  datatype Run = NothingNew(lastFullPull: int) | Pulled(report: Report, lastFullPull: int)

  /** `Pull` without arguments, given the listing, the batch fetch and the
      clock. A failed listing fails the pull; a failed batch is ignored. */
  function PullAll(
    opts: PullOptions, lastFullPull: Option<int>, files: seq<IssueFile>, store: Store,
    listed: Result<seq<Issue>>, batch: Result<map<string, Issue>>, keys: seq<string>,
    now: int, dirs: Dirs): (r: Result<Run>)
    requires batch.Ok? ==> Enumerates(keys, batch.value)
    ensures listed.Err? <==> r.Err?
    ensures r.Ok? && r.value.NothingNew? <==> listed.Ok? && Incremental(opts, lastFullPull) && |listed.value| == 0
    ensures r.Ok? ==> r.value.lastFullPull == now
    ensures r.Ok? && r.value.Pulled? ==> forall n :: n in r.value.report.conflicts ==> n in ByNumber(files)
    ensures r.Ok? && r.value.Pulled? ==>
              r.value.report == PullEach(ByNumber(files), store, PullRemotes(opts, lastFullPull, files, listed.value, batch, keys), now, opts.force, dirs)
  {
    match listed
    case Err(e) => Err(e)
    case Ok(issues) =>
      if Incremental(opts, lastFullPull) && |issues| == 0 then Ok(NothingNew(now))
      else Ok(Pulled(PullEach(ByNumber(files), store, PullRemotes(opts, lastFullPull, files, issues, batch, keys), now, opts.force, dirs), now))
  }

  /** The issues a pull without arguments handles: the listing, then the
      batch-fetched issues it lacks when there were numbers to fetch. */
  function PullRemotes(opts: PullOptions, lastFullPull: Option<int>, files: seq<IssueFile>,
                       issues: seq<Issue>, batch: Result<map<string, Issue>>, keys: seq<string>): (r: seq<Issue>)
    requires batch.Ok? ==> Enumerates(keys, batch.value)
    ensures |issues| <= |r| && r[..|issues|] == issues
    ensures ToFetch(opts, lastFullPull, files) == [] || batch.Err? ==> r == issues
    ensures ToFetch(opts, lastFullPull, files) != [] && batch.Ok? && (forall k :: k in batch.value ==> batch.value[k].number == k) ==>
              forall n :: n in batch.value ==> n in IssueNumbers(r)
  {
    Merge(issues, if ToFetch(opts, lastFullPull, files) == [] then Err("not fetched") else batch, keys)
  }

  /** In a pull without arguments over a listing without repeats and a batch
      keyed by number, every handled issue is reported as a conflict exactly
      when `Decide` says so, and ends written or untouched as it says. */
  lemma PullAllOutcome(opts: PullOptions, lastFullPull: Option<int>, files: seq<IssueFile>, store: Store,
                       listed: Result<seq<Issue>>, batch: Result<map<string, Issue>>, keys: seq<string>,
                       now: int, dirs: Dirs, remote: Issue)
    requires batch.Ok? ==> Enumerates(keys, batch.value)
    requires batch.Ok? ==> forall k :: k in batch.value ==> batch.value[k].number == k
    requires listed.Ok? && NumbersDistinct(listed.value)
    requires remote in PullRemotes(opts, lastFullPull, files, listed.value, batch, keys)
    ensures var r := PullAll(opts, lastFullPull, files, store, listed, batch, keys, now, dirs);
            var it := Received(remote, now);
            var d := Decide(it, Lookup(ByNumber(files), remote.number), Lookup(store.snapshots, remote.number), opts.force, dirs);
            r.Ok? && r.value.Pulled? ==>
              (remote.number in r.value.report.conflicts <==> d == Conflict)
              && (d == Added || d == Updated ==>
                    Lookup(r.value.report.store.files, remote.number) == Some(IssueFile(it, TargetPath(it, dirs), DirForState(it.state)))
                    && Lookup(r.value.report.store.snapshots, remote.number) == Some(it))
              && (d == Conflict || d == Unchanged ==>
                    Lookup(r.value.report.store.files, remote.number) == Lookup(store.files, remote.number)
                    && Lookup(r.value.report.store.snapshots, remote.number) == Lookup(store.snapshots, remote.number))
  {
    var remotes := PullRemotes(opts, lastFullPull, files, listed.value, batch, keys);
    MergeHasNoRepeats(listed.value, if ToFetch(opts, lastFullPull, files) == [] then Err("not fetched") else batch, keys);
    PullEachConflicts(ByNumber(files), store, remotes, now, opts.force, dirs, remote);
    PullEachWrites(ByNumber(files), store, remotes, now, opts.force, dirs, remote);
  }

  /** `Pull` with arguments: the named issues are fetched one by one (any
      failure fails the pull) and handled like listed ones; the last-pull
      timestamp is not moved and no orphan is restored. */
  function PullNamed(root: string, files: seq<IssueFile>, args: seq<string>, ops: PathOps, store: Store,
                     get: string -> Result<Issue>, now: int, force: bool, dirs: Dirs): (r: Result<Report>)
    requires |args| > 0
    ensures r.Ok? <==> forall n :: n in ArgNumbers(root, files, args, ops) ==> get(n).Ok?
    ensures r.Ok? ==> |r.value.conflicts| + r.value.same <= |ArgNumbers(root, files, args, ops)|
  {
    var numbers := ArgNumbers(root, files, args, ops);
    assert forall n :: n in numbers ==> exists k :: 0 <= k < |numbers| && numbers[k] == n;
    match FetchAll(numbers, get)
    case Err(e) => Err(e)
    case Ok(remotes) => Ok(PullEach(ByNumber(files), store, remotes, now, force, dirs))
  }

  // ------------------------------------------------------------ orphans

  /** An entry of the snapshot directory. */
  datatype DirEntry = DirEntry(name: string, isDir: bool)

  /** The number an entry stands for, when it is a snapshot file of a
      permanent issue without a local file. */
  function Orphan(e: DirEntry, local: set<string>): Option<string> {
    if e.isDir || !HasSuffix(e.name, ".md") then None
    else
      var number := TrimSuffix(e.name, ".md");
      if HasPrefix(number, "T") || number in local then None else Some(number)
  }

  /** `restoreDeletedIssues`: the orphaned snapshots, in directory order. */
  function Orphans(entries: seq<DirEntry>, local: set<string>): (r: seq<string>)
    ensures forall n :: n in r <==> exists k :: 0 <= k < |entries| && Orphan(entries[k], local) == Some(n)
  {
    if |entries| == 0 then []
    else
      var rest := Orphans(entries[1..], local);
      assert forall k :: 0 <= k < |entries| - 1 ==> entries[1..][k] == entries[k + 1];
      assert forall n :: (exists k :: 0 <= k < |entries| && Orphan(entries[k], local) == Some(n)) <==>
                         Orphan(entries[0], local) == Some(n) ||
                         exists k :: 0 <= k < |entries| - 1 && Orphan(entries[1..][k], local) == Some(n) by {
        forall n | exists k :: 0 <= k < |entries| && Orphan(entries[k], local) == Some(n)
          ensures Orphan(entries[0], local) == Some(n) ||
                  exists k :: 0 <= k < |entries| - 1 && Orphan(entries[1..][k], local) == Some(n)
        {
          var k :| 0 <= k < |entries| && Orphan(entries[k], local) == Some(n);
          if k > 0 {
            assert Orphan(entries[1..][k - 1], local) == Some(n);
          }
        }
      }
      match Orphan(entries[0], local)
      case None => rest
      case Some(n) => [n] + rest
  }

  /** An orphan is a permanent number with a snapshot file and no local file. */
  lemma OrphanIff(e: DirEntry, local: set<string>, n: string)
    ensures Orphan(e, local) == Some(n) <==>
              !e.isDir && e.name == n + ".md" && !HasPrefix(n, "T") && n !in local
  {
    if !e.isDir && e.name == n + ".md" {
      assert e.name[|e.name| - 3..] == ".md";
      assert TrimSuffix(e.name, ".md") == n;
    }
  }

  /** Restoring an orphan writes the fetched record like any received issue;
      a failed fetch is skipped. */
  function Restore(store: Store, fetched: Result<Issue>, now: int, dirs: Dirs): (r: Store)
    ensures fetched.Err? ==> r == store
    ensures fetched.Ok? ==> fetched.value.number in r.files && fetched.value.number in r.snapshots
    ensures forall n :: fetched.Err? || n != fetched.value.number ==>
              Lookup(r.files, n) == Lookup(store.files, n) && Lookup(r.snapshots, n) == Lookup(store.snapshots, n)
  {
    match fetched
    case Err(_) => store
    case Ok(remote) => Write(store, Received(remote, now), dirs)
  }

  /** A restored issue is written as received. */
  lemma RestoreReceived(store: Store, remote: Issue, now: int, dirs: Dirs)
    ensures Restore(store, Ok(remote), now, dirs).files[remote.number].issue == Received(remote, now)
    ensures Restore(store, Ok(remote), now, dirs).snapshots[remote.number] == Received(remote, now)
  {
  }

  /** `restoreDeletedIssues` after the listing: each orphan is fetched and
      written back under the number the fetched record carries; one that
      cannot be fetched is skipped. */
  method RestoreDeleted(store: Store, entries: seq<DirEntry>, local: set<string>,
                        get: string -> Result<Issue>, now: int, dirs: Dirs)
    returns (r: Store, restored: seq<string>)
    ensures forall n :: n in Orphans(entries, local) && get(n).Ok? ==> get(n).value.number in restored
    ensures forall m :: m in restored ==>
              exists n :: n in Orphans(entries, local) && get(n).Ok? && get(n).value.number == m
    ensures forall m :: m in restored ==> m in r.files && m in r.snapshots
    ensures forall m :: m !in restored ==> Lookup(r.files, m) == Lookup(store.files, m)
    ensures forall m :: m !in restored ==> Lookup(r.snapshots, m) == Lookup(store.snapshots, m)
    ensures (forall n :: get(n).Ok? ==> get(n).value.number == n) ==>
              forall n :: n in restored <==> n in Orphans(entries, local) && get(n).Ok?
  {
    var orphans := Orphans(entries, local);
    r, restored := store, [];
    for i := 0 to |orphans|
      invariant forall n :: n in orphans[..i] && get(n).Ok? ==> get(n).value.number in restored
      invariant forall m :: m in restored ==> exists n :: n in orphans[..i] && get(n).Ok? && get(n).value.number == m
      invariant forall m :: m in restored ==> m in r.files && m in r.snapshots
      invariant forall m :: m !in restored ==> Lookup(r.files, m) == Lookup(store.files, m)
      invariant forall m :: m !in restored ==> Lookup(r.snapshots, m) == Lookup(store.snapshots, m)
    {
      var number := orphans[i];
      assert orphans[..i + 1] == orphans[..i] + [number];
      var fetched := get(number);
      if fetched.Ok? {
        var m0 := fetched.value.number;
        forall m | m in restored + [m0]
          ensures exists n :: n in orphans[..i + 1] && get(n).Ok? && get(n).value.number == m
        {
          if m != m0 {
            var n :| n in orphans[..i] && get(n).Ok? && get(n).value.number == m;
            assert n in orphans[..i + 1];
          } else {
            assert number in orphans[..i + 1];
          }
        }
        var next := Restore(r, fetched, now, dirs);
        r, restored := next, restored + [m0];
      }
    }
    assert orphans[..|orphans|] == orphans;
    if forall n :: get(n).Ok? ==> get(n).value.number == n {
      forall n | n in restored ensures n in orphans && get(n).Ok? {
        var k :| k in orphans && get(k).Ok? && get(k).value.number == n;
      }
    }
  }
}

=== FILE: push.dfy ===
/** `push` (internal/app/push.go) as phases over the store: the labels and
    milestones it creates, the issues it creates for temporary ids, the
    candidates it selects, the conflict gate, the edits it sends, the
    snapshots it writes and the comments it posts. The remote's answers are
    parameters. */
module Push {
  import opened Results
  import opened Text
  import opened Issues
  import opened EditPlan
  import opened Order
  import opened Commands
  import Promotion
  import Batch
  import Pull

  // ------------------------------------------------------------ labels and milestones

  /** Every label some selected issue carries. */
  function NeededLabels(files: seq<IssueFile>): (r: set<string>)
    ensures forall f, l :: f in files && l in f.issue.labels ==> l in r
  {
    set f, l | f in files && l in f.issue.labels :: l
  }

  /** Every milestone some selected issue names. */
  function NeededMilestones(files: seq<IssueFile>): (r: set<string>)
    ensures forall f :: f in files && f.issue.milestone != "" ==> f.issue.milestone in r
    ensures "" !in r
  {
    set f | f in files && f.issue.milestone != "" :: f.issue.milestone
  }

  /** The known names (lowercased) after creation, and the names created. */
  datatype Creation = Creation(known: set<string>, created: seq<string>)

  /** Creating the needed labels or milestones, in the order the set is
      walked: a name is created only when its lowercased form is not yet
      known; a failed creation is skipped and a successful one becomes known,
      so a second spelling of it is not created again. A dry run creates
      nothing. */
  method CreateMissing(known: set<string>, needed: seq<string>, dryRun: bool, creates: string -> bool)
    returns (r: Creation)
    ensures dryRun ==> r == Creation(known, [])
    ensures r.known == known + set n | n in r.created :: ToLower(n)
    ensures forall n :: n in r.created ==> n in needed && creates(n)
    ensures forall i :: 0 <= i < |r.created| ==> ToLower(r.created[i]) !in known
    ensures forall i, j :: 0 <= i < j < |r.created| ==> ToLower(r.created[i]) != ToLower(r.created[j])
    ensures !dryRun ==> forall n :: n in needed && creates(n) ==> ToLower(n) in r.known
  {
    r := Creation(known, []);
    if dryRun {
      return;
    }
    for i := 0 to |needed|
      invariant r.known == known + set n | n in r.created :: ToLower(n)
      invariant forall n :: n in r.created ==> n in needed[..i] && creates(n)
      invariant forall k :: 0 <= k < |r.created| ==> ToLower(r.created[k]) !in known
      invariant forall k, j :: 0 <= k < j < |r.created| ==> ToLower(r.created[k]) != ToLower(r.created[j])
      invariant forall n :: n in needed[..i] && creates(n) ==> ToLower(n) in r.known
    {
      var name := needed[i];
      assert needed[..i + 1] == needed[..i] + [name];
      if ToLower(name) !in r.known && creates(name) {
        assert forall k :: 0 <= k < |r.created| ==> ToLower(r.created[k]) in r.known;
        r := Creation(r.known + {ToLower(name)}, r.created + [name]);
      }
    }
    assert needed[..|needed|] == needed;
  }

  /** The colours a created label is given one of; which one is random. */
  const Palette: seq<string> := [
    "0052CC", "00875A", "5243AA", "FF5630", "FFAB00",
    "36B37E", "00B8D9", "6554C0", "FF8B00", "57D9A3",
    "1D7AFC", "E774BB", "8777D9", "2684FF", "FF991F"]

  // ------------------------------------------------------------ temporary ids

  /** A created issue takes its permanent number and the sync time, and its
      file moves to the name of that number in the same container. */
  function Promote(f: IssueFile, number: string, now: int, dirs: Dirs): (r: IssueFile)
    ensures r.issue.number == number && r.issue.syncedAt == Some(now) && r.container == f.container
    ensures EqualIgnoringSyncedAt(r.issue, f.issue.(number := number))
    ensures '-' !in number && '/' !in number ==> NumberFromFilename(r.path) == number
  {
    var it := f.issue.(number := number, syncedAt := Some(now));
    EqualityIgnoresBookkeeping(f.issue.(number := number), Some(now), it.author, it.createdAt, it.updatedAt);
    if '-' !in number && '/' !in number then
      FileNameRoundTrip(DirOf(dirs, f.container), number, it.title);
      IssueFile(it, PathFor(DirOf(dirs, f.container), number, it.title), f.container)
    else IssueFile(it, PathFor(DirOf(dirs, f.container), number, it.title), f.container)
  }

  /** The temporary ids given permanent ones, the permanent ids in creation
      order, and the store afterwards. */
  datatype Temps = Temps(mapping: Promotion.Mapping, numbers: seq<string>, store: Pull.Store)

  /** How the creation phase ends: what was created and written, and the
      error of the creation that stopped it, if one failed. */
  datatype CreatePhase = CreatePhase(done: Temps, err: Option<string>)

  /** The position of the first record with a temporary id whose creation
      fails, or the record count when none fails. */
  function Stop(files: seq<IssueFile>, create: Issue -> Result<string>): (k: nat)
    ensures k <= |files|
    ensures k < |files| ==> IsLocal(files[k].issue.number) && create(files[k].issue).Err?
    ensures forall j :: 0 <= j < k && IsLocal(files[j].issue.number) ==> create(files[j].issue).Ok?
    decreases |files|
  {
    if |files| == 0 then 0
    else
      var init := files[..|files| - 1];
      var s := Stop(init, create);
      if s < |init| then s
      else if IsLocal(files[|files| - 1].issue.number) && create(files[|files| - 1].issue).Err? then |init|
      else |files|
  }

  /** Some creation fails exactly when a record with a temporary id has a
      failing creation. */
  lemma StopIff(files: seq<IssueFile>, create: Issue -> Result<string>)
    ensures Stop(files, create) < |files| <==> exists f :: f in files && IsLocal(f.issue.number) && create(f.issue).Err?
  {
    if exists f :: f in files && IsLocal(f.issue.number) && create(f.issue).Err? {
      var f :| f in files && IsLocal(f.issue.number) && create(f.issue).Err?;
      var j :| 0 <= j < |files| && files[j] == f;
    }
  }

  /** How the first failure of a sequence follows from that of all but its
      last record. */
  lemma StopInit(files: seq<IssueFile>, create: Issue -> Result<string>)
    requires |files| > 0
    ensures var init := files[..|files| - 1];
            var last := files[|files| - 1];
            var s := Stop(init, create);
            (s < |init| ==> Stop(files, create) == s && files[s] == init[s])
            && (s == |init| ==>
                  if IsLocal(last.issue.number) && create(last.issue).Err? then Stop(files, create) == |init|
                  else Stop(files, create) == |files|)
  {
  }

  /** Creating an issue for each selected record with a temporary id, in
      order. The created record is written under its new number, file and
      snapshot alike, and the temporary file is gone (see
      `CreateLocalPromotes`). The first failed creation stops the phase and
      fails the push, while the records created before it stay created and
      written. A dry run creates nothing. */
  function CreateLocal(files: seq<IssueFile>, dryRun: bool, create: Issue -> Result<string>,
                       store: Pull.Store, now: int, dirs: Dirs): (r: CreatePhase)
    ensures dryRun ==> r == CreatePhase(Temps(map[], [], store), None)
    ensures r.err.Some? <==> !dryRun && Stop(files, create) < |files|
    ensures r.err.Some? ==> create(files[Stop(files, create)].issue) == Err(r.err.value)
    decreases |files|
  {
    if dryRun || |files| == 0 then CreatePhase(Temps(map[], [], store), None)
    else
      var init := files[..|files| - 1];
      var f := files[|files| - 1];
      var prev := CreateLocal(init, dryRun, create, store, now, dirs);
      StopInit(files, create);
      if prev.err.Some? then prev
      else if !IsLocal(f.issue.number) then prev
      else CreateOne(prev.done, f, create, now, dirs)
  }

  /** Creating the issue of one record with a temporary id: a failure keeps
      what was done and carries the error, a success adopts the promoted
      record. */
  function CreateOne(done: Temps, f: IssueFile, create: Issue -> Result<string>, now: int, dirs: Dirs): (r: CreatePhase)
    ensures r.err.Some? <==> create(f.issue).Err?
    ensures r.err.Some? ==> r.done == done && create(f.issue) == Err(r.err.value)
    ensures r.err.None? ==> r.done == Adopt(done, f.issue.number, Promote(f, create(f.issue).value, now, dirs))
  {
    match create(f.issue)
    case Err(e) => CreatePhase(done, Some(e))
    case Ok(number) => CreatePhase(Adopt(done, f.issue.number, Promote(f, number, now, dirs)), None)
  }

  /** One creation: the temporary id `temp` maps to the new number, the
      promoted record `g` replaces the temporary file and becomes the
      snapshot, and every other id keeps its mapping, file and snapshot. */
  function Adopt(done: Temps, temp: string, g: IssueFile): (r: Temps)
    ensures r.mapping.Keys == done.mapping.Keys + {temp} && r.mapping[temp] == g.issue.number
    ensures forall t :: t in done.mapping && t != temp ==> r.mapping[t] == done.mapping[t]
    ensures r.numbers == done.numbers + [g.issue.number]
    ensures Pull.Lookup(r.store.files, g.issue.number) == Some(g)
    ensures Pull.Lookup(r.store.snapshots, g.issue.number) == Some(g.issue)
    ensures temp != g.issue.number ==> temp !in r.store.files
    ensures forall n :: n != g.issue.number && n != temp ==> Pull.Lookup(r.store.files, n) == Pull.Lookup(done.store.files, n)
    ensures forall n :: n != g.issue.number ==> Pull.Lookup(r.store.snapshots, n) == Pull.Lookup(done.store.snapshots, n)
  {
    var number := g.issue.number;
    Temps(done.mapping[temp := number], done.numbers + [number],
          Pull.Store((done.store.files - {temp})[number := g], done.store.snapshots[number := g.issue]))
  }

  /** The phase over all records is the phase over all but the last, then
      the last record when the earlier ones all succeeded. */
  lemma CreateLocalStep(files: seq<IssueFile>, create: Issue -> Result<string>, store: Pull.Store, now: int, dirs: Dirs)
    requires |files| > 0
    ensures var prev := CreateLocal(files[..|files| - 1], false, create, store, now, dirs);
            var last := files[|files| - 1];
            CreateLocal(files, false, create, store, now, dirs)
            == if prev.err.Some? || !IsLocal(last.issue.number) then prev else CreateOne(prev.done, last, create, now, dirs)
  {
  }

  /** The temporary ids of the records before the first failure. */
  ghost predicate CreatedBefore(files: seq<IssueFile>, create: Issue -> Result<string>, t: string) {
    exists k :: 0 <= k < Stop(files, create) && IsLocal(files[k].issue.number) && files[k].issue.number == t
  }

  /** A record before the first failure with temporary id `t` whose creation returned `n`. */
  ghost predicate CreatedAs(files: seq<IssueFile>, create: Issue -> Result<string>, t: string, n: string) {
    exists k :: 0 <= k < Stop(files, create) && files[k].issue.number == t && create(files[k].issue) == Ok(n)
  }

  /** How the records created before the first failure grow by the last record. */
  lemma CreatedInit(files: seq<IssueFile>, create: Issue -> Result<string>)
    requires |files| > 0
    ensures var init := files[..|files| - 1];
            var last := files[|files| - 1];
            (forall t :: CreatedBefore(init, create, t) ==> CreatedBefore(files, create, t))
            && (forall t, n :: CreatedAs(init, create, t, n) ==> CreatedAs(files, create, t, n))
            && (forall t :: CreatedBefore(files, create, t) ==>
                  CreatedBefore(init, create, t) || (t == last.issue.number && Stop(files, create) == |files|))
            && (Stop(files, create) == |files| && IsLocal(last.issue.number) ==>
                  CreatedBefore(files, create, last.issue.number)
                  && CreatedAs(files, create, last.issue.number, create(last.issue).value))
  {
    var init := files[..|files| - 1];
    var last := files[|files| - 1];
    StopInit(files, create);
    var s := Stop(init, create);
    forall t | CreatedBefore(init, create, t)
      ensures CreatedBefore(files, create, t)
    {
      var k :| 0 <= k < s && IsLocal(init[k].issue.number) && init[k].issue.number == t;
      assert init[k] == files[k];
    }
    forall t, n | CreatedAs(init, create, t, n)
      ensures CreatedAs(files, create, t, n)
    {
      var k :| 0 <= k < s && init[k].issue.number == t && create(init[k].issue) == Ok(n);
      assert init[k] == files[k];
    }
    forall t | CreatedBefore(files, create, t)
      ensures CreatedBefore(init, create, t) || (t == last.issue.number && Stop(files, create) == |files|)
    {
      var k :| 0 <= k < Stop(files, create) && IsLocal(files[k].issue.number) && files[k].issue.number == t;
      if k < |init| {
        assert k < s;
        assert init[k] == files[k];
        assert CreatedBefore(init, create, t);
      } else {
        assert k == |init| && files[k] == last;
        assert Stop(files, create) == |files|;
      }
    }
    if Stop(files, create) == |files| && IsLocal(last.issue.number) {
      assert files[|init|] == last;
    }
  }

  /** The temporary ids mapped are exactly those of the records before the
      first failure, each to the number its creation returned. */
  lemma {:induction false} CreateLocalMapping(files: seq<IssueFile>, create: Issue -> Result<string>, store: Pull.Store, now: int, dirs: Dirs)
    ensures var r := CreateLocal(files, false, create, store, now, dirs);
            (forall t :: t in r.done.mapping <==> CreatedBefore(files, create, t))
            && forall t :: t in r.done.mapping ==> CreatedAs(files, create, t, r.done.mapping[t])
    decreases |files|
  {
    if |files| > 0 {
      var init := files[..|files| - 1];
      var last := files[|files| - 1];
      var prev := CreateLocal(init, false, create, store, now, dirs);
      var r := CreateLocal(files, false, create, store, now, dirs);
      CreateLocalStep(files, create, store, now, dirs);
      CreateLocalMapping(init, create, store, now, dirs);
      StopInit(files, create);
      CreatedInit(files, create);
      if prev.err.Some? {
        assert Stop(files, create) < |files|;
      } else if !IsLocal(last.issue.number) || create(last.issue).Err? {
        assert r.done.mapping == prev.done.mapping;
      } else {
        assert Stop(files, create) == |files|;
      }
    }
  }

  /** What the remote guarantees of the creations: the records' temporary
      ids are distinct, and each creation returns a fresh permanent number. */
  ghost predicate FreshCreations(files: seq<IssueFile>, create: Issue -> Result<string>) {
    && (forall i, j :: 0 <= i < j < |files| && IsLocal(files[i].issue.number) ==>
          files[i].issue.number != files[j].issue.number)
    && (forall i :: 0 <= i < |files| && IsLocal(files[i].issue.number) && create(files[i].issue).Ok? ==>
          !IsLocal(create(files[i].issue).value))
    && (forall i, j :: 0 <= i < j < |files| && IsLocal(files[i].issue.number) && IsLocal(files[j].issue.number)
                       && create(files[i].issue).Ok? && create(files[j].issue).Ok? ==>
          create(files[i].issue).value != create(files[j].issue).value)
  }

  lemma FreshInit(files: seq<IssueFile>, create: Issue -> Result<string>)
    requires |files| > 0 && FreshCreations(files, create)
    ensures FreshCreations(files[..|files| - 1], create)
  {
    assert forall k :: 0 <= k < |files| - 1 ==> files[..|files| - 1][k] == files[k];
  }

  /** A temporary id and a permanent number are different strings. */
  lemma LocalIsNotPermanent(t: string, n: string)
    requires IsLocal(t) && !IsLocal(n)
    ensures t != n
  {
  }

  /** Adopting another creation keeps what an earlier one established. */
  lemma AdoptKeeps(done: Temps, temp: string, g: IssueFile, t: string, n: string, h: IssueFile)
    requires t in done.mapping && done.mapping[t] == n && t != temp
    requires Pull.Lookup(done.store.files, n) == Some(h) && Pull.Lookup(done.store.snapshots, n) == Some(h.issue)
    requires t !in done.store.files
    requires n != g.issue.number && n != temp && t != g.issue.number
    ensures var r := Adopt(done, temp, g);
            t in r.mapping && r.mapping[t] == n
            && Pull.Lookup(r.store.files, n) == Some(h) && Pull.Lookup(r.store.snapshots, n) == Some(h.issue)
            && t !in r.store.files
  {
    var r := Adopt(done, temp, g);
    assert Pull.Lookup(r.store.files, t) == Pull.Lookup(done.store.files, t);
  }

  /** The promotion of record `k`: its temporary id maps to the number its
      creation returned, the promoted record is file and snapshot under that
      number, and no file keeps the temporary id. */
  ghost predicate PromotedIn(r: Temps, f: IssueFile, n: string, now: int, dirs: Dirs) {
    var g := Promote(f, n, now, dirs);
    && f.issue.number in r.mapping && r.mapping[f.issue.number] == n
    && Pull.Lookup(r.store.files, n) == Some(g)
    && Pull.Lookup(r.store.snapshots, n) == Some(g.issue)
    && f.issue.number !in r.store.files
  }

  /** The last record, created successfully, is promoted. */
  lemma CreateLocalPromotesLast(files: seq<IssueFile>, create: Issue -> Result<string>, store: Pull.Store, now: int, dirs: Dirs)
    requires |files| > 0 && Stop(files, create) == |files|
    requires IsLocal(files[|files| - 1].issue.number)
    requires FreshCreations(files, create)
    ensures PromotedIn(CreateLocal(files, false, create, store, now, dirs).done, files[|files| - 1],
                       create(files[|files| - 1].issue).value, now, dirs)
  {
    var last := files[|files| - 1];
    var n := create(last.issue).value;
    CreateLocalStep(files, create, store, now, dirs);
    StopInit(files, create);
    LocalIsNotPermanent(last.issue.number, n);
  }

  /** When the remote creates fresh numbers, each record created before the
      first failure ends as its promoted record under the new number, file
      and snapshot alike, its temporary id maps to that number, and no file
      keeps the temporary id. */
  lemma {:induction false} CreateLocalPromotes(files: seq<IssueFile>, create: Issue -> Result<string>, store: Pull.Store,
                                               now: int, dirs: Dirs, k: nat)
    requires FreshCreations(files, create)
    requires k < Stop(files, create) && IsLocal(files[k].issue.number)
    ensures PromotedIn(CreateLocal(files, false, create, store, now, dirs).done, files[k], create(files[k].issue).value, now, dirs)
    decreases |files|
  {
    var init := files[..|files| - 1];
    var last := files[|files| - 1];
    StopInit(files, create);
    if k == |init| {
      CreateLocalPromotesLast(files, create, store, now, dirs);
    } else {
      var prev := CreateLocal(init, false, create, store, now, dirs);
      var t := files[k].issue.number;
      var n := create(files[k].issue).value;
      assert init[k] == files[k];
      FreshInit(files, create);
      CreateLocalPromotes(init, create, store, now, dirs, k);
      CreateLocalStep(files, create, store, now, dirs);
      if prev.err.None? && IsLocal(last.issue.number) && create(last.issue).Ok? {
        var m := create(last.issue).value;
        assert n != m && t != last.issue.number;
        LocalIsNotPermanent(t, n);
        LocalIsNotPermanent(t, m);
        LocalIsNotPermanent(last.issue.number, n);
        AdoptKeeps(prev.done, last.issue.number, Promote(last, m, now, dirs), t, n, Promote(files[k], n, now, dirs));
      }
    }
  }

  /** Every mapped number was recorded, and every snapshot, old or new, is
      kept. */
  lemma {:induction false} CreateLocalRecorded(files: seq<IssueFile>, dryRun: bool, create: Issue -> Result<string>, store: Pull.Store, now: int, dirs: Dirs)
    ensures var r := CreateLocal(files, dryRun, create, store, now, dirs);
            (forall t :: t in r.done.mapping ==> r.done.mapping[t] in r.done.numbers)
            && (forall n :: n in r.done.numbers ==> n in r.done.store.snapshots)
            && (forall n :: n in store.snapshots ==> n in r.done.store.snapshots)
    decreases |files|
  {
    if !dryRun && |files| > 0 {
      CreateLocalStep(files, create, store, now, dirs);
      CreateLocalRecorded(files[..|files| - 1], dryRun, create, store, now, dirs);
    }
  }

  /** Arguments naming a temporary id that was created now name the new id. */
  function RewriteArgs(args: seq<string>, m: Promotion.Mapping): (r: seq<string>)
    ensures |r| == |args|
    ensures forall i :: 0 <= i < |args| && args[i] !in m ==> r[i] == args[i]
    ensures forall i :: 0 <= i < |args| && args[i] in m ==> r[i] == m[args[i]]
  {
    seq(|args|, i requires 0 <= i < |args| => if args[i] in m then m[args[i]] else args[i])
  }

  /** Rewriting the arguments a second time changes nothing when no new id is
      itself a temporary id. */
  lemma RewriteArgsSettles(args: seq<string>, m: Promotion.Mapping)
    requires forall t :: t in m ==> m[t] !in m
    ensures RewriteArgs(RewriteArgs(args, m), m) == RewriteArgs(args, m)
  {
  }

  /** The records whose references mention a created id, rewritten. */
  function Remapped(files: seq<IssueFile>, m: Promotion.Mapping): (r: seq<IssueFile>)
    ensures |r| == |files|
    ensures forall i :: 0 <= i < |files| ==> r[i].path == files[i].path && r[i].container == files[i].container
    ensures forall i :: 0 <= i < |files| ==> r[i].issue.number == files[i].issue.number
    ensures forall i :: 0 <= i < |files| && !Promotion.ApplyMapping(files[i].issue, m).changed ==> r[i] == files[i]
  {
    seq(|files|, i requires 0 <= i < |files| => files[i].(issue := Promotion.ApplyMapping(files[i].issue, m).issue))
  }

  // ------------------------------------------------------------ candidates

  /** A record is pushed when it has no snapshot or differs from it. */
  predicate Candidate(it: Issue, snapshot: Option<Issue>) {
    snapshot.None? || !EqualIgnoringSyncedAt(it, snapshot.value)
  }

  /** A record with a permanent id, waiting to be pushed, and its snapshot. */
  datatype Pending = Pending(file: IssueFile, original: Option<Issue>)

  /** Phase 1: the selected records with a permanent id that are candidates,
      in order. A dry run only reports them. */
  function Candidates(files: seq<IssueFile>, snaps: Snapshots, dryRun: bool): (r: seq<Pending>)
    ensures dryRun ==> r == []
    ensures forall p :: p in r ==>
              p.file in files && !IsLocal(p.file.issue.number)
              && p.original == Pull.Lookup(snaps, p.file.issue.number) && Candidate(p.file.issue, p.original)
    ensures !dryRun ==> forall f :: f in files && !IsLocal(f.issue.number) && Candidate(f.issue, Pull.Lookup(snaps, f.issue.number)) ==>
              Pending(f, Pull.Lookup(snaps, f.issue.number)) in r
  {
    if dryRun || |files| == 0 then []
    else
      var f := files[0];
      var rest := Candidates(files[1..], snaps, dryRun);
      assert forall g :: g in files <==> g == f || g in files[1..];
      var original := Pull.Lookup(snaps, f.issue.number);
      (if !IsLocal(f.issue.number) && Candidate(f.issue, original) then [Pending(f, original)] else []) + rest
  }

  /** Phase 1's count of records already up to date; an issue created in this
      run is not counted. */
  function Unchanged(files: seq<IssueFile>, snaps: Snapshots, created: set<string>): (r: nat)
    ensures r == |Filter(files, (f: IssueFile) => !IsLocal(f.issue.number)
                         && !Candidate(f.issue, Pull.Lookup(snaps, f.issue.number)) && f.issue.number !in created)|
  {
    if |files| == 0 then 0
    else
      var f := files[0];
      (if !IsLocal(f.issue.number) && !Candidate(f.issue, Pull.Lookup(snaps, f.issue.number)) && f.issue.number !in created
       then 1 else 0) + Unchanged(files[1..], snaps, created)
  }

  // ------------------------------------------------------------ conflicts and edits

  /** The edit sent in the batch: title, body and milestone when they
      changed, and the complete final label or assignee set when the label
      or assignee set changed at all. */
  function UpdateFor(number: string, c: IssueChange, local: Issue): (r: Option<Batch.Update>)
    ensures r.Some? <==> HasEdits(c)
    ensures r.Some? ==> r.value.number == number && r.value.title == c.title && r.value.body == c.body
                        && r.value.milestone == c.milestone
                        && !r.value.clearMilestone && !r.value.clearLabels && !r.value.clearAssignees
    ensures r.Some? ==> (r.value.labels.Some? <==> |c.addLabels| > 0 || |c.removeLabels| > 0)
    ensures r.Some? && r.value.labels.Some? ==> r.value.labels.value == local.labels
    ensures r.Some? ==> (r.value.assignees.Some? <==> |c.addAssignees| > 0 || |c.removeAssignees| > 0)
    ensures r.Some? && r.value.assignees.Some? ==> r.value.assignees.value == local.assignees
  {
    if !HasEdits(c) then None
    else
      Some(Batch.Update(number, c.title, c.body, c.milestone,
        if |c.addLabels| > 0 || |c.removeLabels| > 0 then Some(local.labels) else None,
        if |c.addAssignees| > 0 || |c.removeAssignees| > 0 then Some(local.assignees) else None,
        false, false, false))
  }

  /** What push does with one candidate, given the remote copy from the
      batch fetch. */
  datatype Decision = NotFound | Conflict | Send(change: IssueChange, update: Option<Batch.Update>)

  /** The copy the local record is compared with: the snapshot, or the
      remote copy when there is none. */
  function Baseline(p: Pending, remote: Issue): Issue {
    if p.original.Some? then p.original.value else remote
  }

  /** Phase 3 for one candidate: an issue missing from the remote is skipped;
      one whose remote copy moved away from the snapshot is a conflict;
      otherwise the difference from the baseline is sent. */
  function Decide(p: Pending, remote: Option<Issue>): (r: Decision)
    ensures r == NotFound <==> remote.None?
    ensures r == Conflict <==> remote.Some? && p.original.Some? && !EqualForConflictCheck(remote.value, p.original.value)
    ensures r.Send? ==> r.change == DiffIssue(Baseline(p, remote.value), p.file.issue)
    ensures r.Send? ==> r.update == UpdateFor(p.file.issue.number, r.change, p.file.issue)
  {
    match remote
    case None => NotFound
    case Some(rem) =>
      if p.original.Some? && !EqualForConflictCheck(rem, p.original.value) then Conflict
      else
        var c := DiffIssue(Baseline(p, rem), p.file.issue);
        Send(c, UpdateFor(p.file.issue.number, c, p.file.issue))
  }

  /** The label set goes out in full exactly when the label sets differ as
      sets; the order or repetition of labels alone sends nothing. */
  lemma LabelsSentIff(p: Pending, remote: Issue)
    requires Decide(p, Some(remote)).Send?
    ensures var d := Decide(p, Some(remote));
            d.update.Some? && d.update.value.labels.Some?
            <==> Elems(Baseline(p, remote).labels) != Elems(p.file.issue.labels)
  {
    var b := Baseline(p, remote);
    DiffStringSetApplies(b.labels, p.file.issue.labels);
    HasEditsIff(b, p.file.issue);
  }

  /** Likewise for assignees. */
  lemma AssigneesSentIff(p: Pending, remote: Issue)
    requires Decide(p, Some(remote)).Send?
    ensures var d := Decide(p, Some(remote));
            d.update.Some? && d.update.value.assignees.Some?
            <==> Elems(Baseline(p, remote).assignees) != Elems(p.file.issue.assignees)
  {
    var b := Baseline(p, remote);
    DiffStringSetApplies(b.assignees, p.file.issue.assignees);
    HasEditsIff(b, p.file.issue);
  }

  /** A close or reopen call, which cannot be batched. */
  datatype StateCall = StateCall(number: string, transition: string, reason: string)

  function StateCallOf(number: string, c: IssueChange): (r: Option<StateCall>)
    ensures r.Some? <==> c.stateTransition.Some?
    ensures r.Some? ==> r.value.number == number && r.value.transition == c.stateTransition.value
  {
    match c.stateTransition
    case None => None
    case Some(t) => Some(StateCall(number, t, c.stateReason.GetOr("")))
  }

  /** Phase 3 over all candidates: the conflicts, the state calls, the batch
      edits, and the candidates to finalize. */
  datatype Plan = Plan(conflicts: seq<string>, calls: seq<StateCall>, updates: seq<Batch.Update>, done: seq<Pending>)

  function PendingNumbers(s: seq<Pending>): set<string> {
    set p | p in s :: p.file.issue.number
  }

  /** The state call a candidate sent in the batch asks for, if any. */
  function CallOf(p: Pending, remotes: map<string, Issue>): Option<StateCall> {
    match Decide(p, Pull.Lookup(remotes, p.file.issue.number))
    case Send(c, _) => StateCallOf(p.file.issue.number, c)
    case _ => None
  }

  function PlanAll(pending: seq<Pending>, remotes: map<string, Issue>): (r: Plan)
    ensures forall p :: p in pending && Decide(p, Pull.Lookup(remotes, p.file.issue.number)) == Conflict ==>
              p.file.issue.number in r.conflicts
    ensures forall p :: p in pending && Decide(p, Pull.Lookup(remotes, p.file.issue.number)).Send? ==> p in r.done
    ensures forall p :: p in r.done ==> p in pending && Decide(p, Pull.Lookup(remotes, p.file.issue.number)).Send?
    ensures forall u :: u in r.updates ==> u.number in PendingNumbers(r.done)
    ensures |r.updates| <= |r.done| && |r.calls| <= |r.done| && |r.conflicts| + |r.done| <= |pending|
  {
    if |pending| == 0 then Plan([], [], [], [])
    else
      var p := pending[0];
      var rest := PlanAll(pending[1..], remotes);
      assert forall q :: q in pending <==> q == p || q in pending[1..];
      match Decide(p, Pull.Lookup(remotes, p.file.issue.number))
      case NotFound => rest
      case Conflict => rest.(conflicts := [p.file.issue.number] + rest.conflicts)
      case Send(c, update) =>
        var call := StateCallOf(p.file.issue.number, c);
        Plan(rest.conflicts,
             (if call.Some? then [call.value] else []) + rest.calls,
             (if update.Some? then [update.value] else []) + rest.updates,
             [p] + rest.done)
  }

  /** The state calls are exactly those the candidates ask for, one per
      candidate that is sent with a transition. */
  lemma {:induction false} PlanCalls(pending: seq<Pending>, remotes: map<string, Issue>)
    ensures forall p :: p in pending && CallOf(p, remotes).Some? ==> CallOf(p, remotes).value in PlanAll(pending, remotes).calls
    ensures forall c :: c in PlanAll(pending, remotes).calls ==> exists p :: p in pending && CallOf(p, remotes) == Some(c)
  {
    if |pending| > 0 {
      var p := pending[0];
      PlanCalls(pending[1..], remotes);
      assert forall q :: q in pending <==> q == p || q in pending[1..];
    }
  }

  // ------------------------------------------------------------ finalizing

  /** After the edits, each pushed record gets the sync time and is written
      as file and as snapshot: the snapshot is the local record itself. */
  function Finalize(store: Pull.Store, done: seq<Pending>, now: int): (r: Pull.Store)
    ensures forall n :: (forall p :: p in done ==> p.file.issue.number != n) ==>
              Pull.Lookup(r.files, n) == Pull.Lookup(store.files, n)
              && Pull.Lookup(r.snapshots, n) == Pull.Lookup(store.snapshots, n)
    ensures forall p :: p in done ==> p.file.issue.number in r.files && p.file.issue.number in r.snapshots
    ensures forall n :: n in store.files ==> n in r.files
    ensures forall n :: n in store.snapshots ==> n in r.snapshots
    decreases |done|
  {
    if |done| == 0 then store
    else
      var f := done[0].file;
      var it := f.issue.(syncedAt := Some(now));
      assert forall q :: q in done <==> q == done[0] || q in done[1..];
      Finalize(Pull.Store(store.files[it.number := f.(issue := it)], store.snapshots[it.number := it]), done[1..], now)
  }

  /** A pushed record is up to date with its new snapshot: the next push
      finds nothing to send for it. */
  lemma FinalizeSettles(store: Pull.Store, p: Pending, now: int)
    ensures var r := Finalize(store, [p], now);
            !Candidate(r.files[p.file.issue.number].issue, Pull.Lookup(r.snapshots, p.file.issue.number))
  {
    var it := p.file.issue.(syncedAt := Some(now));
    EqualIgnoringSyncedAtEquivalence(it, it, it);
  }

  /** The error of the first state call that fails, in candidate order:
      push returns the runner's error of `CloseIssue` or `ReopenIssue`
      unchanged and makes no further call. */
  function FirstFailure(calls: seq<StateCall>, callError: StateCall -> Option<string>): (r: Option<string>)
    ensures r.None? <==> forall k :: 0 <= k < |calls| ==> callError(calls[k]).None?
    ensures r.Some? ==> exists k :: 0 <= k < |calls| && callError(calls[k]) == r
                                    && forall j :: 0 <= j < k ==> callError(calls[j]).None?
  {
    if |calls| == 0 then None
    else if callError(calls[0]).Some? then callError(calls[0])
    else
      var r := FirstFailure(calls[1..], callError);
      assert forall k :: 0 <= k < |calls| - 1 ==> calls[1..][k] == calls[k + 1];
      r
  }

  /** Phases 2 to 5 for the candidates: the batch fetch (its failure fails
      the push), the state calls (the first failure fails the push), the batch
      edit (its failure fails the push; errors for single issues are only
      reported) and the finalizing writes. */
  datatype Pushed = Pushed(store: Pull.Store, conflicts: seq<string>, plan: Plan)

  function PushCandidates(pending: seq<Pending>, fetched: Result<map<string, Issue>>,
                          callError: StateCall -> Option<string>, edit: Result<Batch.Outcome>,
                          store: Pull.Store, now: int): (r: Result<Pushed>)
    ensures |pending| > 0 && fetched.Err? ==> r == Err("failed to fetch remote issues: " + fetched.msg)
    ensures r.Ok? ==> forall c :: c in r.value.plan.calls ==> callError(c).None?
    ensures r.Err? && (|pending| == 0 || fetched.Ok?) ==>
              var plan := PlanAll(pending, if |pending| > 0 then fetched.value else map[]);
              match FirstFailure(plan.calls, callError)
              case Some(e) => r.msg == e
              case None => |plan.updates| > 0 && edit.Err? && r.msg == "batch update failed: " + edit.msg
    ensures r.Ok? && |r.value.plan.updates| > 0 ==> edit.Ok?
    ensures r.Ok? ==> r.value.store == Finalize(store, r.value.plan.done, now)
    ensures r.Ok? ==> forall p :: p in r.value.plan.done ==> p in pending
  {
    if |pending| > 0 && fetched.Err? then Err("failed to fetch remote issues: " + fetched.msg)
    else
      var remotes := if |pending| > 0 then fetched.value else map[];
      var plan := PlanAll(pending, remotes);
      match FirstFailure(plan.calls, callError)
      case Some(e) => Err(e)
      case None =>
        if |plan.updates| > 0 && edit.Err? then Err("batch update failed: " + edit.msg)
        else Ok(Pushed(Finalize(store, plan.done, now), plan.conflicts, plan))
  }

  /** A conflicted record is left alone: no file or snapshot of its number
      is written when no other candidate shares the number. */
  lemma ConflictLeftAlone(pending: seq<Pending>, remotes: map<string, Issue>, store: Pull.Store, now: int, p: Pending)
    requires p in pending && Decide(p, Pull.Lookup(remotes, p.file.issue.number)) == Conflict
    requires forall q :: q in pending && q.file.issue.number == p.file.issue.number ==> q == p
    ensures p.file.issue.number in PlanAll(pending, remotes).conflicts
    ensures var r := Finalize(store, PlanAll(pending, remotes).done, now);
            Pull.Lookup(r.files, p.file.issue.number) == Pull.Lookup(store.files, p.file.issue.number)
            && Pull.Lookup(r.snapshots, p.file.issue.number) == Pull.Lookup(store.snapshots, p.file.issue.number)
  {
  }

  // ------------------------------------------------------------ comments

  /** A comment waiting in the store to be posted. */
  datatype Comment = Comment(number: string, body: string)

  /** Where a comment goes: a comment on a temporary id goes to the id
      created for it in this run and is held back otherwise; a comment on a
      conflicted issue is held back. */
  function Target(c: Comment, m: Promotion.Mapping, conflicts: set<string>): (r: Option<string>)
    ensures r.Some? <==> (IsLocal(c.number) ==> c.number in m)
                         && (if IsLocal(c.number) then m[c.number] else c.number) !in conflicts
    ensures r.Some? && !IsLocal(c.number) ==> r.value == c.number
    ensures r.Some? && IsLocal(c.number) ==> r.value == m[c.number]
  {
    if IsLocal(c.number) && c.number !in m then None
    else
      var n := if IsLocal(c.number) then m[c.number] else c.number;
      if n in conflicts then None else Some(n)
  }

  /** A comment as posted: the issue it goes to and its text. */
  datatype Post = Post(number: string, body: string)

  /** The comments posted, as written: with arguments only comments whose
      own number is among the pushed issues are kept, and only then are the
      kept ones routed. */
  function PostsAsWritten(comments: seq<Comment>, hasArgs: bool, pushing: set<string>,
                          m: Promotion.Mapping, conflicts: set<string>): (r: seq<Post>)
    ensures forall q :: q in r ==>
              exists c :: c in comments && (hasArgs ==> c.number in pushing)
                           && Target(c, m, conflicts) == Some(q.number) && q.body == c.body
  {
    if |comments| == 0 then []
    else
      var c := comments[0];
      var rest := PostsAsWritten(comments[1..], hasArgs, pushing, m, conflicts);
      assert forall d :: d in comments[1..] ==> d in comments;
      var t := Target(c, m, conflicts);
      (if (!hasArgs || c.number in pushing) && t.Some? then [Post(t.value, c.body)] else []) + rest
  }

  /** The comments posted, with the filter applied to the issue a comment
      goes to, so that a comment on an issue created from an argument in
      this run is posted to it. */
  function Posts(comments: seq<Comment>, hasArgs: bool, pushing: set<string>,
                 m: Promotion.Mapping, conflicts: set<string>): (r: seq<Post>)
    ensures forall c :: c in comments && Target(c, m, conflicts).Some?
                        && (hasArgs ==> Target(c, m, conflicts).value in pushing) ==>
              Post(Target(c, m, conflicts).value, c.body) in r
    ensures forall q :: q in r ==> q.number !in conflicts && (hasArgs ==> q.number in pushing)
  {
    if |comments| == 0 then []
    else
      var c := comments[0];
      var rest := Posts(comments[1..], hasArgs, pushing, m, conflicts);
      assert forall d :: d in comments <==> d == c || d in comments[1..];
      var t := Target(c, m, conflicts);
      (if t.Some? && (!hasArgs || t.value in pushing) then [Post(t.value, c.body)] else []) + rest
  }

  // ------------------------------------------------------------ comment order

  /** Comments in non-descending order of their number strings. */
  predicate CommentsInOrder(cs: seq<Comment>) {
    forall i, j :: 0 <= i < j < |cs| ==> !Lt(cs[j].number, cs[i].number)
  }

  /** No comment of `cs` has a number below `y`. */
  predicate NoneBelow(cs: seq<Comment>, y: string) {
    forall k :: 0 <= k < |cs| ==> !Lt(cs[k].number, y)
  }

  /** Insert `c` before the first comment whose number is above its own. */
  function InsertComment(c: Comment, cs: seq<Comment>): (r: seq<Comment>)
    ensures |r| == |cs| + 1
  {
    if |cs| == 0 then [c]
    else if Lt(c.number, cs[0].number) then [c] + cs
    else [cs[0]] + InsertComment(c, cs[1..])
  }

  lemma {:induction false} InsertCommentPermutes(c: Comment, cs: seq<Comment>)
    ensures multiset(InsertComment(c, cs)) == multiset(cs) + multiset{c}
  {
    if |cs| > 0 && !Lt(c.number, cs[0].number) {
      InsertCommentPermutes(c, cs[1..]);
      SeqCons(cs);
    }
  }

  lemma {:induction false} InsertCommentBound(c: Comment, cs: seq<Comment>, y: string)
    requires !Lt(c.number, y) && NoneBelow(cs, y)
    ensures NoneBelow(InsertComment(c, cs), y)
  {
    if |cs| > 0 && !Lt(c.number, cs[0].number) {
      InsertCommentBound(c, cs[1..], y);
      assert forall k :: 0 <= k < |cs| - 1 ==> InsertComment(c, cs)[k + 1] == InsertComment(c, cs[1..])[k];
    }
  }

  lemma {:induction false} InsertCommentOrdered(c: Comment, cs: seq<Comment>)
    requires CommentsInOrder(cs)
    ensures CommentsInOrder(InsertComment(c, cs))
  {
    if |cs| > 0 {
      var r := InsertComment(c, cs);
      if Lt(c.number, cs[0].number) {
        forall k | 0 <= k < |cs| ensures !Lt(cs[k].number, c.number) {
          LtIrreflexive(cs[0].number);
          assert !Lt(cs[k].number, cs[0].number);
          if Lt(cs[k].number, c.number) {
            LtTransitive(cs[k].number, c.number, cs[0].number);
          }
        }
        assert forall k :: 0 <= k < |cs| ==> r[k + 1] == cs[k];
      } else {
        var tail := cs[1..];
        assert forall k :: 0 <= k < |cs| - 1 ==> tail[k] == cs[k + 1];
        InsertCommentOrdered(c, tail);
        LtTotal(c.number, cs[0].number);
        InsertCommentBound(c, tail, cs[0].number);
        var rt := InsertComment(c, tail);
        assert forall k :: 0 <= k < |rt| ==> r[k + 1] == rt[k];
      }
    }
  }

  /** `sort.Slice` of the comments by number string. Comments with one
      number keep their load order here. */
  function SortComments(cs: seq<Comment>): (r: seq<Comment>)
    ensures |r| == |cs|
    ensures CommentsInOrder(r)
  {
    if |cs| == 0 then []
    else
      var r0 := SortComments(cs[..|cs| - 1]);
      InsertCommentOrdered(cs[|cs| - 1], r0);
      InsertComment(cs[|cs| - 1], r0)
  }

  /** Sorting only rearranges the comments. */
  lemma {:induction false} SortCommentsPermutes(cs: seq<Comment>)
    ensures multiset(SortComments(cs)) == multiset(cs)
  {
    if |cs| > 0 {
      var init := cs[..|cs| - 1];
      SortCommentsPermutes(init);
      InsertCommentPermutes(cs[|cs| - 1], SortComments(init));
      assert cs == init + [cs[|cs| - 1]];
    }
  }

  /** Posts in non-descending order of the issue they go to. */
  predicate PostsInOrder(ps: seq<Post>) {
    forall i, j :: 0 <= i < j < |ps| ==> !Lt(ps[j].number, ps[i].number)
  }

  /** Posts of comments none of which has a number below `y` and none of
      which is on a temporary id go to no number below `y`. */
  lemma {:induction false} PostsBound(comments: seq<Comment>, hasArgs: bool, pushing: set<string>,
                                      m: Promotion.Mapping, conflicts: set<string>, y: string)
    requires NoneBelow(comments, y)
    requires forall k :: 0 <= k < |comments| ==> !IsLocal(comments[k].number)
    ensures var r := PostsAsWritten(comments, hasArgs, pushing, m, conflicts);
            forall k :: 0 <= k < |r| ==> !Lt(r[k].number, y)
  {
    if |comments| > 0 {
      var tail := comments[1..];
      assert forall k :: 0 <= k < |tail| ==> tail[k] == comments[k + 1];
      PostsBound(tail, hasArgs, pushing, m, conflicts, y);
    }
  }

  lemma PostsCons(p: Post, rest: seq<Post>)
    requires PostsInOrder(rest)
    requires forall k :: 0 <= k < |rest| ==> !Lt(rest[k].number, p.number)
    ensures PostsInOrder([p] + rest)
  {
    assert forall k :: 0 <= k < |rest| ==> ([p] + rest)[k + 1] == rest[k];
  }

  /** Comments taken in number order, none on a temporary id, are posted in
      number order: with no temporary id to route, each post goes to the
      comment's own number. */
  lemma {:induction false} PostsFollowOrder(comments: seq<Comment>, hasArgs: bool, pushing: set<string>,
                                            m: Promotion.Mapping, conflicts: set<string>)
    requires CommentsInOrder(comments)
    requires forall k :: 0 <= k < |comments| ==> !IsLocal(comments[k].number)
    ensures PostsInOrder(PostsAsWritten(comments, hasArgs, pushing, m, conflicts))
  {
    if |comments| > 0 {
      var c := comments[0];
      var tail := comments[1..];
      assert forall k :: 0 <= k < |tail| ==> tail[k] == comments[k + 1];
      PostsFollowOrder(tail, hasArgs, pushing, m, conflicts);
      PostsBound(tail, hasArgs, pushing, m, conflicts, c.number);
      var rest := PostsAsWritten(tail, hasArgs, pushing, m, conflicts);
      if (!hasArgs || c.number in pushing) && Target(c, m, conflicts).Some? {
        PostsCons(Post(c.number, c.body), rest);
      }
    }
  }

  // ------------------------------------------------------------ comment phase

  /** What the comment phase does: the comments it posts, and the issue
      numbers it announces as "Would post comment to" in a dry run. */
  datatype CommentRun = CommentRun(posted: seq<Post>, announced: seq<string>)

  /** The gates around posting: `--no-comments` skips the phase, and a dry
      run names each target instead of posting. */
  function Gate(posts: seq<Post>, noComments: bool, dryRun: bool): (r: CommentRun)
    ensures noComments ==> r == CommentRun([], [])
    ensures r.posted != [] ==> !noComments && !dryRun
    ensures !noComments && !dryRun ==> r.posted == posts && r.announced == []
    ensures !noComments && dryRun ==>
              |r.announced| == |posts| && forall k :: 0 <= k < |posts| ==> r.announced[k] == posts[k].number
  {
    if noComments then CommentRun([], [])
    else if dryRun then CommentRun([], seq(|posts|, k requires 0 <= k < |posts| => posts[k].number))
    else CommentRun(posts, [])
  }

  /** The comment phase as written: the pending comments sorted by number,
      filtered by their own number when there are arguments, routed, and
      gated. Everything posted comes from a pending comment. */
  function CommentPhase(comments: seq<Comment>, noComments: bool, dryRun: bool, hasArgs: bool,
                        pushing: set<string>, m: Promotion.Mapping, conflicts: set<string>): (r: CommentRun)
    ensures noComments ==> r == CommentRun([], [])
    ensures dryRun ==> r.posted == []
    ensures forall q :: q in r.posted ==>
              exists c :: c in comments && (hasArgs ==> c.number in pushing)
                           && Target(c, m, conflicts) == Some(q.number) && q.body == c.body
  {
    var sorted := SortComments(comments);
    SortCommentsPermutes(comments);
    assert forall c :: c in sorted ==> c in comments by {
      forall c | c in sorted ensures c in comments {
        assert c in multiset(sorted);
      }
    }
    Gate(PostsAsWritten(sorted, hasArgs, pushing, m, conflicts), noComments, dryRun)
  }

  /** With no comment on a temporary id, the phase posts in issue-number
      order, which is what the sort is for. */
  lemma CommentPhaseOrdered(comments: seq<Comment>, hasArgs: bool, pushing: set<string>,
                            m: Promotion.Mapping, conflicts: set<string>)
    requires forall k :: 0 <= k < |comments| ==> !IsLocal(comments[k].number)
    ensures PostsInOrder(CommentPhase(comments, false, false, hasArgs, pushing, m, conflicts).posted)
  {
    var sorted := SortComments(comments);
    SortCommentsPermutes(comments);
    forall k | 0 <= k < |sorted| ensures !IsLocal(sorted[k].number) {
      assert sorted[k] in multiset(comments);
      var j :| 0 <= j < |comments| && comments[j] == sorted[k];
    }
    PostsFollowOrder(sorted, hasArgs, pushing, m, conflicts);
  }

  /** The comment phase with the corrected filter: every comment whose
      target is open, and pushed when there are arguments, is posted. */
  function CommentPhaseCorrected(comments: seq<Comment>, noComments: bool, dryRun: bool, hasArgs: bool,
                                 pushing: set<string>, m: Promotion.Mapping, conflicts: set<string>)
    : (r: CommentRun)
    ensures noComments ==> r == CommentRun([], [])
    ensures dryRun ==> r.posted == []
    ensures !noComments && !dryRun ==>
              forall c :: c in comments && Target(c, m, conflicts).Some?
                          && (hasArgs ==> Target(c, m, conflicts).value in pushing) ==>
                Post(Target(c, m, conflicts).value, c.body) in r.posted
    ensures forall q :: q in r.posted ==> q.number !in conflicts && (hasArgs ==> q.number in pushing)
  {
    var sorted := SortComments(comments);
    SortCommentsPermutes(comments);
    assert forall c :: c in comments ==> c in sorted by {
      forall c | c in comments ensures c in sorted {
        assert c in multiset(comments);
      }
    }
    Gate(Posts(sorted, hasArgs, pushing, m, conflicts), noComments, dryRun)
  }

  /** Without arguments the two agree. */
  lemma PostsAgreeWithoutArgs(comments: seq<Comment>, pushing: set<string>, m: Promotion.Mapping, conflicts: set<string>)
    ensures PostsAsWritten(comments, false, pushing, m, conflicts) == Posts(comments, false, pushing, m, conflicts)
  {
  }

  /** `push T5` creates issue 42 for T5; the selection is then recomputed
      under the rewritten argument "42", so the pushed numbers are {"42"}.
      The comment waiting on T5 is dropped before it is routed to 42. */
  lemma CommentOnCreatedIssueDropped()
    ensures RewriteArgs(["T5"], map["T5" := "42"]) == ["42"]
    ensures PostsAsWritten([Comment("T5", "hi")], true, {"42"}, map["T5" := "42"], {}) == []
    ensures Posts([Comment("T5", "hi")], true, {"42"}, map["T5" := "42"], {}) == [Post("42", "hi")]
  {
    assert IsLocal("T5");
  }
}

=== FILE: quoting.dfy ===
/** Go's `%q` verb (`strconv.Quote`) over the model's characters, and the
    reading of such a literal back (`strconv.Unquote`). The program uses it in
    messages, in GraphQL input values and in change summaries. */
module Quoting {
  import opened Results
  import opened Order

  const HexDigits := "0123456789abcdef"

  function HexChar(d: nat): (c: char)
    requires d < 16
  {
    HexDigits[d]
  }

  /** The value of a hexadecimal digit of either case. */
  function HexValue(c: char): (r: Option<nat>)
    ensures r.Some? ==> r.value < 16
  {
    if '0' <= c <= '9' then Some(c as int - '0' as int)
    else if 'a' <= c <= 'f' then Some(c as int - 'a' as int + 10)
    else if 'A' <= c <= 'F' then Some(c as int - 'A' as int + 10)
    else None
  }

  lemma HexRoundTrip(d: nat)
    requires d < 16
    ensures HexValue(HexChar(d)) == Some(d)
  {
  }

  /** Printable ASCII, which `%q` leaves as it is. Strings are taken to be
      ASCII, so characters beyond it are simply kept here; `strconv.Quote`'s
      rules for non-ASCII runes (escaping the non-printable ones) are not
      modelled. */
  predicate Printable(c: char) {
    ' ' <= c <= '~' || c as int >= 0x80
  }

  /** The escape `%q` writes for one character. */
  function QuoteChar(c: char): (r: string)
    ensures |r| > 0
    ensures r[0] == '\\' <==> !Printable(c) || c == '"' || c == '\\'
  {
    if c == '"' then ['\\', '"']
    else if c == '\\' then ['\\', '\\']
    else if Printable(c) then [c]
    else if c == '\U{7}' then ['\\', 'a']
    else if c == '\U{8}' then ['\\', 'b']
    else if c == '\U{C}' then ['\\', 'f']
    else if c == '\n' then ['\\', 'n']
    else if c == '\r' then ['\\', 'r']
    else if c == '\t' then ['\\', 't']
    else if c == '\U{B}' then ['\\', 'v']
    else ['\\', 'x', HexChar(c as int / 16), HexChar(c as int % 16)]
  }

  function QuoteBody(s: string): string {
    if |s| == 0 then [] else QuoteChar(s[0]) + QuoteBody(s[1..])
  }

  /** `strconv.Quote`: the double-quoted Go literal for `s`. */
  function GoQuote(s: string): (r: string)
    ensures |r| >= 2 && r[0] == '"' && r[|r| - 1] == '"'
  {
    ['"'] + QuoteBody(s) + ['"']
  }

  // ------------------------------------------------------------ reading back

  /** The character a one-letter escape stands for. */
  function SimpleEscape(e: char): Option<char> {
    match e
    case 'a' => Some('\U{7}')
    case 'b' => Some('\U{8}')
    case 'f' => Some('\U{C}')
    case 'n' => Some('\n')
    case 'r' => Some('\r')
    case 't' => Some('\t')
    case 'v' => Some('\U{B}')
    case '\\' => Some('\\')
    case '"' => Some('"')
    case _ => None
  }

  /** The contents of a double-quoted Go literal, without the quotes. */
  function UnquoteBody(t: string): Option<string>
    decreases |t|
  {
    if |t| == 0 then Some([])
    else if t[0] == '"' || t[0] == '\n' then None
    else if t[0] != '\\' then
      match UnquoteBody(t[1..])
      case None => None
      case Some(rest) => Some([t[0]] + rest)
    else if |t| >= 4 && t[1] == 'x' && HexValue(t[2]).Some? && HexValue(t[3]).Some? then
      match UnquoteBody(t[4..])
      case None => None
      case Some(rest) => Some([(HexValue(t[2]).value * 16 + HexValue(t[3]).value) as char] + rest)
    else if |t| >= 2 && SimpleEscape(t[1]).Some? then
      match UnquoteBody(t[2..])
      case None => None
      case Some(rest) => Some([SimpleEscape(t[1]).value] + rest)
    else None
  }

  /** `strconv.Unquote` for double-quoted literals. */
  function GoUnquote(q: string): Option<string> {
    if |q| >= 2 && q[0] == '"' && q[|q| - 1] == '"' then UnquoteBody(q[1..|q| - 1]) else None
  }

  /** Reading the quoted form of a single character and what follows it. */
  lemma UnquoteChar(c: char, t: string)
    ensures UnquoteBody(QuoteChar(c) + t) ==
              match UnquoteBody(t)
              case None => None
              case Some(rest) => Some([c] + rest)
  {
    var q := QuoteChar(c);
    var u := q + t;
    if |q| == 1 {
      assert u[1..] == t;
    } else if |q| == 2 {
      assert u[2..] == t;
    } else {
      HexRoundTrip(c as int / 16);
      HexRoundTrip(c as int % 16);
      assert u[4..] == t;
    }
  }

  /** Reading back a quoted text gives the text. */
  lemma {:induction false} UnquoteQuoteBody(s: string)
    ensures UnquoteBody(QuoteBody(s)) == Some(s)
  {
    if |s| > 0 {
      UnquoteQuoteBody(s[1..]);
      UnquoteChar(s[0], QuoteBody(s[1..]));
      SeqCons(s);
    }
  }

  lemma GoUnquoteQuote(s: string)
    ensures GoUnquote(GoQuote(s)) == Some(s)
  {
    var q := GoQuote(s);
    assert q[1..|q| - 1] == QuoteBody(s);
    UnquoteQuoteBody(s);
  }
}

=== FILE: relationships.dfy ===
/** Parent and blocking relationships: the set differences that
    `SyncRelationships` turns into mutations, `splitRepo`, and the number
    filtering and scope fallback of `GetIssueRelationshipsBatch`
    (internal/ghcli/graphql.go). The batch fetch itself is in `Fetching`. */
module Relationships {
  import opened Results
  import opened Text
  import opened Order
  import opened Issues
  import opened Fetching

  /** `IssueRelationships` as fetched for one issue. */
  datatype Rels = Rels(
    parent: Option<string>,
    blockedBy: seq<string>,
    blocks: seq<string>,
    issueType: string,
    projects: seq<string>)

  // ------------------------------------------------------------ sync

  /** The relationship state the sync compares: the parent (missing reads as
      "") and the sets of blocked-by and blocks references. */
  datatype View = View(parent: string, blockedBy: set<string>, blocks: set<string>)

  /** The references of `refs` that are not temporary ids. */
  function Permanent(refs: seq<string>): (r: set<string>)
    ensures forall x :: x in r <==> x in refs && !IsLocal(x)
  {
    set x | x in refs && !IsLocal(x)
  }

  /** What the local copy asks for: temporary ids are never sent. */
  function LocalView(local: Issue): View {
    View(NormOpt(local.parent), Permanent(local.blockedBy), Permanent(local.blocks))
  }

  /** What the remote holds. */
  function RemoteView(remote: Rels): View {
    View(NormOpt(remote.parent), Elems(remote.blockedBy), Elems(remote.blocks))
  }

  /** The mutations of one sync. Blocks entries are issued as blocked-by
      mutations on the target issue with this issue as the blocker. */
  datatype Plan = Plan(
    setParent: Option<string>,
    addBlockedBy: set<string>,
    removeBlockedBy: set<string>,
    addBlocks: set<string>,
    removeBlocks: set<string>)

  /** `SyncRelationships`: set the parent when it differs, add what the local
      side has and the remote lacks, remove what the remote has and the local
      side lacks. */
  function SyncPlan(want: View, have: View): (p: Plan)
    ensures p.setParent.Some? <==> want.parent != have.parent
    ensures p.addBlockedBy * p.removeBlockedBy == {} && p.addBlocks * p.removeBlocks == {}
    ensures p.addBlockedBy <= want.blockedBy && p.addBlockedBy * have.blockedBy == {}
    ensures p.removeBlockedBy <= have.blockedBy && p.removeBlockedBy * want.blockedBy == {}
    ensures p.addBlocks <= want.blocks && p.addBlocks * have.blocks == {}
    ensures p.removeBlocks <= have.blocks && p.removeBlocks * want.blocks == {}
  {
    Plan(if want.parent != have.parent then Some(want.parent) else None,
         want.blockedBy - have.blockedBy, have.blockedBy - want.blockedBy,
         want.blocks - have.blocks, have.blocks - want.blocks)
  }

  /** The remote state after every mutation of the plan succeeded. */
  function Apply(have: View, p: Plan): View {
    View(p.setParent.GetOr(have.parent),
         (have.blockedBy - p.removeBlockedBy) + p.addBlockedBy,
         (have.blocks - p.removeBlocks) + p.addBlocks)
  }

  predicate IsEmptyPlan(p: Plan) {
    p.setParent.None? && p.addBlockedBy == {} && p.removeBlockedBy == {}
    && p.addBlocks == {} && p.removeBlocks == {}
  }

  /** Carrying out the plan makes the remote hold exactly what was asked for,
      and a second sync then has nothing to do. */
  lemma SyncConverges(want: View, have: View)
    ensures Apply(have, SyncPlan(want, have)) == want
    ensures IsEmptyPlan(SyncPlan(want, Apply(have, SyncPlan(want, have))))
  {
  }

  /** The plan is empty exactly when both sides already agree. */
  lemma SyncPlanEmptyIff(want: View, have: View)
    ensures IsEmptyPlan(SyncPlan(want, have)) <==> want == have
  {
    if IsEmptyPlan(SyncPlan(want, have)) {
      assert want.blockedBy == have.blockedBy;
      assert want.blocks == have.blocks;
    }
  }

  /** No temporary id is ever added as a blocker or a blocked issue. */
  lemma SyncSendsNoTemporaryIds(local: Issue, remote: Rels)
    ensures var p := SyncPlan(LocalView(local), RemoteView(remote));
            forall x :: x in p.addBlockedBy + p.addBlocks ==> !IsLocal(x)
  {
  }

  /** `GetIssueRelationshipsBatch`: a batch fetch in which a missing token
      scope yields an empty result instead of an error. */
  function FetchRelationships(numbers: seq<string>, repo: string, reply: Reply<Rels>): (f: Fetch<Rels>)
    ensures f.called && ScopeError(reply) ==> f.result == Ok(map[])
  {
    BatchFetch(numbers, repo, reply, true)
  }
}

=== FILE: results.dfy ===
/** Optional values and fallible results shared by every component of the model.
    `None` stands for Go's nil pointer, `Err` for a returned non-nil error. */
module Results {

  datatype Option<+T> = None | Some(value: T) {
    /** The wrapped value, or `default` when there is none. */
    function GetOr(default: T): T {
      match this
      case Some(v) => v
      case None => default
    }
  }

  /** The result of an operation that may fail with a message. */
  datatype Result<+T> = Ok(value: T) | Err(msg: string)
}

=== FILE: search.dfy ===
/** The GitHub-style search language of `list` (internal/search/search.go):
    the tokenizer, the qualifier parser, the conjunctive matcher and the
    stable sort that puts issues without a timestamp last. */
module Search {
  import opened Results
  import opened Text

  // ------------------------------------------------------------ tokenizer

  predicate IsSeparator(c: char) { c == ' ' || c == '\t' }
  predicate IsQuote(c: char) { c == '"' || c == '\'' }

  /** The tokenizer's state: the finished tokens, the token being read, and
      the quote character of an open quoted section. */
  datatype Scanner = Scanner(tokens: seq<string>, current: string, quote: Option<char>)

  /** One character: inside quotes everything is kept and the matching quote
      closes the section; outside, a quote opens one and a space or tab ends
      the current token. */
  function Feed(st: Scanner, c: char): Scanner {
    if st.quote.Some? then
      Scanner(st.tokens, st.current + [c], if c == st.quote.value then None else st.quote)
    else if IsQuote(c) then Scanner(st.tokens, st.current + [c], Some(c))
    else if IsSeparator(c) then
      if |st.current| > 0 then Scanner(st.tokens + [st.current], [], None) else st
    else Scanner(st.tokens, st.current + [c], None)
  }

  function Run(s: string): Scanner {
    if |s| == 0 then Scanner([], [], None) else Feed(Run(s[..|s| - 1]), s[|s| - 1])
  }

  /** The characters of `s` other than the spaces and tabs outside quotes. */
  function Kept(s: string): string {
    if |s| == 0 then []
    else
      var init := s[..|s| - 1];
      var c := s[|s| - 1];
      Kept(init) + (if Run(init).quote.None? && IsSeparator(c) then [] else [c])
  }

  predicate NoQuotes(s: string) {
    forall i :: 0 <= i < |s| ==> !IsQuote(s[i])
  }

  predicate NoSeparators(s: string) {
    forall i :: 0 <= i < |s| ==> !IsSeparator(s[i])
  }

  /** The scanner never finishes an empty token. */
  lemma {:induction false} RunTokensNonEmpty(s: string)
    ensures forall k :: 0 <= k < |Run(s).tokens| ==> |Run(s).tokens[k]| > 0
  {
    if |s| > 0 {
      RunTokensNonEmpty(s[..|s| - 1]);
    }
  }

  /** The finished tokens and the current one hold exactly the kept characters. */
  lemma {:induction false} RunKeeps(s: string)
    ensures Concat(Run(s).tokens) + Run(s).current == Kept(s)
  {
    if |s| > 0 {
      var init := s[..|s| - 1];
      RunKeeps(init);
      var st := Run(init);
      ConcatAppend(st.tokens, [st.current]);
      assert Concat([st.current]) == st.current;
    }
  }

  /** Without quote characters, no quoted section opens and every token
      stops at a space or tab. */
  lemma {:induction false} RunUnquoted(s: string)
    ensures NoQuotes(s) ==> Run(s).quote.None? && NoSeparators(Run(s).current)
    ensures NoQuotes(s) ==> forall k :: 0 <= k < |Run(s).tokens| ==> NoSeparators(Run(s).tokens[k])
  {
    if |s| > 0 && NoQuotes(s) {
      var init := s[..|s| - 1];
      assert forall i :: 0 <= i < |init| ==> init[i] == s[i];
      RunUnquoted(init);
    }
  }

  /** `tokenize`: the tokens of a query, quoted sections kept whole with
      their quote characters. No token is empty, together they hold every
      character but the unquoted spaces and tabs, and without quotes no
      token holds a space or tab. */
  function Tokenize(s: string): (r: seq<string>)
    ensures forall k :: 0 <= k < |r| ==> |r[k]| > 0
    ensures Concat(r) == Kept(s)
    ensures NoQuotes(s) ==> forall k :: 0 <= k < |r| ==> NoSeparators(r[k])
  {
    RunTokensNonEmpty(s);
    RunKeeps(s);
    RunUnquoted(s);
    var st := Run(s);
    if |st.current| > 0 then
      ConcatAppend(st.tokens, [st.current]);
      assert Concat([st.current]) == st.current;
      st.tokens + [st.current]
    else
      assert Concat(st.tokens) + st.current == Concat(st.tokens);
      st.tokens
  }

  // ------------------------------------------------------------ qualifiers

  datatype Qualifier = Is | State | Label | Assignee | Author | Milestone | Mentions | Type | Project | No | Sort

  function QualifierName(q: Qualifier): string {
    match q
    case Is => "is"
    case State => "state"
    case Label => "label"
    case Assignee => "assignee"
    case Author => "author"
    case Milestone => "milestone"
    case Mentions => "mentions"
    case Type => "type"
    case Project => "project"
    case No => "no"
    case Sort => "sort"
  }

  function QualifierOf(name: string): (r: Option<Qualifier>)
    ensures r.Some? ==> QualifierName(r.value) == name
  {
    if name == "is" then Some(Is)
    else if name == "state" then Some(State)
    else if name == "label" then Some(Label)
    else if name == "assignee" then Some(Assignee)
    else if name == "author" then Some(Author)
    else if name == "milestone" then Some(Milestone)
    else if name == "mentions" then Some(Mentions)
    else if name == "type" then Some(Type)
    else if name == "project" then Some(Project)
    else if name == "no" then Some(No)
    else if name == "sort" then Some(Sort)
    else None
  }

  lemma QualifierNameRoundTrip(q: Qualifier)
    ensures QualifierOf(QualifierName(q)) == Some(q)
  {
  }

  function TrimLeftQuotes(s: string): (r: string)
    ensures |r| <= |s| && r == s[|s| - |r|..]
    ensures |r| > 0 ==> !IsQuote(r[0])
    ensures forall i :: 0 <= i < |s| - |r| ==> IsQuote(s[i])
  {
    if |s| > 0 && IsQuote(s[0]) then TrimLeftQuotes(s[1..]) else s
  }

  function TrimRightQuotes(s: string): (r: string)
    ensures |r| <= |s| && r == s[..|r|]
    ensures |r| > 0 ==> !IsQuote(r[|r| - 1])
    ensures forall i :: |r| <= i < |s| ==> IsQuote(s[i])
  {
    if |s| > 0 && IsQuote(s[|s| - 1]) then TrimRightQuotes(s[..|s| - 1]) else s
  }

  /** `strings.Trim(value, "\"'")`: quote characters stripped from both
      ends; what is left is a prefix of the value with its leading quotes
      removed, and neither starts nor ends with a quote. */
  function TrimQuotes(s: string): (r: string)
    ensures |r| > 0 ==> !IsQuote(r[0]) && !IsQuote(r[|r| - 1])
    ensures |r| <= |TrimLeftQuotes(s)| && r == TrimLeftQuotes(s)[..|r|]
  {
    TrimRightQuotes(TrimLeftQuotes(s))
  }

  /** A query token: a known qualifier with its value, or text. */
  datatype Token = Text(text: string) | Qual(name: Qualifier, value: string)

  /** A token is a qualifier when a ':' follows a non-empty name that is
      known, compared without case; the value loses its surrounding quotes.
      Anything else, unknown names included, is text. */
  function Classify(tok: string): (r: Token)
    ensures r.Text? ==> r.text == tok
  {
    match IndexOf(tok, ':')
    case None => Text(tok)
    case Some(idx) =>
      if idx == 0 then Text(tok)
      else
        match QualifierOf(ToLower(tok[..idx]))
        case None => Text(tok)
        case Some(name) => Qual(name, TrimQuotes(tok[idx + 1..]))
  }

  /** A qualifier is recognised whatever the case of its name. */
  lemma ClassifyQualifier(prefix: string, name: Qualifier, value: string)
    requires |prefix| > 0 && ':' !in prefix && QualifierOf(ToLower(prefix)) == Some(name)
    ensures Classify(prefix + ":" + value) == Qual(name, TrimQuotes(value))
  {
    var tok := prefix + ":" + value;
    assert tok[|prefix|] == ':' && tok[..|prefix|] == prefix && tok[|prefix| + 1..] == value;
    IndexOfAfter(prefix, ':', value);
  }

  /** A token without ':' is text. */
  lemma ClassifyPlain(tok: string)
    requires ':' !in tok
    ensures Classify(tok) == Text(tok)
  {
  }

  // ------------------------------------------------------------ queries

  datatype SortField = Created | Updated | Comments

  /** The `no:` flags. */
  datatype Missing = NoLabel | NoAssignee | NoMilestone | NoType | NoProject

  /** The wanted values of each list qualifier, in the order given. */
  datatype Lists = Lists(
    labels: seq<string>,
    assignees: seq<string>,
    authors: seq<string>,
    milestones: seq<string>,
    mentions: seq<string>,
    types: seq<string>,
    projects: seq<string>)

  /** `Query`: the free text, the state ("" for any), the wanted values, the
      `no:` flags that are set, and the sort order. */
  datatype Query = Query(
    text: string,
    state: string,
    lists: Lists,
    missing: set<Missing>,
    sortField: SortField,
    sortAsc: bool)

  const NoLists := Lists([], [], [], [], [], [], [])

  /** The query of an empty search: newest created first. */
  const Default := Query("", "", NoLists, {}, Created, false)

  /** `parseSortValue`: an "-asc" or "-desc" suffix sets the direction and a
      remaining "created", "updated" or "comments" sets the field; case is
      ignored and anything else leaves the query as it is. */
  function ParseSortValue(q: Query, value: string): (r: Query)
    ensures r == q.(sortField := r.sortField, sortAsc := r.sortAsc)
  {
    var v := ToLower(value);
    var (asc, rest) :=
      if HasSuffix(v, "-asc") then (true, TrimSuffix(v, "-asc"))
      else if HasSuffix(v, "-desc") then (false, TrimSuffix(v, "-desc"))
      else (q.sortAsc, v);
    var field :=
      if rest == "created" then Created
      else if rest == "updated" then Updated
      else if rest == "comments" then Comments
      else q.sortField;
    q.(sortField := field, sortAsc := asc)
  }

  function SortName(f: SortField): string {
    match f
    case Created => "created"
    case Updated => "updated"
    case Comments => "comments"
  }

  /** A field name with a direction suffix sets both, in any case. */
  lemma SortValueRoundTrip(q: Query, f: SortField, asc: bool, written: string)
    requires ToLower(written) == SortName(f) + (if asc then "-asc" else "-desc")
    ensures ParseSortValue(q, written).sortField == f
    ensures ParseSortValue(q, written).sortAsc == asc
  {
    var v := ToLower(written);
    var n := SortName(f);
    if asc {
      assert v[|v| - 4..] == "-asc";
      assert TrimSuffix(v, "-asc") == n;
    } else {
      assert v[|v| - 5..] == "-desc";
      assert v[|v| - 4..] == "desc";
      assert TrimSuffix(v, "-desc") == n;
    }
  }

  /** A bare field name sets the field and keeps the direction. */
  lemma SortValueField(q: Query, f: SortField, written: string)
    requires ToLower(written) == SortName(f)
    ensures ParseSortValue(q, written) == q.(sortField := f)
  {
    var v := ToLower(written);
    assert v[|v| - 1] != 'c';
    assert |v| < 4 || v[|v| - 4..][3] != "-asc"[3];
    assert |v| < 5 || v[|v| - 5..][4] != "-desc"[4];
  }

  /** The state a value of `is:` or `state:` selects, if any. */
  function StateValue(value: string): Option<string> {
    var v := ToLower(value);
    if v == "open" then Some("open") else if v == "closed" then Some("closed") else None
  }

  function MissingOf(value: string): Option<Missing> {
    var v := ToLower(value);
    if v == "label" then Some(NoLabel)
    else if v == "assignee" then Some(NoAssignee)
    else if v == "milestone" then Some(NoMilestone)
    else if v == "type" then Some(NoType)
    else if v == "project" then Some(NoProject)
    else None
  }

  /** The qualifiers that collect values. */
  predicate IsList(n: Qualifier) {
    n in {Label, Assignee, Author, Milestone, Mentions, Type, Project}
  }

  /** The values collected for a list qualifier. */
  function Wanted(l: Lists, n: Qualifier): seq<string>
    requires IsList(n)
  {
    match n
    case Label => l.labels
    case Assignee => l.assignees
    case Author => l.authors
    case Milestone => l.milestones
    case Mentions => l.mentions
    case Type => l.types
    case Project => l.projects
  }

  function AddWanted(l: Lists, n: Qualifier, v: string): (r: Lists)
    requires IsList(n)
    ensures Wanted(r, n) == Wanted(l, n) + [v]
    ensures forall n' :: IsList(n') && n' != n ==> Wanted(r, n') == Wanted(l, n')
  {
    match n
    case Label => l.(labels := l.labels + [v])
    case Assignee => l.(assignees := l.assignees + [v])
    case Author => l.(authors := l.authors + [v])
    case Milestone => l.(milestones := l.milestones + [v])
    case Mentions => l.(mentions := l.mentions + [v])
    case Type => l.(types := l.types + [v])
    case Project => l.(projects := l.projects + [v])
  }

  /** The effect of one qualifier on the query. */
  function Apply(q: Query, name: Qualifier, value: string): (r: Query)
    ensures r.text == q.text
  {
    match name
    case Is => if StateValue(value).Some? then q.(state := StateValue(value).value) else q
    case State => if StateValue(value).Some? then q.(state := StateValue(value).value) else q
    case No => if MissingOf(value).Some? then q.(missing := q.missing + {MissingOf(value).value}) else q
    case Sort => ParseSortValue(q, value)
    case _ => q.(lists := AddWanted(q.lists, name, value))
  }

  /** The qualifiers among the first `n` tokens applied in order. */
  function Qualified(ts: seq<Token>, n: nat): Query
    requires n <= |ts|
  {
    if n == 0 then Default
    else
      match ts[n - 1]
      case Text(_) => Qualified(ts, n - 1)
      case Qual(name, value) => Apply(Qualified(ts, n - 1), name, value)
  }

  /** The classified tokens of a query. */
  function Tokens(query: string): (r: seq<Token>)
    ensures |r| == |Tokenize(query)|
    ensures forall k :: 0 <= k < |r| ==> r[k] == Classify(Tokenize(query)[k])
  {
    var toks := Tokenize(query);
    seq(|toks|, k requires 0 <= k < |toks| => Classify(toks[k]))
  }

  /** The text of the text tokens, in order. */
  function TextTokens(ts: seq<Token>): (r: seq<string>)
    ensures |r| <= |ts|
  {
    if |ts| == 0 then []
    else (if ts[0].Text? then [ts[0].text] else []) + TextTokens(ts[1..])
  }

  /** `Parse`. */
  function Parse(query: string): Query {
    var ts := Tokens(query);
    Qualified(ts, |ts|).(text := Join(TextTokens(ts), " "))
  }

  /** The values of the tokens of qualifier `n` among the first `k`, in order. */
  function ValuesOf(ts: seq<Token>, n: Qualifier, k: nat): seq<string>
    requires k <= |ts|
  {
    if k == 0 then []
    else ValuesOf(ts, n, k - 1) + (if ts[k - 1].Qual? && ts[k - 1].name == n then [ts[k - 1].value] else [])
  }

  /** Only a qualifier of the list's own name adds to it. */
  lemma ApplyLists(q: Query, name: Qualifier, value: string, n: Qualifier)
    requires IsList(n)
    ensures Wanted(Apply(q, name, value).lists, n) == Wanted(q.lists, n) + (if name == n then [value] else [])
  {
    if !IsList(name) {
      if name == Sort {
        assert Apply(q, name, value).lists == q.lists;
      }
    }
  }

  /** Each list qualifier collects the values of its tokens, in order. */
  lemma {:induction false} ParsedValues(ts: seq<Token>, n: Qualifier, k: nat)
    requires IsList(n) && k <= |ts|
    ensures Wanted(Qualified(ts, k).lists, n) == ValuesOf(ts, n, k)
  {
    if k > 0 {
      ParsedValues(ts, n, k - 1);
      if ts[k - 1].Qual? {
        ApplyLists(Qualified(ts, k - 1), ts[k - 1].name, ts[k - 1].value, n);
      }
    }
  }

  /** Whether one of the first `k` tokens is `no:` with a value naming `m`. */
  predicate AsksMissing(ts: seq<Token>, m: Missing, k: nat)
    requires k <= |ts|
  {
    exists i :: 0 <= i < k && ts[i].Qual? && ts[i].name == No && MissingOf(ts[i].value) == Some(m)
  }

  /** A `no:` flag is set exactly when some token asks for it. */
  lemma {:induction false} ParsedFlags(ts: seq<Token>, m: Missing, k: nat)
    requires k <= |ts|
    ensures m in Qualified(ts, k).missing <==> AsksMissing(ts, m, k)
  {
    if k > 0 {
      ParsedFlags(ts, m, k - 1);
      if AsksMissing(ts, m, k - 1) {
        var i :| 0 <= i < k - 1 && ts[i].Qual? && ts[i].name == No && MissingOf(ts[i].value) == Some(m);
        assert 0 <= i < k;
      }
    }
  }

  /** The state is empty or a canonical "open" or "closed". */
  lemma {:induction false} ParsedState(ts: seq<Token>, k: nat)
    requires k <= |ts|
    ensures Qualified(ts, k).state in {"", "open", "closed"}
  {
    if k > 0 {
      ParsedState(ts, k - 1);
    }
  }

  /** A query without qualifiers is all text: every filter stays at its default. */
  lemma {:induction false} PlainQuery(ts: seq<Token>)
    requires forall k :: 0 <= k < |ts| ==> ts[k].Text?
    ensures Qualified(ts, |ts|) == Default
    ensures |TextTokens(ts)| == |ts| && forall k :: 0 <= k < |ts| ==> TextTokens(ts)[k] == ts[k].text
  {
    if |ts| > 0 {
      PlainQuery(ts[1..]);
      PlainQualified(ts, |ts|);
    }
  }

  lemma {:induction false} PlainQualified(ts: seq<Token>, k: nat)
    requires k <= |ts| && forall i :: 0 <= i < |ts| ==> ts[i].Text?
    ensures Qualified(ts, k) == Default
  {
    if k > 0 {
      PlainQualified(ts, k - 1);
    }
  }

  // ------------------------------------------------------------ matching

  /** `IssueData`: what the matcher and the sort look at. */
  datatype IssueData = IssueData(
    number: string,
    title: string,
    body: string,
    state: string,
    labels: seq<string>,
    assignees: seq<string>,
    author: string,
    milestone: string,
    issueType: string,
    projects: seq<string>,
    syncedAt: Option<int>,
    createdAt: Option<int>,
    updatedAt: Option<int>)

  /** `containsIgnoreCase`. */
  predicate ContainsFold(items: seq<string>, target: string)
    ensures ContainsFold(items, target) <==> exists i :: 0 <= i < |items| && EqualFold(items[i], target)
  {
    if |items| == 0 then false
    else EqualFold(items[0], target) || ContainsFold(items[1..], target)
  }

  /** Every wanted value is among the items, without case. */
  predicate AllFound(wants: seq<string>, items: seq<string>)
    ensures AllFound(wants, items) <==> forall k :: 0 <= k < |wants| ==> ContainsFold(items, wants[k])
  {
    if |wants| == 0 then true
    else ContainsFold(items, wants[0]) && AllFound(wants[1..], items)
  }

  /** Every wanted value equals `v`, without case. */
  predicate AllEqual(wants: seq<string>, v: string)
    ensures AllEqual(wants, v) <==> forall k :: 0 <= k < |wants| ==> EqualFold(v, wants[k])
  {
    if |wants| == 0 then true
    else EqualFold(v, wants[0]) && AllEqual(wants[1..], v)
  }

  /** Every wanted mention appears as "@" and the name in the body, without case. */
  predicate AllMentioned(wants: seq<string>, body: string)
    ensures AllMentioned(wants, body) <==>
              forall k :: 0 <= k < |wants| ==> Contains(ToLower(body), ToLower("@" + wants[k]))
  {
    if |wants| == 0 then true
    else Contains(ToLower(body), ToLower("@" + wants[0])) && AllMentioned(wants[1..], body)
  }

  predicate TextFound(text: string, d: IssueData) {
    Contains(ToLower(d.title), ToLower(text)) || Contains(ToLower(d.body), ToLower(text))
  }

  /** `Query.Match`: every given condition holds. */
  predicate Match(q: Query, d: IssueData)
    ensures Match(q, d) <==>
              (q.state != "" ==> EqualFold(d.state, q.state))
              && (NoLabel in q.missing ==> |d.labels| == 0)
              && (forall k :: 0 <= k < |q.lists.labels| ==> ContainsFold(d.labels, q.lists.labels[k]))
              && (NoAssignee in q.missing ==> |d.assignees| == 0)
              && (forall k :: 0 <= k < |q.lists.assignees| ==> ContainsFold(d.assignees, q.lists.assignees[k]))
              && (forall k :: 0 <= k < |q.lists.authors| ==> EqualFold(d.author, q.lists.authors[k]))
              && (NoMilestone in q.missing ==> d.milestone == "")
              && (forall k :: 0 <= k < |q.lists.milestones| ==> EqualFold(d.milestone, q.lists.milestones[k]))
              && (NoType in q.missing ==> d.issueType == "")
              && (forall k :: 0 <= k < |q.lists.types| ==> EqualFold(d.issueType, q.lists.types[k]))
              && (NoProject in q.missing ==> |d.projects| == 0)
              && (forall k :: 0 <= k < |q.lists.projects| ==> ContainsFold(d.projects, q.lists.projects[k]))
              && (forall k :: 0 <= k < |q.lists.mentions| ==>
                    Contains(ToLower(d.body), ToLower("@" + q.lists.mentions[k])))
              && (q.text != "" ==> TextFound(q.text, d))
  {
    (q.state == "" || EqualFold(d.state, q.state))
    && Passes(q.missing, d) && ListsMatch(q.lists, d)
    && (q.text == "" || TextFound(q.text, d))
  }

  /** The `no:` flags: the named field must be empty. */
  predicate Passes(missing: set<Missing>, d: IssueData) {
    !(NoLabel in missing && |d.labels| > 0)
    && !(NoAssignee in missing && |d.assignees| > 0)
    && !(NoMilestone in missing && d.milestone != "")
    && !(NoType in missing && d.issueType != "")
    && !(NoProject in missing && |d.projects| > 0)
  }

  /** The wanted values: present in the lists, equal to the single fields,
      mentioned in the body. */
  predicate ListsMatch(l: Lists, d: IssueData) {
    AllFound(l.labels, d.labels) && AllFound(l.assignees, d.assignees)
    && AllEqual(l.authors, d.author) && AllEqual(l.milestones, d.milestone)
    && AllEqual(l.types, d.issueType) && AllFound(l.projects, d.projects)
    && AllMentioned(l.mentions, d.body)
  }

  /** The empty query matches every issue. */
  lemma DefaultMatchesAll(d: IssueData)
    ensures Match(Default, d)
  {
  }

  lemma AllFoundInit(wants: seq<string>, v: string, items: seq<string>)
    ensures AllFound(wants + [v], items) ==> AllFound(wants, items)
  {
    assert forall k :: 0 <= k < |wants| ==> (wants + [v])[k] == wants[k];
  }

  lemma AllEqualInit(wants: seq<string>, v: string, x: string)
    ensures AllEqual(wants + [v], x) ==> AllEqual(wants, x)
  {
    assert forall k :: 0 <= k < |wants| ==> (wants + [v])[k] == wants[k];
  }

  lemma AllMentionedInit(wants: seq<string>, v: string, body: string)
    ensures AllMentioned(wants + [v], body) ==> AllMentioned(wants, body)
  {
    assert forall k :: 0 <= k < |wants| ==> (wants + [v])[k] == wants[k];
  }

  /** One more wanted value can only narrow what the lists match. */
  lemma AddWantedNarrows(l: Lists, n: Qualifier, v: string, d: IssueData)
    requires IsList(n)
    ensures ListsMatch(AddWanted(l, n, v), d) ==> ListsMatch(l, d)
  {
    match n
    case Label => AllFoundInit(l.labels, v, d.labels);
    case Assignee => AllFoundInit(l.assignees, v, d.assignees);
    case Project => AllFoundInit(l.projects, v, d.projects);
    case Author => AllEqualInit(l.authors, v, d.author);
    case Milestone => AllEqualInit(l.milestones, v, d.milestone);
    case Type => AllEqualInit(l.types, v, d.issueType);
    case Mentions => AllMentionedInit(l.mentions, v, d.body);
  }

  /** A qualifier other than a state or sort can only narrow the matches. */
  lemma QualifierNarrows(q: Query, name: Qualifier, value: string, d: IssueData)
    requires name !in {Is, State, Sort}
    ensures Match(Apply(q, name, value), d) ==> Match(q, d)
  {
    if name != No {
      AddWantedNarrows(q.lists, name, value, d);
    }
  }

  // ------------------------------------------------------------ sorting

  /** The timestamp the sort looks at: the update time when sorting by
      update, the creation time otherwise (also for "comments"). */
  function Stamp(q: Query, d: IssueData): Option<int> {
    if q.sortField == Updated then d.updatedAt else d.createdAt
  }

  /** The sort's "less" relation: a timestamped issue goes before one
      without, and two timestamped issues go in the query's direction. */
  predicate Before(q: Query, a: IssueData, b: IssueData) {
    Stamp(q, a).Some? &&
    (Stamp(q, b).None? ||
     (if q.sortAsc then Stamp(q, a).value < Stamp(q, b).value else Stamp(q, a).value > Stamp(q, b).value))
  }

  lemma BeforeTransitive(q: Query, a: IssueData, b: IssueData, c: IssueData)
    requires Before(q, a, b) && Before(q, b, c)
    ensures Before(q, a, c)
  {
  }

  /** Issues with the same timestamp are interchangeable for the sort. */
  lemma BeforeByStamp(q: Query, a: IssueData, b: IssueData, c: IssueData)
    requires Stamp(q, a) == Stamp(q, b)
    ensures Before(q, a, c) == Before(q, b, c) && Before(q, c, a) == Before(q, c, b)
  {
  }

  /** An issue that goes before `b` also goes before anything `b` does not go before... */
  lemma NotBeforeThrough(q: Query, a: IssueData, x: IssueData, b: IssueData)
    requires Before(q, x, b) && !Before(q, a, b)
    ensures !Before(q, a, x)
  {
  }

  /** ...and so has a different timestamp from it. */
  lemma StampsDiffer(q: Query, x: IssueData, a: IssueData, b: IssueData)
    requires Before(q, x, b) && !Before(q, a, b)
    ensures Stamp(q, a) != Stamp(q, x)
  {
  }

  predicate Sorted(q: Query, s: seq<IssueData>) {
    forall i, j :: 0 <= i < j < |s| ==> !Before(q, s[j], s[i])
  }

  /** Insert `x` after every issue it does not go before. */
  function Insert(q: Query, x: IssueData, s: seq<IssueData>): (r: seq<IssueData>)
    ensures |r| == |s| + 1
  {
    if |s| == 0 then [x]
    else if Before(q, x, s[0]) then [x] + s
    else [s[0]] + Insert(q, x, s[1..])
  }

  lemma {:induction false} InsertPermutes(q: Query, x: IssueData, s: seq<IssueData>)
    ensures multiset(Insert(q, x, s)) == multiset(s) + multiset{x}
  {
    if |s| > 0 && !Before(q, x, s[0]) {
      InsertPermutes(q, x, s[1..]);
      assert s == [s[0]] + s[1..];
    }
  }

  /** No issue of `s` goes before `y`. */
  predicate NoneBefore(q: Query, s: seq<IssueData>, y: IssueData) {
    forall k :: 0 <= k < |s| ==> !Before(q, s[k], y)
  }

  lemma SortedCons(q: Query, y: IssueData, s: seq<IssueData>)
    requires Sorted(q, s) && NoneBefore(q, s, y)
    ensures Sorted(q, [y] + s)
  {
    assert forall k :: 0 <= k < |s| ==> ([y] + s)[k + 1] == s[k];
  }

  /** Inserting an issue that does not go before `y` keeps that bound. */
  lemma {:induction false} InsertBound(q: Query, x: IssueData, s: seq<IssueData>, y: IssueData)
    requires !Before(q, x, y) && NoneBefore(q, s, y)
    ensures NoneBefore(q, Insert(q, x, s), y)
  {
    if |s| > 0 && !Before(q, x, s[0]) {
      InsertBound(q, x, s[1..], y);
      assert forall k :: 0 <= k < |s| - 1 ==> Insert(q, x, s)[k + 1] == Insert(q, x, s[1..])[k];
    }
  }

  lemma {:induction false} InsertSorted(q: Query, x: IssueData, s: seq<IssueData>)
    requires Sorted(q, s)
    ensures Sorted(q, Insert(q, x, s))
  {
    if |s| > 0 {
      if Before(q, x, s[0]) {
        forall j | 0 <= j < |s|
          ensures !Before(q, s[j], x)
        {
          assert !Before(q, s[j], s[0]);
          NotBeforeThrough(q, s[j], x, s[0]);
        }
        SortedCons(q, x, s);
      } else {
        InsertSorted(q, x, s[1..]);
        assert forall k :: 0 <= k < |s| - 1 ==> !Before(q, s[1..][k], s[0]) by {
          assert forall k :: 0 <= k < |s| - 1 ==> s[1..][k] == s[k + 1];
        }
        InsertBound(q, x, s[1..], s[0]);
        SortedCons(q, s[0], Insert(q, x, s[1..]));
      }
    }
  }

  /** `Query.Sort` (`sort.SliceStable`): an insertion sort that places each
      issue after the ones it does not go before. */
  function SortIssues(q: Query, s: seq<IssueData>): (r: seq<IssueData>)
    ensures multiset(r) == multiset(s)
    ensures Sorted(q, r)
  {
    if |s| == 0 then []
    else
      var init := s[..|s| - 1];
      var r0 := SortIssues(q, init);
      InsertSorted(q, s[|s| - 1], r0);
      InsertPermutes(q, s[|s| - 1], r0);
      assert s == init + [s[|s| - 1]];
      Insert(q, s[|s| - 1], r0)
  }

  /** In a sorted list, issues without a timestamp come after every issue
      with one, and timestamps follow the query's direction. */
  lemma SortedOrder(q: Query, s: seq<IssueData>, i: int, j: int)
    requires Sorted(q, s) && 0 <= i < j < |s|
    ensures Stamp(q, s[i]).None? ==> Stamp(q, s[j]).None?
    ensures Stamp(q, s[i]).Some? && Stamp(q, s[j]).Some? && q.sortAsc ==>
              Stamp(q, s[i]).value <= Stamp(q, s[j]).value
    ensures Stamp(q, s[i]).Some? && Stamp(q, s[j]).Some? && !q.sortAsc ==>
              Stamp(q, s[i]).value >= Stamp(q, s[j]).value
  {
    assert !Before(q, s[j], s[i]);
  }

  /** The issues with timestamp `t`, in order. */
  function WithStamp(q: Query, s: seq<IssueData>, t: Option<int>): seq<IssueData> {
    if |s| == 0 then [] else (if Stamp(q, s[0]) == t then [s[0]] else []) + WithStamp(q, s[1..], t)
  }

  lemma {:induction false} WithStampAppend(q: Query, a: seq<IssueData>, b: seq<IssueData>, t: Option<int>)
    ensures WithStamp(q, a + b, t) == WithStamp(q, a, t) + WithStamp(q, b, t)
  {
    if |a| > 0 {
      assert (a + b)[0] == a[0] && (a + b)[1..] == a[1..] + b;
      WithStampAppend(q, a[1..], b, t);
    } else {
      assert a + b == b;
    }
  }

  lemma {:induction false} WithStampNone(q: Query, s: seq<IssueData>, t: Option<int>)
    requires forall k :: 0 <= k < |s| ==> Stamp(q, s[k]) != t
    ensures WithStamp(q, s, t) == []
  {
    if |s| > 0 {
      WithStampNone(q, s[1..], t);
    }
  }

  lemma SortedTail(q: Query, s: seq<IssueData>)
    requires Sorted(q, s) && |s| > 0
    ensures Sorted(q, s[1..])
  {
    assert forall k :: 0 <= k < |s| - 1 ==> s[1..][k] == s[k + 1];
  }

  /** An issue that goes before the whole sorted list shares its timestamp
      with none of it, so it may as well come last among its equals. */
  lemma InsertFrontStable(q: Query, x: IssueData, s: seq<IssueData>, t: Option<int>)
    requires Sorted(q, s) && |s| > 0 && Before(q, x, s[0])
    ensures WithStamp(q, [x] + s, t) == WithStamp(q, s, t) + WithStamp(q, [x], t)
  {
    if Stamp(q, x) == t {
      forall k | 0 <= k < |s|
        ensures Stamp(q, s[k]) != t
      {
        assert !Before(q, s[k], s[0]);
        StampsDiffer(q, x, s[k], s[0]);
      }
      WithStampNone(q, s, t);
    }
    WithStampAppend(q, [x], s, t);
  }

  /** Inserting keeps the order among issues of equal timestamp: the new
      issue comes after those already there. */
  lemma {:induction false} InsertStable(q: Query, x: IssueData, s: seq<IssueData>, t: Option<int>)
    requires Sorted(q, s)
    ensures WithStamp(q, Insert(q, x, s), t) == WithStamp(q, s, t) + WithStamp(q, [x], t)
  {
    if |s| > 0 {
      if Before(q, x, s[0]) {
        InsertFrontStable(q, x, s, t);
      } else {
        SortedTail(q, s);
        InsertStable(q, x, s[1..], t);
        var r := Insert(q, x, s);
        assert r[0] == s[0] && r[1..] == Insert(q, x, s[1..]);
      }
    }
  }

  /** The sort is stable: issues with equal timestamps keep their order. */
  lemma {:induction false} SortStable(q: Query, s: seq<IssueData>, t: Option<int>)
    ensures WithStamp(q, SortIssues(q, s), t) == WithStamp(q, s, t)
  {
    if |s| > 0 {
      var init := s[..|s| - 1];
      SortStable(q, init, t);
      InsertStable(q, s[|s| - 1], SortIssues(q, init), t);
      assert s == init + [s[|s| - 1]];
      WithStampAppend(q, init, [s[|s| - 1]], t);
    }
  }
}

=== FILE: termcolor.dfy ===
/** Colours for the terminal (internal/termcolor/termcolor.go): reading and
    writing hexadecimal colours, the nearest entries of the 256-colour
    palette's cube and grey ramp, and the Select Graphic Rendition escapes
    (ECMA-48 section 8.3.117) that set and reset a foreground or background
    colour around a text. The weighted colour distance and grey level behind
    `To256` use floating point and are not modelled: the palette index is a
    parameter wherever the model needs it. */
module TermColor {
  import opened Results
  import opened Text
  import Quoting
  import Format

  type Byte = x: int | 0 <= x < 256

  /** An RGB colour. */
  datatype Color = Color(r: Byte, g: Byte, b: Byte)

  /** The colour capability of a terminal: 16 colours, 256 colours or 24-bit. */
  datatype Mode = Basic | Palette | Truecolor

  // ------------------------------------------------------------ hexadecimal

  predicate IsHex(c: char) {
    Quoting.HexValue(c).Some?
  }

  predicate AllHex(t: string) {
    forall i :: 0 <= i < |t| ==> IsHex(t[i])
  }

  /** The shorthand "abc" written out as "aabbcc". */
  function Expand(t: string): (r: string)
    requires |t| == 3
    ensures |r| == 6
    ensures forall i :: 0 <= i < 6 ==> r[i] == t[i / 2]
  {
    [t[0], t[0], t[1], t[1], t[2], t[2]]
  }

  /** `strconv.ParseUint(pair, 16, 8)`: exactly two hexadecimal digits of
      either case. */
  function HexByte(pair: string): (r: Option<Byte>)
    requires |pair| == 2
    ensures r.Some? <==> IsHex(pair[0]) && IsHex(pair[1])
  {
    if IsHex(pair[0]) && IsHex(pair[1]) then
      Some(Quoting.HexValue(pair[0]).value * 16 + Quoting.HexValue(pair[1]).value)
    else None
  }

  /** The six digits `ParseHex` reads: the text after one optional '#',
      written out when it is a three-digit shorthand. */
  function Digits(hex: string): string {
    var t := TrimPrefix(hex, "#");
    if |t| == 3 then Expand(t) else t
  }

  /** `ParseHex`: an optional '#' followed by three or six hexadecimal
      digits; anything else is an error naming the digits read. */
  function ParseHex(hex: string): (r: Result<Color>)
    ensures r.Ok? <==> |Digits(hex)| == 6 && AllHex(Digits(hex))
    ensures r.Err? ==> r.msg == "invalid hex color: " + Digits(hex)
  {
    var t := Digits(hex);
    if |t| != 6 then Err("invalid hex color: " + t)
    else
      match (HexByte(t[0..2]), HexByte(t[2..4]), HexByte(t[4..6]))
      case (Some(r), Some(g), Some(b)) =>
        assert forall i :: 0 <= i < 6 ==> IsHex(t[i]) by {
          assert t[0..2][0] == t[0] && t[0..2][1] == t[1];
          assert t[2..4][0] == t[2] && t[2..4][1] == t[3];
          assert t[4..6][0] == t[4] && t[4..6][1] == t[5];
        }
        Ok(Color(r, g, b))
      case _ =>
        assert !AllHex(t) by {
          assert t[0..2][0] == t[0] && t[0..2][1] == t[1];
          assert t[2..4][0] == t[2] && t[2..4][1] == t[3];
          assert t[4..6][0] == t[4] && t[4..6][1] == t[5];
        }
        Err("invalid hex color: " + t)
  }

  /** A digit `%x` writes: lower-case. */
  predicate LowerHex(c: char) {
    '0' <= c <= '9' || 'a' <= c <= 'f'
  }

  /** Two lower-case hexadecimal digits, as `%02x` writes a byte. */
  function HexPair(v: Byte): (r: string)
    ensures |r| == 2 && LowerHex(r[0]) && LowerHex(r[1])
  {
    HexCharShape(v / 16);
    HexCharShape(v % 16);
    [Quoting.HexChar(v / 16), Quoting.HexChar(v % 16)]
  }

  /** `Color.Hex`: '#' and two lower-case digits per channel. */
  function Hex(c: Color): (r: string)
    ensures |r| == 7 && r[0] == '#'
    ensures forall i :: 1 <= i < 7 ==> LowerHex(r[i])
  {
    "#" + HexPair(c.r) + HexPair(c.g) + HexPair(c.b)
  }

  /** The digit `HexChar` writes for each value. */
  lemma HexCharShape(d: nat)
    requires d < 16
    ensures Quoting.HexChar(d) as int == if d < 10 then '0' as int + d else 'a' as int + d - 10
  {
    assert Quoting.HexDigits == ['0', '1', '2', '3', '4', '5', '6', '7', '8', '9', 'a', 'b', 'c', 'd', 'e', 'f'];
  }

  lemma DivMod16(hi: nat, lo: nat)
    requires lo < 16
    ensures (hi * 16 + lo) / 16 == hi && (hi * 16 + lo) % 16 == lo
  {
  }

  lemma HexPairReads(v: Byte)
    ensures HexByte(HexPair(v)) == Some(v)
  {
    Quoting.HexRoundTrip(v / 16);
    Quoting.HexRoundTrip(v % 16);
  }

  /** Writing a colour and reading it back gives the colour. */
  lemma ParseHexOfHex(c: Color)
    ensures ParseHex(Hex(c)) == Ok(c)
  {
    var h := Hex(c);
    var t := h[1..];
    assert HasPrefix(h, "#");
    assert TrimPrefix(h, "#") == t;
    assert Digits(h) == t;
    assert t[0..2] == HexPair(c.r);
    assert t[2..4] == HexPair(c.g);
    assert t[4..6] == HexPair(c.b);
    HexPairReads(c.r);
    HexPairReads(c.g);
    HexPairReads(c.b);
  }

  /** A lower-case digit is written back as itself. */
  lemma HexDigitBack(ch: char)
    requires LowerHex(ch)
    ensures Quoting.HexValue(ch).Some? && Quoting.HexChar(Quoting.HexValue(ch).value) == ch
  {
    HexCharShape(Quoting.HexValue(ch).value);
  }

  lemma PairBack(p: string)
    requires |p| == 2 && LowerHex(p[0]) && LowerHex(p[1])
    ensures HexByte(p).Some? && HexPair(HexByte(p).value) == p
  {
    HexDigitBack(p[0]);
    HexDigitBack(p[1]);
    DivMod16(Quoting.HexValue(p[0]).value, Quoting.HexValue(p[1]).value);
  }

  /** Six lower-case digits are read as a colour that is written back as
      the same digits. */
  lemma HexOfParseHex(t: string)
    requires |t| == 6 && forall i :: 0 <= i < 6 ==> LowerHex(t[i])
    ensures ParseHex(t).Ok? && Hex(ParseHex(t).value) == "#" + t
  {
    assert t[0] != '#';
    assert Digits(t) == t;
    PairBack(t[0..2]);
    PairBack(t[2..4]);
    PairBack(t[4..6]);
    assert t == t[0..2] + t[2..4] + t[4..6];
  }

}

=== FILE: termcolorpal.dfy ===
module TermColorPal {
  import opened Results
  import opened Text
  import opened TermColor

  // ------------------------------------------------------------ palette

  function Dist(a: int, b: int): nat {
    if a < b then b - a else a - b
  }

  /** The channel levels of the 6x6x6 colour cube. */
  const CubeValues: seq<Byte> := [0, 95, 135, 175, 215, 255]

  /** The 24 levels of the grey ramp, from 8 to 238 in steps of 10. */
  const GrayValues: seq<Byte> := seq(24, i requires 0 <= i < 24 => 8 + 10 * i)

  /** The first index whose value is nearest to `v`: no entry is nearer,
      and every earlier entry is farther. */
  method ClosestIndex(values: seq<Byte>, v: Byte) returns (idx: nat)
    requires |values| > 0
    ensures idx < |values|
    ensures forall j :: 0 <= j < |values| ==> Dist(v, values[idx]) <= Dist(v, values[j])
    ensures forall j :: 0 <= j < idx ==> Dist(v, values[idx]) < Dist(v, values[j])
  {
    var minDist := 256;
    idx := 0;
    for i := 0 to |values|
      invariant idx < |values|
      invariant i == 0 ==> minDist == 256 && idx == 0
      invariant i > 0 ==> idx < i && minDist == Dist(v, values[idx])
      invariant forall j :: 0 <= j < i ==> minDist <= Dist(v, values[j])
      invariant forall j :: 0 <= j < idx ==> minDist < Dist(v, values[j])
    {
      var dist := Dist(v, values[i]);
      if dist < minDist {
        minDist := dist;
        idx := i;
      }
    }
  }

  /** `findClosestCubeIndex`. */
  method ClosestCubeIndex(v: Byte) returns (idx: nat)
    ensures idx < |CubeValues|
    ensures forall j :: 0 <= j < |CubeValues| ==> Dist(v, CubeValues[idx]) <= Dist(v, CubeValues[j])
    ensures forall j :: 0 <= j < idx ==> Dist(v, CubeValues[idx]) < Dist(v, CubeValues[j])
  {
    idx := ClosestIndex(CubeValues, v);
  }

  /** `findClosestGrayIndex`. */
  method ClosestGrayIndex(v: Byte) returns (idx: nat)
    ensures idx < |GrayValues|
    ensures forall j :: 0 <= j < |GrayValues| ==> Dist(v, GrayValues[idx]) <= Dist(v, GrayValues[j])
    ensures forall j :: 0 <= j < idx ==> Dist(v, GrayValues[idx]) < Dist(v, GrayValues[j])
  {
    idx := ClosestIndex(GrayValues, v);
  }

  /** The palette index of a cube entry: 16 + 36 r + 6 g + b. */
  function CubeIndex(ri: nat, gi: nat, bi: nat): (n: Byte)
    requires ri < 6 && gi < 6 && bi < 6
    ensures 16 <= n <= 231
  {
    16 + 36 * ri + 6 * gi + bi
  }

  /** A cube index names its three levels, so distinct levels give
      distinct indices. */
  lemma CubeIndexDecode(ri: nat, gi: nat, bi: nat)
    requires ri < 6 && gi < 6 && bi < 6
    ensures (CubeIndex(ri, gi, bi) - 16) / 36 == ri
    ensures (CubeIndex(ri, gi, bi) - 16) / 6 % 6 == gi
    ensures (CubeIndex(ri, gi, bi) - 16) % 6 == bi
  {
    var n := CubeIndex(ri, gi, bi) - 16;
    assert n == 36 * ri + (6 * gi + bi);
    assert 6 * gi + bi < 36;
    assert n == 6 * (6 * ri + gi) + bi;
  }

  /** The palette index of a grey-ramp entry. */
  function GrayIndex(i: nat): (n: Byte)
    requires i < 24
    ensures 232 <= n <= 255 && n - 232 == i
  {
    232 + i
  }

}

=== FILE: termcolorsgr.dfy ===
module TermColorSgr {
  import opened Results
  import opened Text
  import opened TermColor
  import Quoting
  import Format

  // ------------------------------------------------------------ escapes

  /** Numbers written as an SGR parameter list: decimal, separated by ';'. */
  function ParamList(ns: seq<nat>): (r: string)
    requires |ns| > 0
    ensures forall i :: 0 <= i < |r| ==> Format.IsParam(r[i])
    ensures |r| > 0
  {
    var head := NatToString(ns[0]);
    if |ns| == 1 then head else head + [';'] + ParamList(ns[1..])
  }

  /** Reads an SGR parameter list back into its numbers. */
  function ReadParams(s: string): Option<seq<nat>>
    decreases |s|
  {
    match IndexOf(s, ';')
    case None => if IsDigits(s) then Some([DigitsValue(s)]) else None
    case Some(k) =>
      if !IsDigits(s[..k]) then None
      else match ReadParams(s[k + 1..])
        case None => None
        case Some(rest) => Some([DigitsValue(s[..k])] + rest)
  }

  /** Reading a number followed by ';' and the rest of a list. */
  lemma ReadParamsStep(head: string, rest: string)
    requires IsDigits(head) && ';' !in head
    ensures ReadParams(head + [';'] + rest)
         == if ReadParams(rest).Some? then Some([DigitsValue(head)] + ReadParams(rest).value) else None
  {
    var s := head + [';'] + rest;
    IndexOfAfter(head, ';', rest);
    assert s[..|head|] == head;
    assert s[|head| + 1..] == rest;
  }

  /** Reading the last number of a list. */
  lemma ReadParamsLast(head: string)
    requires IsDigits(head) && ';' !in head
    ensures ReadParams(head) == Some([DigitsValue(head)])
  {
  }

  /** A written parameter list reads back as the same numbers. */
  lemma {:induction false} ReadParamList(ns: seq<nat>)
    requires |ns| > 0
    ensures ReadParams(ParamList(ns)) == Some(ns)
  {
    var head := NatToString(ns[0]);
    assert ';' !in head;
    if |ns| == 1 {
      ReadParamsLast(head);
      assert ns == [ns[0]];
    } else {
      ReadParamsStep(head, ParamList(ns[1..]));
      ReadParamList(ns[1..]);
      assert [ns[0]] + ns[1..] == ns;
    }
  }

  /** The numbers carried by an escape of the form ESC '[' params 'm'. */
  function ReadSgr(s: string): Option<seq<nat>> {
    if |s| >= 3 && s[0] == Format.Esc && s[1] == '[' && s[|s| - 1] == 'm' then ReadParams(s[2..|s| - 1])
    else None
  }

  lemma ReadSgrOf(ns: seq<nat>)
    requires |ns| > 0
    ensures ReadSgr(Format.Sgr(ParamList(ns))) == Some(ns)
  {
    var p := ParamList(ns);
    var s := Format.Sgr(p);
    assert s[2..|s| - 1] == p;
    ReadParamList(ns);
  }

  /** Whether a colour is applied to the text itself or behind it. */
  datatype Ground = Foreground | Background

  /** The first SGR parameter selecting a colour (38 or 48), and the one
      resetting it (39 or 49). */
  function SetCode(g: Ground): nat {
    if g.Foreground? then 38 else 48
  }

  function ResetCode(g: Ground): nat {
    SetCode(g) + 1
  }

  /** The parameters of `fgAnsi`/`bgAnsi`: 2 and the three channels in
      24-bit mode, otherwise 5 and the palette index `to256` chooses. */
  function ColorParams(g: Ground, mode: Mode, c: Color, to256: Color -> Byte): seq<nat> {
    if mode.Truecolor? then [SetCode(g), 2, c.r, c.g, c.b] else [SetCode(g), 5, to256(c)]
  }

  /** `fgAnsi` / `bgAnsi`: the escape selecting the colour. */
  function ColorEscape(g: Ground, mode: Mode, c: Color, to256: Color -> Byte): (r: string)
    ensures mode.Truecolor? ==> ReadSgr(r) == Some([SetCode(g), 2, c.r, c.g, c.b])
    ensures !mode.Truecolor? ==> ReadSgr(r) == Some([SetCode(g), 5, to256(c)])
    ensures ReadSgr(r) == Some(ColorParams(g, mode, c, to256))
  {
    ReadSgrOf(ColorParams(g, mode, c, to256));
    Format.Sgr(ParamList(ColorParams(g, mode, c, to256)))
  }

  /** The escape resetting the colour: ESC "[39m" or ESC "[49m". */
  function ResetEscape(g: Ground): (r: string)
    ensures ReadSgr(r) == Some([ResetCode(g)])
  {
    ReadSgrOf([ResetCode(g)]);
    Format.Sgr(ParamList([ResetCode(g)]))
  }

  /** `Fg` / `Bg`: the escape selecting the colour, then the text, then the
      escape resetting it; once escapes are stripped only the text is left. */
  function Paint(g: Ground, mode: Mode, c: Color, text: string, to256: Color -> Byte): (r: string)
    ensures var n, m := |ColorEscape(g, mode, c, to256)|, |ResetEscape(g)|;
            && |r| == n + |text| + m
            && ReadSgr(r[..n]) == Some(ColorParams(g, mode, c, to256))
            && r[n..|r| - m] == text
            && ReadSgr(r[|r| - m..]) == Some([ResetCode(g)])
    ensures Format.StripAnsi(r) == Format.StripAnsi(text)
  {
    var open := ColorEscape(g, mode, c, to256);
    var close := ResetEscape(g);
    PaintInvisible(ParamList(ColorParams(g, mode, c, to256)), text, ParamList([ResetCode(g)]));
    SplitThree(open, text, close);
    open + text + close
  }

  lemma SplitThree(a: string, b: string, c: string)
    ensures var r := a + b + c;
            r[..|a|] == a && r[|a|..|r| - |c|] == b && r[|r| - |c|..] == c
  {
  }

  /** Escapes placed around a text leave its stripped form alone. */
  lemma PaintInvisible(p: string, text: string, q: string)
    requires forall i :: 0 <= i < |p| ==> Format.IsParam(p[i])
    requires forall i :: 0 <= i < |q| ==> Format.IsParam(q[i])
    ensures Format.StripAnsi(Format.Sgr(p) + text + Format.Sgr(q)) == Format.StripAnsi(text)
  {
    var open := Format.Sgr(p);
    var close := Format.Sgr(q);
    assert open + text + close == open + (text + close);
    Format.StripSgr(p, text + close);
    Format.StripAppend(text, close);
    Format.StripSgr(q, []);
    assert close + [] == close;
    assert Format.StripAnsi([]) == [];
  }

  /** `FgHex` / `BgHex`: the text painted in the colour the hexadecimal
      string names, or the text alone when it names none. */
  function PaintHex(g: Ground, mode: Mode, hex: string, text: string, to256: Color -> Byte): (r: string)
    ensures ParseHex(hex).Err? ==> r == text
    ensures ParseHex(hex).Ok? ==> r == Paint(g, mode, ParseHex(hex).value, text, to256)
    ensures Format.StripAnsi(r) == Format.StripAnsi(text)
  {
    match ParseHex(hex)
    case Err(_) => text
    case Ok(c) => Paint(g, mode, c, text, to256)
  }
}


=== FILE: text.dfy ===
/** String helpers standing in for Go's `strings` and `strconv` packages.
    Strings are sequences of characters over an ASCII alphabet: whitespace,
    case folding and digits follow the ASCII rules, and the length of a
    string is both its byte length and its rune count. */
module Text {
  import opened Results

  predicate IsSpace(c: char) {
    c == ' ' || c == '\t' || c == '\n' || c == '\r' || c == '\U{000B}' || c == '\U{000C}'
  }

  predicate IsDigit(c: char) { '0' <= c <= '9' }
  predicate IsLowerLetter(c: char) { 'a' <= c <= 'z' }
  predicate IsUpperLetter(c: char) { 'A' <= c <= 'Z' }
  predicate IsAlnum(c: char) { IsDigit(c) || IsLowerLetter(c) || IsUpperLetter(c) }

  /** A non-empty run of decimal digits. */
  predicate IsDigits(s: string) {
    |s| > 0 && forall i :: 0 <= i < |s| ==> IsDigit(s[i])
  }

  predicate NoSpace(s: string) {
    forall i :: 0 <= i < |s| ==> !IsSpace(s[i])
  }

  predicate AllSpace(s: string) {
    forall i :: 0 <= i < |s| ==> IsSpace(s[i])
  }

  // ---------------------------------------------------------------- case

  function Lower(c: char): (r: char)
    ensures !IsUpperLetter(r)
    ensures IsUpperLetter(c) || r == c
  {
    if IsUpperLetter(c) then (c as int + 32) as char else c
  }

  /** `strings.ToLower` over the ASCII alphabet. */
  function ToLower(s: string): (r: string)
    ensures |r| == |s|
    ensures forall i :: 0 <= i < |s| ==> r[i] == Lower(s[i])
  {
    seq(|s|, i requires 0 <= i < |s| => Lower(s[i]))
  }

  lemma ToLowerIdempotent(s: string)
    ensures ToLower(ToLower(s)) == ToLower(s)
  {
  }

  lemma ToLowerAppend(a: string, b: string)
    ensures ToLower(a + b) == ToLower(a) + ToLower(b)
  {
  }

  /** `strings.EqualFold` over the ASCII alphabet. */
  predicate EqualFold(a: string, b: string) {
    ToLower(a) == ToLower(b)
  }

  // ---------------------------------------------------------------- affixes

  predicate HasPrefix(s: string, p: string) {
    |p| <= |s| && s[..|p|] == p
  }

  predicate HasSuffix(s: string, p: string) {
    |p| <= |s| && s[|s| - |p|..] == p
  }

  function TrimPrefix(s: string, p: string): (r: string)
    ensures HasPrefix(s, p) ==> p + r == s
    ensures !HasPrefix(s, p) ==> r == s
  {
    if HasPrefix(s, p) then s[|p|..] else s
  }

  function TrimSuffix(s: string, p: string): (r: string)
    ensures HasSuffix(s, p) ==> r + p == s
    ensures !HasSuffix(s, p) ==> r == s
  {
    if HasSuffix(s, p) then s[..|s| - |p|] else s
  }

  /** `sub` occurs in `s` starting at index `i`. */
  predicate OccursAt(s: string, sub: string, i: int) {
    0 <= i && i + |sub| <= |s| && s[i..i + |sub|] == sub
  }

  /** `strings.Contains`. */
  predicate Contains(s: string, sub: string) {
    exists i | 0 <= i <= |s| :: OccursAt(s, sub, i)
  }

  /** Index of the first occurrence of `c`, if any. */
  function IndexOf(s: string, c: char): (r: Option<nat>)
    ensures r.None? <==> c !in s
    ensures r.Some? ==> r.value < |s| && s[r.value] == c && c !in s[..r.value]
  {
    if |s| == 0 then None
    else if s[0] == c then Some(0)
    else match IndexOf(s[1..], c)
      case None => None
      case Some(k) => Some(k + 1)
  }

  /** A character first occurs just after a prefix that lacks it. */
  lemma {:induction false} IndexOfAfter(prefix: string, c: char, rest: string)
    requires c !in prefix
    ensures IndexOf(prefix + [c] + rest, c) == Some(|prefix|)
  {
    if |prefix| > 0 {
      IndexOfAfter(prefix[1..], c, rest);
      assert (prefix + [c] + rest)[1..] == prefix[1..] + [c] + rest;
    }
  }

  // ---------------------------------------------------------------- trimming

  function TrimLeftSpace(s: string): (r: string)
    ensures |r| <= |s| && r == s[|s| - |r|..]
    ensures AllSpace(s[..|s| - |r|])
    ensures |r| > 0 ==> !IsSpace(r[0])
  {
    if |s| > 0 && IsSpace(s[0]) then TrimLeftSpace(s[1..]) else s
  }

  function TrimRightSpace(s: string): (r: string)
    ensures |r| <= |s| && r == s[..|r|]
    ensures AllSpace(s[|r|..])
    ensures |r| > 0 ==> !IsSpace(r[|r| - 1])
  {
    if |s| > 0 && IsSpace(s[|s| - 1]) then TrimRightSpace(s[..|s| - 1]) else s
  }

  /** `strings.TrimSpace`: strip leading and trailing whitespace. */
  function TrimSpace(s: string): (r: string)
    ensures |r| == 0 <==> AllSpace(s)
    ensures |r| > 0 ==> !IsSpace(r[0]) && !IsSpace(r[|r| - 1])
    ensures |r| <= |TrimLeftSpace(s)|
    ensures r == s[|s| - |TrimLeftSpace(s)|..|s| - |TrimLeftSpace(s)| + |r|]
  {
    TrimBothBlank(s);
    TrimRightSpace(TrimLeftSpace(s))
  }

  lemma TrimBothBlank(s: string)
    ensures |TrimRightSpace(TrimLeftSpace(s))| == 0 <==> AllSpace(s)
  {
    var l := TrimLeftSpace(s);
    var r := TrimRightSpace(l);
    if |r| == 0 {
      assert l[|r|..] == l;
      assert s[..|s| - |l|] == s;
    } else {
      assert r[0] == s[|s| - |l|];
    }
  }

  lemma TrimLeftSpaceFixed(s: string)
    requires |s| == 0 || !IsSpace(s[0])
    ensures TrimLeftSpace(s) == s
  {
  }

  lemma TrimRightSpaceFixed(s: string)
    requires |s| == 0 || !IsSpace(s[|s| - 1])
    ensures TrimRightSpace(s) == s
  {
  }

  /** A string without surrounding whitespace is its own trim. */
  lemma TrimSpaceFixed(s: string)
    requires |s| == 0 || (!IsSpace(s[0]) && !IsSpace(s[|s| - 1]))
    ensures TrimSpace(s) == s
  {
    TrimLeftSpaceFixed(s);
    TrimRightSpaceFixed(s);
  }

  lemma TrimSpaceIdempotent(s: string)
    ensures TrimSpace(TrimSpace(s)) == TrimSpace(s)
  {
    TrimSpaceFixed(TrimSpace(s));
  }

  function TrimLeftChar(s: string, c: char): (r: string)
    ensures |r| <= |s| && r == s[|s| - |r|..]
    ensures |r| > 0 ==> r[0] != c
    ensures forall i :: 0 <= i < |s| - |r| ==> s[i] == c
  {
    if |s| > 0 && s[0] == c then TrimLeftChar(s[1..], c) else s
  }

  function TrimRightChar(s: string, c: char): (r: string)
    ensures |r| <= |s| && r == s[..|r|]
    ensures |r| > 0 ==> r[|r| - 1] != c
    ensures forall i :: |r| <= i < |s| ==> s[i] == c
  {
    if |s| > 0 && s[|s| - 1] == c then TrimRightChar(s[..|s| - 1], c) else s
  }

  /** `strings.Trim(s, string(c))`. */
  function TrimChar(s: string, c: char): (r: string)
    ensures |r| > 0 ==> r[0] != c && r[|r| - 1] != c
    ensures |r| <= |TrimLeftChar(s, c)|
    ensures r == s[|s| - |TrimLeftChar(s, c)|..|s| - |TrimLeftChar(s, c)| + |r|]
  {
    TrimRightChar(TrimLeftChar(s, c), c)
  }

  // ---------------------------------------------------------------- joining

  /** `strings.Join`. */
  function Join(parts: seq<string>, sep: string): (r: string)
    ensures |parts| == 0 ==> r == []
    ensures |parts| == 1 ==> r == parts[0]
  {
    if |parts| == 0 then []
    else if |parts| == 1 then parts[0]
    else parts[0] + sep + Join(parts[1..], sep)
  }

  /** Concatenation of all parts, in order. */
  function Concat(parts: seq<string>): (r: string)
    ensures |parts| == 0 ==> r == []
  {
    if |parts| == 0 then [] else parts[0] + Concat(parts[1..])
  }

  lemma {:induction false} ConcatAppend(a: seq<string>, b: seq<string>)
    ensures Concat(a + b) == Concat(a) + Concat(b)
  {
    if |a| > 0 {
      assert (a + b)[1..] == a[1..] + b;
      ConcatAppend(a[1..], b);
      calc {
        Concat(a + b);
        (a + b)[0] + Concat((a + b)[1..]);
        a[0] + (Concat(a[1..]) + Concat(b));
        (a[0] + Concat(a[1..])) + Concat(b);
      }
    } else {
      assert a + b == b;
    }
  }

  function Repeat(c: char, n: nat): (r: string)
    ensures |r| == n
    ensures forall i :: 0 <= i < n ==> r[i] == c
  {
    seq(n, i => c)
  }

  // ---------------------------------------------------------------- numbers

  function DigitChar(d: nat): (c: char)
    requires d < 10
    ensures IsDigit(c)
  {
    ('0' as int + d) as char
  }

  function DigitValue(c: char): nat
    requires IsDigit(c)
  {
    c as int - '0' as int
  }

  /** `strconv.Itoa` for non-negative numbers. */
  function NatToString(n: nat): (r: string)
    ensures IsDigits(r)
    ensures DigitsValue(r) == n
    decreases n
  {
    if n < 10 then [DigitChar(n)] else NatToString(n / 10) + [DigitChar(n % 10)]
  }

  /** `strconv.Itoa`. */
  function IntToString(n: int): (r: string)
    ensures |r| > 0
  {
    if n < 0 then "-" + NatToString(-n) else NatToString(n)
  }

  /** The decimal value of a digit string. */
  function DigitsValue(s: string): nat
    requires forall i :: 0 <= i < |s| ==> IsDigit(s[i])
  {
    if |s| == 0 then 0 else DigitsValue(s[..|s| - 1]) * 10 + DigitValue(s[|s| - 1])
  }

  /** `strconv.Atoi`: an optional sign followed by at least one decimal digit.
      The 64-bit range check is not modelled. */
  function Atoi(s: string): (r: Option<int>)
    ensures r.Some? <==> IsDigits(s) || (|s| > 1 && (s[0] == '+' || s[0] == '-') && IsDigits(s[1..]))
    ensures IsDigits(s) ==> r == Some(DigitsValue(s))
  {
    if |s| > 0 && (s[0] == '+' || s[0] == '-') then
      if IsDigits(s[1..]) then
        var v: int := DigitsValue(s[1..]);
        Some(if s[0] == '-' then -v else v)
      else None
    else if IsDigits(s) then Some(DigitsValue(s))
    else None
  }

  /** Formatting a number and reading it back gives the number. */
  lemma AtoiNatToString(n: nat)
    ensures Atoi(NatToString(n)) == Some(n)
  {
  }

  lemma AtoiIntToString(n: int)
    ensures Atoi(IntToString(n)) == Some(n)
  {
    if n < 0 {
      var d := NatToString(-n);
      assert ("-" + d)[1..] == d;
    }
  }
}

=== FILE: worddiff.dfy ===
/** The word diff `diff` shows for a changed body or title
    (internal/app/diff.go): tokenizing, the longest-common-subsequence diff
    over words and over characters, merging of runs, the similarity test
    that decides whether a replaced word is shown character by character,
    and the whitespace-only checks. Terminal styling and line wrapping are
    presentation and are not modelled. */
module WordDiff {
  import opened Results
  import opened Text

  // ------------------------------------------------------------ tokens

  /** The text with every whitespace character removed. */
  function Squeeze(s: string): (r: string)
    ensures NoSpace(r)
    ensures |r| <= |s|
  {
    if |s| == 0 then []
    else (if IsSpace(s[0]) then [] else [s[0]]) + Squeeze(s[1..])
  }

  /** A word: non-empty and free of whitespace. */
  predicate IsWord(w: string) {
    |w| > 0 && NoSpace(w)
  }

  /** The word being built, emitted when it is not empty. */
  function Flush(cur: string): (r: seq<string>)
    ensures Concat(r) == cur
  {
    if |cur| > 0 then [cur] else []
  }

  /** `splitIntoWords` from a state where `cur` is the word read so far. */
  function WordsFrom(s: string, cur: string): (r: seq<string>)
    requires NoSpace(cur)
    ensures forall k :: 0 <= k < |r| ==> IsWord(r[k])
    decreases |s|
  {
    if |s| == 0 then Flush(cur)
    else if IsSpace(s[0]) then Flush(cur) + WordsFrom(s[1..], [])
    else WordsFrom(s[1..], cur + [s[0]])
  }

  /** `splitIntoWords`: the maximal runs of non-whitespace. */
  function Words(s: string): (r: seq<string>)
    ensures forall k :: 0 <= k < |r| ==> IsWord(r[k])
  {
    WordsFrom(s, [])
  }

  lemma {:induction false} WordsFromConcat(s: string, cur: string)
    requires NoSpace(cur)
    ensures Concat(WordsFrom(s, cur)) == cur + Squeeze(s)
    decreases |s|
  {
    if |s| > 0 {
      if IsSpace(s[0]) {
        WordsFromConcat(s[1..], []);
        ConcatAppend(Flush(cur), WordsFrom(s[1..], []));
      } else {
        WordsFromConcat(s[1..], cur + [s[0]]);
      }
    }
  }

  /** The words, run together, are the text without its whitespace. */
  lemma WordsConcat(s: string)
    ensures Concat(Words(s)) == Squeeze(s)
  {
    WordsFromConcat(s, []);
  }

  /** The line-break token. */
  const Newline: string := ['\n']

  /** `splitIntoTokens` from a state where `cur` is the word read so far. */
  function TokensFrom(s: string, cur: string): (r: seq<string>)
    requires NoSpace(cur)
    ensures forall k :: 0 <= k < |r| ==> IsWord(r[k]) || r[k] == Newline
    decreases |s|
  {
    if |s| == 0 then Flush(cur)
    else if s[0] == '\n' then Flush(cur) + [Newline] + TokensFrom(s[1..], [])
    else if IsSpace(s[0]) then Flush(cur) + TokensFrom(s[1..], [])
    else TokensFrom(s[1..], cur + [s[0]])
  }

  /** `splitIntoTokens`: the words, with each line feed as a token of its own. */
  function Tokens(s: string): (r: seq<string>)
    ensures forall k :: 0 <= k < |r| ==> IsWord(r[k]) || r[k] == Newline
  {
    TokensFrom(s, [])
  }

  /** The number of line feeds in a text. */
  function LineFeeds(s: string): nat {
    if |s| == 0 then 0 else (if s[0] == '\n' then 1 else 0) + LineFeeds(s[1..])
  }

  /** The number of line-break tokens. */
  function Breaks(ts: seq<string>): nat {
    if |ts| == 0 then 0 else (if ts[0] == Newline then 1 else 0) + Breaks(ts[1..])
  }

  /** The tokens that are not line breaks. */
  function WithoutBreaks(ts: seq<string>): seq<string> {
    if |ts| == 0 then [] else (if ts[0] == Newline then [] else [ts[0]]) + WithoutBreaks(ts[1..])
  }

  lemma {:induction false} TokenListsAppend(a: seq<string>, b: seq<string>)
    ensures Breaks(a + b) == Breaks(a) + Breaks(b)
    ensures WithoutBreaks(a + b) == WithoutBreaks(a) + WithoutBreaks(b)
  {
    if |a| > 0 {
      assert (a + b)[1..] == a[1..] + b;
      TokenListsAppend(a[1..], b);
    } else {
      assert a + b == b;
    }
  }

  lemma FlushHasNoBreak(cur: string)
    requires NoSpace(cur)
    ensures Breaks(Flush(cur)) == 0 && WithoutBreaks(Flush(cur)) == Flush(cur)
  {
    if |cur| > 0 {
      assert cur[0] != '\n';
      assert cur != Newline;
    }
  }

  lemma {:induction false} TokensFromShape(s: string, cur: string)
    requires NoSpace(cur)
    ensures Breaks(TokensFrom(s, cur)) == LineFeeds(s)
    ensures WithoutBreaks(TokensFrom(s, cur)) == WordsFrom(s, cur)
    decreases |s|
  {
    FlushHasNoBreak(cur);
    if |s| > 0 {
      if s[0] == '\n' {
        TokensFromShape(s[1..], []);
        TokenListsAppend(Flush(cur), [Newline]);
        TokenListsAppend(Flush(cur) + [Newline], TokensFrom(s[1..], []));
        assert WithoutBreaks([Newline]) == [];
      } else if IsSpace(s[0]) {
        TokensFromShape(s[1..], []);
        TokenListsAppend(Flush(cur), TokensFrom(s[1..], []));
      } else {
        TokensFromShape(s[1..], cur + [s[0]]);
      }
    }
  }

  /** There is one line-break token per line feed, and without them the
      tokens are exactly the words. */
  lemma TokensShape(s: string)
    ensures Breaks(Tokens(s)) == LineFeeds(s)
    ensures WithoutBreaks(Tokens(s)) == Words(s)
  {
    TokensFromShape(s, []);
  }

  // ------------------------------------------------------------ diff operations

  datatype Kind = Equal | Delete | Insert | Change

  /** `diffOp`: for a change, `text` is the old word and `newText` the new one. */
  datatype Op = Op(kind: Kind, text: string, newText: string, charOps: seq<Op>)

  function Plain(k: Kind, t: string): Op {
    Op(k, t, [], [])
  }

  /** What an operation contributes to the old and to the new text. */
  function OldPart(o: Op): seq<string> {
    if o.kind == Insert then [] else [o.text]
  }

  function NewPart(o: Op): seq<string> {
    if o.kind == Delete then [] else if o.kind == Change then [o.newText] else [o.text]
  }

  /** The old tokens an operation list spells out. */
  function OldSide(ops: seq<Op>): seq<string> {
    if |ops| == 0 then [] else OldSide(ops[..|ops| - 1]) + OldPart(ops[|ops| - 1])
  }

  /** The new tokens an operation list spells out. */
  function NewSide(ops: seq<Op>): seq<string> {
    if |ops| == 0 then [] else NewSide(ops[..|ops| - 1]) + NewPart(ops[|ops| - 1])
  }

  /** The number of equal operations. */
  function Kept(ops: seq<Op>): nat {
    if |ops| == 0 then 0 else Kept(ops[..|ops| - 1]) + (if ops[|ops| - 1].kind == Equal then 1 else 0)
  }

  lemma {:induction false} OldSideAppend(a: seq<Op>, b: seq<Op>)
    ensures OldSide(a + b) == OldSide(a) + OldSide(b)
    decreases |b|
  {
    if |b| == 0 {
      assert a + b == a;
    } else {
      var b' := b[..|b| - 1];
      assert (a + b)[..|a + b| - 1] == a + b';
      OldSideAppend(a, b');
    }
  }

  lemma {:induction false} NewSideAppend(a: seq<Op>, b: seq<Op>)
    ensures NewSide(a + b) == NewSide(a) + NewSide(b)
    decreases |b|
  {
    if |b| == 0 {
      assert a + b == a;
    } else {
      var b' := b[..|b| - 1];
      assert (a + b)[..|a + b| - 1] == a + b';
      NewSideAppend(a, b');
    }
  }

  lemma SidesAppend(a: seq<Op>, b: seq<Op>)
    ensures OldSide(a + b) == OldSide(a) + OldSide(b)
    ensures NewSide(a + b) == NewSide(a) + NewSide(b)
  {
    OldSideAppend(a, b);
    NewSideAppend(a, b);
  }

  lemma SingleSpells(x: Op)
    ensures OldSide([x]) == OldPart(x) && NewSide([x]) == NewPart(x)
  {
    assert [x][..0] == [];
  }

  lemma SidesCons(o: Op, rest: seq<Op>)
    ensures OldSide([o] + rest) == OldPart(o) + OldSide(rest)
    ensures NewSide([o] + rest) == NewPart(o) + NewSide(rest)
  {
    SidesAppend([o], rest);
    SingleSpells(o);
  }

  // ------------------------------------------------------------ longest common subsequence

  /** The table `computeWordDiff` fills: the length of a longest common
      subsequence of the first i old and the first j new tokens. */
  function Lcs(a: seq<string>, b: seq<string>, i: nat, j: nat): nat
    requires i <= |a| && j <= |b|
  {
    if i == 0 || j == 0 then 0
    else if a[i - 1] == b[j - 1] then Lcs(a, b, i - 1, j - 1) + 1
    else if Lcs(a, b, i - 1, j) >= Lcs(a, b, i, j - 1) then Lcs(a, b, i - 1, j)
    else Lcs(a, b, i, j - 1)
  }

  /** The step the backtracking walk takes at (i, j): a match is kept,
      otherwise an insertion is preferred whenever it does not shorten the
      common subsequence. */
  function StepAt(a: seq<string>, b: seq<string>, i: nat, j: nat): (k: Kind)
    requires i <= |a| && j <= |b| && i + j > 0
    ensures k == Equal ==> i > 0 && j > 0 && a[i - 1] == b[j - 1]
    ensures k == Insert ==> j > 0
    ensures k == Delete ==> i > 0
    ensures k != Change
  {
    if i > 0 && j > 0 && a[i - 1] == b[j - 1] then Equal
    else if j > 0 && (i == 0 || Lcs(a, b, i, j - 1) >= Lcs(a, b, i - 1, j)) then Insert
    else Delete
  }

  /** The operation the walk emits at (i, j). */
  function StepOp(a: seq<string>, b: seq<string>, i: nat, j: nat): Op
    requires i <= |a| && j <= |b| && i + j > 0
  {
    var k := StepAt(a, b, i, j);
    if k == Equal then Plain(Equal, a[i - 1])
    else if k == Insert then Plain(Insert, b[j - 1])
    else Plain(Delete, a[i - 1])
  }

  /** The old-side position after the step at (i, j). */
  function BackI(a: seq<string>, b: seq<string>, i: nat, j: nat): (r: nat)
    requires i <= |a| && j <= |b| && i + j > 0
    ensures r <= i
  {
    if StepAt(a, b, i, j) == Insert then i else i - 1
  }

  /** The new-side position after the step at (i, j). */
  function BackJ(a: seq<string>, b: seq<string>, i: nat, j: nat): (r: nat)
    requires i <= |a| && j <= |b| && i + j > 0
    ensures r <= j && r + BackI(a, b, i, j) < i + j
  {
    if StepAt(a, b, i, j) == Delete then j else j - 1
  }

  /** The step spells the old and new tokens between the two positions. */
  lemma StepSpells(a: seq<string>, b: seq<string>, i: nat, j: nat)
    requires i <= |a| && j <= |b| && i + j > 0
    ensures a[..BackI(a, b, i, j)] + OldPart(StepOp(a, b, i, j)) == a[..i]
    ensures b[..BackJ(a, b, i, j)] + NewPart(StepOp(a, b, i, j)) == b[..j]
  {
    var k := StepAt(a, b, i, j);
    if k != Insert {
      assert a[..i] == a[..i - 1] + [a[i - 1]];
    }
    if k != Delete {
      assert b[..j] == b[..j - 1] + [b[j - 1]];
    }
  }

  /** Each step follows a cell of the table to a neighbour holding the same
      length, less one for a match. */
  lemma StepFollowsTable(a: seq<string>, b: seq<string>, i: nat, j: nat)
    requires i <= |a| && j <= |b| && i + j > 0
    ensures Lcs(a, b, i, j) == Lcs(a, b, BackI(a, b, i, j), BackJ(a, b, i, j)) + (if StepOp(a, b, i, j).kind == Equal then 1 else 0)
  {
  }

  /** The backtracking walk from (i, j), in forward order. */
  function Walk(a: seq<string>, b: seq<string>, i: nat, j: nat): seq<Op>
    requires i <= |a| && j <= |b|
    decreases i + j
  {
    if i == 0 && j == 0 then []
    else Walk(a, b, BackI(a, b, i, j), BackJ(a, b, i, j)) + [StepOp(a, b, i, j)]
  }

  /** The last step of a walk and the walk before it. */
  lemma LastStep(w: seq<Op>, o: Op)
    ensures OldSide(w + [o]) == OldSide(w) + OldPart(o)
    ensures NewSide(w + [o]) == NewSide(w) + NewPart(o)
    ensures Kept(w + [o]) == Kept(w) + (if o.kind == Equal then 1 else 0)
  {
    assert (w + [o])[..|w|] == w;
  }

  lemma {:induction false} WalkSides(a: seq<string>, b: seq<string>, i: nat, j: nat)
    requires i <= |a| && j <= |b|
    ensures OldSide(Walk(a, b, i, j)) == a[..i] && NewSide(Walk(a, b, i, j)) == b[..j]
    decreases i + j
  {
    if i + j > 0 {
      WalkSides(a, b, BackI(a, b, i, j), BackJ(a, b, i, j));
      LastStep(Walk(a, b, BackI(a, b, i, j), BackJ(a, b, i, j)), StepOp(a, b, i, j));
      StepSpells(a, b, i, j);
    }
  }

  lemma {:induction false} WalkKept(a: seq<string>, b: seq<string>, i: nat, j: nat)
    requires i <= |a| && j <= |b|
    ensures Kept(Walk(a, b, i, j)) == Lcs(a, b, i, j)
    decreases i + j
  {
    if i + j > 0 {
      WalkKept(a, b, BackI(a, b, i, j), BackJ(a, b, i, j));
      LastStep(Walk(a, b, BackI(a, b, i, j), BackJ(a, b, i, j)), StepOp(a, b, i, j));
      StepFollowsTable(a, b, i, j);
    }
  }

  /** Every step of a walk is a plain equal, insert or delete. */
  predicate Simple(ops: seq<Op>) {
    forall k :: 0 <= k < |ops| ==> ops[k].kind != Change && ops[k].newText == [] && ops[k].charOps == []
  }

  lemma {:induction false} WalkSimple(a: seq<string>, b: seq<string>, i: nat, j: nat)
    requires i <= |a| && j <= |b|
    ensures Simple(Walk(a, b, i, j))
    decreases i + j
  {
    if i + j > 0 {
      WalkSimple(a, b, BackI(a, b, i, j), BackJ(a, b, i, j));
      var w := Walk(a, b, BackI(a, b, i, j), BackJ(a, b, i, j));
      assert Walk(a, b, i, j) == w + [StepOp(a, b, i, j)];
    }
  }

  /** `computeWordDiff`: the equal and deleted tokens spell the old list, the
      equal and inserted ones the new list, and as many tokens are kept as
      the longest common subsequence is long. */
  function WordOps(a: seq<string>, b: seq<string>): (r: seq<Op>)
    ensures OldSide(r) == a && NewSide(r) == b
    ensures Kept(r) == Lcs(a, b, |a|, |b|)
    ensures Simple(r)
    ensures |a| == 0 && |b| == 0 ==> r == []
  {
    WalkSides(a, b, |a|, |b|);
    WalkKept(a, b, |a|, |b|);
    WalkSimple(a, b, |a|, |b|);
    assert a[..|a|] == a && b[..|b|] == b;
    Walk(a, b, |a|, |b|)
  }

  /** The longest common subsequence of a list with itself is the list. */
  lemma {:induction false} LcsSelf(a: seq<string>, i: nat)
    requires i <= |a|
    ensures Lcs(a, a, i, i) == i
  {
    if i > 0 {
      LcsSelf(a, i - 1);
    }
  }

  lemma {:induction false} LcsBound(a: seq<string>, b: seq<string>, i: nat, j: nat)
    requires i <= |a| && j <= |b|
    ensures Lcs(a, b, i, j) <= i && Lcs(a, b, i, j) <= j
    decreases i + j
  {
    if i > 0 && j > 0 {
      LcsBound(a, b, i - 1, j - 1);
      LcsBound(a, b, i - 1, j);
      LcsBound(a, b, i, j - 1);
    }
  }

  // ------------------------------------------------------------ character diff

  /** The characters of a text, each as a one-character string. */
  function Chars(s: string): (r: seq<string>)
    ensures |r| == |s|
  {
    if |s| == 0 then [] else [[s[0]]] + Chars(s[1..])
  }

  lemma ConcatCons(x: string, xs: seq<string>)
    ensures Concat([x] + xs) == x + Concat(xs)
  {
    assert ([x] + xs)[1..] == xs;
  }

  lemma {:induction false} CharsConcat(s: string)
    ensures Concat(Chars(s)) == s
  {
    if |s| > 0 {
      CharsConcat(s[1..]);
      ConcatCons([s[0]], Chars(s[1..]));
    }
  }

  /** `mergeConsecutiveOps` once `current` is the run being built. */
  function MergeFrom(current: Op, rest: seq<Op>): (r: seq<Op>)
    ensures |r| > 0 && r[0].kind == current.kind
    ensures |r| <= |rest| + 1
    decreases |rest|
  {
    if |rest| == 0 then [current]
    else if rest[0].kind == current.kind then MergeFrom(current.(text := current.text + rest[0].text), rest[1..])
    else [current] + MergeFrom(rest[0], rest[1..])
  }

  /** `mergeConsecutiveOps`: runs of operations of one kind become one. */
  function MergeRuns(ops: seq<Op>): seq<Op> {
    if |ops| == 0 then [] else MergeFrom(ops[0], ops[1..])
  }

  /** No two neighbouring operations are of the same kind. */
  predicate Alternating(ops: seq<Op>) {
    forall k :: 0 <= k < |ops| - 1 ==> ops[k].kind != ops[k + 1].kind
  }

  lemma {:induction false} MergeFromAlternates(current: Op, rest: seq<Op>)
    ensures Alternating(MergeFrom(current, rest))
    decreases |rest|
  {
    if |rest| > 0 {
      if rest[0].kind == current.kind {
        MergeFromAlternates(current.(text := current.text + rest[0].text), rest[1..]);
      } else {
        MergeFromAlternates(rest[0], rest[1..]);
        var tail := MergeFrom(rest[0], rest[1..]);
        assert MergeFrom(current, rest) == [current] + tail;
        assert forall k :: 1 <= k < |tail| ==> ([current] + tail)[k] == tail[k - 1];
      }
    }
  }

  /** Merged runs never sit side by side. */
  lemma MergeRunsAlternates(ops: seq<Op>)
    ensures Alternating(MergeRuns(ops))
  {
    if |ops| > 0 {
      MergeFromAlternates(ops[0], ops[1..]);
    }
  }

  /** The text an operation contributes to the old and to the new side. */
  function OldStr(o: Op): string {
    if o.kind == Insert then [] else o.text
  }

  function NewStr(o: Op): string {
    if o.kind == Delete then [] else if o.kind == Change then o.newText else o.text
  }

  /** The old and the new text an operation list spells. */
  function OldText(ops: seq<Op>): string {
    if |ops| == 0 then [] else OldStr(ops[0]) + OldText(ops[1..])
  }

  function NewText(ops: seq<Op>): string {
    if |ops| == 0 then [] else NewStr(ops[0]) + NewText(ops[1..])
  }

  /** The texts are the token sides run together. */
  lemma {:induction false} TextsAreSides(ops: seq<Op>)
    ensures OldText(ops) == Concat(OldSide(ops)) && NewText(ops) == Concat(NewSide(ops))
  {
    if |ops| > 0 {
      TextsAreSides(ops[1..]);
      SidesCons(ops[0], ops[1..]);
      assert [ops[0]] + ops[1..] == ops;
      ConcatAppend(OldPart(ops[0]), OldSide(ops[1..]));
      ConcatAppend(NewPart(ops[0]), NewSide(ops[1..]));
      ConcatCons(ops[0].text, []);
      ConcatCons(ops[0].newText, []);
    }
  }

  /** Runs merge only plain operations. */
  predicate NoChange(ops: seq<Op>) {
    forall k :: 0 <= k < |ops| ==> ops[k].kind != Change
  }

  lemma TextsCons(o: Op, rest: seq<Op>)
    ensures OldText([o] + rest) == OldStr(o) + OldText(rest)
    ensures NewText([o] + rest) == NewStr(o) + NewText(rest)
  {
    assert ([o] + rest)[1..] == rest;
  }

  lemma {:induction false} MergeFromSpellsOld(current: Op, rest: seq<Op>)
    requires current.kind != Change && NoChange(rest)
    ensures OldText(MergeFrom(current, rest)) == OldStr(current) + OldText(rest)
    decreases |rest|
  {
    if |rest| == 0 {
      TextsCons(current, []);
    } else if rest[0].kind == current.kind {
      MergeFromSpellsOld(current.(text := current.text + rest[0].text), rest[1..]);
    } else {
      MergeFromSpellsOld(rest[0], rest[1..]);
      TextsCons(current, MergeFrom(rest[0], rest[1..]));
    }
  }

  lemma {:induction false} MergeFromSpellsNew(current: Op, rest: seq<Op>)
    requires current.kind != Change && NoChange(rest)
    ensures NewText(MergeFrom(current, rest)) == NewStr(current) + NewText(rest)
    decreases |rest|
  {
    if |rest| == 0 {
      TextsCons(current, []);
    } else if rest[0].kind == current.kind {
      MergeFromSpellsNew(current.(text := current.text + rest[0].text), rest[1..]);
    } else {
      MergeFromSpellsNew(rest[0], rest[1..]);
      TextsCons(current, MergeFrom(rest[0], rest[1..]));
    }
  }

  /** Merging runs of plain operations keeps both texts. */
  lemma MergeRunsSpells(ops: seq<Op>)
    requires NoChange(ops)
    ensures OldText(MergeRuns(ops)) == OldText(ops) && NewText(MergeRuns(ops)) == NewText(ops)
  {
    if |ops| > 0 {
      MergeFromSpellsOld(ops[0], ops[1..]);
      MergeFromSpellsNew(ops[0], ops[1..]);
    }
  }

  /** `computeCharDiff`: the character diff of two words, runs merged. */
  function CharDiff(before: string, after: string): (r: seq<Op>)
    ensures OldText(r) == before && NewText(r) == after
    ensures Alternating(r)
  {
    var ops := WordOps(Chars(before), Chars(after));
    TextsAreSides(ops);
    CharsConcat(before);
    CharsConcat(after);
    MergeRunsSpells(ops);
    MergeRunsAlternates(ops);
    MergeRuns(ops)
  }

  // ------------------------------------------------------------ similarity

  /** `levenshteinRunes` as its recurrence over the first i and j characters. */
  function Lev(a: string, b: string, i: nat, j: nat): nat
    requires i <= |a| && j <= |b|
  {
    if i == 0 then j
    else if j == 0 then i
    else Min3(Lev(a, b, i - 1, j) + 1, Lev(a, b, i, j - 1) + 1, Lev(a, b, i - 1, j - 1) + (if a[i - 1] == b[j - 1] then 0 else 1))
  }

  function Min3(x: nat, y: nat, z: nat): (r: nat)
    ensures r <= x && r <= y && r <= z
    ensures r == x || r == y || r == z
  {
    if x <= y && x <= z then x else if y <= z then y else z
  }

  /** Row i of the table, given row i - 1: the inner loop of `levenshteinRunes`. */
  method NextRow(a: string, b: string, i: nat, prev: seq<nat>) returns (curr: seq<nat>)
    requires 1 <= i <= |a| && |prev| == |b| + 1
    requires forall k :: 0 <= k < |prev| ==> prev[k] == Lev(a, b, i - 1, k)
    ensures |curr| == |b| + 1
    ensures forall k :: 0 <= k < |curr| ==> curr[k] == Lev(a, b, i, k)
  {
    curr := [i];
    var j := 1;
    while j <= |b|
      invariant 1 <= j <= |b| + 1
      invariant |curr| == j
      invariant forall k :: 0 <= k < j ==> curr[k] == Lev(a, b, i, k)
    {
      var cost := if a[i - 1] == b[j - 1] then 0 else 1;
      var up, left, diag := prev[j], curr[j - 1], prev[j - 1];
      var cell := Min3(up + 1, left + 1, diag + cost);
      LevCell(a, b, i, j, up, left, diag);
      RowExtends(a, b, i, curr, cell);
      curr := curr + [cell];
      j := j + 1;
    }
  }

  /** One cell of the table from its three neighbours. */
  lemma LevCell(a: string, b: string, i: nat, j: nat, up: nat, left: nat, diag: nat)
    requires 0 < i <= |a| && 0 < j <= |b|
    requires up == Lev(a, b, i - 1, j) && left == Lev(a, b, i, j - 1) && diag == Lev(a, b, i - 1, j - 1)
    ensures Lev(a, b, i, j) == Min3(up + 1, left + 1, diag + (if a[i - 1] == b[j - 1] then 0 else 1))
  {
  }

  /** The cells of row i so far. */
  predicate RowPrefix(a: string, b: string, i: nat, row: seq<int>)
    requires i <= |a| && |row| <= |b| + 1
  {
    forall k :: 0 <= k < |row| ==> row[k] == Lev(a, b, i, k)
  }

  lemma RowExtends(a: string, b: string, i: nat, row: seq<int>, cell: int)
    requires i <= |a| && |row| <= |b| && RowPrefix(a, b, i, row)
    requires cell == Lev(a, b, i, |row|)
    ensures RowPrefix(a, b, i, row + [cell])
  {
    var r := row + [cell];
    forall k | 0 <= k < |r|
      ensures r[k] == Lev(a, b, i, k)
    {
      if k < |row| {
        assert r[k] == row[k];
      }
    }
  }

  /** `levenshteinRunes`: the table filled row by row, keeping two rows. */
  method Levenshtein(a: string, b: string) returns (d: nat)
    ensures d == Lev(a, b, |a|, |b|)
    ensures |a| == 0 ==> d == |b|
    ensures |b| == 0 ==> d == |a|
    ensures a == b ==> d == 0
    ensures d <= (if |a| >= |b| then |a| else |b|)
  {
    if |a| == 0 {
      return |b|;
    }
    if |b| == 0 {
      return |a|;
    }
    var prev: seq<nat> := [];
    while |prev| <= |b|
      invariant |prev| <= |b| + 1
      invariant forall k :: 0 <= k < |prev| ==> prev[k] == Lev(a, b, 0, k)
      decreases |b| + 1 - |prev|
    {
      prev := prev + [|prev|];
    }
    var i := 1;
    while i <= |a|
      invariant 1 <= i <= |a| + 1
      invariant |prev| == |b| + 1
      invariant forall k :: 0 <= k < |prev| ==> prev[k] == Lev(a, b, i - 1, k)
    {
      prev := NextRow(a, b, i, prev);
      i := i + 1;
    }
    d := prev[|b|];
    LevAtMostLonger(a, b, |a|, |b|);
    if a == b {
      LevSelf(a, |a|);
    }
  }

  /** The distance is at most the longer length ... */
  lemma {:induction false} LevAtMostLonger(a: string, b: string, i: nat, j: nat)
    requires i <= |a| && j <= |b|
    ensures Lev(a, b, i, j) <= (if i >= j then i else j)
    decreases i + j
  {
    if i > 0 && j > 0 {
      LevAtMostLonger(a, b, i - 1, j - 1);
    }
  }

  /** ... and at least the difference in length. */
  lemma {:induction false} LevAtLeastGap(a: string, b: string, i: nat, j: nat)
    requires i <= |a| && j <= |b|
    ensures Lev(a, b, i, j) >= (if i >= j then i - j else j - i)
    decreases i + j
  {
    if i > 0 && j > 0 {
      LevAtLeastGap(a, b, i - 1, j);
      LevAtLeastGap(a, b, i, j - 1);
      LevAtLeastGap(a, b, i - 1, j - 1);
    }
  }

  /** A text is at distance zero from itself ... */
  lemma {:induction false} LevSelf(a: string, i: nat)
    requires i <= |a|
    ensures Lev(a, a, i, i) == 0
  {
    if i > 0 {
      LevSelf(a, i - 1);
    }
  }

  /** ... and only from itself. */
  lemma {:induction false} LevZero(a: string, b: string, i: nat, j: nat)
    requires i <= |a| && j <= |b|
    requires Lev(a, b, i, j) == 0
    ensures i == j && a[..i] == b[..j]
    decreases i + j
  {
    if i > 0 && j > 0 {
      LevZero(a, b, i - 1, j - 1);
      assert a[..i] == a[..i - 1] + [a[i - 1]];
      assert b[..j] == b[..j - 1] + [b[j - 1]];
    }
  }

  /** The prefix loop of `wordsSimilar`, having matched p characters. */
  function PrefixFrom(a: string, b: string, p: nat): (r: nat)
    requires p <= |a| && p <= |b| && a[..p] == b[..p]
    ensures p <= r <= |a| && r <= |b| && a[..r] == b[..r]
    ensures r < |a| && r < |b| ==> a[r] != b[r]
    decreases |a| - p
  {
    if p < |a| && p < |b| && a[p] == b[p] then
      assert a[..p + 1] == a[..p] + [a[p]] && b[..p + 1] == b[..p] + [b[p]];
      PrefixFrom(a, b, p + 1)
    else p
  }

  /** The longest common prefix. */
  function CommonPrefix(a: string, b: string): (p: nat)
    ensures p <= |a| && p <= |b| && a[..p] == b[..p]
    ensures p < |a| && p < |b| ==> a[p] != b[p]
  {
    PrefixFrom(a, b, 0)
  }

  /** Whether the texts agree on the character s places from their ends. */
  predicate MatchFromEnd(a: string, b: string, s: nat) {
    s < |a| && s < |b| && a[|a| - 1 - s] == b[|b| - 1 - s]
  }

  /** The suffix loop of `wordsSimilar`, having matched s characters. */
  function SuffixFrom(a: string, b: string, s: nat): (r: nat)
    requires s <= |a| && s <= |b|
    ensures s <= r <= |a| && r <= |b|
    ensures a[|a| - s..] == b[|b| - s..] ==> a[|a| - r..] == b[|b| - r..]
    ensures r < |a| && r < |b| ==> a[|a| - 1 - r] != b[|b| - 1 - r]
    decreases |a| - s
  {
    if MatchFromEnd(a, b, s) then
      assert a[|a| - (s + 1)..] == [a[|a| - 1 - s]] + a[|a| - s..];
      assert b[|b| - (s + 1)..] == [b[|b| - 1 - s]] + b[|b| - s..];
      SuffixFrom(a, b, s + 1)
    else s
  }

  /** The longest common suffix. */
  function CommonSuffix(a: string, b: string): (s: nat)
    ensures s <= |a| && s <= |b| && a[|a| - s..] == b[|b| - s..]
    ensures s < |a| && s < |b| ==> a[|a| - 1 - s] != b[|b| - 1 - s]
  {
    SuffixFrom(a, b, 0)
  }

  /** The common-prefix loop of `wordsSimilar`. */
  method PrefixLoop(a: string, b: string) returns (prefix: nat)
    ensures prefix == CommonPrefix(a, b)
  {
    prefix := 0;
    while prefix < |a| && prefix < |b| && a[prefix] == b[prefix]
      invariant prefix <= |a| && prefix <= |b| && a[..prefix] == b[..prefix]
      invariant PrefixFrom(a, b, prefix) == CommonPrefix(a, b)
    {
      assert a[..prefix + 1] == a[..prefix] + [a[prefix]] && b[..prefix + 1] == b[..prefix] + [b[prefix]];
      prefix := prefix + 1;
    }
  }

  /** The common-suffix loop of `wordsSimilar`, run on what follows the prefix. */
  method SuffixLoop(x: string, y: string) returns (suffix: nat)
    ensures suffix == CommonSuffix(x, y)
  {
    suffix := 0;
    while MatchFromEnd(x, y, suffix)
      invariant suffix <= |x| && suffix <= |y|
      invariant SuffixFrom(x, y, suffix) == CommonSuffix(x, y)
      decreases |x| - suffix
    {
      suffix := suffix + 1;
    }
  }

  /** `wordsSimilar` as the loops the source runs: the prefix loop, the
      suffix loop that stops short of the prefix, then the distance. */
  method WordsSimilar(a: string, b: string) returns (r: bool)
    ensures r == Similar(a, b)
    ensures a == b ==> r
    ensures |a| == 0 && |b| == 0 ==> r
  {
    if a == b {
      return true;
    }
    var longest := if |a| >= |b| then |a| else |b|;
    if longest == 0 {
      return true;
    }
    var prefix := PrefixLoop(a, b);
    var suffix := SuffixLoop(a[prefix..], b[prefix..]);
    if 5 * (prefix + suffix) >= 2 * longest {
      return true;
    }
    var dist := Levenshtein(a, b);
    r := 2 * dist <= longest;
  }

  /** `wordsSimilar`: the common prefix and the common suffix after it cover
      at least two fifths of the longer word, or the edit distance is at most
      half its length. */
  predicate Similar(a: string, b: string) {
    var longest := if |a| >= |b| then |a| else |b|;
    var p := CommonPrefix(a, b);
    var s := CommonSuffix(a[p..], b[p..]);
    a == b || longest == 0 || 5 * (p + s) >= 2 * longest || 2 * Lev(a, b, |a|, |b|) <= longest
  }

  // ------------------------------------------------------------ refinement

  /** The deleted and the inserted word of a neighbouring delete and insert,
      in either order; empty otherwise. */
  function PairedOld(x: Op, y: Op): string {
    if x.kind == Delete && y.kind == Insert then x.text
    else if x.kind == Insert && y.kind == Delete then y.text
    else []
  }

  function PairedNew(x: Op, y: Op): string {
    if x.kind == Delete && y.kind == Insert then y.text
    else if x.kind == Insert && y.kind == Delete then x.text
    else []
  }

  /** The two parameters of refinement: when two words are similar enough,
      and the character diff shown for them. The model passes `Similar` and
      `CharDiff`; the lemmas below hold for any choice. */
  type Similarity = (string, string) -> bool
  type Differ = (string, string) -> seq<Op>

  /** Whether `refineWordDiff` turns the pair into one changed word: both
      words non-empty, neither a line break, and similar. */
  predicate Refinable(x: Op, y: Op, similar: Similarity) {
    var o, n := PairedOld(x, y), PairedNew(x, y);
    o != [] && n != [] && o != Newline && n != Newline && similar(o, n)
  }

  /** How many operations refinement consumes at the front of the list. */
  function Taken(ops: seq<Op>, similar: Similarity): (n: nat)
    requires |ops| > 0
    ensures 1 <= n <= |ops|
  {
    if |ops| >= 2 && Refinable(ops[0], ops[1], similar) then 2 else 1
  }

  /** The operation refinement emits for them. */
  function Emitted(ops: seq<Op>, similar: Similarity, differ: Differ): Op
    requires |ops| > 0
  {
    if Taken(ops, similar) == 2 then
      var o, n := PairedOld(ops[0], ops[1]), PairedNew(ops[0], ops[1]);
      Op(Change, o, n, differ(o, n))
    else ops[0]
  }

  /** `refineWordDiff` over a given similarity test and character differ. */
  function RefineWith(ops: seq<Op>, similar: Similarity, differ: Differ): (r: seq<Op>)
    ensures |r| <= |ops|
  {
    if |ops| == 0 then []
    else [Emitted(ops, similar, differ)] + RefineWith(ops[Taken(ops, similar)..], similar, differ)
  }

  /** `refineWordDiff`. */
  function Refine(ops: seq<Op>): (r: seq<Op>)
    ensures |r| <= |ops|
  {
    RefineWith(ops, Similar, CharDiff)
  }

  /** A changed word spells the deleted and the inserted word it replaces. */
  lemma PairSpells(x: Op, y: Op, chars: seq<Op>)
    requires PairedOld(x, y) != [] && PairedNew(x, y) != []
    ensures OldPart(Op(Change, PairedOld(x, y), PairedNew(x, y), chars)) == OldSide([x, y])
    ensures NewPart(Op(Change, PairedOld(x, y), PairedNew(x, y), chars)) == NewSide([x, y])
  {
    assert [x, y][..1] == [x];
    SingleSpells(x);
  }

  /** What is emitted spells what is consumed. */
  lemma EmittedSpells(ops: seq<Op>, similar: Similarity, differ: Differ)
    requires |ops| > 0
    ensures OldPart(Emitted(ops, similar, differ)) == OldSide(ops[..Taken(ops, similar)])
    ensures NewPart(Emitted(ops, similar, differ)) == NewSide(ops[..Taken(ops, similar)])
  {
    if Taken(ops, similar) == 2 {
      var o, n := PairedOld(ops[0], ops[1]), PairedNew(ops[0], ops[1]);
      PairSpells(ops[0], ops[1], differ(o, n));
      assert ops[..2] == [ops[0], ops[1]];
    } else {
      SingleSpells(ops[0]);
      assert ops[..1] == [ops[0]];
    }
  }

  /** An operation spelling a prefix, followed by a list spelling the rest. */
  lemma ConsSpells(e: Op, r: seq<Op>, ops: seq<Op>, t: nat)
    requires t <= |ops|
    ensures OldPart(e) == OldSide(ops[..t]) && OldSide(r) == OldSide(ops[t..]) ==> OldSide([e] + r) == OldSide(ops)
    ensures NewPart(e) == NewSide(ops[..t]) && NewSide(r) == NewSide(ops[t..]) ==> NewSide([e] + r) == NewSide(ops)
  {
    SidesCons(e, r);
    assert ops[..t] + ops[t..] == ops;
    SidesAppend(ops[..t], ops[t..]);
  }

  lemma {:induction false} RefineSpellsOld(ops: seq<Op>, similar: Similarity, differ: Differ)
    ensures OldSide(RefineWith(ops, similar, differ)) == OldSide(ops)
    decreases |ops|
  {
    if |ops| > 0 {
      var t := Taken(ops, similar);
      RefineSpellsOld(ops[t..], similar, differ);
      EmittedSpells(ops, similar, differ);
      ConsSpells(Emitted(ops, similar, differ), RefineWith(ops[t..], similar, differ), ops, t);
    }
  }

  lemma {:induction false} RefineSpellsNew(ops: seq<Op>, similar: Similarity, differ: Differ)
    ensures NewSide(RefineWith(ops, similar, differ)) == NewSide(ops)
    decreases |ops|
  {
    if |ops| > 0 {
      var t := Taken(ops, similar);
      RefineSpellsNew(ops[t..], similar, differ);
      EmittedSpells(ops, similar, differ);
      ConsSpells(Emitted(ops, similar, differ), RefineWith(ops[t..], similar, differ), ops, t);
    }
  }

  /** Refinement keeps what the operations spell on both sides. */
  lemma RefineSpells(ops: seq<Op>)
    ensures OldSide(Refine(ops)) == OldSide(ops) && NewSide(Refine(ops)) == NewSide(ops)
  {
    RefineSpellsOld(ops, Similar, CharDiff);
    RefineSpellsNew(ops, Similar, CharDiff);
  }

  lemma {:induction false} RefineWithoutDeletesWith(ops: seq<Op>, similar: Similarity, differ: Differ)
    requires forall k :: 0 <= k < |ops| ==> ops[k].kind != Delete
    ensures RefineWith(ops, similar, differ) == ops
    decreases |ops|
  {
    if |ops| > 0 {
      assert Taken(ops, similar) == 1;
      RefineWithoutDeletesWith(ops[1..], similar, differ);
      assert [ops[0]] + ops[1..] == ops;
    }
  }

  /** A list without deletions has no pair to refine and passes unchanged. */
  lemma RefineWithoutDeletes(ops: seq<Op>)
    requires forall k :: 0 <= k < |ops| ==> ops[k].kind != Delete
    ensures Refine(ops) == ops
  {
    RefineWithoutDeletesWith(ops, Similar, CharDiff);
  }

  lemma {:induction false} RefinedChangesWith(ops: seq<Op>, similar: Similarity, differ: Differ, k: nat)
    requires NoChange(ops) && k < |RefineWith(ops, similar, differ)| && RefineWith(ops, similar, differ)[k].kind == Change
    ensures var c := RefineWith(ops, similar, differ)[k];
      c.text != [] && c.newText != [] && c.text != Newline && c.newText != Newline
      && similar(c.text, c.newText) && c.charOps == differ(c.text, c.newText)
    decreases |ops|
  {
    var t := Taken(ops, similar);
    if k > 0 {
      assert RefineWith(ops, similar, differ)[k] == RefineWith(ops[t..], similar, differ)[k - 1];
      RefinedChangesWith(ops[t..], similar, differ, k - 1);
    }
  }

  /** Every changed word that refinement introduces joins two similar words
      that are neither empty nor a line break, and its character diff spells
      both of them. */
  lemma RefinedChanges(ops: seq<Op>, k: nat)
    requires NoChange(ops) && k < |Refine(ops)| && Refine(ops)[k].kind == Change
    ensures var c := Refine(ops)[k];
      c.text != [] && c.newText != [] && c.text != Newline && c.newText != Newline && Similar(c.text, c.newText)
      && OldText(c.charOps) == c.text && NewText(c.charOps) == c.newText
  {
    RefinedChangesWith(ops, Similar, CharDiff, k);
  }

  // ------------------------------------------------------------ whitespace

  /** The characters the regular expression class `\s` matches in Go's RE2
      syntax: space, tab, line feed, form feed and carriage return (not the
      vertical tab that `unicode.IsSpace` also accepts). */
  predicate IsPerlSpace(c: char) {
    c == ' ' || c == '\t' || c == '\n' || c == '\U{000C}' || c == '\r'
  }

  /** The text after a leading run of `\s` characters. */
  function SkipPerlSpace(s: string): (r: string)
    ensures |r| <= |s| && r == s[|s| - |r|..]
    ensures |r| > 0 ==> !IsPerlSpace(r[0])
  {
    if |s| > 0 && IsPerlSpace(s[0]) then SkipPerlSpace(s[1..]) else s
  }

  /** `ReplaceAllString` of `\s+` by one space. */
  function Collapse(s: string): (r: string)
    decreases |s|
  {
    if |s| == 0 then []
    else if IsPerlSpace(s[0]) then [' '] + Collapse(SkipPerlSpace(s[1..]))
    else [s[0]] + Collapse(s[1..])
  }

  /** `normalizeWhitespace`: runs of whitespace collapsed, ends trimmed. */
  function NormalizeWhitespace(s: string): string {
    TrimSpace(Collapse(s))
  }

  lemma {:induction false} SqueezeSkip(s: string)
    ensures Squeeze(SkipPerlSpace(s)) == Squeeze(s)
    decreases |s|
  {
    if |s| > 0 && IsPerlSpace(s[0]) {
      SqueezeSkip(s[1..]);
    }
  }

  lemma SqueezeAppend(x: string, y: string)
    ensures Squeeze(x + y) == Squeeze(x) + Squeeze(y)
  {
    if |x| > 0 {
      assert (x + y)[1..] == x[1..] + y;
      SqueezeAppend(x[1..], y);
    } else {
      assert x + y == y;
    }
  }

  /** Collapsing whitespace keeps every other character in order. */
  lemma {:induction false} CollapseKeepsText(s: string)
    ensures Squeeze(Collapse(s)) == Squeeze(s)
    decreases |s|
  {
    if |s| > 0 {
      if IsPerlSpace(s[0]) {
        CollapseKeepsText(SkipPerlSpace(s[1..]));
        SqueezeSkip(s[1..]);
        SqueezeAppend([' '], Collapse(SkipPerlSpace(s[1..])));
      } else {
        CollapseKeepsText(s[1..]);
        SqueezeAppend([s[0]], Collapse(s[1..]));
      }
    }
  }

  lemma {:induction false} SqueezeAllSpace(s: string)
    requires AllSpace(s)
    ensures Squeeze(s) == []
  {
    if |s| > 0 {
      SqueezeAllSpace(s[1..]);
    }
  }

  lemma LeftTrimKeepsText(s: string)
    ensures Squeeze(TrimLeftSpace(s)) == Squeeze(s)
  {
    var l := TrimLeftSpace(s);
    assert s == s[..|s| - |l|] + l;
    SqueezeAppend(s[..|s| - |l|], l);
    SqueezeAllSpace(s[..|s| - |l|]);
  }

  lemma RightTrimKeepsText(s: string)
    ensures Squeeze(TrimRightSpace(s)) == Squeeze(s)
  {
    var r := TrimRightSpace(s);
    assert s == r + s[|r|..];
    SqueezeAppend(r, s[|r|..]);
    SqueezeAllSpace(s[|r|..]);
  }

  /** Trimming removes only whitespace. */
  lemma TrimKeepsText(s: string)
    ensures Squeeze(TrimSpace(s)) == Squeeze(s)
  {
    LeftTrimKeepsText(s);
    RightTrimKeepsText(TrimLeftSpace(s));
  }

  /** Texts whose normal forms agree differ in whitespace only. */
  lemma NormalizedAlike(s: string, t: string)
    ensures NormalizeWhitespace(s) == NormalizeWhitespace(t) ==> Squeeze(s) == Squeeze(t)
  {
    TrimKeepsText(Collapse(s));
    TrimKeepsText(Collapse(t));
    CollapseKeepsText(s);
    CollapseKeepsText(t);
  }

  /** `hasAdditionalWhitespaceChanges`: the word lists agree but the raw
      texts do not. */
  predicate ExtraWhitespace(before: string, after: string, oldWords: seq<string>, newWords: seq<string>) {
    |oldWords| == |newWords| && (forall k :: 0 <= k < |oldWords| ==> oldWords[k] == newWords[k]) && before != after
  }

  /** `hasAdditionalWhitespaceChanges` reports a change exactly when the word lists are
      equal and the texts are not. */
  lemma ExtraWhitespaceIff(before: string, after: string, oldWords: seq<string>, newWords: seq<string>)
    ensures ExtraWhitespace(before, after, oldWords, newWords) <==> oldWords == newWords && before != after
  {
    if |oldWords| == |newWords| && (forall k :: 0 <= k < |oldWords| ==> oldWords[k] == newWords[k]) {
      assert oldWords == newWords;
    }
  }

  /** Over the texts' own words, a reported whitespace change means the texts
      differ in whitespace only. */
  lemma ExtraWhitespaceMeans(before: string, after: string)
    ensures ExtraWhitespace(before, after, Words(before), Words(after)) ==> before != after && Squeeze(before) == Squeeze(after)
  {
    if ExtraWhitespace(before, after, Words(before), Words(after)) {
      ExtraWhitespaceIff(before, after, Words(before), Words(after));
      WordsConcat(before);
      WordsConcat(after);
    }
  }

  // ------------------------------------------------------------ the diff shown

  /** What `printWordDiff` shows for a changed body. */
  datatype Shown =
    | WhitespaceOnly
    | Changes(ops: seq<Op>, extraWhitespace: bool)

  /** `printWordDiff` without the rendering: whitespace-only when the
      normalized texts agree, otherwise the refined token diff and whether
      whitespace changed beyond the words. */
  function ShowBody(before: string, after: string): (r: Shown)
    ensures r.WhitespaceOnly? <==> NormalizeWhitespace(before) == NormalizeWhitespace(after)
    ensures r.WhitespaceOnly? ==> Squeeze(before) == Squeeze(after)
    ensures r.Changes? ==> OldSide(r.ops) == Tokens(before) && NewSide(r.ops) == Tokens(after)
    ensures r.Changes? && r.extraWhitespace ==> before != after && Squeeze(before) == Squeeze(after)
  {
    if NormalizeWhitespace(before) == NormalizeWhitespace(after) then
      NormalizedAlike(before, after);
      WhitespaceOnly
    else
      var ops := WordOps(Tokens(before), Tokens(after));
      RefineSpells(ops);
      ExtraWhitespaceMeans(before, after);
      Changes(Refine(ops), ExtraWhitespace(before, after, Words(before), Words(after)))
  }

  /** `formatInlineWordDiff` without the styling: the refined word diff of a
      short text such as a title. */
  function InlineOps(before: string, after: string): (r: seq<Op>)
    ensures OldSide(r) == Words(before) && NewSide(r) == Words(after)
  {
    var ops := WordOps(Words(before), Words(after));
    RefineSpells(ops);
    Refine(ops)
  }
}
